=== FILE: README.md ===
# Reconnect (dementia assistant): a Dafny model of its core

Reconnect is a Next.js assistant for people living with dementia and for their
caregivers. A caregiver uploads photos of people and of memories into a
memory book kept per patient in JSON files. Relatives are invited over
WhatsApp with single-use links that expire after a week. Each link records a
voice note tied to a memory. The patient chats with an assistant that can
look up the day's schedule, a navigation target, or memories for a date. Every
chat turn is triaged for medical content and logged for the caregiver and the
doctor.

This project models the core of that logic as immutable datatypes and pure
functions.

- **Stores.** The token store is a `map`. The voice-note and memory stores are
  ordered records (`JsRecord`), because the order of `Object.values` is
  observed: array-index keys such as "42" come first in ascending numeric
  order, then the other keys in insertion order. Schedules and logs are sequences.
- **Handlers.** Each HTTP handler is a function from the request and the
  store to a response and the new store.
- **Injected values.** Clocks, fresh ids, language-model replies, embeddings,
  face vectors, similarity and rounding, `Date.parse`, `localeCompare` and the
  locale formatters are parameters.

| module (file) | what it models |
|---|---|
| `Wrappers`, `Strings`, `Seqs`, `JsRecord`, `FsJson` | option type, JavaScript string idioms (trim, lower-case, split/join, padding, `<=` on strings), stable sort and filters, JS objects used as ordered records with JavaScript's key enumeration order, `readJSON` |
| `MemoryTypes`, `ItemStore`, `MemoryUpload` | memory items and people tags; `lib/db.ts`; the photo upload handler |
| `Notify`, `Invite`, `VoiceUpload`, `VoiceList` | invitation tokens and voice notes (`lib/notify.ts`); WhatsApp invite issuing; the two voice upload handlers; the voice-note list handler and widget |
| `Clock`, `ScheduleTypes`, `ScheduleTools` | `HH:mm`, weekdays and the next occurrence; the current/next schedule item, navigation target and emergency alert of `lib/tools.ts` |
| `DateRegex`, `DateLookup`, `MemoryByDate` | the two regular expressions of `normalizeDate`; the date key it produces, as written and corrected; `getMemoriesByDate`, which the chat's date tool runs with the lookup as written |
| `MemoryMatch` | photo and text matching against the gallery, with confidence bands |
| `ScheduleRoute`, `ScheduleEditor` | schedule CRUD handler; the editor's validation, day toggling and grouping |
| `Logs`, `Triage` | the log store, its filter/sort/cap and the caregiver's search; keyword and model-reply triage |
| `ChatImages`, `ChatRoute` | URL sanitising and image-hint extraction; the chat handler's validation, tool dispatch, IMG marker and log entry |
| `Display`, `MemoryPopups`, `LatestMemory`, `Gallery`, `UploadForms` | `filter(Boolean)` and `||` fallbacks; the three memory pop-up cards; the pop-up page's pick of the latest memory; the gallery; the two upload forms |

## Model

Source paths are under `dementia-assistant/src/`.

| member | source | states |
|---|---|---|
| MemoryTypes.Blank | dementia-assistant/src/app/api/memory/upload/route.ts:70-72 | an optional text is kept exactly when it is non-empty; an empty string becomes absent |
| JsRecord.Get | dementia-assistant/src/lib/notify.ts:40-43 | a lookup finds a value exactly when the record has the key |
| JsRecord.Set | dementia-assistant/src/lib/notify.ts:59-63 | assigning an existing key overwrites it in place and keeps every other entry; a new array-index key is put after the smaller array-index keys at the front; any other new key is appended at the end |
| JsRecord.GetSet | dementia-assistant/src/lib/notify.ts:59-63 | after an assignment the key reads back the new value, all other keys read as before, and distinct keys stay distinct |
| JsRecord.SetSame | dementia-assistant/src/lib/notify.ts:59-63 | assigning a key the value it already holds leaves the record identical |
| JsRecord.Values | dementia-assistant/src/lib/notify.ts:67 | `Object.values` lists the values in entry order, one per entry |
| JsRecord.IndexSlot | dementia-assistant/src/lib/notify.ts:59-63 | a new array-index key goes after exactly the leading array-index keys of smaller number |
| JsRecord.SetKeepsOrdered | dementia-assistant/src/lib/notify.ts:59-63 | an assignment keeps JavaScript's enumeration order: every array-index key is preceded only by smaller array-index keys |
| JsRecord.IndexKeyEnumeratedFirst | dementia-assistant/src/lib/notify.ts:67 | a patient id "42" written after "patient123" is listed first by `Object.values` |
| ItemStore.ReadMemoryDB | dementia-assistant/src/lib/db.ts:7-14 | an unreadable memory file reads as the empty store; a readable one as its contents |
| ItemStore.ListByPatient | dementia-assistant/src/lib/db.ts:29-32 | an unknown patient lists as empty; a known one lists its stored items |
| ItemStore.AllItems | dementia-assistant/src/app/api/memory/notify/route.ts:38 | the flattened store holds exactly the items of some patient's list |
| ItemStore.FindItem | dementia-assistant/src/app/api/memory/notify/route.ts:38-39 | the found item has the requested id and no item before it in the flattened, patient-by-patient store has that id; nothing is found exactly when no stored item has the id |
| ItemStore.Upsert | dementia-assistant/src/lib/db.ts:20-27 | an existing id is replaced in place at its first position and the length is kept; a new id is appended; other patients' lists do not change; the store keeps JavaScript's key order |
| ItemStore.UpsertThenList | dementia-assistant/src/lib/db.ts:20-32 | after an upsert the patient's list contains the item |
| ItemStore.UpsertKeepsIdsDistinct | dementia-assistant/src/lib/db.ts:23-24 | distinct ids in a patient's list stay distinct after an upsert |
| ItemStore.UpsertLength | dementia-assistant/src/lib/db.ts:23-24 | the patient's list keeps its length exactly when the id was already present; otherwise it grows |
| MemoryUpload.KindOf | dementia-assistant/src/app/api/memory/upload/route.ts:27 | an item is a person exactly when the type field is "person"; anything else, including nothing, is a memory |
| MemoryUpload.Ext | dementia-assistant/src/app/api/memory/upload/route.ts:39 | the file extension is never empty and never contains a slash |
| MemoryUpload.ExtOfMime | dementia-assistant/src/app/api/memory/upload/route.ts:39 | for "top/sub" the extension is the subtype |
| MemoryUpload.ExtWithoutSlash | dementia-assistant/src/app/api/memory/upload/route.ts:39 | a MIME type without a slash gives "jpg" |
| MemoryUpload.PeopleOf | dementia-assistant/src/app/api/memory/upload/route.ts:73 | the stored people are the sent list when it is non-empty, and absent otherwise |
| MemoryUpload.BuildItem | dementia-assistant/src/app/api/memory/upload/route.ts:66-85 | the stored item uses the fresh id, the default patient "patient123" when none is sent, and the path "/memory/<id>.<ext>". Empty texts become absent. A memory gets a caption and a text embedding but no face vector or name. A person gets the face vector and the name and relation fields but no caption |
| MemoryUpload.Upload | dementia-assistant/src/app/api/memory/upload/route.ts:14-94 | no file gives 400 "file is required"; a person photo without a face gives 400 "No face found!"; every rejection leaves the store unchanged; success upserts exactly the built item, and a stored person always has a face vector |
| MemoryUpload.UploadThenList | dementia-assistant/src/app/api/memory/upload/route.ts:66-89 | with a fresh id, a successful upload appends the item to its patient's list and changes no other list |
| FsJson.ReadJson | dementia-assistant/src/lib/fsjson.ts:9-17 | a file that cannot be read or parsed reads as the fallback the caller names; a readable one as its contents |
| Notify.CreateToken | dementia-assistant/src/lib/notify.ts:32-38 | the new token's record copies the request's fields, is unused and is stamped with the current time; looking up any other token gives what it gave before |
| Notify.FreshTokenGrowsStore | dementia-assistant/src/lib/notify.ts:32-38 | a fresh token grows the store by exactly one record |
| Notify.GetToken | dementia-assistant/src/lib/notify.ts:40-43 | a record is returned exactly when the token is stored, and it is the stored record |
| Notify.ConsumeToken | dementia-assistant/src/lib/notify.ts:45-51 | the result is true exactly for a stored token; an unknown token leaves the store as it was; a known one has only its used flag set; no key is added or removed |
| Notify.IsTokenValid | dementia-assistant/src/lib/notify.ts:53-57 | a token is valid exactly when its record exists, is unused, has an expiry, and the expiry is strictly later than now |
| Notify.ConsumeIdempotent | dementia-assistant/src/lib/notify.ts:45-51 | consuming a token twice leaves the same store as consuming it once |
| Notify.UsedNeverValid | dementia-assistant/src/lib/notify.ts:53-57 | a used token is invalid at every time |
| Notify.CreatedValidIff | dementia-assistant/src/lib/notify.ts:35-57 | a freshly created token is valid at a time exactly when its expiry is set and later than that time |
| Notify.ValidityMonotone | dementia-assistant/src/lib/notify.ts:53-57 | a token valid at some time is valid at every earlier time |
| Notify.CreateAndConsumeKeepUsed | dementia-assistant/src/lib/notify.ts:32-51 | neither creating nor consuming a token ever turns a used token back to unused |
| Notify.StoreVoiceNote | dementia-assistant/src/lib/notify.ts:59-63 | the note is stored under its id; all other ids read as before; the store grows by one exactly when the id is new, and keeps JavaScript's key order |
| Notify.NewestFirst | dementia-assistant/src/lib/notify.ts:69 | the sorted notes are a permutation of the input with non-increasing creation time |
| Notify.ListVoiceNotesByMemory | dementia-assistant/src/lib/notify.ts:65-70 | the listing holds each stored note of the memory exactly as often as it is stored, and no other note; newest first |
| Notify.ListVoiceNotesByPatient | dementia-assistant/src/lib/notify.ts:86-92 | the listing holds exactly the stored notes of the patient, with multiplicity; newest first |
| Invite.BaseUrl | dementia-assistant/src/app/api/memory/notify/route.ts:9-16 | with a host header the base is "<proto or http>://<host>"; without one it is the configured URL, or "http://localhost:3001" |
| Invite.NormalizeForWa | dementia-assistant/src/app/api/memory/notify/route.ts:19-23 | the result is digits only, no longer than the input, and holds exactly the digits that occur in the input |
| Invite.NormalizeIdempotent | dementia-assistant/src/app/api/memory/notify/route.ts:19-23 | normalising a normalised number changes nothing |
| Invite.BuildWaLink | dementia-assistant/src/app/api/memory/notify/route.ts:25-28 | the link is "https://wa.me/", the number's digits, "?text=" and the percent-encoded message, in that order |
| Invite.WaLinkAddressesNumber | dementia-assistant/src/app/api/memory/notify/route.ts:25-28 | the number read back from a built link is the normalised phone number, whatever the message text |
| Invite.EventPhrase | dementia-assistant/src/app/api/memory/notify/route.ts:72-73 | the phrase is the trimmed event, or "this day" when the event is missing or blank, followed by " (<date>)" exactly when a date is present; each of the four cases is stated exactly |
| Invite.InviteMessage | dementia-assistant/src/app/api/memory/notify/route.ts:74-77 | the message greets the person by name on its first line, asks for "a short voice note for <phrase>." and ends with "Upload here: <link>" |
| Invite.LinkFor | dementia-assistant/src/app/api/memory/notify/route.ts:58-87 | an invite carries the person's name and relation, the number the loop computed, the token, an expiry one week after now, and a WhatsApp link to the normalised number whose text is the invitation message for the memory's event phrase with the upload URL "<base>/voice/<token>" |
| Invite.InvitableIsFilter | dementia-assistant/src/app/api/memory/notify/route.ts:43 | the people invited are exactly those with a non-blank contact number, in order |
| Invite.NoneSkipped | dementia-assistant/src/app/api/memory/notify/route.ts:43-59 | the loop's skip of an empty number never fires after the route's filter |
| Invite.IssueTokens | dementia-assistant/src/app/api/memory/notify/route.ts:56-68 | issuing tokens never removes a stored token |
| Invite.IssuedFrame | dementia-assistant/src/app/api/memory/notify/route.ts:56-68 | a key the loop never drew keeps its old record, or stays absent |
| Invite.IssuedRecordAt | dementia-assistant/src/app/api/memory/notify/route.ts:56-68 | every token the loop drew is stored with the item's unused record that expires a week after now, even if a later person drew the same token |
| Invite.DistinctTokensNamePerson | dementia-assistant/src/app/api/memory/notify/route.ts:58-67 | with distinct fresh tokens, the record of the i-th called person's token carries that person's name and number |
| Invite.InviteLinks | dementia-assistant/src/app/api/memory/notify/route.ts:56-88 | one invite per person the loop does not skip, in the memory's people order, the i-th using the i-th fresh token |
| Invite.SendInvites | dementia-assistant/src/app/api/memory/notify/route.ts:54-90 | the successful answer has one link per invitable person, the i-th carrying the i-th fresh token |
| Invite.NotifyPost | dementia-assistant/src/app/api/memory/notify/route.ts:30-95 | a missing id gives 400 and an unknown id 404. A memory without phones gives "No phone numbers on this memory". Only the successful answer changes the token store (the handler's 500 path is under Left out); it sends one or more links, one per invitable person, each with its own fresh token |
| Invite.SentFromInvitees | dementia-assistant/src/app/api/memory/notify/route.ts:43-88 | a successful answer's links and token writes are those of the loop over the memory's invitable people, none of them skipped |
| Invite.LoopTokensStored | dementia-assistant/src/app/api/memory/notify/route.ts:54-67 | the loop's i-th link expires a week after now and its token is stored with a record issued for the memory |
| Invite.SentTokensStored | dementia-assistant/src/app/api/memory/notify/route.ts:54-67 | every sent link expires a week after now, and its token is stored with a record issued for the memory |
| Invite.LoopTokensNamePerson | dementia-assistant/src/app/api/memory/notify/route.ts:58-87 | with distinct fresh tokens, the loop's i-th link's token record names the link's person and carries its phone |
| Invite.SentTokensNamePerson | dementia-assistant/src/app/api/memory/notify/route.ts:58-87 | with distinct fresh tokens, every sent link's token record names the link's person and carries its phone |
| Invite.SentLinkContents | dementia-assistant/src/app/api/memory/notify/route.ts:71-87 | every sent link names its person and relation, carries the trimmed phone, addresses that phone, and its WhatsApp text is the invitation message naming the memory's event phrase and ending with "<base>/voice/<i-th token>" |
| Invite.InviteValidForAWeek | dementia-assistant/src/app/api/memory/notify/route.ts:54 | a sent token is valid at a time exactly when that time is before now plus one week |
| VoiceUpload.PickExt | dementia-assistant/src/app/api/voice/upload/route.ts:36-48 | the extension is one of five. The file-name suffixes .m4a, .mp4, .ogg and .webm decide first. The result is "mp3" exactly when no suffix matches, the MIME type lacks "audio/mp4" and it has "audio/mpeg" |
| VoiceUpload.NameBeatsMime | dementia-assistant/src/app/api/voice/upload/route.ts:37-41 | when the file name has a known suffix the MIME type does not matter |
| VoiceUpload.LegacyExt | dementia-assistant/src/app/voice/upload/route.ts:26 | the older handler picks "mp4" exactly when the MIME type contains "mp4", otherwise "webm" |
| VoiceUpload.AudioPathFor | dementia-assistant/src/lib/notify.ts:72-80 | a saved recording's public path is under "/voice-notes/" and ends with its file name |
| VoiceUpload.TranscriptOf | dementia-assistant/src/app/api/voice/upload/route.ts:88 | a transcript is kept exactly when the transcriber returned non-empty text |
| VoiceUpload.NoteFor | dementia-assistant/src/app/api/voice/upload/route.ts:94-103 | the stored note copies memory, patient, name and phone from the token record, and carries the id, transcript, time and audio path |
| VoiceUpload.Capture | dementia-assistant/src/app/api/voice/upload/route.ts:65-111 | the answer is 200 exactly without a fault. The token is marked used only after its note is stored. A failure before the note is stored changes nothing; a failure while consuming leaves the token unused with the note stored |
| VoiceUpload.Upload | dementia-assistant/src/app/api/voice/upload/route.ts:50-112 | 400 exactly for a missing token or audio; 403 "invalid or expired link" exactly for an invalid token, with nothing stored; on success the token is consumed and one note for its memory is stored, with a transcript only when transcription is configured; no other note changes |
| VoiceUpload.LegacyUpload | dementia-assistant/src/app/voice/upload/route.ts:9-57 | the same 400/403 gates and success effects for the older handler, which always tries to transcribe |
| VoiceUpload.SecondUploadForbidden | dementia-assistant/src/app/api/voice/upload/route.ts:60-105 | after one successful upload, a second upload with the same token is refused with 403 and changes nothing |
| VoiceUpload.FailureKeepsToken | dementia-assistant/src/app/api/voice/upload/route.ts:94-111 | an upload that does not answer 200 leaves the token store unchanged |
| VoiceUpload.UploadKeepsUsed | dementia-assistant/src/app/api/voice/upload/route.ts:105 | no upload turns a used token back to unused |
| VoiceList.ListRoute | dementia-assistant/src/app/api/voice/list/route.ts:19-39 | a missing memory id gives 400; otherwise the notes are exactly the stored notes of that memory, newest first |
| VoiceList.BodyOf | dementia-assistant/src/app/api/voice/list/route.ts:34 | the widget sees a notes list exactly when the handler listed notes |
| VoiceList.LatestFor | dementia-assistant/src/components/VoiceNoteForMemory.tsx:24-30 | the widget shows a note exactly when the body lists one for its memory, and then one with the latest creation time among them |
| VoiceList.WidgetAsWiredShowsNothing | dementia-assistant/src/components/VoiceNoteForMemory.tsx:22-24 | as wired, the widget's request carries no memory id, so it never shows a note |
| VoiceList.WidgetWithIdShowsNewest | dementia-assistant/src/components/VoiceNoteForMemory.tsx:27-30 | were the id sent, the widget would show a stored note at least as new as any note of the memory |
| VoiceList.VoiceLabel | dementia-assistant/src/components/VoiceNoteForMemory.tsx:50 | the caption reads "Voice note from <name>:" when a name is present and "Voice note :" otherwise |
| Clock.IsoWeekday | dementia-assistant/src/lib/tools.ts:21-24 | Sunday becomes 7 and other days keep their number, so the weekday is in 1..7 |
| Clock.IsoWeekdayOfInstant | dementia-assistant/src/lib/tools.ts:21-24 | the ISO weekday of an instant follows its day count, with day 0 a Monday |
| Clock.Hhmm | dementia-assistant/src/lib/tools.ts:16-20 | "HH:MM" is five characters whose two-digit fields read back as the hour and the minute |
| Clock.HhmmOrder | dementia-assistant/src/lib/tools.ts:25-26 | comparing two "HH:MM" strings as text orders them as times of day |
| Clock.JsRem | dementia-assistant/src/lib/tools.ts:32 | JavaScript `%` agrees with the mathematical remainder on non-negative numbers and is never positive for negative ones |
| Clock.NumberOf | dementia-assistant/src/lib/tools.ts:34 | `Number` of a field is its digit value when the trimmed field is all digits, and not a number otherwise |
| Clock.NextOccurrence | dementia-assistant/src/lib/tools.ts:29-38 | a next occurrence exists exactly when the time text has two numeric colon-separated fields |
| Clock.NextOccurrenceSpec | dementia-assistant/src/lib/tools.ts:29-38 | for a valid weekday and "HH:MM", the next occurrence is strictly after the base, at most seven days later, on that weekday, at that hour and minute |
| ScheduleTypes.ScheduleOf | dementia-assistant/src/app/api/schedule/route.ts:29 | a patient's schedule is the stored list, or empty when none is stored |
| ScheduleTools.StartsNoLaterIsTotalPreorder | dementia-assistant/src/lib/tools.ts:64 | ordering by start text is a total preorder, so the sort of active items is well defined |
| ScheduleTools.Candidates | dementia-assistant/src/lib/tools.ts:70-75 | there are no candidate occurrences exactly when no item has a weekday; every candidate is an item's weekday with its computed next occurrence |
| ScheduleTools.Earliest | dementia-assistant/src/lib/tools.ts:69-75 | the scan finds a candidate exactly when there is one |
| ScheduleTools.EarliestIsFirstMinimum | dementia-assistant/src/lib/tools.ts:73 | the scan keeps the first candidate with the smallest time: no later time wins and earlier ties lose |
| ScheduleTools.CurrentSchedule | dementia-assistant/src/lib/tools.ts:50-79 | "now" is an active item with the smallest start among active items; otherwise no item is active; "none" exactly when no item has a weekday; "next" is an item whose weekday gives the reported time |
| ScheduleTools.ActiveNow | dementia-assistant/src/lib/tools.ts:57-66 | an item reported as current is in the list, active, and starts no later than any other active item; nothing is reported only when no item is active |
| ScheduleTools.Upcoming | dementia-assistant/src/lib/tools.ts:68-78 | "none" exactly when no item has a weekday; "next" is an item one of whose weekdays occurs at the reported time, taken from the scan's choice |
| ScheduleTools.UpcomingEarliest | dementia-assistant/src/lib/tools.ts:69-76 | when every weekday of every item occurs within the coming week, the scan never picks an invalid date and its time is no later than any item's next occurrence |
| ScheduleTools.NextIsEarliest | dementia-assistant/src/lib/tools.ts:69-76 | with well-formed times and weekdays, "next" is within seven days and no later than any item's next occurrence |
| ScheduleTools.CandidateOf | dementia-assistant/src/lib/tools.ts:70-72 | every weekday of every item is scanned as a candidate |
| ScheduleTools.CandidatePlace | dementia-assistant/src/lib/tools.ts:93-96 | the current item's location comes first, then the next item's, and home when the item has none |
| ScheduleTools.NavigationTarget | dementia-assistant/src/lib/tools.ts:88-104 | found exactly when the chosen place has coordinates; the label is the place's non-empty label, else the current or next item's title, else home's label (even an empty one), else "Destination" |
| ScheduleTools.NavigatesHomeWithoutItem | dementia-assistant/src/lib/tools.ts:93-102 | with no current or next item, navigation is found exactly when home has coordinates and is labelled with home's label, or "Destination" without one |
| ScheduleTools.EmergencyAlert | dementia-assistant/src/lib/tools.ts:107-124 | the alert reports notified exactly when there is at least one contact, and counts the contacts |
| DateRegex.YmdAt | dementia-assistant/src/lib/tools.ts:151 | a numeric date found at a position matches four digits, a separator, one or two digits, a separator and one or two digits |
| DateRegex.YmdAtIsGreedyMatch | dementia-assistant/src/lib/tools.ts:151 | whenever the expression matches at a position, the match is found there, with the month field as long as the match's and a day field at least as long |
| DateRegex.DayMonAt | dementia-assistant/src/lib/tools.ts:160 | a "day word" match found at a position is a real match of that alternative |
| DateRegex.MonDayAt | dementia-assistant/src/lib/tools.ts:160 | a "word day" match found at a position is a real match of that alternative |
| DateRegex.DayMonAtIsTheMatch | dementia-assistant/src/lib/tools.ts:160 | the "day word" alternative matches at a position with given groups exactly when that match is the one found |
| DateRegex.MonDayAtIsTheMatch | dementia-assistant/src/lib/tools.ts:160 | the "word day" alternative matches at a position with given groups exactly when that match is the one found |
| DateRegex.DayMonthAt | dementia-assistant/src/lib/tools.ts:160-166 | a day/month pair is read at a position exactly when either alternative matches there, and it is well formed |
| DateRegex.Leftmost | dementia-assistant/src/lib/tools.ts:160 | the search returns a matching position, and no earlier position matches |
| DateLookup.IsoKey | dementia-assistant/src/lib/tools.ts:145-155 | the month-day key is the tail of the ISO date |
| DateLookup.MonthIndex | dementia-assistant/src/lib/tools.ts:159-167 | the month is the first abbreviation the word starts with, and -1 exactly when it starts with none |
| DateLookup.MonthIndexOfPrefix | dementia-assistant/src/lib/tools.ts:167 | a word starting with the k-th abbreviation is month k |
| DateLookup.MonthLengths | dementia-assistant/src/lib/tools.ts:159 | each of the twelve abbreviations has three letters |
| DateLookup.MonthsDistinct | dementia-assistant/src/lib/tools.ts:159 | no two of the twelve abbreviations are the same word |
| DateLookup.DayMonthKey | dementia-assistant/src/lib/tools.ts:167-174 | a day/month pair gives a date exactly when the word is a month, and then the month-day key is the tail of the ISO date |
| DateLookup.DateOfTextWith | dementia-assistant/src/lib/tools.ts:143-178 | a date and a month-day key are found together or not at all |
| DateLookup.NormalizeDateAsWritten | dementia-assistant/src/lib/tools.ts:139-179 | the lookup as written yields both keys or neither, and the month-day key is the tail of the ISO date |
| DateLookup.NormalizeDate | dementia-assistant/src/lib/tools.ts:139-179 | the corrected lookup yields both keys or neither, and the month-day key is the tail of the ISO date |
| DateLookup.TodayQuery | dementia-assistant/src/lib/tools.ts:141-148 | an empty query or one of the "today" phrases gives today's UTC date |
| DateLookup.IsoDateRoundTrip | dementia-assistant/src/lib/tools.ts:151-156 | "YYYY-MM-DD" resolves to itself, with "MM-DD" as the month-day key, under the lookup as written and under the corrected one |
| DateLookup.DayMonthRoundTrip | dementia-assistant/src/lib/tools.ts:158-174 | "<day> <month word>" resolves to that day and month of the current year, both as written and corrected |
| DateLookup.FromPhraseAsWritten | dementia-assistant/src/lib/tools.ts:160-178 | as written, "<word> <day> <month>" with a first word that is not a month resolves to no date |
| DateLookup.FromPhraseCorrected | dementia-assistant/src/lib/tools.ts:160-174 | corrected, the same phrase resolves to that day and month of the current year |
| DateLookup.FromSevenJune | dementia-assistant/src/lib/tools.ts:158-178 | "from 7 june" finds nothing as written and June 7 corrected |
| MemoryByDate.Matches | dementia-assistant/src/lib/tools.ts:191-202 | exact ISO matches are kept when any exist, otherwise month-day matches; only dated memories qualify, each kept as often as stored |
| MemoryByDate.LaterOrSameIsTotalPreorder | dementia-assistant/src/lib/tools.ts:205 | ordering by date text, newest first, is a total preorder |
| MemoryByDate.SortedMatches | dementia-assistant/src/lib/tools.ts:205 | the sorted matches are a permutation of the matches with non-increasing dates |
| MemoryByDate.Summarize | dementia-assistant/src/lib/tools.ts:208-216 | a summary keeps id, date and place, uses "Memory" for a missing or empty event, and an empty people list when none is stored |
| MemoryByDate.MemoriesByDate | dementia-assistant/src/lib/tools.ts:187-217 | with the key of the lookup as written, the result summarises the sorted matches of the patient's items one by one; every result has an event and a date, newest first |
| MemoryByDate.MemoriesByDateCorrected | dementia-assistant/src/lib/tools.ts:187-217 | the same search keyed by the corrected lookup |
| MemoryByDate.FromSevenJuneMemories | dementia-assistant/src/lib/tools.ts:160-202 | "from 7 june" returns no memories as written, whatever is stored, while the corrected search returns a memory dated June 7 of the current year |
| MemoryByDate.FindsMemoryOnItsDate | dementia-assistant/src/lib/tools.ts:151-198 | asking for a memory's exact ISO date finds that memory, as written and corrected |
| MemoryByDate.FindsAnniversary | dementia-assistant/src/lib/tools.ts:200-202 | with no exact match, a memory on the same month and day of any year is found |
| MemoryByDate.ExactDateOnly | dementia-assistant/src/lib/tools.ts:196-202 | when an exact match exists, only exact matches are returned |
| MemoryMatch.HigherOrSameIsTotalPreorder | dementia-assistant/src/app/api/memory/match/route.ts:43 | ordering by descending score is a total preorder |
| MemoryMatch.Top | dementia-assistant/src/app/api/memory/match/route.ts:45 | the head of the sorted scores is a highest-scoring entry, the first of them in store order |
| MemoryMatch.FaceScores | dementia-assistant/src/app/api/memory/match/route.ts:38-42 | each candidate person is scored against the face vector, in order |
| MemoryMatch.PersonName | dementia-assistant/src/app/api/memory/match/route.ts:50 | the name is the first tag's name, else the item's name, else "Someone"; never empty |
| MemoryMatch.PersonRelation | dementia-assistant/src/app/api/memory/match/route.ts:51 | the relation is the first tag's relation, else "relative"; never empty |
| MemoryMatch.PersonSentence | dementia-assistant/src/app/api/memory/match/route.ts:53-60 | above 0.5 the answer is "This is <name>, your …"; above 0.4 "This might be …"; otherwise exactly "This is an unknown person."; the named answers end with the relation |
| MemoryMatch.UnknownHasNoYour | dementia-assistant/src/app/api/memory/match/route.ts:59 | the unknown-person answer names no one |
| MemoryMatch.PersonMatch | dementia-assistant/src/app/api/memory/match/route.ts:24-73 | no file and no face each give 400; there is no match exactly when no item is a person with a face vector |
| MemoryMatch.PersonMatchPicksTop | dementia-assistant/src/app/api/memory/match/route.ts:38-72 | a person answer reports the top-scoring candidate, its rounded score, its name and relation, and the banded sentence |
| MemoryMatch.UnknownBandStillReportsBest | dementia-assistant/src/app/api/memory/match/route.ts:63-72 | even in the unknown band the answer still carries a gallery item as best |
| MemoryMatch.TagText | dementia-assistant/src/app/api/memory/match/route.ts:111 | a tag prints as its name, lengthened by " (relation)" exactly when the relation is present |
| MemoryMatch.MemorySentence | dementia-assistant/src/app/api/memory/match/route.ts:111-118 | the answer starts "This looks like " exactly at confidence 0.5 or more and "This might be " below, and ends with the event, place, date and people parts |
| MemoryMatch.LeadsDiffer | dementia-assistant/src/app/api/memory/match/route.ts:116-118 | the two leads exclude each other |
| MemoryMatch.SentenceParts | dementia-assistant/src/app/api/memory/match/route.ts:111-114 | place, date and people parts are empty exactly when the field is absent; the event part never is |
| MemoryMatch.TextScores | dementia-assistant/src/app/api/memory/match/route.ts:98-101 | each item with a text embedding is scored against the query, in order |
| MemoryMatch.QueryOf | dementia-assistant/src/app/api/memory/match/route.ts:77-88 | a photo's caption is embedded when there is a file, otherwise the query text; with neither there is no query |
| MemoryMatch.MemoryMatchOf | dementia-assistant/src/app/api/memory/match/route.ts:75-132 | neither file nor text gives 400; there is no match exactly when every item is a person; the handler fails exactly when memories exist but no item has an embedding; a caption is reported only for a non-empty photo caption |
| MemoryMatch.MemoryMatchPicksTop | dementia-assistant/src/app/api/memory/match/route.ts:98-132 | a memory answer reports the top-scoring embedded item, its rounded score, and the banded sentence about it |
| MemoryMatch.MatchRoute | dementia-assistant/src/app/api/memory/match/route.ts:10-137 | an empty gallery gives "No entries in gallery yet."; a person answer only in person mode and a memory answer only otherwise; on the modelled service replies every failure is a 400 |
| ScheduleRoute.Migrate | dementia-assistant/src/app/api/schedule/route.ts:31-38 | items with an id are untouched; every other item changes only by receiving a fresh id |
| ScheduleRoute.MigrateGivesIds | dementia-assistant/src/app/api/schedule/route.ts:33-38 | after migration every item has an id |
| ScheduleRoute.MigrateKeepsComplete | dementia-assistant/src/app/api/schedule/route.ts:31-42 | a list whose items all have ids is left as it is |
| ScheduleRoute.GetSchedule | dementia-assistant/src/app/api/schedule/route.ts:22-46 | no patient gives 400. Otherwise the answer is the migrated list, which is also what is stored. The store is untouched when no id was missing, and other patients never change |
| ScheduleRoute.GetWritesOnlyToMigrate | dementia-assistant/src/app/api/schedule/route.ts:39-42 | a read leaves the store unchanged exactly when every item already had an id |
| ScheduleRoute.WithId | dementia-assistant/src/app/api/schedule/route.ts:60 | a posted item keeps its own id, or gets the fresh one, and changes in nothing else |
| ScheduleRoute.PostSchedule | dementia-assistant/src/app/api/schedule/route.ts:48-65 | a missing patient or item gives 400 with the store unchanged; otherwise exactly the saved item is appended to that patient's list, and other patients do not change |
| ScheduleRoute.Merge | dementia-assistant/src/app/api/schedule/route.ts:84 | each of the seven fields (id, title, instructions, days, start, end, location) absent from the patch keeps the stored value |
| ScheduleRoute.MergeTakesPatch | dementia-assistant/src/app/api/schedule/route.ts:84 | a field present in the patch replaces the stored value |
| ScheduleRoute.MergeIdempotent | dementia-assistant/src/app/api/schedule/route.ts:84 | applying the same patch twice equals applying it once |
| ScheduleRoute.MergeOnlyId | dementia-assistant/src/app/api/schedule/route.ts:84 | a patch carrying only the item's own id changes nothing |
| ScheduleRoute.PutSchedule | dementia-assistant/src/app/api/schedule/route.ts:67-89 | no patient, item or id gives 400; an unknown id gives 404 with the store unchanged; otherwise the first item with the id is replaced by the merge, in place, and nothing else changes |
| ScheduleRoute.DeleteSchedule | dementia-assistant/src/app/api/schedule/route.ts:97-114 | a missing parameter gives 400; otherwise every item with the id is removed, all others kept with their multiplicity, and the answer is ok even when nothing matched |
| ScheduleRoute.DeleteTwice | dementia-assistant/src/app/api/schedule/route.ts:106-111 | deleting the same id twice stores the same as deleting it once |
| ScheduleRoute.DeleteMissingKeepsList | dementia-assistant/src/app/api/schedule/route.ts:108-111 | deleting an id no item has leaves the list as it was |
| ScheduleEditor.FailingAmong | dementia-assistant/src/components/caregiver/ScheduleEditor.tsx:69-81 | the errors are exactly the failing checks among those asked, in check order |
| ScheduleEditor.Validate | dementia-assistant/src/components/caregiver/ScheduleEditor.tsx:69-81 | the errors are exactly the failing checks, in the order title, start, end, days, latitude, longitude |
| ScheduleEditor.ValidateEmptyIffValid | dementia-assistant/src/components/caregiver/ScheduleEditor.tsx:69-81 | no errors exactly when the title is non-blank, start and any end are "dd:dd", a day is picked, and given coordinates are in range |
| ScheduleEditor.OutOfRangeTimeAccepted | dementia-assistant/src/components/caregiver/ScheduleEditor.tsx:72 | the time check is only about shape: "99:99" passes |
| ScheduleEditor.AddItem | dementia-assistant/src/components/caregiver/ScheduleEditor.tsx:84-89 | the form is sent unchanged exactly when it is valid; otherwise only the first failing check's message is shown |
| ScheduleEditor.SortDays | dementia-assistant/src/components/caregiver/ScheduleEditor.tsx:130 | the sorted days are a permutation in ascending order |
| ScheduleEditor.Without | dementia-assistant/src/components/caregiver/ScheduleEditor.tsx:130 | removing a day drops every copy of it and keeps every other day with its multiplicity |
| ScheduleEditor.ToggleDay | dementia-assistant/src/components/caregiver/ScheduleEditor.tsx:127-132 | a present day is removed everywhere; an absent day is added once and the list comes out ascending |
| ScheduleEditor.ToggleTwice | dementia-assistant/src/components/caregiver/ScheduleEditor.tsx:127-132 | on a strictly ascending list, toggling a day twice restores the list |
| ScheduleEditor.DayList | dementia-assistant/src/components/caregiver/ScheduleEditor.tsx:137-139 | a day's list holds exactly the items that repeat on that day |
| ScheduleEditor.DayGroup | dementia-assistant/src/components/caregiver/ScheduleEditor.tsx:137-142 | a day's group is a permutation of its items, sorted by start |
| ScheduleEditor.Grouped | dementia-assistant/src/components/caregiver/ScheduleEditor.tsx:135-144 | grouping succeeds exactly when every weekday is within 1..7, and then gives seven day groups |
| ScheduleEditor.ItemUnderItsDays | dementia-assistant/src/components/caregiver/ScheduleEditor.tsx:135-144 | an item is listed under a day exactly when the day is one of its weekdays |
| Logs.LogBeforeIsTotalPreorder | dementia-assistant/src/app/api/logs/route.ts:33-39 | ordering by severity rank, then newest time, is a total preorder |
| Logs.Kept | dementia-assistant/src/app/api/logs/route.ts:25-30 | the kept entries are exactly those of the patient (of every patient when none is asked), tagged medical when only medical ones are asked, with multiplicity |
| Logs.SortLogs | dementia-assistant/src/app/api/logs/route.ts:33-39 | the sorted logs are a permutation: urgent before moderate before low (missing counts as low), newest first within a rank |
| Logs.GetLogs | dementia-assistant/src/app/api/logs/route.ts:19-42 | at most 200 entries, each a kept entry, in severity-then-newest order, a prefix of the sorted kept entries and all of them when there are at most 200 |
| Logs.AllMatchesUnderCap | dementia-assistant/src/app/api/logs/route.ts:25-41 | with at most 200 matches, every matching entry is returned |
| Logs.PostLog | dementia-assistant/src/app/api/logs/route.ts:44-54 | a missing patient or type gives 400 with the store unchanged; a body with both is appended, as exactly one entry at the end carrying every modelled field of the body (all but `meta`) and its time, or now |
| Logs.PostedEntryKept | dementia-assistant/src/app/api/logs/route.ts:8-53 | a posted entry is among the entries the listing keeps for its patient |
| Logs.SearchLogs | dementia-assistant/src/components/caregiver/LogsPanel.tsx:84-99 | a blank query keeps the logs; otherwise exactly the entries whose lower-cased text, categories, reasons, type and severity contain the lower-cased, untrimmed query; never more entries |
| Logs.SearchSplits | dementia-assistant/src/components/caregiver/LogsPanel.tsx:87-98 | the search keeps the order of entries: it distributes over concatenation |
| Logs.ChipForSeverity | dementia-assistant/src/components/caregiver/LogsPanel.tsx:47-56 | urgent and moderate each get their own style; low and a missing severity share the low style |
| Triage.KeywordCategories | dementia-assistant/src/lib/triage.ts:21-25 | the categories are exactly those with a keyword in the text, in table order, without repeats |
| Triage.NoCategoryIffNoHit | dementia-assistant/src/lib/triage.ts:23-27 | no category is found exactly when no keyword occurs |
| Triage.UrgentIffUrgentHit | dementia-assistant/src/lib/triage.ts:29-30 | the categories include bleeding, fall or breathing exactly when an urgent category has a hit |
| Triage.KeywordVerdict | dementia-assistant/src/lib/triage.ts:21-38 | no verdict exactly when no keyword occurs; otherwise medical, "Matched medical keywords", the category names, and "urgent" exactly for an urgent hit, else "moderate" |
| Triage.KeywordTriageIgnoresCase | dementia-assistant/src/lib/triage.ts:22 | lower-casing the text first does not change the verdict |
| Triage.LlmTriage | dementia-assistant/src/lib/triage.ts:57-67 | an unparsable reply gives not medical, "low", no categories, "parse_error"; a parsed one defaults severity to "low", categories to none and reasons to "LLM assessment" |
| Triage.TriageMedical | dementia-assistant/src/lib/triage.ts:71-78 | the model is consulted exactly when no keyword matched; otherwise the keyword verdict is the result |
| Triage.KeywordHitIsMedical | dementia-assistant/src/lib/triage.ts:71-78 | a keyword hit is always medical, never "low", and never asks the model |
| ChatImages.StripPrefixIgnoringCase | dementia-assistant/src/components/chat/ChatPanel.tsx:13 | the prefix is removed exactly when the text starts with it in any case; otherwise the text is unchanged |
| ChatImages.Rooted | dementia-assistant/src/components/chat/ChatPanel.tsx:14-16 | a rooted reference is kept and anything else gets "/" in front |
| ChatImages.Clean | dementia-assistant/src/components/chat/ChatPanel.tsx:12-16 | a cleaned reference starts with "http://", "https://" or "/" and does not end in white space |
| ChatImages.CleanDropsSandbox | dementia-assistant/src/components/chat/ChatPanel.tsx:11-14 | "sandbox:" in any case in front of a clean reference is dropped |
| ChatImages.CleanDropsFile | dementia-assistant/src/components/chat/ChatPanel.tsx:11-14 | "file://" in any case in front of a clean reference is dropped |
| ChatImages.CleanRootsRelative | dementia-assistant/src/components/chat/ChatPanel.tsx:11-16 | an unrooted reference that starts with neither scheme gets "/" in front |
| ChatImages.CleanSandboxExample | dementia-assistant/src/components/chat/ChatPanel.tsx:11-14 | "sandbox:/memory/a.jpg" cleans to "/memory/a.jpg" |
| ChatImages.CleanRelativeExample | dementia-assistant/src/components/chat/ChatPanel.tsx:11-16 | "memory/a.jpg" cleans to "/memory/a.jpg" |
| ChatImages.SanitizeUrl | dementia-assistant/src/components/chat/ChatPanel.tsx:10-17 | the empty string stays empty; anything else becomes its cleaned, rooted form |
| ChatImages.CleanIsFixed | dementia-assistant/src/components/chat/ChatPanel.tsx:12-16 | cleaning a cleaned URL changes nothing |
| ChatImages.SanitizeIdempotent | dementia-assistant/src/components/chat/ChatPanel.tsx:10-17 | sanitising twice is sanitising once |
| ChatImages.ImgHint | dementia-assistant/src/components/chat/ChatPanel.tsx:28-29 | a line yields a hint exactly when its trimmed text starts "img:" in any case and the rest, after leading white space, is non-empty and on one line; the hint is that rest, trimmed |
| ChatImages.HintOfMarker | dementia-assistant/src/components/chat/ChatPanel.tsx:28-29 | the line "IMG: <url>" yields exactly the URL |
| ChatImages.HintsOfLines | dementia-assistant/src/components/chat/ChatPanel.tsx:27-30 | the hints are exactly the URLs read from some line |
| ChatImages.Sanitized | dementia-assistant/src/components/chat/ChatPanel.tsx:53-55 | the list holds exactly the non-empty sanitised URLs |
| ChatImages.SanitizedSplits | dementia-assistant/src/components/chat/ChatPanel.tsx:53-55 | sanitising keeps the order of the URLs: it distributes over concatenation |
| ChatImages.ImageList | dementia-assistant/src/components/chat/ChatPanel.tsx:53-59 | the images are the distinct non-empty sanitised URLs, hints then markdown then bare, each at its first occurrence |
| ChatImages.FirstHintFirst | dementia-assistant/src/components/chat/ChatPanel.tsx:53-59 | a non-empty first hint is the first image |
| ChatImages.MarkerIsHint | dementia-assistant/src/components/chat/ChatPanel.tsx:27-30 | the marker the chat route appends is read back as a hint |
| ChatImages.SanitizedHintListed | dementia-assistant/src/components/chat/ChatPanel.tsx:53-59 | an already clean hint URL is in the image list |
| ChatRoute.RoleOf | dementia-assistant/src/app/api/chat/route.ts:21 | a role is recognised exactly when the text names one of the four roles |
| ChatRoute.ParseMessages | dementia-assistant/src/app/api/chat/route.ts:18-25 | each well-formed raw message becomes the message with its role, content and optional name, in order |
| ChatRoute.ParseBody | dementia-assistant/src/app/api/chat/route.ts:15-27 | a body is accepted exactly when the patient id has at least 3 characters, the timezone is text or absent, and there is at least one message, each with a known role, text content, and a `name` that is text or absent |
| ChatRoute.ParseToRaw | dementia-assistant/src/app/api/chat/route.ts:15-27 | a valid body written out as JSON parses back to itself |
| ChatRoute.RawOfParse | dementia-assistant/src/app/api/chat/route.ts:15-27 | an accepted body is exactly the JSON form of what it parses to |
| ChatRoute.History | dementia-assistant/src/app/api/chat/route.ts:132-134 | the history forwarded to the model holds exactly the messages not in the tool role |
| ChatRoute.HistorySplits | dementia-assistant/src/app/api/chat/route.ts:132-134 | the history keeps message order: it distributes over concatenation |
| ChatRoute.HistoryWithoutToolTurns | dementia-assistant/src/app/api/chat/route.ts:213-215 | a conversation without tool turns is forwarded whole |
| ChatRoute.PersonLabel | dementia-assistant/src/app/api/chat/route.ts:180 | a person prints as "name (relation)" when the relation is present, else the name |
| ChatRoute.PeopleTextEmpty | dementia-assistant/src/app/api/chat/route.ts:179-181 | the people text is empty exactly for no people, or one person whose label is empty |
| ChatRoute.DateSummary | dementia-assistant/src/app/api/chat/route.ts:186-189 | the summary starts "<event> on <date>", continues " at <place>" when there is a place, and ends " — with <people>" when the people text is non-empty |
| ChatRoute.SummaryWithOnePerson | dementia-assistant/src/app/api/chat/route.ts:186-189 | one related person and no place give "<event> on <date> — with <name> (<relation>)" |
| ChatRoute.RouteImageUrl | dementia-assistant/src/app/api/chat/route.ts:193-200 | an image URL exists exactly when the path is non-empty, and it is rooted and already sanitised |
| ChatRoute.RunTool | dementia-assistant/src/app/api/chat/route.ts:148-208 | only the schedule and navigation tools can throw, on a malformed next occurrence. An unknown name gives "Unknown tool: <name>". Navigation meta appears exactly for a found target, and the alert meta counts the contacts. The date tool, keyed by the lookup as written, answers "no memories" or the summary and image of the first result |
| ChatRoute.ToolIgnoresModelPatient | dementia-assistant/src/app/api/chat/route.ts:52 | a patient id supplied by the model never changes what a tool does |
| ChatRoute.WithImage | dementia-assistant/src/app/api/chat/route.ts:232-237 | "IMG: <url>" is appended after a blank line exactly when the meta has an image URL; otherwise the reply is unchanged |
| ChatRoute.ToolLogType | dementia-assistant/src/app/api/chat/route.ts:255 | a tool turn logs as "nav" exactly with navigation meta, as "emergency" exactly when contacts were notified, and as "tool" otherwise; never as "chat" |
| ChatRoute.SeverityOf | dementia-assistant/src/app/api/chat/route.ts:246 | a severity word is recognised exactly when it names one of the three severities |
| ChatRoute.LogFor | dementia-assistant/src/app/api/chat/route.ts:245-263 | the log entry carries the patient, type and last user text, the tag "medical" exactly when triage says medical, and triage's categories, reasons and severity |
| ChatRoute.Chat | dementia-assistant/src/app/api/chat/route.ts:44-302 | 400 exactly for an invalid body; on the modelled completion replies, a server error exactly when the chosen tool throws. A reply without a tool is logged as "chat" with no meta. A tool reply carries the tool result and meta and gets the IMG marker, and is logged with the tool log type |
| ChatRoute.LoggedAsMedicalIffTriaged | dementia-assistant/src/app/api/chat/route.ts:245-264 | when the turn's best-effort log POST reaches the log handler, its entry is appended, and the doctor's medical-only view lists it exactly when triage judged the turn medical |
| ChatRoute.PhotoReachesPanel | dementia-assistant/src/app/api/chat/route.ts:232-237 | the photo the date tool found is read back by the chat panel as a hint and shown in its image list |
| Display.Present | dementia-assistant/src/app/memorybook/gallery/page.tsx:69 | `filter(Boolean)` keeps exactly the present, non-empty strings |
| Display.PresentSplits | dementia-assistant/src/app/memorybook/gallery/page.tsx:69 | the filter keeps order: it distributes over concatenation |
| Display.OrElse | dementia-assistant/src/app/memorybook/gallery/page.tsx:48 | `s \|\| fallback` is the text when present and non-empty, else the fallback |
| MemoryPopups.ImageOf | dementia-assistant/src/app/MemoryPopup.tsx:26-29 | the image is the stored path when non-empty, else "/placeholder.png" |
| MemoryPopups.EventHead | dementia-assistant/src/app/MemoryPopup.tsx:32 | the heading is the trimmed event, or "Memory" for a missing or blank one; never blank |
| MemoryPopups.TrimmedTitle | dementia-assistant/src/app/MemoryPopup.tsx:31-35 | the title starts with the heading and is followed by " • <date>" exactly when the date is non-blank; it never starts with white space |
| MemoryPopups.TrimmedLabel | dementia-assistant/src/app/MemoryPopup.tsx:41-46 | a person gives no label exactly when the name is blank; otherwise the label is the trimmed name, followed by " (<trimmed relation>)" exactly when the relation is not blank |
| MemoryPopups.TrimmedPeopleLine | dementia-assistant/src/app/MemoryPopup.tsx:39-48 | an empty list gives "—"; otherwise the labels that exist, joined with ", " |
| MemoryPopups.TrimmedPeopleText | dementia-assistant/src/app/MemoryPopup.tsx:37-49 | a memory without people shows "—" |
| MemoryPopups.AllBlankNamesGiveEmptyText | dementia-assistant/src/app/MemoryPopup.tsx:37-49 | a non-empty list in which every name is blank shows "" rather than "—" |
| MemoryPopups.BlankNameIgnored | dementia-assistant/src/app/MemoryPopup.tsx:44-47 | adding a blank-named person to a non-empty list changes nothing |
| MemoryPopups.LooseTitle | dementia-assistant/src/MemoryPopup.tsx:47-49 | the title is the event ("Memory" only when it is missing), followed by " • <date>" exactly when the date is present and non-empty |
| MemoryPopups.EmptyEventGivesEmptyTitle | dementia-assistant/src/MemoryPopup.tsx:47-49 | an empty event and no date give an empty title |
| MemoryPopups.LooseLabel | dementia-assistant/src/MemoryPopup.tsx:52 | a related person prints as "<name> (<relation>)", with a missing name printed "undefined"; otherwise the name |
| MemoryPopups.LoosePeopleText | dementia-assistant/src/MemoryPopup.tsx:50-54 | the people text is the joined labels when they are non-empty, and "—" when the join is empty |
| MemoryPopups.NoNamesGiveDash | dementia-assistant/src/MemoryPopup.tsx:50-54 | people with neither name nor relation give "—" |
| MemoryPopups.Chip | dementia-assistant/src/app/memorypopup/MemoryPopup.tsx:20 | a related person's chip is "<name> • <relation>"; otherwise the name |
| MemoryPopups.PeopleChips | dementia-assistant/src/app/memorypopup/MemoryPopup.tsx:17-23 | no chip is empty and there are no more chips than people; a related person has a "name • relation" chip, an unrelated one with a name has the name, and every chip is some person's chip |
| MemoryPopups.ChipsSplit | dementia-assistant/src/app/memorypopup/MemoryPopup.tsx:17-23 | chips keep the people order: they distribute over concatenation |
| MemoryPopups.Subtitle | dementia-assistant/src/app/memorypopup/MemoryPopup.tsx:59-63 | the formatted date and the place, each when present and non-empty, joined with " • "; "" when neither is |
| MemoryPopups.TrimmedCard | dementia-assistant/src/app/MemoryPopup.tsx:72-95 | the "no memory" box shows exactly when there is no memory or no id; otherwise the image, title and people line |
| MemoryPopups.LooseCard | dementia-assistant/src/MemoryPopup.tsx:37-67 | the "no memory" box shows exactly when there is no memory, even one without an id |
| MemoryPopups.ChipsCard | dementia-assistant/src/app/memorypopup/MemoryPopup.tsx:45-99 | the "no memory" box shows exactly when there is no memory; otherwise the image, the event or "Memory", the subtitle and the chips |
| MemoryPopups.InviteRequest | dementia-assistant/src/app/MemoryPopup.tsx:51-59 | an invite request is sent exactly when the memory has a non-empty id, and it carries that id |
| MemoryPopups.CheckedInvites | dementia-assistant/src/app/MemoryPopup.tsx:60-67 | the invites shown are the reply's links only for an ok JSON reply whose links are a list; in every other case none |
| MemoryPopups.LooseInvites | dementia-assistant/src/MemoryPopup.tsx:26-31 | an ok reply's list of links is shown as is; a failed reply shows none; an ok reply with links that are not a list is the one case left unmodelled |
| MemoryPopups.CardsAgreeOnEndpointAnswers | dementia-assistant/src/app/MemoryPopup.tsx:60-67 | for every answer the invite endpoint can give, both cards show the sent links, or none |
| MemoryPopups.LabelParts | dementia-assistant/src/app/MemoryPopup.tsx:119-122 | name and "(relation)" are joined with a space, each only when present |
| MemoryPopups.InviteLabel | dementia-assistant/src/app/MemoryPopup.tsx:119-127 | an invite shows the trimmed name and "(trimmed relation)" when present, and "Contact" when both are blank |
| LatestMemory.Candidates | dementia-assistant/src/app/memorypopup/page.tsx:39-40 | the candidates are the memory-typed items when there is one, else all items; empty exactly for no items |
| LatestMemory.EventTime | dementia-assistant/src/app/memorypopup/page.tsx:44-45 | an item's event time is the parsed date when the date is present and non-empty, and unknown otherwise |
| LatestMemory.Compare | dementia-assistant/src/app/memorypopup/page.tsx:40-48 | when both creation times are known and differ, the newer goes first; failing that, when both event times are known and differ, the later goes first; otherwise the ids decide, compared the other way round |
| LatestMemory.Latest | dementia-assistant/src/app/memorypopup/page.tsx:40-49 | nothing is selected exactly for an empty list; otherwise a candidate |
| LatestMemory.OpensAMemoryWhenThereIsOne | dementia-assistant/src/app/memorypopup/page.tsx:39-49 | if any item is a memory, the page opens a memory |
| LatestMemory.LatestIsNewest | dementia-assistant/src/app/memorypopup/page.tsx:41-43 | when every candidate has a creation time, the page opens one created last |
| LatestMemory.LatestByEventDate | dementia-assistant/src/app/memorypopup/page.tsx:44-46 | when no candidate has a creation time and every event date parses, the page opens one with the latest event date |
| Gallery.PeoplePhotos | dementia-assistant/src/app/memorybook/gallery/page.tsx:30 | the people section holds exactly the items typed "person" |
| Gallery.MemoryPhotos | dementia-assistant/src/app/memorybook/gallery/page.tsx:31 | the memories section holds exactly the other items, untyped ones included |
| Gallery.SectionsKeepOrder | dementia-assistant/src/app/memorybook/gallery/page.tsx:30-31 | each section keeps the items' order: it distributes over concatenation, and one item lands in the section of its type |
| Gallery.SectionsPartition | dementia-assistant/src/app/memorybook/gallery/page.tsx:30-31 | every item is shown exactly once: the sections add up to the items and share none |
| Gallery.EmptySections | dementia-assistant/src/app/memorybook/gallery/page.tsx:40-61 | a section is empty exactly when no item belongs to it |
| Gallery.PersonCardName | dementia-assistant/src/app/memorybook/gallery/page.tsx:48 | a person card shows the first tag's name, or "Person" when it is missing or empty |
| Gallery.PersonCardRelation | dementia-assistant/src/app/memorybook/gallery/page.tsx:49 | a person card shows the first tag's relation, and nothing without a tag |
| Gallery.MemoryCardTitle | dementia-assistant/src/app/memorybook/gallery/page.tsx:68 | a memory card's title is the event, or "Memory" |
| Gallery.MemoryCardSubtitle | dementia-assistant/src/app/memorybook/gallery/page.tsx:69 | the subtitle is "<place> • <date>", or whichever is present; it reads "—" exactly when both are absent or the one present is itself "—" |
| Gallery.WithLine | dementia-assistant/src/app/memorybook/gallery/page.tsx:70 | "With: <names>" appears exactly for a non-empty people list and shows names only |
| Gallery.Render | dementia-assistant/src/app/memorybook/gallery/page.tsx:30-75 | the page shows one card per item in section order, and each section's note exactly when no item belongs to it |
| UploadForms.Resize | dementia-assistant/src/components/caregiver/page.tsx:39-41 | the rows get the new count, rows below it are kept and new rows are blank |
| UploadForms.ResizeSameLength | dementia-assistant/src/components/caregiver/page.tsx:39-41 | asking for the current count changes nothing |
| UploadForms.ResizeTwice | dementia-assistant/src/app/memorybook/add/page.tsx:24-27 | growing and then shrinking equals shrinking straight away |
| UploadForms.CaregiverCount | dementia-assistant/src/components/caregiver/page.tsx:37 | the caregiver form's count is the floor of a non-negative input, and 0 below 1 |
| UploadForms.AddPageCount | dementia-assistant/src/app/memorybook/add/page.tsx:23 | the add page's count is a positive parsed number, and 0 otherwise |
| UploadForms.SetRowField | dementia-assistant/src/components/caregiver/page.tsx:49 | exactly one field of exactly one row changes; an index out of range changes nothing |
| UploadForms.LastEditWins | dementia-assistant/src/app/memorybook/add/page.tsx:30 | two edits of the same field leave the last value |
| UploadForms.EditsOfDifferentRowsCommute | dementia-assistant/src/app/memorybook/add/page.tsx:30 | edits of different rows can be made in either order |
| UploadForms.NamedTags | dementia-assistant/src/components/caregiver/page.tsx:95 | the tags sent are exactly the rows with a non-blank name |
| UploadForms.NamedTagsKeepOrder | dementia-assistant/src/components/caregiver/page.tsx:95-96 | the tags keep the rows' order: they distribute over concatenation |
| UploadForms.NamedTagsOne | dementia-assistant/src/components/caregiver/page.tsx:95-96 | one row gives its tag exactly when its name is not blank |
| UploadForms.CaregiverSubmission | dementia-assistant/src/components/caregiver/page.tsx:80-101 | the form always sends "patient123". Person mode sends one tag and drops the event fields. Memory mode sends the named rows, with no people field when no row has a name. The person name and relation fields are never sent |
| UploadForms.AddPageSubmission | dementia-assistant/src/app/memorybook/add/page.tsx:33-59 | as the caregiver form, except that in memory mode any rows send the named-row list, even an empty one |
| UploadForms.FormsStoreSamePeople | dementia-assistant/src/app/memorybook/add/page.tsx:52-57 | although the two forms differ on unnamed rows, the stored people agree |
| UploadForms.PersonNamedThroughTag | dementia-assistant/src/components/caregiver/page.tsx:86-88 | a person uploaded from the form is stored with an empty name and relation, yet the matcher announces the name given in the form, through its tag |
| UploadForms.AfterUpload | dementia-assistant/src/components/caregiver/page.tsx:108-117 | success clears every field and keeps the mode; failure keeps everything |
| UploadForms.ClearedFormSendsNoPeople | dementia-assistant/src/app/memorybook/add/page.tsx:65-69 | after a successful upload a memory-mode form sends no people |

## Left out

- Language models, embeddings, face vectors, captions and transcription are replies passed in as parameters. So are cosine similarity and `toFixed(3)` rounding.
- File I/O and JSON parsing: a store that cannot be read is its default value (`{}` or `[]`). Writes are the returned new store. Saving images and audio to `public/` is a path and a possible fault.
- Concurrency: requests are sequential. The race between checking and consuming a token, and lost updates on whole-file rewrites, are not modelled.
- Clocks and ids: `Date.now`, `new Date`, `toISOString`, `randomUUID` and `Math.random` are parameters. ISO timestamps in the token and voice stores are integers, because ISO order is numeric order for four-digit years. Local time is a millisecond count with day 0 a Monday; time zones and daylight saving are not modelled.
- `Date.parse`, `toLocaleString`, `toLocaleDateString`, `encodeURIComponent` and `localeCompare` on ids are parameters. `localeCompare` on "HH:mm" start times is code-unit order, which agrees on digit strings.
- `toLowerCase`, `trim` and `\s` cover ASCII letters and a fixed set of white-space characters; other Unicode case mappings are not modelled.
- `Number(...)` and `parseInt` accept digit strings only; signs, decimals, exponents and the NaN count input of the caregiver form are not modelled.
- JavaScript sorts with comparators that never answer 0 are inconsistent on ties: `a < b ? 1 : -1` in `src/lib/tools.ts:205` and `src/lib/notify.ts:69`, and the time tie-break in `src/app/api/logs/route.ts:38`. V8's sort may then reverse a run of equal elements. The model sorts with one stable insertion sort instead, so its results keep tied elements in stored order, where the program may list them differently.
- MemoryByDate.SortedMatches, MemoryByDate.MemoriesByDate, ChatRoute.RunTool and ChatRoute.PhotoReachesPanel: two memories on the same date are listed in stored order. So the date tool's first result, and the photo the panel shows, is the first stored memory, where the program may answer with another memory of that date.
- Notify.ListVoiceNotesByMemory and Logs.GetLogs: notes with the same creation time, and log entries with the same severity and time, keep stored order. For the logs this also decides which tied entries fall inside the 200-entry cap.
- The Google Maps link text and its floating-point coordinates are not modelled; only whether a link exists.
- The regular expressions that strip map links and find markdown and bare image URLs in a chat reply are not modelled. Their matches are inputs to `ChatImages.ImageList`.
- ChatImages.ImageList: hint lines are read from the reply as given. The panel strips Google Maps links first (`src/components/chat/ChatPanel.tsx:21-23`), so in the program an "IMG:" URL containing "www.google.com/maps" is cut away before it is read; the model still lists it.
- ChatRoute.Chat: both completion calls are replies passed in. A completion call that throws ends the request with a server error in the program, and the model has no such case; its server error comes only from a tool that throws.
- ChatRoute.LoggedAsMedicalIffTriaged: the log is written by a best-effort POST to the route's own `/api/logs` inside a try/catch that ignores failures (`src/app/api/chat/route.ts:240-267` and `273-299`). When triage or that POST throws, the turn gets no entry; the lemma covers the turn whose POST reaches the log handler.
- MemoryMatch.MatchRoute: the face, caption and embedding services are replies passed in. When one of them throws, the program answers 500 with the error message (`src/app/api/memory/match/route.ts:133-136`); the model has no such case.
- Logs.PostLog: the entry's `meta` (the map link, whether an emergency was notified and the contact count), which the log panel shows, is not stored in the model's entries.
- Prompt assembly, the timezone line, the tool schemas and the second completion's content are not modelled. Only the first tool call of a turn runs. The emergency tool's location argument is not modelled.
- The unmodelled `retrieveContext` tool is a patient context passed in.
- Logs.PostLog: the entry's type is one of the four the application writes ("chat", "tool", "emergency", "nav"); the handler stores any truthy `type` a client posts.
- ChatRoute.ParseBody: zod's `min(3)` counts UTF-16 code units, the model counts characters; the two differ only for characters outside the Basic Multilingual Plane.
- A severity word other than "low", "moderate" or "urgent" from the model is logged as no severity.
- `src/MemoryPopup.tsx`'s invite rows and the expiry labels of every card are rendering only and are not modelled.
- MemoryPopups.LooseInvites: when an ok reply stores links that are not a list, the card later fails while rendering. That case is `None` rather than a modelled crash.
- LatestMemory.Latest: the final tie-break on ids under `localeCompare` is not stated as a property. The comparator (`src/app/memorypopup/page.tsx:40-48`) is also not transitive when only some candidates have a creation time. For example, take A (created at 2, no date, id "a"), B (no creation time, date 10, id "b") and C (created at 1, date 20, id "c"). A goes before C by creation time, C before B by date, and B before A by id: a cycle. On [A, B, C] the model's stable insertion sort opens A. V8 finds a descending run and reverses it, so the program may open C. The lemmas about `Latest` assume candidates that all have creation times, or none do.
- MemoryUpload.Upload: a malformed people field answers 500 with the fixed text "upload failed", where the handler returns the parser's own message.
- MemoryUpload.Upload: the handler's catch-all (`src/app/api/memory/upload/route.ts:90-93`) also answers 500 when a service or write throws: writing the image file, the caption, the text embedding, the face service, or the final upsert (lines 43-58 and 87). The model's services are replies that always answer and its writes always succeed, so it has no such case. When the upsert throws after the image was written, the program leaves an image file with no item.
- MemoryUpload.PeopleOf: a `people` field that parses to JSON other than a list (a string, an object, a number) is not modelled; the model reads a people field as absent, a list, or text that does not parse. In the program such a value is stored as it is when it has a non-zero `length` (a string, say), and dropped otherwise.
- Invite.NotifyPost: the handler's catch-all (`src/app/api/memory/notify/route.ts:91-94`) answers 500 whenever something throws. This happens for a body that is not JSON or is `null` (line 32), for a stored person whose `contactNumber` is truthy but not a string, where `.trim` throws (line 43), and for an `event` that is not a string (line 73). It also happens when writing a token fails after earlier tokens were written; the program then answers 500 with the store already changed. The model reads the request and the stored item as typed values and its token writes always succeed, so in the model only the successful answer changes the token store.
- JsRecord.Get, ItemStore.ListByPatient, Notify.GetToken, Notify.ConsumeToken and ScheduleTypes.ScheduleOf: the stores are plain JavaScript objects, so a lookup also finds inherited members (`src/lib/db.ts:22,31`, `src/lib/notify.ts:42,47`, `src/app/api/schedule/route.ts:29,107`, `src/lib/tools.ts:51`). For the key "constructor", `db[key]` is the `Object` function: `listByPatient` returns it, `.filter` on it throws, and `consumeToken("constructor")` answers true. Writing under `__proto__` replaces the prototype and is lost when the store is saved. Keys that name `Object.prototype` members, and `__proto__`, are not modelled; the model finds a key exactly when it is stored.
- Notify.CreateToken: the record's `createdAt` is the `now` the caller passes in. `src/lib/notify.ts:35` reads the clock again, so in the program it can be a few milliseconds after the `now` the route used for `expiresAt`.
- ScheduleRoute.Merge: a patch field is present or absent. A JSON `null` in the request is copied over the stored value by the spread at `src/app/api/schedule/route.ts:84`, and the model cannot express it.
- Layouts, navigation bars, tabs, message bubbles, the recorder, the home and doctor pages and `prompts.ts` are pure UI and are not modelled. The face service, CLIP embeddings and the speech-to-text route are not part of this model.

## Findings

| source | as written | input that shows it | evidently intended | confidence | as-written member | corrected member |
|---|---|---|---|---|---|---|
| dementia-assistant/src/lib/tools.ts:160-175 | the leftmost day/month match is taken even when its word is not a month, and then no date is returned | "from 7 june": "from 7" matches first, "from" is no month, so the lookup finds no date | the first day/month phrase whose word is a month is used, giving June 7 of the current year | medium, not executed | DateLookup.FromPhraseAsWritten | DateLookup.FromPhraseCorrected |

The chat's date tool runs `getMemoriesByDate` as written, so it answers "from 7 june" with no memories (`MemoryByDate.FromSevenJuneMemories`). `MemoryByDate.MemoriesByDateCorrected` is the same search over the corrected lookup.

=== FILE: chat_images.dfy ===
/** Image references in the chat: the URL clean-up the chat route and the
    chat panel share, the "IMG: <url>" hint lines the panel reads out of a
    reply, and the panel's final list of distinct, non-empty image URLs. */
module ChatImages {
  import opened Wrappers
  import opened Strings
  import opened Seqs

  /** `s.replace(/^p/i, "")` for a lower-case prefix `p`: the prefix goes
      exactly when `s` starts with it in any case. */
  function StripPrefixIgnoringCase(s: string, p: string): (r: string)
    ensures |r| <= |s| && r == s[|s| - |r|..]
    ensures |p| <= |s| && Lower(s[..|p|]) == p ==> r == s[|p|..]
    ensures !(|p| <= |s| && Lower(s[..|p|]) == p) ==> r == s
  {
    if |p| <= |s| && Lower(s[..|p|]) == p then s[|p|..] else s
  }

  /** An absolute web URL or a site-relative path. */
  predicate IsRooted(u: string)
  {
    StartsWith(u, "http://") || StartsWith(u, "https://") || StartsWith(u, "/")
  }

  /** A reference that starts with neither 'h' nor '/' is not rooted. */
  lemma NotRooted(x: string)
    requires x != [] && x[0] != 'h' && x[0] != '/'
    ensures !IsRooted(x)
  {
    if IsRooted(x) {
      RootedHead(x);
    }
  }

  /** A rooted URL begins with 'h' or '/'. */
  lemma RootedHead(u: string)
    requires IsRooted(u)
    ensures u[0] == 'h' || u[0] == '/'
  {
    if StartsWith(u, "http://") {
      assert u[..7][0] == u[0];
    } else if StartsWith(u, "https://") {
      assert u[..8][0] == u[0];
    } else {
      assert u[..1][0] == u[0];
    }
  }

  /** The last character of a trimmed, non-empty string is not white space. */
  lemma TrimmedEnd(u: string)
    requires Trim(u) != []
    ensures !IsSpace(Trim(u)[|Trim(u)| - 1])
  {
  }

  /** Trim, then drop one leading "sandbox:" and then one leading
      "file://", in any case. */
  function Stripped(u: string): (x: string)
    ensures x == [] || !IsSpace(x[|x| - 1])
  {
    var t := Trim(u);
    var x := StripPrefixIgnoringCase(StripPrefixIgnoringCase(t, "sandbox:"), "file://");
    assert x != [] ==> !IsSpace(x[|x| - 1]) by {
      if x != [] {
        assert x[|x| - 1] == t[|t| - 1];
        TrimmedEnd(u);
      }
    }
    x
  }

  /** A "/" in front of anything not already rooted. */
  function Rooted(x: string): (r: string)
    requires x == [] || !IsSpace(x[|x| - 1])
    ensures IsRooted(r) && (IsRooted(x) ==> r == x)
    ensures !IsRooted(x) ==> r == "/" + x
    ensures r[0] == 'h' || r[0] == '/'
    ensures !IsSpace(r[|r| - 1])
  {
    var r := if IsRooted(x) then x else "/" + x;
    assert r[|r| - 1] == if x == [] then '/' else x[|x| - 1];
    assert IsRooted(r) by {
      if !IsRooted(x) {
        assert r[..1] == "/";
      }
    }
    RootedHead(r);
    r
  }

  /** The clean-up both `sanitizeUrl`s apply to a non-empty reference. */
  function Clean(u: string): (r: string)
    ensures IsRooted(r)
    ensures r[0] == 'h' || r[0] == '/'
    ensures !IsSpace(r[|r| - 1])
  {
    var x := Stripped(u);
    Rooted(x)
  }

  /** The chat panel's `sanitizeUrl`: "" stays "", anything else is cleaned. */
  function SanitizeUrl(u: string): (r: string)
    ensures r == "" <==> u == ""
    ensures u != "" ==> IsRooted(r)
    ensures u != "" ==> r == Clean(u)
  {
    if u == "" then "" else Clean(u)
  }

  /** A prefix that starts with neither 'h' nor '/' is never found at the
      head of a rooted URL. */
  lemma NoStripWhenRooted(v: string, p: string)
    requires v != [] && (v[0] == 'h' || v[0] == '/')
    requires |p| > 0 && p[0] != 'h' && p[0] != '/'
    ensures StripPrefixIgnoringCase(v, p) == v
  {
    if |p| <= |v| {
      assert Lower(v[..|p|])[0] == LowerChar(v[0]);
    }
  }

  /** A prefix whose first letter the string does not start with, in any
      case, is not stripped. */
  lemma NoStripOtherHead(v: string, p: string)
    requires v != [] && |p| > 0 && LowerChar(v[0]) != p[0]
    ensures StripPrefixIgnoringCase(v, p) == v
  {
    if |p| <= |v| {
      assert Lower(v[..|p|])[0] == LowerChar(v[0]);
    }
  }

  /** "sandbox:", in any case, in front of a clean reference is dropped. */
  lemma CleanDropsSandbox(q: string, v: string)
    requires |q| == 8 && Lower(q) == "sandbox:"
    requires IsRooted(v) && (v[0] == 'h' || v[0] == '/') && !IsSpace(v[|v| - 1])
    ensures Clean(q + v) == v
  {
    var t := q + v;
    assert t[..8] == q && t[8..] == v;
    assert !IsSpace(t[0]) by {
      assert LowerChar(q[0]) == 's';
    }
    assert t[|t| - 1] == v[|v| - 1];
    TrimOfTrimmed(t);
    NoStripWhenRooted(v, "file://");
  }

  /** "file://", in any case, in front of a clean reference is dropped. */
  lemma CleanDropsFile(q: string, v: string)
    requires |q| == 7 && Lower(q) == "file://"
    requires IsRooted(v) && (v[0] == 'h' || v[0] == '/') && !IsSpace(v[|v| - 1])
    ensures Clean(q + v) == v
  {
    var t := q + v;
    assert t[..7] == q && t[7..] == v;
    assert LowerChar(t[0]) == 'f' by {
      assert Lower(q)[0] == LowerChar(q[0]);
    }
    assert t[|t| - 1] == v[|v| - 1];
    TrimOfTrimmed(t);
    NoStripOtherHead(t, "sandbox:");
  }

  /** A reference that is not rooted and starts with neither scheme gets a
      "/" in front. */
  lemma CleanRootsRelative(x: string)
    requires x != [] && !IsSpace(x[0]) && !IsSpace(x[|x| - 1]) && !IsRooted(x)
    requires LowerChar(x[0]) != 's' && LowerChar(x[0]) != 'f'
    ensures Clean(x) == "/" + x
  {
    TrimOfTrimmed(x);
    NoStripOtherHead(x, "sandbox:");
    NoStripOtherHead(x, "file://");
  }

  /** A sandbox path, as the chat meets it, loses its scheme. */
  lemma CleanSandboxExample()
    ensures Clean("sandbox:/memory/a.jpg") == "/memory/a.jpg"
  {
    var v := "/memory/a.jpg";
    assert "sandbox:/memory/a.jpg" == "sandbox:" + v;
    assert v[..1] == "/";
    CleanDropsSandbox("sandbox:", v);
  }

  /** A bare store path gains its leading "/". */
  lemma CleanRelativeExample()
    ensures Clean("memory/a.jpg") == "/memory/a.jpg"
  {
    var x := "memory/a.jpg";
    assert "/" + x == "/memory/a.jpg";
    assert x[0] == 'm' && x[|x| - 1] == 'g';
    NotRooted(x);
    CleanRootsRelative(x);
  }

  /** A cleaned URL passes through the clean-up unchanged. */
  lemma CleanIsFixed(u: string)
    ensures Clean(Clean(u)) == Clean(u)
  {
    CleanOfClean(Clean(u));
  }

  /** A rooted reference without surrounding white space is already clean. */
  lemma CleanOfClean(v: string)
    requires IsRooted(v) && (v[0] == 'h' || v[0] == '/') && !IsSpace(v[|v| - 1])
    ensures Clean(v) == v
  {
    StrippedOfClean(v);
  }

  /** A clean reference has nothing to trim or strip. */
  lemma StrippedOfClean(v: string)
    requires v != [] && (v[0] == 'h' || v[0] == '/') && !IsSpace(v[|v| - 1])
    ensures Stripped(v) == v
  {
    assert !IsSpace(v[0]);
    TrimOfTrimmed(v);
    NoStripWhenRooted(v, "sandbox:");
    NoStripWhenRooted(v, "file://");
  }

  /** Sanitising twice is sanitising once. */
  lemma SanitizeIdempotent(u: string)
    ensures SanitizeUrl(SanitizeUrl(u)) == SanitizeUrl(u)
  {
    if u != "" {
      CleanIsFixed(u);
    }
  }

  /** No line terminator that the regular expression `.` refuses to match. */
  predicate OnOneLine(s: string)
  {
    forall i :: 0 <= i < |s| ==> s[i] != '\n' && s[i] != '\r' && s[i] != '\U{2028}' && s[i] != '\U{2029}'
  }

  /** `line.trim().match(/^img:\s*(.+)$/i)`, then `m[1].trim()`. The
      pattern matches exactly when the trimmed line starts "img:" in any
      case and what follows, once `\s*` has taken the leading white space
      (line breaks included), is non-empty and on one line; the hint is that
      rest, trimmed. */
  function ImgHint(line: string): (r: Option<string>)
    ensures r.Some? <==>
              |Trim(line)| > 4 && Lower(Trim(line)[..4]) == "img:" && OnOneLine(TrimStart(Trim(line)[4..]))
    ensures r.Some? ==> StartsWith(Lower(Trim(line)), "img:") && OnOneLine(r.value)
    ensures r.Some? ==> r.value == Trim(Trim(line)[4..])
    ensures !StartsWith(Lower(Trim(line)), "img:") ==> r.None?
  {
    var t := Trim(line);
    if |t| > 4 && Lower(t[..4]) == "img:" && OnOneLine(TrimStart(t[4..])) then
      LowerPrefix(t, 4);
      TrimStartKeepsOneLine(t[4..]);
      Some(Trim(t[4..]))
    else None
  }

  /** Every slice of a one-line string is on one line. */
  lemma OneLineSlice(s: string, i: nat, j: nat)
    requires OnOneLine(s) && i <= j <= |s|
    ensures OnOneLine(s[i..j])
  {
    assert forall k :: 0 <= k < j - i ==> s[i..j][k] == s[i + k];
  }

  /** Trimming the end of a string whose start is trimmed keeps it on one line. */
  lemma TrimStartKeepsOneLine(s: string)
    requires OnOneLine(TrimStart(s))
    ensures OnOneLine(Trim(s))
  {
    var a := TrimStart(s);
    OneLineSlice(a, 0, |TrimEnd(a)|);
  }

  lemma TrimKeepsOneLine(s: string)
    requires OnOneLine(s)
    ensures OnOneLine(Trim(s))
  {
    var a := TrimStart(s);
    OneLineSlice(s, |s| - |a|, |s|);
    var b := TrimEnd(a);
    OneLineSlice(a, 0, |b|);
    assert Trim(s) == a[0..|b|];
  }

  /** One space in front of a trimmed string trims away. */
  lemma TrimLeadingSpace(u: string)
    requires u != [] && !IsSpace(u[0]) && !IsSpace(u[|u| - 1])
    ensures Trim(" " + u) == u
  {
    assert (" " + u)[1..] == u;
    assert TrimStart(" " + u) == u;
  }

  /** A trimmed line that starts with the marker yields what follows it, trimmed. */
  lemma ImgHintOfTrimmed(line: string)
    requires Trim(line) == line && |line| > 4 && Lower(line[..4]) == "img:" && OnOneLine(line[4..])
    ensures ImgHint(line) == Some(Trim(line[4..]))
  {
    TrimStartOnOneLine(line[4..]);
  }

  lemma TrimStartOnOneLine(s: string)
    requires OnOneLine(s)
    ensures OnOneLine(TrimStart(s))
  {
    OneLineSlice(s, |s| - |TrimStart(s)|, |s|);
  }

  /** The line the chat route appends is read back as its URL. */
  lemma HintOfMarker(u: string)
    requires u != [] && !IsSpace(u[0]) && !IsSpace(u[|u| - 1]) && OnOneLine(u)
    ensures ImgHint("IMG: " + u) == Some(u)
  {
    MarkerLine(u);
    ImgHintOfTrimmed("IMG: " + u);
  }

  /** The marker line is trimmed, starts "img:" in any case, and what
      follows is one line that trims to the URL. */
  lemma MarkerLine(u: string)
    requires u != [] && !IsSpace(u[0]) && !IsSpace(u[|u| - 1]) && OnOneLine(u)
    ensures var line := "IMG: " + u;
      && Trim(line) == line && |line| > 4 && Lower(line[..4]) == "img:"
      && OnOneLine(line[4..]) && Trim(line[4..]) == u
  {
    var line := "IMG: " + u;
    assert line[|line| - 1] == u[|u| - 1];
    TrimOfTrimmed(line);
    var rest := line[4..];
    assert rest == " " + u;
    TrimLeadingSpace(u);
    assert OnOneLine(rest) by {
      assert forall i :: 1 <= i < |rest| ==> rest[i] == u[i - 1];
    }
    assert Lower(line[..4]) == "img:" by {
      assert line[..4] == "IMG:";
    }
  }

  /** The values present in a list of options, in order. */
  function Somes(xs: seq<Option<string>>): (r: seq<string>)
    ensures forall u :: u in r <==> Some(u) in xs
  {
    if |xs| == 0 then []
    else
      assert forall x :: x in xs <==> x == xs[0] || x in xs[1..];
      (if xs[0].Some? then [xs[0].value] else []) + Somes(xs[1..])
  }

  /** What each line yields as a hint. */
  function LineHints(lines: seq<string>): (hs: seq<Option<string>>)
    ensures |hs| == |lines| && forall i :: 0 <= i < |lines| ==> hs[i] == ImgHint(lines[i])
  {
    seq(|lines|, i requires 0 <= i < |lines| => ImgHint(lines[i]))
  }

  /** The hint URLs of the lines, in order. */
  function HintsOf(lines: seq<string>): (r: seq<string>)
    ensures forall u :: u in r <==> Some(u) in LineHints(lines)
  {
    Somes(LineHints(lines))
  }

  /** A URL is a hint exactly when some line yields it. */
  lemma HintsOfLines(lines: seq<string>, u: string)
    ensures u in HintsOf(lines) <==> exists i :: 0 <= i < |lines| && ImgHint(lines[i]) == Some(u)
  {
    var hs := LineHints(lines);
    if u in HintsOf(lines) {
      var i :| 0 <= i < |hs| && hs[i] == Some(u);
      assert ImgHint(lines[i]) == Some(u);
    }
  }

  /** The hint URLs of a reply. Splitting on single newlines instead of runs
      of them only adds empty lines, which never hold a hint. */
  function Hints(text: string): seq<string>
  {
    HintsOf(Split(text, '\n'))
  }

  /** `urls.map(sanitizeUrl)`. */
  function SanitizeAll(urls: seq<string>): (r: seq<string>)
    ensures |r| == |urls| && forall i :: 0 <= i < |urls| ==> r[i] == SanitizeUrl(urls[i])
  {
    seq(|urls|, i requires 0 <= i < |urls| => SanitizeUrl(urls[i]))
  }

  /** `urls.map(sanitizeUrl).filter(Boolean)`. */
  function Sanitized(urls: seq<string>): (r: seq<string>)
    ensures forall u :: u in r <==> u != "" && exists i :: 0 <= i < |urls| && SanitizeUrl(urls[i]) == u
  {
    var all := SanitizeAll(urls);
    forall u ensures u in all <==> exists i :: 0 <= i < |urls| && SanitizeUrl(urls[i]) == u {
      if u in all {
        var i :| 0 <= i < |all| && all[i] == u;
        assert SanitizeUrl(urls[i]) == u;
      }
    }
    Filter(all, NonEmpty)
  }

  /** Sanitising keeps order: it distributes over concatenation. */
  lemma SanitizedSplits(a: seq<string>, b: seq<string>)
    ensures Sanitized(a + b) == Sanitized(a) + Sanitized(b)
  {
    SanitizeAllSplits(a, b);
    FilterConcat(SanitizeAll(a), SanitizeAll(b), NonEmpty);
  }

  lemma SanitizeAllSplits(a: seq<string>, b: seq<string>)
    ensures SanitizeAll(a + b) == SanitizeAll(a) + SanitizeAll(b)
  {
  }

  predicate NonEmpty(u: string)
  {
    u != ""
  }

  /** The panel's image list from the hint, markdown and bare URLs: each
      sanitised, empties dropped, then only the first of equal URLs kept. */
  function ImageList(hints: seq<string>, markdown: seq<string>, bare: seq<string>): (r: seq<string>)
    ensures NoDuplicates(r)
    ensures "" !in r
    ensures forall u :: u in r <==> u in Sanitized(hints + markdown + bare)
    ensures forall i, j :: 0 <= i < j < |r| ==>
              FirstIndex(Sanitized(hints + markdown + bare), r[i]) < FirstIndex(Sanitized(hints + markdown + bare), r[j])
  {
    var all := Sanitized(hints + markdown + bare);
    DedupFirstOccurrenceOrder(all);
    Dedup(all)
  }

  /** A first URL that survives sanitising heads the sanitised list. */
  lemma SanitizedHead(urls: seq<string>)
    requires |urls| > 0 && urls[0] != ""
    ensures |Sanitized(urls)| > 0 && Sanitized(urls)[0] == SanitizeUrl(urls[0])
  {
    var raw := SanitizeAll(urls);
    assert NonEmpty(raw[0]);
    assert Sanitized(urls) == Filter(raw, NonEmpty);
    assert Filter(raw, NonEmpty) == [raw[0]] + Filter(raw[1..], NonEmpty);
  }

  /** The first hint, when it survives sanitising, heads the image list. */
  lemma FirstHintFirst(hints: seq<string>, markdown: seq<string>, bare: seq<string>)
    requires |hints| > 0 && hints[0] != ""
    ensures |ImageList(hints, markdown, bare)| > 0
    ensures ImageList(hints, markdown, bare)[0] == SanitizeUrl(hints[0])
  {
    var urls := hints + markdown + bare;
    assert urls[0] == hints[0];
    SanitizedHead(urls);
    DedupHead(Sanitized(urls));
  }

  lemma StripKeepsOneLine(s: string, p: string)
    requires OnOneLine(s)
    ensures OnOneLine(StripPrefixIgnoringCase(s, p))
  {
    var x := StripPrefixIgnoringCase(s, p);
    OneLineSlice(s, |s| - |x|, |s|);
  }

  /** The clean-up adds no line break to a one-line reference. */
  lemma CleanOnOneLine(u: string)
    requires OnOneLine(u)
    ensures OnOneLine(Clean(u))
  {
    StrippedOnOneLine(u);
    RootedOnOneLine(Stripped(u));
  }

  lemma StrippedOnOneLine(u: string)
    requires OnOneLine(u)
    ensures OnOneLine(Stripped(u))
  {
    var t := Trim(u);
    TrimKeepsOneLine(u);
    var a := StripPrefixIgnoringCase(t, "sandbox:");
    StripKeepsOneLine(t, "sandbox:");
    StripKeepsOneLine(a, "file://");
  }

  lemma RootedOnOneLine(x: string)
    requires x == [] || !IsSpace(x[|x| - 1])
    requires OnOneLine(x)
    ensures OnOneLine(Rooted(x))
  {
    var r := Rooted(x);
    if !IsRooted(x) {
      assert r == "/" + x;
      assert forall i :: 1 <= i < |r| ==> r[i] == x[i - 1];
    }
  }

  /** The marker line appended after a blank line is the reply's last line,
      and it is read back as its URL. */
  lemma MarkerIsHint(c: string, url: string)
    requires url != [] && (url[0] == 'h' || url[0] == '/') && !IsSpace(url[|url| - 1]) && OnOneLine(url)
    ensures url in Hints(c + "\n\nIMG: " + url)
  {
    var line := "IMG: " + url;
    var s := (c + "\n") + ['\n'] + line;
    assert c + "\n\nIMG: " + url == s;
    assert '\n' !in line by {
      assert forall i :: 5 <= i < |line| ==> line[i] == url[i - 5];
    }
    SplitLast(c + "\n", line, '\n');
    var lines := Split(s, '\n');
    assert lines[|lines| - 1] == line;
    HintOfMarker(url);
    HintsOfLines(lines, url);
  }

  /** A hint that sanitising leaves as it is, and not empty, is listed. */
  lemma SanitizedHintListed(hints: seq<string>, markdown: seq<string>, bare: seq<string>, url: string)
    requires url in hints && url != "" && SanitizeUrl(url) == url
    ensures url in ImageList(hints, markdown, bare)
  {
    var urls := hints + markdown + bare;
    var k :| 0 <= k < |hints| && hints[k] == url;
    assert urls[k] == url;
  }
}

=== FILE: chat_route.dfy ===
/** The chat endpoint (`POST /api/chat`): validate the body, let the model
    choose at most one tool, run that tool for the request's own patient,
    let the model answer with the tool's result, mark a memory photo for the
    chat panel, and log the exchange with its triage. The two model
    completions and the triage model's reply are parameters; so are the
    patient contexts. */
module ChatRoute {
  import opened Wrappers
  import opened Strings
  import opened Seqs
  import opened JsRecord
  import opened MemoryTypes
  import opened MemoryByDate
  import opened ScheduleTypes
  import opened ChatImages
  import ScheduleTools
  import Triage
  import Logs

  datatype Role = SystemRole | UserRole | AssistantRole | ToolRole

  function RoleName(r: Role): string
  {
    match r
    case SystemRole => "system"
    case UserRole => "user"
    case AssistantRole => "assistant"
    case ToolRole => "tool"
  }

  /** `z.enum(["system", "user", "assistant", "tool"])`. */
  function RoleOf(s: string): (r: Option<Role>)
    ensures r.Some? ==> RoleName(r.value) == s
    ensures forall x :: RoleName(x) == s ==> r == Some(x)
  {
    if s == "system" then Some(SystemRole)
    else if s == "user" then Some(UserRole)
    else if s == "assistant" then Some(AssistantRole)
    else if s == "tool" then Some(ToolRole)
    else None
  }

  /** A field the schema declares `z.string().optional()`: absent, a string,
      or some other JSON value. */
  datatype OptionalText = Absent | Text(text: string) | NotText

  /** The string an optional text field holds, if any. */
  function TextOf(f: OptionalText): (r: Option<string>)
    ensures r.Some? <==> f.Text?
    ensures r.Some? ==> r.value == f.text
  {
    if f.Text? then Some(f.text) else None
  }

  /** The field a client writes for an optional string. */
  function FieldOf(o: Option<string>): (f: OptionalText)
    ensures !f.NotText?
    ensures TextOf(f) == o
  {
    if o.Some? then Text(o.value) else Absent
  }

  /** A message as sent: its role text (a missing or non-string role is any
      text outside the enum), its content, `None` when that is missing or
      not a string, and its optional `name`. */
  datatype RawMessage = RawMessage(role: string, content: Option<string>, name: OptionalText)

  /** The JSON body as far as the schema looks at it. */
  datatype RawBody = RawBody(patientId: Option<string>, tz: OptionalText, messages: Option<seq<RawMessage>>)

  datatype Message = Message(role: Role, content: string, name: Option<string>)

  /** A body the schema accepted. */
  datatype ChatBody = ChatBody(patientId: string, tz: Option<string>, messages: seq<Message>)

  predicate WellFormed(m: RawMessage)
  {
    RoleOf(m.role).Some? && m.content.Some? && !m.name.NotText?
  }

  function ParseMessage(m: RawMessage): (r: Message)
    requires WellFormed(m)
    ensures RoleName(r.role) == m.role && r.content == m.content.value
    ensures FieldOf(r.name) == m.name
  {
    Message(RoleOf(m.role).value, m.content.value, TextOf(m.name))
  }

  function ParseMessages(ms: seq<RawMessage>): (r: seq<Message>)
    requires forall i :: 0 <= i < |ms| ==> WellFormed(ms[i])
    ensures |r| == |ms| && forall i :: 0 <= i < |ms| ==> r[i] == ParseMessage(ms[i])
  {
    seq(|ms|, i requires 0 <= i < |ms| && WellFormed(ms[i]) => ParseMessage(ms[i]))
  }

  /** `BodySchema.safeParse(json)`, where `None` is a body that is not a JSON
      object: a patient id of at least three characters, a string `tz` if
      any, and at least one message, every one with a role from the enum, a
      string content and a string `name` if any. */
  function ParseBody(json: Option<RawBody>): (r: Option<ChatBody>)
    ensures r.Some? <==>
              && json.Some? && json.value.patientId.Some? && |json.value.patientId.value| >= 3
              && !json.value.tz.NotText?
              && json.value.messages.Some? && |json.value.messages.value| >= 1
              && forall i :: 0 <= i < |json.value.messages.value| ==> WellFormed(json.value.messages.value[i])
    ensures r.Some? ==> r.value.patientId == json.value.patientId.value
  {
    if json.Some? && json.value.patientId.Some? && |json.value.patientId.value| >= 3
       && !json.value.tz.NotText?
       && json.value.messages.Some? && |json.value.messages.value| >= 1
       && forall i :: 0 <= i < |json.value.messages.value| ==> WellFormed(json.value.messages.value[i])
    then
      var b := json.value;
      Some(ChatBody(b.patientId.value, TextOf(b.tz), ParseMessages(b.messages.value)))
    else None
  }

  /** The JSON a client sends for an accepted body. */
  function ToRaw(b: ChatBody): RawBody
  {
    RawBody(Some(b.patientId), FieldOf(b.tz),
            Some(seq(|b.messages|, i requires 0 <= i < |b.messages| =>
                       RawMessage(RoleName(b.messages[i].role), Some(b.messages[i].content), FieldOf(b.messages[i].name)))))
  }

  /** Every body with a long enough patient id and at least one message is
      accepted, and parsing gives it back. */
  lemma ParseToRaw(b: ChatBody)
    requires |b.patientId| >= 3 && |b.messages| >= 1
    ensures ParseBody(Some(ToRaw(b))) == Some(b)
  {
    var raw := ToRaw(b).messages.value;
    forall i | 0 <= i < |raw| ensures WellFormed(raw[i]) && RoleOf(raw[i].role) == Some(b.messages[i].role) {
      assert RoleName(b.messages[i].role) == raw[i].role;
    }
    var r := ParseBody(Some(ToRaw(b))).value;
    assert r.messages == b.messages;
  }

  /** Parsing loses nothing the schema looks at: an accepted body is exactly
      the JSON of what was parsed. */
  lemma RawOfParse(json: Option<RawBody>)
    requires ParseBody(json).Some?
    ensures json == Some(ToRaw(ParseBody(json).value))
  {
    var b := ParseBody(json).value;
    var ms := json.value.messages.value;
    assert ToRaw(b).messages.value == ms;
  }

  predicate Forwarded(m: Message)
  {
    m.role != ToolRole
  }

  /** The client history forwarded to the model in both rounds: every
      message except "tool" turns, in order. */
  function History(ms: seq<Message>): (r: seq<Message>)
    ensures forall i :: 0 <= i < |r| ==> r[i].role != ToolRole
    ensures forall m :: m in r <==> m in ms && m.role != ToolRole
  {
    Filter(ms, Forwarded)
  }

  /** Forwarding keeps the order of the history: it distributes over
      concatenation. */
  lemma HistorySplits(a: seq<Message>, b: seq<Message>)
    ensures History(a + b) == History(a) + History(b)
  {
    FilterConcat(a, b, Forwarded);
  }

  /** A history without tool turns is forwarded whole. */
  lemma HistoryWithoutToolTurns(ms: seq<Message>)
    requires forall i :: 0 <= i < |ms| ==> ms[i].role != ToolRole
    ensures History(ms) == ms
  {
    FilterAll(ms, Forwarded);
  }

  /** What `retrieveContext` knows of a patient (`CONTEXT[id] || {}`). */
  datatype PatientContext = PatientContext(home: Option<Place>, emergencyContacts: seq<string>)

  /** The tool call's arguments as `safeJSON` yields them; text that does
      not parse gives none. */
  datatype ToolArgs = ToolArgs(patientId: Option<string>, dateQuery: Option<string>)

  /** The first completion: a plain answer, or a call of a named tool (only
      the first call of several is run). */
  datatype FirstReply = Answer(content: Option<string>) | CallTool(name: string, args: ToolArgs)

  /** What the tools read: the schedule store and the local clock, the
      patient contexts, the memory store and the clock readings the date
      lookup takes. */
  datatype World = World(
    schedules: ScheduleDB,
    localNow: int,
    contexts: string -> PatientContext,
    memories: MemoryDB,
    utcNowIso: string,
    year: nat)

  datatype ToolResult =
    | ScheduleResult(schedule: ScheduleTools.Schedule)
    | ContextResult(context: PatientContext)
    | NavResult(target: ScheduleTools.NavTarget)
    | AlertSent(alert: ScheduleTools.AlertResult)
    | MemoriesFound(results: seq<MemorySummary>, summary: string)
    | NoMemories
    | UnknownTool(error: string)

  /** The `meta` the route returns and logs. The navigation link itself is
      not modelled, only that there is one and the destination it names. */
  datatype Meta =
    | NoMeta
    | NavMeta(destination: string)
    | AlertMeta(emergencyNotified: bool, contactsCount: nat)
    | ImageMeta(imageUrl: Option<string>)

  /** A tool either throws, which fails the request, or answers. */
  datatype ToolRun = Threw | Ran(result: ToolResult, meta: Meta)

  /** One person as the summary names them: "name (relation)", or just the
      name when the relation is missing or empty. */
  function PersonLabel(p: PersonTag): (s: string)
    ensures Truthy(p.relation) ==> s == p.name + " (" + p.relation.value + ")"
    ensures !Truthy(p.relation) ==> s == p.name
  {
    if Truthy(p.relation) then p.name + " (" + p.relation.value + ")" else p.name
  }

  function Labels(ps: seq<PersonTag>): (r: seq<string>)
    ensures |r| == |ps| && forall i :: 0 <= i < |ps| ==> r[i] == PersonLabel(ps[i])
  {
    seq(|ps|, i requires 0 <= i < |ps| => PersonLabel(ps[i]))
  }

  /** The people of the summary, joined with ", ". */
  function PeopleText(ps: seq<PersonTag>): string
  {
    Join(Labels(ps), ", ")
  }

  /** The people part is empty only for no people, or for one person whose
      label is empty. */
  lemma PeopleTextEmpty(ps: seq<PersonTag>)
    ensures PeopleText(ps) == "" <==> |ps| == 0 || (|ps| == 1 && PersonLabel(ps[0]) == "")
  {
    var ls := Labels(ps);
    if |ps| >= 2 {
      assert Join(ls, ", ") == ls[0] + ", " + Join(ls[1..], ", ");
    }
  }

  /** `${event || "Memory"} on ${eventDate}`. */
  function SummaryHead(top: MemorySummary): string
  {
    (if top.event != "" then top.event else "Memory") + " on " + top.eventDate.GetOr("undefined")
  }

  /** The date tool's one-line summary of the newest memory: the head, then
      " at <place>" when there is a place, then " — with <people>" when the
      people text is not empty. */
  function DateSummary(top: MemorySummary): (s: string)
    ensures StartsWith(s, SummaryHead(top))
    ensures Truthy(top.place) ==> StartsWith(s[|SummaryHead(top)|..], " at " + top.place.value)
    ensures PeopleText(top.people) != "" ==> EndsWith(s, " — with " + PeopleText(top.people))
    ensures PeopleText(top.people) == "" && Truthy(top.place) ==> EndsWith(s, " at " + top.place.value)
    ensures PeopleText(top.people) == "" && !Truthy(top.place) ==> s == SummaryHead(top)
  {
    var head := SummaryHead(top);
    var at := if Truthy(top.place) then " at " + top.place.value else "";
    var with := if PeopleText(top.people) != "" then " — with " + PeopleText(top.people) else "";
    assert (head + at + with)[..|head|] == head;
    assert (head + at + with)[|head|..] == at + with;
    assert (at + with)[..|at|] == at;
    head + at + with
  }

  /** A memory with no place and one person with a relation. */
  lemma SummaryWithOnePerson(top: MemorySummary, name: string, relation: string)
    requires top.event != "" && top.eventDate.Some? && !Truthy(top.place)
    requires relation != "" && top.people == [PersonTag(name, Some(relation), None)]
    ensures DateSummary(top) == top.event + " on " + top.eventDate.value + " — with " + name + " (" + relation + ")"
  {
    assert Labels(top.people) == [name + " (" + relation + ")"];
  }

  /** The route's own `sanitizeUrl` on the photo path: nothing for a missing
      or empty path, the cleaned path otherwise. */
  function RouteImageUrl(u: Option<string>): (r: Option<string>)
    ensures r.None? <==> !Truthy(u)
    ensures r.Some? ==> IsRooted(r.value) && SanitizeUrl(r.value) == r.value
  {
    if Truthy(u) then
      CleanIsFixed(u.value);
      Some(Clean(u.value))
    else None
  }

  /** The schedule lookup both schedule tools start from. */
  function ScheduleNow(pid: string, w: World): ScheduleTools.Schedule
  {
    ScheduleTools.CurrentSchedule(ScheduleOf(w.schedules, pid), w.localNow)
  }

  /** Run the named tool for patient `pid`. */
  function RunTool(name: string, args: ToolArgs, pid: string, w: World): (r: ToolRun)
    ensures r.Threw? <==>
              (name == "getCurrentSchedule" || name == "getNavigationTarget") && ScheduleNow(pid, w).InvalidNext?
    ensures name !in {"getCurrentSchedule", "retrieveContext", "getNavigationTarget", "sendEmergencyAlert", "getMemoriesByDate"} ==>
              r == Ran(UnknownTool("Unknown tool: " + name), NoMeta)
    ensures r.Ran? && r.meta.NavMeta? <==>
              name == "getNavigationTarget" && r.Ran? && r.result.NavResult? && r.result.target.found
    ensures r.Ran? && r.meta.AlertMeta? <==> name == "sendEmergencyAlert"
    ensures name == "sendEmergencyAlert" ==>
              r.meta == AlertMeta(|w.contexts(pid).emergencyContacts| > 0, |w.contexts(pid).emergencyContacts|)
    ensures name == "getMemoriesByDate" ==>
              var results := MemoriesByDate(w.memories, pid, Blank(args.dateQuery), w.utcNowIso, w.year);
              && (|results| == 0 ==> r == Ran(NoMemories, NoMeta))
              && (|results| > 0 ==> r == Ran(MemoriesFound(results, DateSummary(results[0])), ImageMeta(RouteImageUrl(Some(results[0].storagePath)))))
  {
    if name == "getCurrentSchedule" then
      var s := ScheduleNow(pid, w);
      if s.InvalidNext? then Threw else Ran(ScheduleResult(s), NoMeta)
    else if name == "retrieveContext" then
      Ran(ContextResult(w.contexts(pid)), NoMeta)
    else if name == "getNavigationTarget" then
      match ScheduleTools.NavigationTarget(ScheduleNow(pid, w), w.contexts(pid).home)
      case None => Threw
      case Some(t) => Ran(NavResult(t), if t.found then NavMeta(t.text) else NoMeta)
    else if name == "sendEmergencyAlert" then
      var a := ScheduleTools.EmergencyAlert(w.contexts(pid).emergencyContacts);
      Ran(AlertSent(a), AlertMeta(a.notified, a.contactsCount))
    else if name == "getMemoriesByDate" then
      var results := MemoriesByDate(w.memories, pid, Blank(args.dateQuery), w.utcNowIso, w.year);
      if |results| > 0 then
        Ran(MemoriesFound(results, DateSummary(results[0])), ImageMeta(RouteImageUrl(Some(results[0].storagePath))))
      else Ran(NoMemories, NoMeta)
    else Ran(UnknownTool("Unknown tool: " + name), NoMeta)
  }

  /** Tools never look at a patient id the model puts in the arguments. */
  lemma ToolIgnoresModelPatient(name: string, args: ToolArgs, modelPid: Option<string>, pid: string, w: World)
    ensures RunTool(name, args.(patientId := modelPid), pid, w) == RunTool(name, args, pid, w)
  {
  }

  /** The final reply: with a photo URL, the marker line "IMG: <url>" after a
      blank line (an empty reply counts as ""); otherwise as the model gave it. */
  function WithImage(content: Option<string>, meta: Meta): (r: Option<string>)
    ensures meta.ImageMeta? && Truthy(meta.imageUrl) ==>
              r.Some? && StartsWith(r.value, content.GetOr("")) && EndsWith(r.value, "\n\nIMG: " + meta.imageUrl.value)
    ensures !(meta.ImageMeta? && Truthy(meta.imageUrl)) ==> r == content
  {
    if meta.ImageMeta? && Truthy(meta.imageUrl) then
      var c := content.GetOr("");
      var r := c + "\n\nIMG: " + meta.imageUrl.value;
      assert r[..|c|] == c;
      Some(r)
    else content
  }

  /** The log type: "nav" with a map link, else "emergency" when someone was
      notified, else "tool". */
  function ToolLogType(meta: Meta): (t: Logs.LogType)
    ensures t == Logs.NavLog <==> meta.NavMeta?
    ensures t == Logs.EmergencyLog <==> meta.AlertMeta? && meta.emergencyNotified
    ensures t == Logs.ToolLog <==> !meta.NavMeta? && !(meta.AlertMeta? && meta.emergencyNotified)
    ensures t != Logs.ChatLog
  {
    if meta.NavMeta? then Logs.NavLog
    else if meta.AlertMeta? && meta.emergencyNotified then Logs.EmergencyLog
    else Logs.ToolLog
  }

  /** A triage severity word as the log stores it. */
  function SeverityOf(s: string): (r: Option<Logs.Severity>)
    ensures r.Some? ==> Logs.SeverityName(r.value) == s
    ensures forall x :: Logs.SeverityName(x) == s ==> r == Some(x)
  {
    if s == "urgent" then Some(Logs.Urgent)
    else if s == "moderate" then Some(Logs.Moderate)
    else if s == "low" then Some(Logs.Low)
    else None
  }

  /** The log body both branches post: the request's patient, the last
      message's text, and the triage fields, tagged "medical" exactly when
      triage says so. */
  function LogFor(pid: string, kind: Logs.LogType, text: string, t: Triage.TriageResult): (b: Logs.LogBody)
    ensures b.patientId == Some(pid) && b.kind == Some(kind) && b.text == Some(text) && b.ts.None?
    ensures b.tags == Some(["medical"]) <==> t.isMedical
    ensures b.tags == Some([]) <==> !t.isMedical
    ensures b.categories == Some(t.categories) && b.reasons == t.reasons && b.severity == SeverityOf(t.severity)
  {
    Logs.LogBody(None, Some(pid), Some(kind), Some(text), Some(if t.isMedical then ["medical"] else []),
                 SeverityOf(t.severity), Some(t.categories), t.reasons)
  }

  /** What the model and the triage model say in one exchange. */
  datatype Replies = Replies(first: FirstReply, second: Option<string>, triage: Triage.LlmReply)

  datatype ChatResponse =
    | BadRequest
    | ServerError
    | Replied(content: Option<string>, meta: Meta, tool: Option<ToolResult>, log: Logs.LogBody)

  /** The text triage reads: the last message, whatever its role. */
  function LastText(b: ChatBody): string
  {
    if |b.messages| > 0 then b.messages[|b.messages| - 1].content else ""
  }

  /** `POST /api/chat`. */
  function Chat(json: Option<RawBody>, w: World, replies: Replies): (r: ChatResponse)
    ensures r.BadRequest? <==> ParseBody(json).None?
    ensures r.ServerError? <==>
              && ParseBody(json).Some? && replies.first.CallTool?
              && RunTool(replies.first.name, replies.first.args, ParseBody(json).value.patientId, w).Threw?
    ensures r.Replied? ==>
              var b := ParseBody(json).value;
              var t := Triage.TriageMedical(LastText(b), replies.triage).result;
              && r.log.patientId == Some(b.patientId) && r.log.text == Some(LastText(b))
              && (r.log.tags == Some(["medical"]) <==> t.isMedical)
              && r.log.categories == Some(t.categories) && r.log.reasons == t.reasons
    ensures r.Replied? && replies.first.Answer? ==>
              r.content == replies.first.content && r.meta.NoMeta? && r.tool.None? && r.log.kind == Some(Logs.ChatLog)
    ensures r.Replied? && replies.first.CallTool? ==>
              var run := RunTool(replies.first.name, replies.first.args, ParseBody(json).value.patientId, w);
              && r.tool == Some(run.result) && r.meta == run.meta
              && r.content == WithImage(replies.second, r.meta)
              && r.log.kind == Some(ToolLogType(r.meta))
  {
    match ParseBody(json)
    case None => BadRequest
    case Some(b) =>
      var t := Triage.TriageMedical(LastText(b), replies.triage).result;
      match replies.first
      case Answer(content) => Replied(content, NoMeta, None, LogFor(b.patientId, Logs.ChatLog, LastText(b), t))
      case CallTool(name, args) =>
        match RunTool(name, args, b.patientId, w)
        case Threw => ServerError
        case Ran(result, meta) =>
          Replied(WithImage(replies.second, meta), meta, Some(result), LogFor(b.patientId, ToolLogType(meta), LastText(b), t))
  }

  /** Once posted, a chat's log entry is among the medical-only entries of
      its patient exactly when triage called it medical. */
  lemma LoggedAsMedicalIffTriaged(json: Option<RawBody>, w: World, replies: Replies, logs: seq<Logs.LogEntry>, nowIso: string)
    requires Chat(json, w, replies).Replied?
    ensures var b := ParseBody(json).value;
            var posted := Logs.PostLog(logs, Some(Chat(json, w, replies).log), nowIso);
            && posted.0.Appended?
            && (Logs.Selected(posted.1[|logs|], Some(b.patientId), true)
                <==> Triage.TriageMedical(LastText(b), replies.triage).result.isMedical)
  {
    var b := ParseBody(json).value;
    assert |b.patientId| >= 3;
    var t := Triage.TriageMedical(LastText(b), replies.triage).result;
    var e := Logs.PostLog(logs, Some(Chat(json, w, replies).log), nowIso).1[|logs|];
    if !t.isMedical {
      assert e.tags == Some([]);
    }
  }

  /** A photo found by the date tool reaches the chat panel: the reply's
      marker line is read back as the photo's URL, and the panel's image
      list shows it whatever the markdown and bare URLs are. */
  lemma PhotoReachesPanel(content: Option<string>, path: string, markdown: seq<string>, bare: seq<string>)
    requires path != "" && OnOneLine(path)
    ensures RouteImageUrl(Some(path)).Some? && WithImage(content, ImageMeta(RouteImageUrl(Some(path)))).Some?
    ensures var url := RouteImageUrl(Some(path)).value;
            var reply := WithImage(content, ImageMeta(Some(url))).value;
            url in Hints(reply) && url in ImageList(Hints(reply), markdown, bare)
  {
    var url := RouteUrlIsMarkable(path);
    ReplyWithMarker(content, url);
    MarkedUrlListed(content.GetOr(""), url, markdown, bare);
  }

  /** A clean URL appended as a marker is a hint of the reply and is listed. */
  lemma MarkedUrlListed(c: string, url: string, markdown: seq<string>, bare: seq<string>)
    requires url != [] && (url[0] == 'h' || url[0] == '/') && !IsSpace(url[|url| - 1])
    requires OnOneLine(url) && SanitizeUrl(url) == url
    ensures var reply := c + "\n\nIMG: " + url;
            url in Hints(reply) && url in ImageList(Hints(reply), markdown, bare)
  {
    MarkerIsHint(c, url);
    SanitizedHintListed(Hints(c + "\n\nIMG: " + url), markdown, bare, url);
  }

  /** The route's image URL meets what the panel's hint reader needs. */
  lemma RouteUrlIsMarkable(path: string) returns (url: string)
    requires path != "" && OnOneLine(path)
    ensures RouteImageUrl(Some(path)) == Some(url)
    ensures url != [] && (url[0] == 'h' || url[0] == '/') && !IsSpace(url[|url| - 1])
    ensures OnOneLine(url) && SanitizeUrl(url) == url
  {
    url := RouteImageUrl(Some(path)).value;
    CleanOnOneLine(path);
  }

  /** With an image, the reply is the content, a blank line and the marker. */
  lemma ReplyWithMarker(content: Option<string>, url: string)
    requires url != ""
    ensures WithImage(content, ImageMeta(Some(url))) == Some(content.GetOr("") + "\n\nIMG: " + url)
  {
  }
}

=== FILE: clock.dfy ===
/** Local wall-clock helpers of the assistant's tools. A local instant is an
    integer count of milliseconds from a local midnight that began a Monday;
    days are exactly 24 hours long (daylight-saving shifts are not modelled).
    Calendar fields are derived from it the way `Date`'s local getters do. */
module Clock {
  import opened Wrappers
  import opened Strings

  const MinuteMs: int := 60 * 1000
  const HourMs: int := 60 * MinuteMs
  const DayMs: int := 24 * HourMs

  /** Local midnight starting the day of `t` (floor division). */
  function DayStart(t: int): (m: int)
    ensures m <= t < m + DayMs
    ensures m % DayMs == 0
  {
    t - t % DayMs
  }

  /** `getDay()`: 0 for Sunday through 6 for Saturday; day 0 of the epoch is a Monday. */
  function JsDay(t: int): (d: int)
    ensures 0 <= d < 7
  {
    (t / DayMs + 1) % 7
  }

  /** `getHours()`. */
  function Hours(t: int): (h: int)
    ensures 0 <= h < 24
  {
    (t % DayMs) / HourMs
  }

  /** `getMinutes()`. */
  function Minutes(t: int): (m: int)
    ensures 0 <= m < 60
  {
    (t % HourMs) / MinuteMs
  }

  /** `isoWeekday`: ISO numbering, Sunday moved from 0 to 7. */
  function IsoWeekday(js: int): (d: int)
    requires 0 <= js < 7
    ensures 1 <= d <= 7
  {
    if js == 0 then 7 else js
  }

  /** The ISO weekday of an instant counts days from Monday (1). */
  lemma IsoWeekdayOfInstant(t: int)
    ensures IsoWeekday(JsDay(t)) == (t / DayMs) % 7 + 1
  {
  }

  /** `hhmm`: zero-padded hours, a colon, zero-padded minutes. */
  function Hhmm(t: int): (s: string)
    ensures |s| == 5 && s[2] == ':'
    ensures AllDigits(s[..2]) && ParseDigits(s[..2]) == Hours(t)
    ensures AllDigits(s[3..]) && ParseDigits(s[3..]) == Minutes(t)
  {
    var s := TwoDigits(Hours(t)) + ":" + TwoDigits(Minutes(t));
    assert s[..2] == TwoDigits(Hours(t)) && s[3..] == TwoDigits(Minutes(t));
    s
  }

  /** Minutes since local midnight. */
  function MinuteOfDay(t: int): (m: int)
    ensures 0 <= m < 24 * 60
  {
    Hours(t) * 60 + Minutes(t)
  }

  lemma LexLeCons(x: char, y: char, a: string, b: string)
    ensures LexLe([x] + a, [y] + b) <==> x < y || (x == y && LexLe(a, b))
  {
    assert ([x] + a)[1..] == a && ([y] + b)[1..] == b;
  }

  /** Two-digit renderings compare as strings exactly as the numbers do. */
  lemma TwoDigitsOrder(a: nat, b: nat, rest1: string, rest2: string)
    requires a < 100 && b < 100
    ensures LexLe(TwoDigits(a) + rest1, TwoDigits(b) + rest2) <==> a < b || (a == b && LexLe(rest1, rest2))
  {
    var da := TwoDigits(a);
    var db := TwoDigits(b);
    assert da + rest1 == [da[0]] + ([da[1]] + rest1);
    assert db + rest2 == [db[0]] + ([db[1]] + rest2);
    LexLeCons(da[0], db[0], [da[1]] + rest1, [db[1]] + rest2);
    LexLeCons(da[1], db[1], rest1, rest2);
    assert da[0] == DigitChar(a / 10) && da[1] == DigitChar(a % 10);
    assert db[0] == DigitChar(b / 10) && db[1] == DigitChar(b % 10);
  }

  /** The tools compare `hhmm` strings with `<=`: that is the order of the
      minute of the day. */
  lemma HhmmOrder(a: int, b: int)
    ensures LexLe(Hhmm(a), Hhmm(b)) <==> MinuteOfDay(a) <= MinuteOfDay(b)
  {
    var ma := TwoDigits(Minutes(a));
    var mb := TwoDigits(Minutes(b));
    assert Hhmm(a) == TwoDigits(Hours(a)) + (":" + ma);
    assert Hhmm(b) == TwoDigits(Hours(b)) + (":" + mb);
    TwoDigitsOrder(Hours(a), Hours(b), ":" + ma, ":" + mb);
    LexLeCons(':', ':', ma, mb);
    assert ":" + ma == [':'] + ma && ":" + mb == [':'] + mb;
    TwoDigitsOrder(Minutes(a), Minutes(b), "", "");
    assert ma + "" == ma && mb + "" == mb;
    LexLeRefl("");
  }

  /** JavaScript's `%`: the remainder takes the sign of the dividend. */
  function JsRem(a: int, b: int): (r: int)
    requires b > 0
    ensures a >= 0 ==> 0 <= r < b && r == a % b
    ensures a < 0 ==> -b < r <= 0
  {
    if a >= 0 then a % b else -((-a) % b)
  }

  /** `Number(field)` on a time field: blank reads as 0, a digit string as
      its value, anything else as NaN (`None`). */
  function NumberOf(s: string): (n: Option<int>)
    ensures AllDigits(Trim(s)) ==> n == Some(ParseDigits(Trim(s)))
    ensures !AllDigits(Trim(s)) ==> n.None?
  {
    var t := Trim(s);
    if AllDigits(t) then Some(ParseDigits(t)) else None
  }

  /** `nextOccurrence(base, targetDow, hhmmStr)`: the candidate is
      `targetDow`'s next date at that wall-clock time, pushed a week ahead
      when it falls on today at or before `base`. `None` is an invalid date
      (a time field that is not a number). */
  function NextOccurrence(base: int, targetDow: int, hhmmStr: string): (r: Option<int>)
    ensures r.Some? <==> (var f := Split(hhmmStr, ':'); |f| >= 2 && NumberOf(f[0]).Some? && NumberOf(f[1]).Some?)
  {
    var fields := Split(hhmmStr, ':');
    var hh := NumberOf(fields[0]);
    var mm := if |fields| >= 2 then NumberOf(fields[1]) else None;
    if hh.None? || mm.None? then None
    else Some(Occurrence(base, targetDow, hh.value, mm.value))
  }

  /** The date arithmetic of `nextOccurrence` once the time fields are numbers. */
  function Occurrence(base: int, targetDow: int, hh: int, mm: int): int
  {
    var daysToAdd := JsRem(targetDow - IsoWeekday(JsDay(base)) + 7, 7);
    var candidate := DayStart(base) + daysToAdd * DayMs + hh * HourMs + mm * MinuteMs;
    if daysToAdd == 0 && candidate <= base then candidate + 7 * DayMs else candidate
  }

  lemma DigitsTrimmed(s: string)
    requires AllDigits(s)
    ensures Trim(s) == s
  {
    if |s| > 0 {
      assert !IsSpace(s[0]) && !IsSpace(s[|s| - 1]);
    }
  }

  lemma NumberOfTwoDigits(n: nat)
    requires n < 100
    ensures NumberOf(TwoDigits(n)) == Some(n)
  {
    DigitsTrimmed(TwoDigits(n));
  }

  lemma SplitHhmm(h: nat, m: nat)
    requires h < 100 && m < 100
    ensures Split(TwoDigits(h) + ":" + TwoDigits(m), ':') == [TwoDigits(h), TwoDigits(m)]
  {
    assert ':' !in TwoDigits(h) && ':' !in TwoDigits(m);
    SplitCons(TwoDigits(h), TwoDigits(m), ':');
    SplitNoSep(TwoDigits(m), ':');
  }

  /** Day arithmetic: an instant `k` whole days and `tod` into the day after
      midnight `n * DayMs` lies on day `n + k`. */
  lemma DayOf(n: int, k: int, tod: int)
    requires 0 <= tod < DayMs
    ensures (n * DayMs + k * DayMs + tod) / DayMs == n + k
    ensures (n * DayMs + k * DayMs + tod) % DayMs == tod
  {
    var t := n * DayMs + k * DayMs + tod;
    assert t == (n + k) * DayMs + tod;
  }

  /** An instant `h` hours and `m` minutes after a local midnight reads back
      as `h` and `m`. */
  lemma ClockFields(t: int, h: int, m: int)
    requires 0 <= h < 24 && 0 <= m < 60
    requires t % DayMs == h * HourMs + m * MinuteMs
    ensures Hours(t) == h && Minutes(t) == m
  {
    var q := t / DayMs;
    assert t == q * DayMs + h * HourMs + m * MinuteMs;
    assert t == (q * 24 + h) * HourMs + m * MinuteMs;
    assert 0 <= m * MinuteMs < HourMs;
    assert t % HourMs == m * MinuteMs;
  }

  /** Adding the days from weekday `cur` forward to `d` lands on `d`. */
  lemma WeekdayShift(n: int, d: int)
    requires 1 <= d <= 7
    ensures var k := JsRem(d - (n % 7 + 1) + 7, 7);
            0 <= k < 7 && (n + k) % 7 == d - 1
  {
    var c := n % 7;
    var x := d - (c + 1) + 7;
    assert 1 <= x <= 13;
    var k := JsRem(x, 7);
    assert k == if x >= 7 then x - 7 else x;
    assert n == 7 * (n / 7) + c;
    assert n + k == 7 * (n / 7) + (d - 1) + (if x >= 7 then 0 else 7);
  }

  /** For an ISO weekday and an in-range time of day, the occurrence is
      strictly after `base`, at most a week later, on that weekday and at
      that time. */
  lemma OccurrenceSpec(base: int, targetDow: int, h: int, m: int)
    requires 1 <= targetDow <= 7 && 0 <= h < 24 && 0 <= m < 60
    ensures var r := Occurrence(base, targetDow, h, m);
            && base < r <= base + 7 * DayMs
            && IsoWeekday(JsDay(r)) == targetDow
            && Hours(r) == h && Minutes(r) == m
  {
    var n := base / DayMs;
    IsoWeekdayOfInstant(base);
    WeekdayShift(n, targetDow);
    var k := JsRem(targetDow - (n % 7 + 1) + 7, 7);
    var tod := h * HourMs + m * MinuteMs;
    assert 0 <= tod < DayMs;
    assert DayStart(base) == n * DayMs;
    var candidate := n * DayMs + k * DayMs + tod;
    var r := Occurrence(base, targetDow, h, m);
    var kk := if k == 0 && candidate <= base then k + 7 else k;
    assert r == n * DayMs + kk * DayMs + tod;
    DayOf(n, kk, tod);
    ClockFields(r, h, m);
    IsoWeekdayOfInstant(r);
  }

  /** For a well-formed "HH:mm" and an ISO weekday, `nextOccurrence` yields a
      date, and it is the occurrence described by `OccurrenceSpec`. */
  lemma NextOccurrenceSpec(base: int, targetDow: int, h: nat, m: nat)
    requires 1 <= targetDow <= 7 && h < 24 && m < 60
    ensures var r := NextOccurrence(base, targetDow, TwoDigits(h) + ":" + TwoDigits(m));
            && r.Some?
            && base < r.value <= base + 7 * DayMs
            && IsoWeekday(JsDay(r.value)) == targetDow
            && Hours(r.value) == h && Minutes(r.value) == m
  {
    NumberOfTwoDigits(h);
    NumberOfTwoDigits(m);
    SplitHhmm(h, m);
    OccurrenceSpec(base, targetDow, h, m);
  }
}

=== FILE: date_lookup.dfy ===
/** "What happened on this day?": turning a date phrase into an ISO date and
    its month-day, and picking the patient's memories for it. The current
    UTC instant (as an ISO string) and the local year are parameters. */
module DateLookup {
  import opened Wrappers
  import opened Strings
  import opened Seqs
  import opened MemoryTypes
  import opened ItemStore
  import opened DateRegex

  /** `{ iso?, md? }`: an ISO date "YYYY-MM-DD" and its "MM-DD" part. */
  datatype DateKey = DateKey(iso: Option<string>, md: Option<string>)

  const NoDate := DateKey(None, None)

  /** Phrases that mean "today". */
  const TodayWords: seq<string> := ["today", "now", "this day", "thisday", "what happened on this day"]

  /** Month-name prefixes, January first. */
  const Months: seq<string> := ["jan", "feb", "mar", "apr", "may", "jun", "jul", "aug", "sep", "oct", "nov", "dec"]

  /** The key of an ISO date: the date and `iso.slice(5)`. */
  function IsoKey(iso: string): (k: DateKey)
    ensures k.iso == Some(iso) && k.md.Some? && EndsWith(iso, k.md.value)
  {
    DateKey(Some(iso), Some(SliceFrom(iso, 5)))
  }

  /** `months.findIndex(m => mon.startsWith(m))`. */
  function MonthIndex(mon: string): (i: int)
    ensures -1 <= i < 12
    ensures i >= 0 ==> StartsWith(mon, Months[i]) && forall j :: 0 <= j < i ==> !StartsWith(mon, Months[j])
    ensures i == -1 <==> forall j :: 0 <= j < 12 ==> !StartsWith(mon, Months[j])
  {
    FindIndex(Months, m => StartsWith(mon, m))
  }

  /** A word that begins with the `k`-th month prefix names that month and no other. */
  lemma MonthIndexOfPrefix(mon: string, k: nat)
    requires k < 12 && StartsWith(mon, Months[k])
    ensures MonthIndex(mon) == k
  {
    var i := MonthIndex(mon);
    if i < k {
      MonthLengths();
      MonthsDistinct();
      assert false;
    }
  }

  lemma MonthLengths()
    ensures forall a :: 0 <= a < |Months| ==> |Months[a]| == 3
  {
  }

  lemma MonthsDistinct()
    ensures forall a, b :: 0 <= a < b < |Months| ==> Months[a] != Months[b]
  {
    forall a, b | 0 <= a < b < |Months| ensures Months[a] != Months[b] {
      assert Months[a][..2] + [Months[a][2]] == Months[a];
    }
  }

  /** The ISO date built from a numeric match: the year, then month and day
      padded to two digits. */
  function YmdIso(text: string, p: nat, g: YmdGroups): string
    requires YmdMatch(text, p, g.ml, g.dl)
  {
    text[p..p + 4] + "-" + PadStart2(text[p + 5..p + 5 + g.ml]) + "-" + PadStart2(text[p + 6 + g.ml..p + 6 + g.ml + g.dl])
  }

  /** The key of a day/month match: its month number and day in `year`;
      no date when the word is not a month. */
  function DayMonthKey(dm: DayMonth, year: nat): (k: DateKey)
    requires WellFormedDayMonth(dm)
    ensures k.iso.Some? <==> MonthIndex(dm.mon) >= 0
    ensures k.iso.Some? ==> k.md.Some? && EndsWith(k.iso.value, k.md.value)
    ensures k.iso.None? ==> k == NoDate
  {
    var idx := MonthIndex(dm.mon);
    if idx >= 0 && dm.day != "" then
      var mm := PadStart2(NatToString(idx + 1));
      var dd := PadStart2(NatToString(ParseDigits(dm.day)));
      var md := mm + "-" + dd;
      var iso := NatToString(year) + "-" + md;
      assert iso[|iso| - |md|..] == md;
      DateKey(Some(iso), Some(md))
    else NoDate
  }

  /** The numeric-date branch and the "today" branch, shared by both
      versions of the day/month search. */
  function DateOfTextWith(text: string, utcNowIso: string, year: nat, at: (string, nat) -> Option<DayMonth>): (k: DateKey)
    requires forall s, p :: at(s, p).Some? ==> WellFormedDayMonth(at(s, p).value)
    ensures k.iso.Some? <==> k.md.Some?
    ensures k.iso.Some? ==> EndsWith(k.iso.value, k.md.value)
  {
    if text == "" || text in TodayWords then IsoKey(SliceTo(utcNowIso, 10))
    else
      match Leftmost(text, 0, YmdAt)
      case Some((p, g)) => IsoKey(YmdIso(text, p, g))
      case None =>
        match Leftmost(text, 0, at)
        case Some((_, dm)) => DayMonthKey(dm, year)
        case None => NoDate
  }

  /** `normalizeDate` as written: the leftmost day/month phrase decides,
      even when its word is not a month. */
  function NormalizeDateAsWritten(query: Option<string>, utcNowIso: string, year: nat): (k: DateKey)
    ensures k.iso.Some? <==> k.md.Some?
    ensures k.iso.Some? ==> EndsWith(k.iso.value, k.md.value)
  {
    DateOfTextWith(Lower(Trim(query.GetOr(""))), utcNowIso, year, DayMonthAt)
  }

  /** A day/month phrase whose word names a month. */
  function MonthPhraseAt(s: string, p: nat): (r: Option<DayMonth>)
    ensures r.Some? ==> WellFormedDayMonth(r.value) && MonthIndex(r.value.mon) >= 0
    ensures r.Some? ==> DayMonthAt(s, p) == r
  {
    match DayMonthAt(s, p)
    case Some(dm) => if MonthIndex(dm.mon) >= 0 then Some(dm) else None
    case None => None
  }

  /** `normalizeDate` with the search continued past phrases like "from 7"
      to the first phrase that names a month. */
  function NormalizeDate(query: Option<string>, utcNowIso: string, year: nat): (k: DateKey)
    ensures k.iso.Some? <==> k.md.Some?
    ensures k.iso.Some? ==> EndsWith(k.iso.value, k.md.value)
  {
    DateOfTextWith(Lower(Trim(query.GetOr(""))), utcNowIso, year, MonthPhraseAt)
  }

  /** No query, or a "today" phrase, asks for today's UTC date. */
  lemma TodayQuery(query: Option<string>, utcNowIso: string, year: nat)
    requires query.None? || Lower(Trim(query.value)) in TodayWords
    ensures NormalizeDate(query, utcNowIso, year) == IsoKey(SliceTo(utcNowIso, 10))
    ensures NormalizeDateAsWritten(query, utcNowIso, year) == IsoKey(SliceTo(utcNowIso, 10))
  {
    if query.None? {
      assert Trim("") == "" && Lower("") == "";
    }
  }

  /** A query already trimmed and without capitals is searched as it is. */
  lemma CleanTextKept(t: string)
    requires |t| > 0 && !IsSpace(t[0]) && !IsSpace(t[|t| - 1])
    requires forall i :: 0 <= i < |t| ==> !IsUpperLetter(t[i])
    ensures Lower(Trim(t)) == t
  {
    assert TrimStart(t) == t;
    assert TrimEnd(t) == t;
  }

  /** `Leftmost` stops at the first position where the matcher succeeds. */
  lemma {:induction false} LeftmostIs<G>(s: string, from: nat, at: (string, nat) -> Option<G>, p: nat)
    requires from <= p <= |s| && at(s, p).Some?
    requires forall q :: from <= q < p ==> at(s, q).None?
    ensures Leftmost(s, from, at) == Some((p, at(s, p).value))
    decreases p - from
  {
    if from < p {
      LeftmostIs(s, from + 1, at, p);
    }
  }

  /** A string whose digits all lie in two consecutive positions has no
      numeric date in it. */
  lemma NoYmdWithoutFourDigits(s: string, a: nat)
    requires forall i :: 0 <= i < |s| && IsDigit(s[i]) ==> a <= i < a + 2
    ensures Leftmost(s, 0, YmdAt).None?
  {
  }

  /** A full ISO date is read back unchanged, with its month-day, by both
      versions of the lookup: the numeric branch runs before any day/month
      search. */
  lemma IsoDateRoundTrip(y: string, mo: string, d: string, utcNowIso: string, year: nat)
    requires |y| == 4 && |mo| == 2 && |d| == 2 && AllDigits(y) && AllDigits(mo) && AllDigits(d)
    ensures NormalizeDate(Some(y + "-" + mo + "-" + d), utcNowIso, year) == DateKey(Some(y + "-" + mo + "-" + d), Some(mo + "-" + d))
    ensures NormalizeDateAsWritten(Some(y + "-" + mo + "-" + d), utcNowIso, year) == DateKey(Some(y + "-" + mo + "-" + d), Some(mo + "-" + d))
  {
    IsoText(y, mo, d);
    IsoKeyOf(y, mo, d);
    CleanIsoQuery(y + "-" + mo + "-" + d, utcNowIso, year);
  }

  /** A clean query that is a two-digit-field numeric date, and reads back
      as itself, is keyed by itself. */
  lemma CleanIsoQuery(t: string, utcNowIso: string, year: nat)
    requires Lower(Trim(t)) == t && t != "" && t !in TodayWords
    requires YmdMatch(t, 0, 2, 2) && YmdIso(t, 0, YmdGroups(2, 2)) == t
    ensures NormalizeDate(Some(t), utcNowIso, year) == IsoKey(t)
    ensures NormalizeDateAsWritten(Some(t), utcNowIso, year) == IsoKey(t)
  {
    IsoTextKey(t, utcNowIso, year, MonthPhraseAt);
    IsoTextKey(t, utcNowIso, year, DayMonthAt);
  }

  /** Whatever the day/month search, a text that is a numeric date from its
      first character is keyed by that date. */
  lemma IsoTextKey(t: string, utcNowIso: string, year: nat, at: (string, nat) -> Option<DayMonth>)
    requires forall s, p :: at(s, p).Some? ==> WellFormedDayMonth(at(s, p).value)
    requires t != "" && t !in TodayWords
    requires YmdMatch(t, 0, 2, 2) && YmdIso(t, 0, YmdGroups(2, 2)) == t
    ensures DateOfTextWith(t, utcNowIso, year, at) == IsoKey(t)
  {
    YmdAtIsGreedyMatch(t, 0, 2, 2);
    LeftmostIs(t, 0, YmdAt, 0);
    assert Leftmost(t, 0, YmdAt) == Some((0, YmdGroups(2, 2)));
  }

  /** An ISO date is its own clean text, not a "today" word, and a numeric
      date match at its start with its three fields in place. */
  lemma IsoText(y: string, mo: string, d: string)
    requires |y| == 4 && |mo| == 2 && |d| == 2 && AllDigits(y) && AllDigits(mo) && AllDigits(d)
    ensures var t := y + "-" + mo + "-" + d;
      && Lower(Trim(t)) == t && t != "" && t !in TodayWords && YmdMatch(t, 0, 2, 2)
      && YmdIso(t, 0, YmdGroups(2, 2)) == t
  {
    var t := y + "-" + mo + "-" + d;
    assert t[0] == y[0] && t[9] == d[1];
    forall i | 0 <= i < |t| ensures !IsUpperLetter(t[i]) {
      assert i < 4 || i == 4 || 5 <= i < 7 || i == 7 || 8 <= i;
    }
    CleanTextKept(t);
    assert t !in TodayWords by {
      assert IsDigit(t[0]);
    }
    assert YmdMatch(t, 0, 2, 2) by {
      assert t[4] == '-' && t[7] == '-';
      assert forall k :: 0 <= k < 4 ==> t[k] == y[k];
      assert forall k :: 5 <= k < 7 ==> t[k] == mo[k - 5];
      assert forall k :: 8 <= k < 10 ==> t[k] == d[k - 8];
    }
    assert t[0..4] == y && t[5..7] == mo && t[8..10] == d;
  }

  /** The key of an ISO date carries the date and its month-day. */
  lemma IsoKeyOf(y: string, mo: string, d: string)
    requires |y| == 4 && |mo| == 2 && |d| == 2
    ensures IsoKey(y + "-" + mo + "-" + d) == DateKey(Some(y + "-" + mo + "-" + d), Some(mo + "-" + d))
  {
    assert SliceFrom(y + "-" + mo + "-" + d, 5) == mo + "-" + d;
  }

  /** The key of day `day` of month `month` (1-based) in `year`. */
  function CalendarKey(year: nat, month: nat, day: nat): DateKey
    requires month < 100 && day < 100
  {
    DateKey(Some(NatToString(year) + "-" + TwoDigits(month) + "-" + TwoDigits(day)), Some(TwoDigits(month) + "-" + TwoDigits(day)))
  }

  lemma ShortNatString(n: nat)
    requires n < 100
    ensures 1 <= |NatToString(n)| <= 2
  {
  }

  lemma NoDigitsInTodayWords(t: string)
    requires t in TodayWords
    ensures forall i :: 0 <= i < |t| ==> !IsDigit(t[i])
  {
  }

  lemma LowerWord(w: string)
    requires forall i :: 0 <= i < |w| ==> IsLowerLetter(w[i])
    ensures forall i :: 0 <= i < |w| ==> !IsUpperLetter(w[i]) && !IsSpace(w[i]) && IsWordChar(w[i])
  {
  }

  /** A day group: one or two digits. */
  predicate IsDayDigits(day: string)
  {
    1 <= |day| <= 2 && AllDigits(day)
  }

  lemma DayValueBelow100(day: string)
    requires IsDayDigits(day)
    ensures ParseDigits(day) < 100
  {
    var init := day[..|day| - 1];
    assert |init| == 0 || init[..0] == [];
    assert ParseDigits(init) < 10;
  }

  /** The day/month key of "<day> <month word>" is the calendar date. */
  lemma DayMonthKeyOf(day: string, word: string, k: nat, year: nat)
    requires IsDayDigits(day) && k < 12 && StartsWith(word, Months[k])
    requires forall i :: 0 <= i < |word| ==> IsLowerLetter(word[i])
    ensures ParseDigits(day) < 100
    ensures WellFormedDayMonth(DayMonth(day, word))
    ensures DayMonthKey(DayMonth(day, word), year) == CalendarKey(year, k + 1, ParseDigits(day))
  {
    MonthLengths();
    MonthIndexOfPrefix(word, k);
    var n := ParseDigits(day);
    DayValueBelow100(day);
    TwoDigitsIsPadded(n);
    TwoDigitsIsPadded(k + 1);
    var mm := TwoDigits(k + 1);
    var dd := TwoDigits(n);
    var y := NatToString(year);
    assert y + "-" + (mm + "-" + dd) == y + "-" + mm + "-" + dd;
  }

  /** "<day> <month word>" closing a text, after the start or a non-word
      character, is a day/month match at its first digit. */
  lemma DayMonthPhraseAt(pre: string, day: string, word: string)
    requires IsDayDigits(day) && 3 <= |word|
    requires forall i :: 0 <= i < |word| ==> IsLowerLetter(word[i])
    requires pre == [] || !IsWordChar(pre[|pre| - 1])
    ensures DayMonthAt(pre + day + " " + word, |pre|) == Some(DayMonth(day, word))
  {
    var t := pre + day + " " + word;
    var p := |pre|;
    PhraseMatches(pre, day, word);
    PhraseSlices(pre, day, word);
    DayMonthWords(t, p, WordGroups(|day|, 1, |word|), day, word);
  }

  /** A first-alternative match reports the words its groups cover. */
  lemma DayMonthWords(s: string, p: nat, g: WordGroups, day: string, word: string)
    requires DayMonAt(s, p) == Some(g) && p + g.dl + g.sl + g.ll <= |s|
    requires s[p..p + g.dl] == day && s[p + g.dl + g.sl..p + g.dl + g.sl + g.ll] == word
    ensures DayMonthAt(s, p) == Some(DayMonth(day, word))
  {
    DayMonthOfDayMon(s, p, g);
  }

  lemma PhraseMatches(pre: string, day: string, word: string)
    requires IsDayDigits(day) && 3 <= |word|
    requires forall i :: 0 <= i < |word| ==> IsLowerLetter(word[i])
    requires pre == [] || !IsWordChar(pre[|pre| - 1])
    ensures DayMonAt(pre + day + " " + word, |pre|) == Some(WordGroups(|day|, 1, |word|))
  {
    var t := pre + day + " " + word;
    var g := WordGroups(|day|, 1, |word|);
    PhraseChars(pre, day, word);
    assert DayMonMatch(t, |pre|, g);
    DayMonAtIsTheMatch(t, |pre|, g);
  }

  lemma PhraseSlices(pre: string, day: string, word: string)
    ensures var t := pre + day + " " + word; var p := |pre|;
      t[p..p + |day|] == day && t[p + |day| + 1..p + |day| + 1 + |word|] == word
  {
  }

  lemma PhraseChars(pre: string, day: string, word: string)
    requires IsDayDigits(day) && 3 <= |word|
    requires forall i :: 0 <= i < |word| ==> IsLowerLetter(word[i])
    requires pre == [] || !IsWordChar(pre[|pre| - 1])
    ensures var t := pre + day + " " + word; var p := |pre|;
      && Boundary(t, p)
      && CharsAt(t, p, |day|, IsDigit)
      && CharsAt(t, p + |day|, 1, IsSpace)
      && CharsAt(t, p + |day| + 1, |word|, IsLowerLetter)
      && Boundary(t, |t|)
  {
    var t := pre + day + " " + word;
    var p := |pre|;
    assert forall i :: p <= i < p + |day| ==> t[i] == day[i - p];
    assert t[p + |day|] == ' ';
    assert forall i :: p + |day| + 1 <= i < |t| ==> t[i] == word[i - p - |day| - 1];
    if p > 0 {
      assert t[p - 1] == pre[p - 1];
    }
  }

  /** The text "<day> <month word>" is kept by trimming and lower-casing. */
  lemma PlainDayMonthText(day: string, word: string)
    requires IsDayDigits(day) && 3 <= |word|
    requires forall i :: 0 <= i < |word| ==> IsLowerLetter(word[i])
    ensures Lower(Trim(day + " " + word)) == day + " " + word
  {
    var t := day + " " + word;
    LowerWord(word);
    assert forall i :: |day| + 1 <= i < |t| ==> t[i] == word[i - |day| - 1];
    forall i | 0 <= i < |t| ensures !IsUpperLetter(t[i]) {
      if i < |day| {
        assert t[i] == day[i];
      }
    }
    CleanTextKept(t);
  }

  /** The text "<day> <month word>" is not a "today" phrase and holds no numeric date. */
  lemma DayMonthTextNotNumeric(day: string, word: string)
    requires IsDayDigits(day) && 3 <= |word|
    requires forall i :: 0 <= i < |word| ==> IsLowerLetter(word[i])
    ensures var t := day + " " + word;
      t != "" && t !in TodayWords && Leftmost(t, 0, YmdAt).None?
  {
    var t := day + " " + word;
    assert forall i :: |day| + 1 <= i < |t| ==> t[i] == word[i - |day| - 1];
    assert t[0] == day[0] && IsDigit(t[0]);
    assert t !in TodayWords by {
      if t in TodayWords {
        NoDigitsInTodayWords(t);
        assert false;
      }
    }
    NoYmdWithoutFourDigits(t, 0);
  }

  /** "<day> <month word>", as a lower-case phrase, is read as that day of
      that month in the current local year, by both versions. */
  lemma DayMonthRoundTrip(day: string, word: string, k: nat, utcNowIso: string, year: nat)
    requires IsDayDigits(day) && k < 12 && StartsWith(word, Months[k])
    requires forall i :: 0 <= i < |word| ==> IsLowerLetter(word[i])
    ensures ParseDigits(day) < 100
    ensures NormalizeDate(Some(day + " " + word), utcNowIso, year) == CalendarKey(year, k + 1, ParseDigits(day))
    ensures NormalizeDateAsWritten(Some(day + " " + word), utcNowIso, year) == CalendarKey(year, k + 1, ParseDigits(day))
  {
    var t := day + " " + word;
    MonthLengths();
    DayValueBelow100(day);
    var key := CalendarKey(year, k + 1, ParseDigits(day));
    assert Lower(Trim(t)) == t by {
      PlainDayMonthText(day, word);
    }
    assert DateOfTextWith(t, utcNowIso, year, MonthPhraseAt) == key by {
      DayMonthTextKey(day, word, k, utcNowIso, year);
    }
    assert DateOfTextWith(t, utcNowIso, year, DayMonthAt) == key by {
      DayMonthTextKeyAsWritten(day, word, k, utcNowIso, year);
    }
    CleanQueryCorrected(t, t, utcNowIso, year);
    CleanQueryAsWritten(t, t, utcNowIso, year);
  }

  /** Where both searches stop in "<day> <month word>". */
  lemma DayMonthTextSearch(day: string, word: string, k: nat)
    requires IsDayDigits(day) && k < 12 && StartsWith(word, Months[k])
    requires forall i :: 0 <= i < |word| ==> IsLowerLetter(word[i])
    ensures var t := day + " " + word;
      && t != "" && t !in TodayWords && Leftmost(t, 0, YmdAt).None?
      && Leftmost(t, 0, DayMonthAt) == Some((0, DayMonth(day, word)))
      && Leftmost(t, 0, MonthPhraseAt) == Some((0, DayMonth(day, word)))
  {
    var t := day + " " + word;
    var dm := DayMonth(day, word);
    MonthLengths();
    MonthIndexOfPrefix(word, k);
    DayMonthTextNotNumeric(day, word);
    assert DayMonthAt(t, 0) == Some(dm) by {
      assert [] + day == day;
      DayMonthPhraseAt([], day, word);
    }
    LeftmostIs(t, 0, DayMonthAt, 0);
    LeftmostIs(t, 0, MonthPhraseAt, 0);
  }

  lemma DayMonthTextKey(day: string, word: string, k: nat, utcNowIso: string, year: nat)
    requires IsDayDigits(day) && k < 12 && StartsWith(word, Months[k])
    requires forall i :: 0 <= i < |word| ==> IsLowerLetter(word[i])
    ensures ParseDigits(day) < 100
    ensures DateOfTextWith(day + " " + word, utcNowIso, year, MonthPhraseAt) == CalendarKey(year, k + 1, ParseDigits(day))
  {
    DayMonthKeyOf(day, word, k, year);
    DayMonthTextSearch(day, word, k);
    DayMonthBranch(day + " " + word, utcNowIso, year, MonthPhraseAt, 0, DayMonth(day, word));
  }

  lemma DayMonthTextKeyAsWritten(day: string, word: string, k: nat, utcNowIso: string, year: nat)
    requires IsDayDigits(day) && k < 12 && StartsWith(word, Months[k])
    requires forall i :: 0 <= i < |word| ==> IsLowerLetter(word[i])
    ensures ParseDigits(day) < 100
    ensures DateOfTextWith(day + " " + word, utcNowIso, year, DayMonthAt) == CalendarKey(year, k + 1, ParseDigits(day))
  {
    DayMonthKeyOf(day, word, k, year);
    DayMonthTextSearch(day, word, k);
    DayMonthBranch(day + " " + word, utcNowIso, year, DayMonthAt, 0, DayMonth(day, word));
  }

  /** Both versions search the trimmed, lower-cased query. */
  lemma CleanQueryCorrected(q: string, t: string, utcNowIso: string, year: nat)
    requires Lower(Trim(q)) == t
    ensures NormalizeDate(Some(q), utcNowIso, year) == DateOfTextWith(t, utcNowIso, year, MonthPhraseAt)
  {
  }

  lemma CleanQueryAsWritten(q: string, t: string, utcNowIso: string, year: nat)
    requires Lower(Trim(q)) == t
    ensures NormalizeDateAsWritten(Some(q), utcNowIso, year) == DateOfTextWith(t, utcNowIso, year, DayMonthAt)
  {
  }

  /** When a text has no numeric date, the first day/month phrase the
      search reports decides the key. */
  lemma DayMonthBranch(text: string, utcNowIso: string, year: nat, at: (string, nat) -> Option<DayMonth>, p: nat, dm: DayMonth)
    requires forall s, q :: at(s, q).Some? ==> WellFormedDayMonth(at(s, q).value)
    requires text != "" && text !in TodayWords && Leftmost(text, 0, YmdAt).None?
    requires Leftmost(text, 0, at) == Some((p, dm))
    ensures DateOfTextWith(text, utcNowIso, year, at) == DayMonthKey(dm, year)
  {
  }

  // ---------------------------------------------------------------------
  // A phrase such as "from 7 june": a word, a day and a month word.

  /** The text "<word> <day> <month word>" where the first word is not a month. */
  predicate FromPhrase(w: string, day: string, word: string, k: nat)
  {
    && PhraseShape(w, day, word)
    && MonthIndex(w) == -1
    && k < 12 && StartsWith(word, Months[k])
  }

  /** Two lower-case words around a day: the first of at least three letters. */
  predicate PhraseShape(w: string, day: string, word: string)
  {
    && 3 <= |w| && (forall i :: 0 <= i < |w| ==> IsLowerLetter(w[i]))
    && IsDayDigits(day)
    && 1 <= |word| && (forall i :: 0 <= i < |word| ==> IsLowerLetter(word[i]))
  }

  lemma FromTextChars(w: string, day: string, word: string)
    ensures var t := w + " " + day + " " + word;
      && |t| == |w| + |day| + 2 + |word|
      && (forall i :: 0 <= i < |w| ==> t[i] == w[i])
      && t[|w|] == ' '
      && (forall i :: |w| + 1 <= i < |w| + 1 + |day| ==> t[i] == day[i - |w| - 1])
      && t[|w| + 1 + |day|] == ' '
      && (forall i :: |w| + 2 + |day| <= i < |t| ==> t[i] == word[i - |w| - 2 - |day|])
  {
  }

  lemma FromTextClean(w: string, day: string, word: string)
    requires PhraseShape(w, day, word)
    ensures Lower(Trim(w + " " + day + " " + word)) == w + " " + day + " " + word
  {
    var t := w + " " + day + " " + word;
    FromTextChars(w, day, word);
    forall i | 0 <= i < |t| ensures !IsUpperLetter(t[i]) {
      if i < |w| {
      } else if |w| + 1 <= i < |w| + 1 + |day| {
        assert IsDigit(day[i - |w| - 1]);
      } else if |w| + 2 + |day| <= i {
      }
    }
    CleanTextKept(t);
  }

  lemma FromTextNotNumeric(w: string, day: string, word: string)
    requires PhraseShape(w, day, word)
    ensures var t := w + " " + day + " " + word;
      t != "" && t !in TodayWords && Leftmost(t, 0, YmdAt).None?
  {
    var t := w + " " + day + " " + word;
    FromTextChars(w, day, word);
    assert IsDigit(t[|w| + 1]);
    assert t !in TodayWords by {
      if t in TodayWords {
        NoDigitsInTodayWords(t);
        assert false;
      }
    }
    forall i | 0 <= i < |t| && IsDigit(t[i]) ensures |w| + 1 <= i < |w| + 3 {
    }
    NoYmdWithoutFourDigits(t, |w| + 1);
  }

  /** "<word> <day>" opening a text, followed by a non-word character, is a
      second-alternative match at the start. */
  lemma WordDayPhraseAt(w: string, day: string, post: string)
    requires 3 <= |w| && forall i :: 0 <= i < |w| ==> IsLowerLetter(w[i])
    requires IsDayDigits(day) && 1 <= |post| && !IsWordChar(post[0])
    ensures DayMonthAt(w + " " + day + post, 0) == Some(DayMonth(day, w))
  {
    var t := w + " " + day + post;
    var g := WordGroups(|day|, 1, |w|);
    WordDayMatches(w, day, post);
    NoDigitFirst(t, w);
    DayMonthOfMonDay(t, 0, g);
    assert t[|w| + 1..|w| + 1 + |day|] == day && t[0..|w|] == w;
  }

  /** A text starting with a letter has no first-alternative match at its start. */
  lemma NoDigitFirst(t: string, w: string)
    requires 1 <= |w| && IsLowerLetter(w[0]) && |w| <= |t| && t[..|w|] == w
    ensures DayMonAt(t, 0).None?
  {
    DayMonStartsWithDigit(t, 0);
    assert t[0] == w[0];
  }

  /** A first-alternative match begins with a digit. */
  lemma DayMonStartsWithDigit(t: string, p: nat)
    ensures DayMonAt(t, p).Some? ==> p < |t| && IsDigit(t[p])
  {
    match DayMonAt(t, p)
    case None =>
    case Some(g) =>
      var _ := CharIn(t, p, g.dl, IsDigit, p);
  }

  lemma WordDayMatches(w: string, day: string, post: string)
    requires 3 <= |w| && forall i :: 0 <= i < |w| ==> IsLowerLetter(w[i])
    requires IsDayDigits(day) && 1 <= |post| && !IsWordChar(post[0])
    ensures MonDayAt(w + " " + day + post, 0) == Some(WordGroups(|day|, 1, |w|))
  {
    var t := w + " " + day + post;
    var g := WordGroups(|day|, 1, |w|);
    WordDayChars(w, day, post);
    assert MonDayMatch(t, 0, g);
    MonDayAtIsTheMatch(t, 0, g);
  }

  lemma WordDayChars(w: string, day: string, post: string)
    requires 3 <= |w| && forall i :: 0 <= i < |w| ==> IsLowerLetter(w[i])
    requires IsDayDigits(day) && 1 <= |post| && !IsWordChar(post[0])
    ensures var t := w + " " + day + post;
      && Boundary(t, 0)
      && CharsAt(t, 0, |w|, IsLowerLetter)
      && CharsAt(t, |w|, 1, IsSpace)
      && CharsAt(t, |w| + 1, |day|, IsDigit)
      && Boundary(t, |w| + 1 + |day|)
  {
    var t := w + " " + day + post;
    assert forall i :: 0 <= i < |w| ==> t[i] == w[i];
    assert t[|w|] == ' ';
    assert forall i :: |w| + 1 <= i < |w| + 1 + |day| ==> t[i] == day[i - |w| - 1];
    assert t[|w| + 1 + |day|] == post[0];
    assert IsWordChar(t[0]);
    assert IsWordChar(t[|w| + |day|]);
  }

  /** The phrase "<word> <day>" at the start is the leftmost day/month match. */
  lemma FromTextFirstPhrase(w: string, day: string, word: string)
    requires PhraseShape(w, day, word)
    ensures DayMonthAt(w + " " + day + " " + word, 0) == Some(DayMonth(day, w))
  {
    var post := " " + word;
    assert w + " " + day + " " + word == w + " " + day + post;
    WordDayPhraseAt(w, day, post);
  }

  /** Inside the first word, and at the space after it, nothing matches. */
  lemma FromTextNothingInside(w: string, day: string, word: string, q: nat)
    requires PhraseShape(w, day, word) && 0 < q <= |w|
    ensures DayMonthAt(w + " " + day + " " + word, q).None?
  {
    var t := w + " " + day + " " + word;
    FromTextChars(w, day, word);
    if q < |w| {
      assert IsWordChar(t[q - 1]) && IsWordChar(t[q]);
    }
    NoDayMonthAt(t, q);
  }

  /** The phrase "<day> <month word>" after the first word is a day/month match. */
  lemma FromTextMonthPhrase(w: string, day: string, word: string)
    requires IsDayDigits(day) && 3 <= |word| && forall i :: 0 <= i < |word| ==> IsLowerLetter(word[i])
    ensures DayMonthAt(w + " " + day + " " + word, |w| + 1) == Some(DayMonth(day, word))
  {
    var pre := w + " ";
    assert |pre| == |w| + 1 && pre[|pre| - 1] == ' ';
    DayMonthPhraseAt(pre, day, word);
  }

  /** Where the search as written stops in "<word> <day> <month word>". */
  lemma FromTextSearchAsWritten(w: string, day: string, word: string)
    requires PhraseShape(w, day, word)
    ensures Leftmost(w + " " + day + " " + word, 0, DayMonthAt) == Some((0, DayMonth(day, w)))
  {
    FromTextFirstPhrase(w, day, word);
    LeftmostIs(w + " " + day + " " + word, 0, DayMonthAt, 0);
  }

  lemma FromTextKeyAsWritten(w: string, day: string, word: string, utcNowIso: string, year: nat)
    requires PhraseShape(w, day, word)
    ensures WellFormedDayMonth(DayMonth(day, w))
    ensures DateOfTextWith(w + " " + day + " " + word, utcNowIso, year, DayMonthAt) == DayMonthKey(DayMonth(day, w), year)
  {
    var t := w + " " + day + " " + word;
    FromTextNotNumeric(w, day, word);
    FromTextSearchAsWritten(w, day, word);
    DayMonthBranch(t, utcNowIso, year, DayMonthAt, 0, DayMonth(day, w));
  }

  /** As written, a phrase like "from 7 june" yields no date: the leftmost
      match pairs the day with "from", which is not a month, and the search
      stops there. */
  lemma FromPhraseAsWritten(w: string, day: string, word: string, k: nat, utcNowIso: string, year: nat)
    requires FromPhrase(w, day, word, k)
    ensures NormalizeDateAsWritten(Some(w + " " + day + " " + word), utcNowIso, year) == NoDate
  {
    var t := w + " " + day + " " + word;
    FromTextClean(w, day, word);
    FromTextKeyAsWritten(w, day, word, utcNowIso, year);
    CleanQueryAsWritten(t, t, utcNowIso, year);
    assert DayMonthKey(DayMonth(day, w), year) == NoDate;
  }

  /** Up to the day, no phrase that names a month starts. */
  lemma FromTextNoMonthBefore(w: string, day: string, word: string)
    requires PhraseShape(w, day, word) && MonthIndex(w) == -1
    ensures forall q :: 0 <= q < |w| + 1 ==> MonthPhraseAt(w + " " + day + " " + word, q).None?
  {
    forall q | 0 <= q < |w| + 1 ensures MonthPhraseAt(w + " " + day + " " + word, q).None? {
      if q == 0 {
        FromTextFirstPhrase(w, day, word);
      } else {
        FromTextNothingInside(w, day, word, q);
      }
    }
  }

  /** After the first word, "<day> <month word>" names a month. */
  lemma FromTextMonthAt(w: string, day: string, word: string)
    requires IsDayDigits(day) && 3 <= |word| && forall i :: 0 <= i < |word| ==> IsLowerLetter(word[i])
    requires MonthIndex(word) >= 0
    ensures MonthPhraseAt(w + " " + day + " " + word, |w| + 1) == Some(DayMonth(day, word))
  {
    FromTextMonthPhrase(w, day, word);
  }

  /** Where the corrected search stops in "<word> <day> <month word>". */
  lemma FromTextSearch(w: string, day: string, word: string)
    requires IsDayDigits(day) && 3 <= |word| && (forall i :: 0 <= i < |word| ==> IsLowerLetter(word[i])) && MonthIndex(word) >= 0
    requires forall q :: 0 <= q < |w| + 1 ==> MonthPhraseAt(w + " " + day + " " + word, q).None?
    ensures Leftmost(w + " " + day + " " + word, 0, MonthPhraseAt) == Some((|w| + 1, DayMonth(day, word)))
  {
    var t := w + " " + day + " " + word;
    assert MonthPhraseAt(t, |w| + 1) == Some(DayMonth(day, word)) by {
      FromTextMonthAt(w, day, word);
    }
    LeftmostMonthPhrase(t, |w| + 1);
  }

  /** `LeftmostIs` for the corrected search. */
  lemma LeftmostMonthPhrase(s: string, p: nat)
    requires p <= |s| && MonthPhraseAt(s, p).Some?
    requires forall q :: 0 <= q < p ==> MonthPhraseAt(s, q).None?
    ensures Leftmost(s, 0, MonthPhraseAt) == Some((p, MonthPhraseAt(s, p).value))
  {
    LeftmostIs(s, 0, MonthPhraseAt, p);
  }

  lemma FromTextKey(w: string, day: string, word: string, k: nat, utcNowIso: string, year: nat)
    requires IsDayDigits(day) && (forall i :: 0 <= i < |word| ==> IsLowerLetter(word[i]))
    requires k < 12 && StartsWith(word, Months[k])
    requires var t := w + " " + day + " " + word;
      && t != "" && t !in TodayWords && Leftmost(t, 0, YmdAt).None?
      && forall q :: 0 <= q < |w| + 1 ==> MonthPhraseAt(t, q).None?
    ensures ParseDigits(day) < 100
    ensures DateOfTextWith(w + " " + day + " " + word, utcNowIso, year, MonthPhraseAt) == CalendarKey(year, k + 1, ParseDigits(day))
  {
    var dm := DayMonth(day, word);
    DayMonthKeyOf(day, word, k, year);
    FromTextSearch(w, day, word);
    DayMonthBranch(w + " " + day + " " + word, utcNowIso, year, MonthPhraseAt, |w| + 1, dm);
  }

  /** With the search continued to the first phrase that names a month, the
      same query is read as the intended calendar date. */
  lemma FromPhraseCorrected(w: string, day: string, word: string, k: nat, utcNowIso: string, year: nat)
    requires FromPhrase(w, day, word, k)
    ensures ParseDigits(day) < 100
    ensures NormalizeDate(Some(w + " " + day + " " + word), utcNowIso, year) == CalendarKey(year, k + 1, ParseDigits(day))
  {
    var t := w + " " + day + " " + word;
    FromTextClean(w, day, word);
    FromTextNotNumeric(w, day, word);
    FromTextNoMonthBefore(w, day, word);
    FromTextKey(w, day, word, k, utcNowIso, year);
    CleanQueryCorrected(t, t, utcNowIso, year);
  }

  /** "from" begins with no month prefix. */
  lemma FromIsNotAMonth()
    ensures MonthIndex("from") == -1
  {
    MonthLengths();
    NoMonthHasSecondR();
    forall j | 0 <= j < 12 ensures !StartsWith("from", Months[j]) {
      SecondLetterDiffers("from", Months[j]);
    }
  }

  lemma NoMonthHasSecondR()
    ensures forall j :: 0 <= j < |Months| ==> |Months[j]| == 3 && Months[j][1] != 'r'
  {
  }

  /** A word whose second letter differs from a prefix's does not start with it. */
  lemma SecondLetterDiffers(s: string, m: string)
    requires 2 <= |s| && 2 <= |m| && s[1] != m[1]
    ensures !StartsWith(s, m)
  {
    if |m| <= |s| {
      assert s[..|m|][1] == s[1];
    }
  }

  lemma SevenJuneShape()
    ensures FromPhrase("from", "7", "june", 5)
  {
    assert PhraseShape("from", "7", "june");
    assert StartsWith("june", Months[5]) by {
      assert "june"[..3] == "jun";
    }
    FromIsNotAMonth();
  }

  lemma SevenValue()
    ensures ParseDigits("7") == 7
  {
    assert "7"[..0] == [];
  }

  /** The query "from 7 june", both ways. */
  lemma FromSevenJune(utcNowIso: string, year: nat)
    ensures NormalizeDateAsWritten(Some("from 7 june"), utcNowIso, year) == NoDate
    ensures NormalizeDate(Some("from 7 june"), utcNowIso, year) == CalendarKey(year, 6, 7)
  {
    assert "from 7 june" == "from" + " " + "7" + " " + "june";
    SevenJuneShape();
    SevenValue();
    FromPhraseAsWritten("from", "7", "june", 5, utcNowIso, year);
    FromPhraseCorrected("from", "7", "june", 5, utcNowIso, year);
  }
}

=== FILE: date_regex.dfy ===
/** The two regular expressions `normalizeDate` applies to a lower-cased
    query, as a JavaScript engine runs them: the leftmost position that
    matches wins, and at that position the alternatives and the greedy
    quantifiers are tried in order. Each matcher below computes that match
    from maximal character runs; a declarative predicate says what a match
    of the expression is, and a lemma ties the two together. */
module DateRegex {
  import opened Wrappers
  import opened Strings

  /** Length of the longest run of characters meeting `p` that starts at `i`. */
  function Run(s: string, i: nat, p: char -> bool): nat
    decreases |s| - i
  {
    if i < |s| && p(s[i]) then 1 + Run(s, i + 1, p) else 0
  }

  /** Every non-empty prefix of a run is a block of `p`-characters. */
  lemma {:induction false} RunBlock(s: string, i: nat, n: nat, p: char -> bool)
    requires n <= Run(s, i, p)
    ensures n == 0 || CharsAt(s, i, n, p)
    decreases n
  {
    if n > 0 {
      RunBlock(s, i + 1, n - 1, p);
    }
  }

  /** A block of `p`-characters followed by the end or by another character
      is the run at its start. */
  lemma {:induction false} RunExact(s: string, i: nat, n: nat, p: char -> bool)
    requires CharsAt(s, i, n, p) && (i + n < |s| ==> !p(s[i + n]))
    ensures Run(s, i, p) == n
    decreases n
  {
    if n > 0 {
      RunExact(s, i + 1, n - 1, p);
    }
  }

  /** Three consecutive runs, the last non-empty, read as three blocks. */
  lemma ThreeBlocks(s: string, i: nat, a: nat, b: nat, c: nat, pa: char -> bool, pb: char -> bool, pc: char -> bool)
    requires a <= Run(s, i, pa) && b <= Run(s, i + a, pb) && 1 <= c <= Run(s, i + a + b, pc)
    ensures CharsAt(s, i, a, pa) && CharsAt(s, i + a, b, pb) && CharsAt(s, i + a + b, c, pc)
  {
    RunBlock(s, i, a, pa);
    RunBlock(s, i + a, b, pb);
    RunBlock(s, i + a + b, c, pc);
  }

  /** `n` characters meeting `p` start at `i`. */
  predicate CharsAt(s: string, i: nat, n: nat, p: char -> bool)
  {
    i + n <= |s| && forall k :: i <= k < i + n ==> p(s[k])
  }

  /** A run is maximal: no longer block of `p`-characters fits at `i` than `Run`. */
  lemma {:induction false} RunIsLongest(s: string, i: nat, n: nat, p: char -> bool)
    requires CharsAt(s, i, n, p)
    ensures n <= Run(s, i, p)
    decreases n
  {
    if n > 0 {
      RunIsLongest(s, i + 1, n - 1, p);
    }
  }

  /** `[-/]` at `i`. */
  predicate SepAt(s: string, i: nat)
  {
    i < |s| && (s[i] == '-' || s[i] == '/')
  }

  /** `\b` at `i`: exactly one side of position `i` is a word character. */
  predicate Boundary(s: string, i: nat)
  {
    i <= |s| && ((0 < i && IsWordChar(s[i - 1])) != (i < |s| && IsWordChar(s[i])))
  }

  function Min2(n: nat): nat { if n < 2 then n else 2 }

  // ---------------------------------------------------------------------
  // (\d{4})[-/](\d{1,2})[-/](\d{1,2})

  /** Lengths of the month and day groups of a numeric date match. */
  datatype YmdGroups = YmdGroups(ml: nat, dl: nat)

  /** The expression matches at `p` with `ml` month digits and `dl` day digits. */
  predicate YmdMatch(s: string, p: nat, ml: nat, dl: nat)
  {
    && 1 <= ml <= 2 && 1 <= dl <= 2
    && CharsAt(s, p, 4, IsDigit) && SepAt(s, p + 4)
    && CharsAt(s, p + 5, ml, IsDigit) && SepAt(s, p + 5 + ml)
    && CharsAt(s, p + 6 + ml, dl, IsDigit)
  }

  /** The numeric-date match the engine reports at `p`, if any. */
  function YmdAt(s: string, p: nat): (g: Option<YmdGroups>)
    ensures g.Some? ==> YmdMatch(s, p, g.value.ml, g.value.dl)
  {
    var ml := Run(s, p + 5, IsDigit);
    var dl := Min2(Run(s, p + 6 + ml, IsDigit));
    if Run(s, p, IsDigit) >= 4 && SepAt(s, p + 4) && 1 <= ml <= 2 && SepAt(s, p + 5 + ml) && dl >= 1
    then
      RunBlock(s, p, 4, IsDigit);
      RunBlock(s, p + 5, ml, IsDigit);
      RunBlock(s, p + 6 + ml, dl, IsDigit);
      Some(YmdGroups(ml, dl))
    else None
  }

  /** `YmdAt` finds a match exactly when the expression matches at `p`; the
      month group is forced, and the day group is the longest possible, as
      the greedy `\d{1,2}` makes it. */
  lemma YmdAtIsGreedyMatch(s: string, p: nat, ml: nat, dl: nat)
    requires YmdMatch(s, p, ml, dl)
    ensures YmdAt(s, p).Some? && YmdAt(s, p).value.ml == ml && dl <= YmdAt(s, p).value.dl
  {
    RunIsLongest(s, p, 4, IsDigit);
    RunIsLongest(s, p + 5, ml, IsDigit);
    RunIsLongest(s, p + 6 + ml, dl, IsDigit);
    RunExact(s, p + 5, ml, IsDigit);
  }

  // ---------------------------------------------------------------------
  // \b(\d{1,2})\s*([a-z]{3,})\b  |  \b([a-z]{3,})\s*(\d{1,2})\b

  /** Lengths of the digit, space and letter parts of a day/month match. */
  datatype WordGroups = WordGroups(dl: nat, sl: nat, ll: nat)

  /** The first alternative ("7 june") matches at `p`. */
  predicate DayMonMatch(s: string, p: nat, g: WordGroups)
  {
    && Boundary(s, p)
    && 1 <= g.dl <= 2 && CharsAt(s, p, g.dl, IsDigit)
    && CharsAt(s, p + g.dl, g.sl, IsSpace)
    && 3 <= g.ll && CharsAt(s, p + g.dl + g.sl, g.ll, IsLowerLetter)
    && Boundary(s, p + g.dl + g.sl + g.ll)
  }

  /** The second alternative ("june 7") matches at `p`. */
  predicate MonDayMatch(s: string, p: nat, g: WordGroups)
  {
    && Boundary(s, p)
    && 3 <= g.ll && CharsAt(s, p, g.ll, IsLowerLetter)
    && CharsAt(s, p + g.ll, g.sl, IsSpace)
    && 1 <= g.dl <= 2 && CharsAt(s, p + g.ll + g.sl, g.dl, IsDigit)
    && Boundary(s, p + g.ll + g.sl + g.dl)
  }

  function DayMonAt(s: string, p: nat): (g: Option<WordGroups>)
    ensures g.Some? ==> DayMonMatch(s, p, g.value)
  {
    var dr := Run(s, p, IsDigit);
    var dl := Min2(dr);
    var sl := Run(s, p + dl, IsSpace);
    var ll := Run(s, p + dl + sl, IsLowerLetter);
    if 1 <= dl && 3 <= ll && Boundary(s, p) && Boundary(s, p + dl + sl + ll)
    then
      DayMonBlocks(s, p, dl, sl, ll);
      Some(WordGroups(dl, sl, ll))
    else None
  }

  /** Runs of the lengths `DayMonAt` accepts form a first-alternative match. */
  lemma DayMonBlocks(s: string, p: nat, dl: nat, sl: nat, ll: nat)
    requires dl == Min2(Run(s, p, IsDigit)) && sl == Run(s, p + dl, IsSpace) && ll == Run(s, p + dl + sl, IsLowerLetter)
    requires 1 <= dl && 3 <= ll && Boundary(s, p) && Boundary(s, p + dl + sl + ll)
    ensures DayMonMatch(s, p, WordGroups(dl, sl, ll))
  {
    ThreeBlocks(s, p, dl, sl, ll, IsDigit, IsSpace, IsLowerLetter);
  }

  function MonDayAt(s: string, p: nat): (g: Option<WordGroups>)
    ensures g.Some? ==> MonDayMatch(s, p, g.value)
  {
    var ll := Run(s, p, IsLowerLetter);
    var sl := Run(s, p + ll, IsSpace);
    var dl := Run(s, p + ll + sl, IsDigit);
    if 3 <= ll && 1 <= dl <= 2 && Boundary(s, p) && Boundary(s, p + ll + sl + dl)
    then
      MonDayBlocks(s, p, ll, sl, dl);
      Some(WordGroups(dl, sl, ll))
    else None
  }

  /** Runs of the lengths `MonDayAt` accepts form a second-alternative match. */
  lemma MonDayBlocks(s: string, p: nat, ll: nat, sl: nat, dl: nat)
    requires ll == Run(s, p, IsLowerLetter) && sl == Run(s, p + ll, IsSpace) && dl == Run(s, p + ll + sl, IsDigit)
    requires 3 <= ll && 1 <= dl <= 2 && Boundary(s, p) && Boundary(s, p + ll + sl + dl)
    ensures MonDayMatch(s, p, WordGroups(dl, sl, ll))
  {
    ThreeBlocks(s, p, ll, sl, dl, IsLowerLetter, IsSpace, IsDigit);
  }

  /** The character at `k` inside a block of `p`-characters. */
  lemma CharIn(s: string, i: nat, n: nat, p: char -> bool, k: nat) returns (c: char)
    requires CharsAt(s, i, n, p) && i <= k < i + n
    ensures k < |s| && c == s[k] && p(c)
  {
    c := s[k];
  }

  /** White space, digits and lower-case letters are three disjoint classes;
      the last two are word characters. */
  lemma ClassesDisjoint(c: char)
    ensures IsSpace(c) ==> !IsDigit(c) && !IsLowerLetter(c) && !IsWordChar(c)
    ensures IsDigit(c) ==> !IsLowerLetter(c) && IsWordChar(c)
    ensures IsLowerLetter(c) ==> !IsDigit(c) && IsWordChar(c)
  {
  }

  /** After a word character, a boundary is the end or a non-word character. */
  lemma AfterWord(s: string, e: nat)
    requires 0 < e <= |s| && IsWordChar(s[e - 1]) && Boundary(s, e)
    ensures e < |s| ==> !IsDigit(s[e]) && !IsLowerLetter(s[e])
  {
  }

  lemma NotBoundaryInsideWord(s: string, i: nat)
    requires 0 < i < |s| && IsWordChar(s[i - 1]) && IsWordChar(s[i])
    ensures !Boundary(s, i)
  {
  }

  /** The first alternative has at most one match at `p`, and `DayMonAt`
      reports exactly it. */
  lemma DayMonAtIsTheMatch(s: string, p: nat, g: WordGroups)
    ensures DayMonMatch(s, p, g) <==> DayMonAt(s, p) == Some(g)
  {
    if DayMonMatch(s, p, g) {
      DayMonMatchIsFound(s, p, g);
    }
  }

  lemma DayMonMatchIsFound(s: string, p: nat, g: WordGroups)
    requires DayMonMatch(s, p, g)
    ensures DayMonAt(s, p) == Some(g)
  {
    DayMonDigits(s, p, g);
    DayMonSpaces(s, p, g);
    DayMonLetters(s, p, g);
    DayMonAtOf(s, p, g.dl, g.sl, g.ll);
  }

  /** `DayMonAt` in terms of the three run lengths it measures. */
  lemma DayMonAtOf(s: string, p: nat, dl: nat, sl: nat, ll: nat)
    requires Min2(Run(s, p, IsDigit)) == dl && Run(s, p + dl, IsSpace) == sl && Run(s, p + dl + sl, IsLowerLetter) == ll
    requires 1 <= dl && 3 <= ll && Boundary(s, p) && Boundary(s, p + dl + sl + ll)
    ensures DayMonAt(s, p) == Some(WordGroups(dl, sl, ll))
  {
  }

  lemma DayMonDigits(s: string, p: nat, g: WordGroups)
    requires DayMonMatch(s, p, g)
    ensures Min2(Run(s, p, IsDigit)) == g.dl
  {
    RunIsLongest(s, p, g.dl, IsDigit);
    if g.dl == 1 {
      if g.sl > 0 {
        var _ := CharIn(s, p + 1, g.sl, IsSpace, p + 1);
      } else {
        var _ := CharIn(s, p + 1, g.ll, IsLowerLetter, p + 1);
      }
      ClassesDisjoint(s[p + 1]);
      RunExact(s, p, 1, IsDigit);
    }
  }

  lemma DayMonSpaces(s: string, p: nat, g: WordGroups)
    requires DayMonMatch(s, p, g)
    ensures Run(s, p + g.dl, IsSpace) == g.sl
  {
    var i := p + g.dl + g.sl;
    var _ := CharIn(s, i, g.ll, IsLowerLetter, i);
    ClassesDisjoint(s[i]);
    RunExact(s, p + g.dl, g.sl, IsSpace);
  }

  lemma DayMonLetters(s: string, p: nat, g: WordGroups)
    requires DayMonMatch(s, p, g)
    ensures Run(s, p + g.dl + g.sl, IsLowerLetter) == g.ll
  {
    var i := p + g.dl + g.sl;
    var _ := CharIn(s, i, g.ll, IsLowerLetter, i + g.ll - 1);
    ClassesDisjoint(s[i + g.ll - 1]);
    AfterWord(s, i + g.ll);
    RunExact(s, i, g.ll, IsLowerLetter);
  }

  /** The second alternative has at most one match at `p`, and `MonDayAt`
      reports exactly it. */
  lemma MonDayAtIsTheMatch(s: string, p: nat, g: WordGroups)
    ensures MonDayMatch(s, p, g) <==> MonDayAt(s, p) == Some(g)
  {
    if MonDayMatch(s, p, g) {
      MonDayMatchIsFound(s, p, g);
    }
  }

  lemma MonDayMatchIsFound(s: string, p: nat, g: WordGroups)
    requires MonDayMatch(s, p, g)
    ensures MonDayAt(s, p) == Some(g)
  {
    MonDayLetters(s, p, g);
    MonDaySpaces(s, p, g);
    MonDayDigits(s, p, g);
    MonDayAtOf(s, p, g.ll, g.sl, g.dl);
  }

  /** `MonDayAt` in terms of the three run lengths it measures. */
  lemma MonDayAtOf(s: string, p: nat, ll: nat, sl: nat, dl: nat)
    requires Run(s, p, IsLowerLetter) == ll && Run(s, p + ll, IsSpace) == sl && Run(s, p + ll + sl, IsDigit) == dl
    requires 3 <= ll && 1 <= dl <= 2 && Boundary(s, p) && Boundary(s, p + ll + sl + dl)
    ensures MonDayAt(s, p) == Some(WordGroups(dl, sl, ll))
  {
  }

  lemma MonDayLetters(s: string, p: nat, g: WordGroups)
    requires MonDayMatch(s, p, g)
    ensures Run(s, p, IsLowerLetter) == g.ll
  {
    if g.sl > 0 {
      var _ := CharIn(s, p + g.ll, g.sl, IsSpace, p + g.ll);
    } else {
      var _ := CharIn(s, p + g.ll, g.dl, IsDigit, p + g.ll);
    }
    ClassesDisjoint(s[p + g.ll]);
    RunExact(s, p, g.ll, IsLowerLetter);
  }

  lemma MonDaySpaces(s: string, p: nat, g: WordGroups)
    requires MonDayMatch(s, p, g)
    ensures Run(s, p + g.ll, IsSpace) == g.sl
  {
    var i := p + g.ll + g.sl;
    var _ := CharIn(s, i, g.dl, IsDigit, i);
    ClassesDisjoint(s[i]);
    RunExact(s, p + g.ll, g.sl, IsSpace);
  }

  lemma MonDayDigits(s: string, p: nat, g: WordGroups)
    requires MonDayMatch(s, p, g)
    ensures Run(s, p + g.ll + g.sl, IsDigit) == g.dl
  {
    var i := p + g.ll + g.sl;
    var _ := CharIn(s, i, g.dl, IsDigit, i + g.dl - 1);
    ClassesDisjoint(s[i + g.dl - 1]);
    AfterWord(s, i + g.dl);
    RunExact(s, i, g.dl, IsDigit);
  }

  /** The day and month words of a day/month match. */
  datatype DayMonth = DayMonth(day: string, mon: string)

  predicate WellFormedDayMonth(dm: DayMonth)
  {
    && 1 <= |dm.day| <= 2 && AllDigits(dm.day)
    && 3 <= |dm.mon| && forall k :: 0 <= k < |dm.mon| ==> IsLowerLetter(dm.mon[k])
  }

  /** The groups the alternation reports at `p`: the first alternative when
      it matches there, else the second. */
  function DayMonthAt(s: string, p: nat): (r: Option<DayMonth>)
    ensures r.Some? ==> WellFormedDayMonth(r.value)
    ensures r.Some? <==> DayMonAt(s, p).Some? || MonDayAt(s, p).Some?
  {
    match DayMonAt(s, p)
    case Some(g) =>
      WordsWellFormed(s, p, g.dl, p + g.dl + g.sl, g.ll);
      Some(DayMonth(s[p..p + g.dl], s[p + g.dl + g.sl..p + g.dl + g.sl + g.ll]))
    case None =>
        match MonDayAt(s, p)
      case Some(g) =>
        WordsWellFormed(s, p + g.ll + g.sl, g.dl, p, g.ll);
        Some(DayMonth(s[p + g.ll + g.sl..p + g.ll + g.sl + g.dl], s[p..p + g.ll]))
      case None => None
  }

  /** The words read off a digit block and a letter block are well formed. */
  lemma WordsWellFormed(s: string, di: nat, dl: nat, mi: nat, ml: nat)
    requires 1 <= dl <= 2 && CharsAt(s, di, dl, IsDigit)
    requires 3 <= ml && CharsAt(s, mi, ml, IsLowerLetter)
    ensures WellFormedDayMonth(DayMonth(s[di..di + dl], s[mi..mi + ml]))
  {
    var d, m := s[di..di + dl], s[mi..mi + ml];
    assert forall k :: 0 <= k < |d| ==> d[k] == s[di + k];
    assert forall k :: 0 <= k < |m| ==> m[k] == s[mi + k];
  }

  /** The words a first-alternative match reports. */
  lemma DayMonthOfDayMon(s: string, p: nat, g: WordGroups)
    requires DayMonAt(s, p) == Some(g)
    ensures p + g.dl + g.sl + g.ll <= |s|
    ensures DayMonthAt(s, p) == Some(DayMonth(s[p..p + g.dl], s[p + g.dl + g.sl..p + g.dl + g.sl + g.ll]))
  {
  }

  /** The words a second-alternative match reports when the first fails. */
  lemma DayMonthOfMonDay(s: string, p: nat, g: WordGroups)
    requires DayMonAt(s, p).None? && MonDayAt(s, p) == Some(g)
    ensures p + g.ll + g.sl + g.dl <= |s|
    ensures DayMonthAt(s, p) == Some(DayMonth(s[p + g.ll + g.sl..p + g.ll + g.sl + g.dl], s[p..p + g.ll]))
  {
  }

  /** Neither alternative can start inside a word, or on a character that is
      neither a digit nor a lower-case letter. */
  lemma NoDayMonthAt(s: string, p: nat)
    requires p <= |s|
    requires !Boundary(s, p) || (p < |s| && !IsDigit(s[p]) && !IsLowerLetter(s[p]))
    ensures DayMonthAt(s, p).None?
  {
    DayMonStart(s, p);
    MonDayStart(s, p);
  }

  /** A first-alternative match starts at a boundary, on a digit. */
  lemma DayMonStart(s: string, p: nat)
    ensures DayMonAt(s, p).Some? ==> Boundary(s, p) && p < |s| && IsDigit(s[p])
  {
    if DayMonAt(s, p).Some? {
      var g := DayMonAt(s, p).value;
      var _ := CharIn(s, p, g.dl, IsDigit, p);
    }
  }

  /** A second-alternative match starts at a boundary, on a letter. */
  lemma MonDayStart(s: string, p: nat)
    ensures MonDayAt(s, p).Some? ==> Boundary(s, p) && p < |s| && IsLowerLetter(s[p])
  {
    if MonDayAt(s, p).Some? {
      var g := MonDayAt(s, p).value;
      var _ := CharIn(s, p, g.ll, IsLowerLetter, p);
    }
  }

  /** `String.prototype.match` without the `g` flag: the leftmost position
      from `from` on where the matcher `at` succeeds, with its groups. */
  function Leftmost<G>(s: string, from: nat, at: (string, nat) -> Option<G>): (r: Option<(nat, G)>)
    ensures r.Some? ==> from <= r.value.0 <= |s| && at(s, r.value.0) == Some(r.value.1)
    ensures forall q :: from <= q <= |s| && (r.None? || q < r.value.0) ==> at(s, q).None?
    decreases |s| + 1 - from
  {
    if from > |s| then None
    else
      match at(s, from)
      case Some(g) => Some((from, g))
      case None => Leftmost(s, from + 1, at)
  }
}

=== FILE: display.dfy ===
/** Small text-shaping idioms the pages share: `filter(Boolean)` over
    optional strings and `s || fallback`. */
module Display {
  import opened Wrappers
  import opened MemoryTypes
  import opened Strings

  /** `xs.filter(Boolean)`: the present, non-empty strings, in order. */
  function Present(xs: seq<Option<string>>): (r: seq<string>)
    ensures |r| <= |xs|
    ensures forall s :: s in r <==> s != "" && Some(s) in xs
  {
    if |xs| == 0 then []
    else
      assert forall x :: x in xs[1..] ==> x in xs;
      assert forall x :: x in xs ==> x == xs[0] || x in xs[1..];
      (if Truthy(xs[0]) then [xs[0].value] else []) + Present(xs[1..])
  }

  /** Filtering keeps order: it distributes over concatenation. */
  lemma {:induction false} PresentSplits(a: seq<Option<string>>, b: seq<Option<string>>)
    ensures Present(a + b) == Present(a) + Present(b)
  {
    if |a| > 0 {
      assert (a + b)[0] == a[0];
      assert (a + b)[1..] == a[1..] + b;
      PresentSplits(a[1..], b);
    } else {
      assert a + b == b;
    }
  }

  /** Nothing present: the filter leaves nothing. */
  lemma {:induction false} PresentNone(xs: seq<Option<string>>)
    requires forall i :: 0 <= i < |xs| ==> !Truthy(xs[i])
    ensures Present(xs) == []
  {
    if |xs| > 0 {
      PresentNone(xs[1..]);
    }
  }

  /** The filter of one or two entries, spelled out. */
  lemma PresentPair(x: Option<string>, y: Option<string>)
    ensures Present([x]) == if Truthy(x) then [x.value] else []
    ensures Present([x, y]) == (if Truthy(x) then [x.value] else []) + (if Truthy(y) then [y.value] else [])
  {
    assert [x, y][1..] == [y];
    assert [y][1..] == [];
    assert [x][1..] == [];
  }

  /** A missing entry in the middle is filtered away. */
  lemma PresentSkipsNone(a: seq<Option<string>>, b: seq<Option<string>>)
    ensures Present(a + [None] + b) == Present(a + b)
  {
    PresentSplits(a + [None], b);
    PresentSplits(a, [None]);
    PresentSplits(a, b);
    PresentPair(None, None);
  }

  /** Joining two parts puts the separator between them. */
  lemma JoinPair(x: string, y: string, sep: string)
    ensures Join([x], sep) == x
    ensures Join([x, y], sep) == x + sep + y
  {
    assert [x, y][1..] == [y];
  }

  /** `s || fallback`. */
  function OrElse(s: Option<string>, fallback: string): (r: string)
    ensures Truthy(s) ==> r == s.value
    ensures !Truthy(s) ==> r == fallback
  {
    if Truthy(s) then s.value else fallback
  }
}

=== FILE: fsjson.dfy ===
/** The JSON files of the data directory (`lib/fsjson.ts`). Reading the disk
    and parsing are left to the caller: `file` is the parsed contents, or
    `None` when the file is missing, unreadable or not JSON. */
module FsJson {
  import opened Wrappers

  /** `readJSON(relPath, fallback)`: the parsed contents, or the fallback. */
  function ReadJson<T>(file: Option<T>, fallback: T): (v: T)
    ensures file.None? ==> v == fallback
    ensures file.Some? ==> v == file.value
  {
    file.GetOr(fallback)
  }
}

=== FILE: gallery.dfy ===
/** The memory-book gallery (`app/memorybook/gallery/page.tsx`): the
    patient's items split into a people section and a memories section, and
    the text each card shows. */
module Gallery {
  import opened Wrappers
  import opened Strings
  import opened Seqs
  import opened MemoryTypes
  import opened Display

  predicate IsPersonPhoto(i: MemoryItem)
  {
    i.kind == Some(PersonKind)
  }

  predicate IsMemoryPhoto(i: MemoryItem)
  {
    i.kind != Some(PersonKind)
  }

  /** The people section: items typed "person". */
  function PeoplePhotos(items: seq<MemoryItem>): (r: seq<MemoryItem>)
    ensures forall x :: x in r <==> x in items && x.kind == Some(PersonKind)
  {
    Filter(items, IsPersonPhoto)
  }

  /** The memories section: every other item, an untyped one included. */
  function MemoryPhotos(items: seq<MemoryItem>): (r: seq<MemoryItem>)
    ensures forall x :: x in r <==> x in items && x.kind != Some(PersonKind)
  {
    Filter(items, IsMemoryPhoto)
  }

  /** Each section keeps the items' order: over two runs of items it is
      the section of each, in order, and one item lands in exactly one of
      them. */
  lemma SectionsKeepOrder(a: seq<MemoryItem>, b: seq<MemoryItem>, x: MemoryItem)
    ensures PeoplePhotos(a + b) == PeoplePhotos(a) + PeoplePhotos(b)
    ensures MemoryPhotos(a + b) == MemoryPhotos(a) + MemoryPhotos(b)
    ensures PeoplePhotos([x]) == if x.kind == Some(PersonKind) then [x] else []
    ensures MemoryPhotos([x]) == if x.kind == Some(PersonKind) then [] else [x]
  {
    FilterConcat(a, b, IsPersonPhoto);
    FilterConcat(a, b, IsMemoryPhoto);
    FilterOne(x, IsPersonPhoto);
    FilterOne(x, IsMemoryPhoto);
  }

  /** Every item is shown exactly once: the two sections split the items. */
  lemma SectionsPartition(items: seq<MemoryItem>)
    ensures multiset(PeoplePhotos(items)) + multiset(MemoryPhotos(items)) == multiset(items)
    ensures |PeoplePhotos(items)| + |MemoryPhotos(items)| == |items|
    ensures forall x :: !(x in PeoplePhotos(items) && x in MemoryPhotos(items))
  {
    var p, m := PeoplePhotos(items), MemoryPhotos(items);
    assert multiset(p) + multiset(m) == multiset(items) by {
      forall x ensures (multiset(p) + multiset(m))[x] == multiset(items)[x] {
      }
    }
    assert |multiset(p) + multiset(m)| == |multiset(items)|;
  }

  /** `i.people?.[0]?.name || "Person"`. */
  function PersonCardName(i: MemoryItem): (n: string)
    ensures n != ""
    ensures i.people.Some? && |i.people.value| > 0 && i.people.value[0].name != "" ==> n == i.people.value[0].name
    ensures !(i.people.Some? && |i.people.value| > 0 && i.people.value[0].name != "") ==> n == "Person"
  {
    var first := if i.people.Some? && |i.people.value| > 0 then Some(i.people.value[0].name) else None;
    OrElse(first, "Person")
  }

  /** `i.people?.[0]?.relation`. */
  function PersonCardRelation(i: MemoryItem): (r: Option<string>)
    ensures r.Some? ==> i.people.Some? && |i.people.value| > 0 && r == i.people.value[0].relation
    ensures i.people.Some? && |i.people.value| > 0 ==> r == i.people.value[0].relation
  {
    if i.people.Some? && |i.people.value| > 0 then i.people.value[0].relation else None
  }

  /** `i.event || "Memory"`. */
  function MemoryCardTitle(i: MemoryItem): (t: string)
    ensures t != ""
    ensures Truthy(i.event) ==> t == i.event.value
    ensures !Truthy(i.event) ==> t == "Memory"
  {
    OrElse(i.event, "Memory")
  }

  /** `[place, eventDate].filter(Boolean).join(" • ") || "—"`. */
  function MemoryCardSubtitle(i: MemoryItem): (s: string)
    ensures s == "—" <==> (!Truthy(i.place) && !Truthy(i.eventDate)) || (i.place == Some("—") && !Truthy(i.eventDate)) || (i.eventDate == Some("—") && !Truthy(i.place))
    ensures Truthy(i.place) && Truthy(i.eventDate) ==> s == i.place.value + " • " + i.eventDate.value
    ensures Truthy(i.place) && !Truthy(i.eventDate) ==> s == i.place.value
    ensures !Truthy(i.place) && Truthy(i.eventDate) ==> s == i.eventDate.value
  {
    PresentPair(i.place, i.eventDate);
    JoinPair(i.place.GetOr(""), i.eventDate.GetOr(""), " • ");
    JoinPair(i.eventDate.GetOr(""), "", " • ");
    var joined := Join(Present([i.place, i.eventDate]), " • ");
    assert Truthy(i.place) && Truthy(i.eventDate) ==> joined != "—" by {
      if Truthy(i.place) && Truthy(i.eventDate) {
        assert |joined| > 3;
      }
    }
    if joined != "" then joined else "—"
  }

  function Names(ps: seq<PersonTag>): (r: seq<string>)
    ensures |r| == |ps| && forall k :: 0 <= k < |ps| ==> r[k] == ps[k].name
  {
    seq(|ps|, k requires 0 <= k < |ps| => ps[k].name)
  }

  /** "With: <names>" only for a non-empty people list; relations are not shown. */
  function WithLine(i: MemoryItem): (w: Option<string>)
    ensures w.Some? <==> i.people.Some? && |i.people.value| > 0
    ensures w.Some? ==> w.value == "With: " + Join(Names(i.people.value), ", ")
  {
    if i.people.Some? && |i.people.value| > 0 then Some("With: " + Join(Names(i.people.value), ", ")) else None
  }

  datatype PersonCard = PersonCard(image: string, name: string, relation: Option<string>, caption: Option<string>)

  datatype MemoryCard = MemoryCard(image: string, title: string, subtitle: string, withLine: Option<string>, caption: Option<string>)

  /** The page: each section's cards in item order, and the "no photos yet"
      note of each empty section. */
  datatype GalleryView = GalleryView(people: seq<PersonCard>, memories: seq<MemoryCard>, noPeopleNote: bool, noMemoriesNote: bool)

  function PersonCardOf(i: MemoryItem): PersonCard
  {
    PersonCard(i.storagePath, PersonCardName(i), PersonCardRelation(i), i.caption)
  }

  function MemoryCardOf(i: MemoryItem): MemoryCard
  {
    MemoryCard(i.storagePath, MemoryCardTitle(i), MemoryCardSubtitle(i), WithLine(i), i.caption)
  }

  /** A section is empty exactly when no item belongs in it. */
  lemma EmptySections(items: seq<MemoryItem>)
    ensures |PeoplePhotos(items)| == 0 <==> forall x :: x in items ==> x.kind != Some(PersonKind)
    ensures |MemoryPhotos(items)| == 0 <==> forall x :: x in items ==> x.kind == Some(PersonKind)
  {
    var p, m := PeoplePhotos(items), MemoryPhotos(items);
    if |p| > 0 {
      assert p[0] in p;
    }
    if |m| > 0 {
      assert m[0] in m;
    }
  }

  function PersonCards(p: seq<MemoryItem>): (cs: seq<PersonCard>)
    ensures |cs| == |p| && forall k :: 0 <= k < |p| ==> cs[k] == PersonCardOf(p[k])
  {
    seq(|p|, k requires 0 <= k < |p| => PersonCardOf(p[k]))
  }

  function MemoryCards(m: seq<MemoryItem>): (cs: seq<MemoryCard>)
    ensures |cs| == |m| && forall k :: 0 <= k < |m| ==> cs[k] == MemoryCardOf(m[k])
  {
    seq(|m|, k requires 0 <= k < |m| => MemoryCardOf(m[k]))
  }

  function Render(items: seq<MemoryItem>): (v: GalleryView)
    ensures |v.people| + |v.memories| == |items|
    ensures v.people == PersonCards(PeoplePhotos(items)) && v.memories == MemoryCards(MemoryPhotos(items))
    ensures v.noPeopleNote <==> forall x :: x in items ==> x.kind != Some(PersonKind)
    ensures v.noMemoriesNote <==> forall x :: x in items ==> x.kind == Some(PersonKind)
  {
    var p, m := PeoplePhotos(items), MemoryPhotos(items);
    SectionsPartition(items);
    EmptySections(items);
    GalleryView(PersonCards(p), MemoryCards(m), |p| == 0, |m| == 0)
  }
}

=== FILE: invite.dfy ===
/** The invitation endpoint: for one memory, issue a fresh upload token to
    every tagged person with a phone number and build a WhatsApp link that
    carries the upload URL. Randomness, the clock, the request's base URL
    and percent-encoding are parameters. */
module Invite {
  import opened Wrappers
  import opened Strings
  import opened Seqs
  import opened MemoryTypes
  import opened ItemStore
  import opened Notify

  /** Seven days in milliseconds: how long an invitation stays usable. */
  const WeekMs: int := 1000 * 60 * 60 * 24 * 7

  const WaPrefix := "https://wa.me/"

  /** `baseUrlFromReq`: the request's own origin when it has a `host`
      header, else the configured public base, else the development default. */
  function BaseUrl(host: string, proto: string, configured: Option<string>): (base: string)
    ensures host != "" ==> EndsWith(base, "://" + host)
    ensures host != "" && proto != "" ==> StartsWith(base, proto + "://")
    ensures host != "" && proto == "" ==> StartsWith(base, "http://")
    ensures host == "" && configured.Some? ==> base == configured.value
    ensures host == "" && configured.None? ==> base == "http://localhost:3001"
  {
    if host != "" then
      var scheme := if proto == "" then "http" else proto;
      var b := scheme + "://" + host;
      assert b[..|scheme + "://"|] == scheme + "://";
      assert b[|b| - |"://" + host|..] == "://" + host;
      b
    else configured.GetOr("http://localhost:3001")
  }

  /** `normalizeForWa`: the digits of the number, in order. */
  function NormalizeForWa(num: string): (digits: string)
    ensures AllDigits(digits)
    ensures |digits| <= |num|
    ensures forall c :: c in digits <==> c in num && IsDigit(c)
  {
    Filter(num, IsDigit)
  }

  /** Normalising a normalised number changes nothing. */
  lemma NormalizeIdempotent(num: string)
    ensures NormalizeForWa(NormalizeForWa(num)) == NormalizeForWa(num)
  {
    FilterAll(Filter(num, IsDigit), IsDigit);
  }

  /** `buildWaLink`; `encode` is `encodeURIComponent`. */
  function BuildWaLink(number: string, text: string, encode: string -> string): (link: string)
    ensures StartsWith(link, WaPrefix)
    ensures link == WaPrefix + NormalizeForWa(number) + "?text=" + encode(text)
  {
    var link := WaPrefix + NormalizeForWa(number) + "?text=" + encode(text);
    assert link[..|WaPrefix|] == WaPrefix;
    link
  }

  /** The phone number a wa.me link addresses: the text between the prefix
      and the first `?`. */
  function WaNumber(link: string): Option<string>
  {
    if StartsWith(link, WaPrefix) then Some(Split(link[|WaPrefix|..], '?')[0]) else None
  }

  /** A built link addresses exactly the normalised number. */
  lemma WaLinkAddressesNumber(number: string, text: string, encode: string -> string)
    ensures WaNumber(BuildWaLink(number, text, encode)) == Some(NormalizeForWa(number))
  {
    var d := NormalizeForWa(number);
    var link := BuildWaLink(number, text, encode);
    assert link[|WaPrefix|..] == d + ['?'] + ("text=" + encode(text));
    assert !IsDigit('?');
    SplitHead(d, "text=" + encode(text), '?');
  }

  /** `(event?.trim() || "this day") + (eventDate ? " (date)" : "")`. */
  function EventPhrase(event: Option<string>, eventDate: Option<string>): (phrase: string)
    ensures Truthy(eventDate) ==> EndsWith(phrase, " (" + eventDate.value + ")")
    ensures Truthy(eventDate) && (event.None? || IsBlank(event.value)) ==>
              phrase == "this day" + " (" + eventDate.value + ")"
    ensures Truthy(eventDate) && event.Some? && !IsBlank(event.value) ==>
              phrase == Trim(event.value) + " (" + eventDate.value + ")"
    ensures !Truthy(eventDate) && (event.None? || IsBlank(event.value)) ==> phrase == "this day"
    ensures !Truthy(eventDate) && event.Some? && !IsBlank(event.value) ==> phrase == Trim(event.value)
  {
    var what := if event.None? || Trim(event.value) == "" then "this day" else Trim(event.value);
    var when := if Truthy(eventDate) then " (" + eventDate.value + ")" else "";
    assert (what + when)[|what + when| - |when|..] == when;
    what + when
  }

  /** The invitation text: greeting, request, upload link on the last line. */
  function InviteMessage(name: string, phrase: string, link: string): (msg: string)
    ensures StartsWith(msg, "Hi " + name + "!\n")
    ensures Contains(msg, "Please leave a short voice note for " + phrase + ".")
    ensures EndsWith(msg, "\nUpload here: " + link)
  {
    var greeting := "Hi " + name + "!\n";
    var ask := "Please leave a short voice note for " + phrase + ".";
    var upload := "\nUpload here: " + link;
    Framed(greeting, ask, upload);
    greeting + ask + upload
  }

  /** One entry of the response's `links`. */
  datatype InviteLink = InviteLink(
    name: string,
    relation: Option<string>,
    phone: string,
    waLink: string,
    token: string,
    expiresAt: int)

  /** The request-independent inputs of one invitation run: the `i`-th fresh
      token, the clock, the base URL and the percent-encoder. */
  datatype Env = Env(newToken: nat -> string, now: int, base: string, encode: string -> string)

  /** A tagged person can be invited when the contact number is not blank
      (`NonBlankIffHasNonSpace`: the trimmed number is not empty). */
  predicate HasPhone(p: PersonTag)
  {
    p.contactNumber.Some? && HasNonSpace(p.contactNumber.value)
  }

  /** A person the loop visits, with the number it computes for them:
      `String(p.contactNumber || "").trim()`. */
  datatype Invitee = Invitee(person: PersonTag, phone: string)

  function InviteeOf(p: PersonTag): Invitee
  {
    Invitee(p, Trim(p.contactNumber.GetOr("")))
  }

  /** The people the route keeps, in order: its filter. */
  function Invitable(people: seq<PersonTag>): seq<PersonTag>
  {
    if |people| == 0 then []
    else if HasPhone(people[0]) then [people[0]] + Invitable(people[1..])
    else Invitable(people[1..])
  }

  /** The route's filter is `filter` with the phone test. */
  lemma {:induction false} InvitableIsFilter(people: seq<PersonTag>)
    ensures Invitable(people) == Filter(people, HasPhone)
  {
    if |people| > 0 {
      InvitableIsFilter(people[1..]);
    }
  }

  /** What the loop iterates over: the kept people with their numbers. */
  function Invitees(people: seq<PersonTag>): (vs: seq<Invitee>)
    ensures |vs| == |people|
    ensures forall i :: 0 <= i < |people| ==> vs[i] == InviteeOf(people[i])
  {
    seq(|people|, i requires 0 <= i < |people| => InviteeOf(people[i]))
  }

  /** The invitees the loop does not skip (`if (!phone) continue`). */
  function Called(vs: seq<Invitee>): seq<Invitee>
  {
    if |vs| == 0 then []
    else if vs[0].phone != "" then [vs[0]] + Called(vs[1..])
    else Called(vs[1..])
  }

  /** The loop's skip never fires after the route's filter: a kept number
      is not blank, so its trimmed form is not empty. */
  lemma {:induction false} NoneSkipped(people: seq<PersonTag>)
    ensures Called(Invitees(Invitable(people))) == Invitees(Invitable(people))
  {
    var vs := Invitees(Invitable(people));
    forall i | 0 <= i < |vs| ensures vs[i].phone != "" {
      var p := Invitable(people)[i];
      InvitableHavePhones(people, i);
      NonBlankIffHasNonSpace(p.contactNumber.value);
    }
    CalledAll(vs);
  }

  lemma {:induction false} InvitableHavePhones(people: seq<PersonTag>, i: int)
    requires 0 <= i < |Invitable(people)|
    ensures HasPhone(Invitable(people)[i])
  {
    if !HasPhone(people[0]) {
      InvitableHavePhones(people[1..], i);
    } else if i > 0 {
      InvitableHavePhones(people[1..], i - 1);
    }
  }

  lemma {:induction false} CalledAll(vs: seq<Invitee>)
    requires forall i :: 0 <= i < |vs| ==> vs[i].phone != ""
    ensures Called(vs) == vs
  {
    if |vs| > 0 {
      CalledAll(vs[1..]);
      assert [vs[0]] + vs[1..] == vs;
    }
  }

  /** The upload page a token opens. */
  function UploadUrl(base: string, token: string): (u: string)
    ensures StartsWith(u, base) && EndsWith(u, "/voice/" + token)
  {
    base + "/voice/" + token
  }

  /** The link entry built for invitee `v` with token `token`: the number,
      a wa.me link to it whose message ends with the upload URL, and the
      week-long expiry. */
  function LinkFor(item: MemoryItem, v: Invitee, token: string, env: Env): (l: InviteLink)
    ensures l.name == v.person.name && l.relation == v.person.relation && l.token == token
    ensures l.phone == v.phone && l.expiresAt == env.now + WeekMs
    ensures WaNumber(l.waLink) == Some(NormalizeForWa(l.phone))
    ensures l.waLink == BuildWaLink(l.phone, InviteMessage(l.name, EventPhrase(item.event, item.eventDate),
                                                           UploadUrl(env.base, l.token)), env.encode)
  {
    var msg := InviteMessage(v.person.name, EventPhrase(item.event, item.eventDate), UploadUrl(env.base, token));
    WaLinkAddressesNumber(v.phone, msg, env.encode);
    InviteLink(v.person.name, v.person.relation, v.phone, BuildWaLink(v.phone, msg, env.encode), token, env.now + WeekMs)
  }

  /** The record a token is created with for invitee `v`. */
  function RequestFor(item: MemoryItem, v: Invitee, env: Env): TokenRequest
  {
    TokenRequest(item.id, item.patientId, v.person.name, Some(v.phone), Some(env.now + WeekMs))
  }

  /** The record every invitation token of this item has, whoever it was for. */
  predicate IssuedFor(rec: TokenRecord, item: MemoryItem, env: Env)
  {
    rec.memoryId == item.id && rec.patientId == item.patientId && !rec.used
    && rec.expiresAt == Some(env.now + WeekMs) && rec.createdAt == env.now
  }

  /** The token writes of the loop: one `createToken` per invitee with a
      number, the `i`-th drawing `env.newToken(from + i)`. An invitee whose
      number is empty is skipped without drawing a token. */
  function IssueTokens(tokens: TokenDB, item: MemoryItem, vs: seq<Invitee>, from: nat, env: Env): (db: TokenDB)
    ensures tokens.Keys <= db.Keys
    decreases |vs|
  {
    if |vs| == 0 then tokens
    else if vs[0].phone == "" then IssueTokens(tokens, item, vs[1..], from, env)
    else
      var tokens1 := CreateToken(tokens, RequestFor(item, vs[0], env), env.newToken(from), env.now);
      IssueTokens(tokens1, item, vs[1..], from + 1, env)
  }

  /** The links the loop collects: entry `i` for the `i`-th invitee it does
      not skip, with the `i`-th fresh token. */
  function InviteLinks(item: MemoryItem, vs: seq<Invitee>, env: Env): (links: seq<InviteLink>)
    ensures |links| == |Called(vs)|
    ensures forall i :: 0 <= i < |links| ==> links[i] == LinkFor(item, Called(vs)[i], env.newToken(i), env)
  {
    var cs := Called(vs);
    seq(|cs|, i requires 0 <= i < |cs| => LinkFor(item, cs[i], env.newToken(i), env))
  }

  /** One step of the loop: an invitee without a number is skipped, one with
      a number draws the next token. */
  lemma IssueStep(tokens: TokenDB, item: MemoryItem, vs: seq<Invitee>, from: nat, env: Env)
    requires |vs| > 0
    ensures vs[0].phone == "" ==>
              && Called(vs) == Called(vs[1..])
              && IssueTokens(tokens, item, vs, from, env) == IssueTokens(tokens, item, vs[1..], from, env)
    ensures vs[0].phone != "" ==>
              && Called(vs) == [vs[0]] + Called(vs[1..])
              && IssueTokens(tokens, item, vs, from, env)
                 == IssueTokens(CreateToken(tokens, RequestFor(item, vs[0], env), env.newToken(from), env.now), item, vs[1..], from + 1, env)
  {
  }

  /** Keys no invitation drew are left as they were. */
  lemma {:induction false} IssuedFrame(tokens: TokenDB, item: MemoryItem, vs: seq<Invitee>, from: nat, env: Env, k: string)
    requires forall j :: from <= j < from + |Called(vs)| ==> env.newToken(j) != k
    ensures var db := IssueTokens(tokens, item, vs, from, env);
            (k in db <==> k in tokens) && (k in tokens ==> db[k] == tokens[k])
    decreases |vs|
  {
    if |vs| > 0 {
      IssueStep(tokens, item, vs, from, env);
      if vs[0].phone == "" {
        IssuedFrame(tokens, item, vs[1..], from, env, k);
      } else {
        var tokens1 := CreateToken(tokens, RequestFor(item, vs[0], env), env.newToken(from), env.now);
        IssuedFrame(tokens1, item, vs[1..], from + 1, env, k);
      }
    }
  }

  /** Every drawn token ends up stored with the item's unused, week-long
      record, even if a later invitee drew the same token. */
  lemma {:induction false} IssuedRecordAt(tokens: TokenDB, item: MemoryItem, vs: seq<Invitee>, from: nat, env: Env, i: int)
    requires 0 <= i < |Called(vs)|
    ensures var db := IssueTokens(tokens, item, vs, from, env);
            env.newToken(from + i) in db && IssuedFor(db[env.newToken(from + i)], item, env)
    decreases |vs|
  {
    IssueStep(tokens, item, vs, from, env);
    if vs[0].phone == "" {
      IssuedRecordAt(tokens, item, vs[1..], from, env, i);
    } else {
      var token := env.newToken(from);
      var tokens1 := CreateToken(tokens, RequestFor(item, vs[0], env), token, env.now);
      var n := |Called(vs[1..])|;
      if i > 0 {
        IssuedRecordAt(tokens1, item, vs[1..], from + 1, env, i - 1);
        assert from + 1 + (i - 1) == from + i;
      } else if j :| from + 1 <= j < from + 1 + n && env.newToken(j) == token {
        IssuedRecordAt(tokens1, item, vs[1..], from + 1, env, j - from - 1);
        assert env.newToken(from + 1 + (j - from - 1)) == token;
      } else {
        CreatedIsIssued(tokens, item, vs[0], token, env);
        IssuedFrame(tokens1, item, vs[1..], from + 1, env, token);
      }
    }
  }

  /** A token just created by the loop holds a record issued for the item. */
  lemma CreatedIsIssued(tokens: TokenDB, item: MemoryItem, v: Invitee, token: string, env: Env)
    ensures var db := CreateToken(tokens, RequestFor(item, v, env), token, env.now);
            token in db && IssuedFor(db[token], item, env)
  {
  }

  /** With distinct tokens each record also names the invitee and number it
      was drawn for (no later invitee overwrote it). */
  lemma {:induction false} DistinctTokensNamePerson(tokens: TokenDB, item: MemoryItem, vs: seq<Invitee>, from: nat, env: Env, i: int)
    requires forall a, b :: from <= a < b ==> env.newToken(a) != env.newToken(b)
    requires 0 <= i < |Called(vs)|
    ensures var db := IssueTokens(tokens, item, vs, from, env);
            && env.newToken(from + i) in db
            && db[env.newToken(from + i)].personName == Called(vs)[i].person.name
            && db[env.newToken(from + i)].phone == Some(Called(vs)[i].phone)
    decreases |vs|
  {
    IssueStep(tokens, item, vs, from, env);
    if vs[0].phone == "" {
      DistinctTokensNamePerson(tokens, item, vs[1..], from, env, i);
    } else if i == 0 {
      FirstTokenKept(tokens, item, vs, from, env);
    } else {
      var tokens1 := CreateToken(tokens, RequestFor(item, vs[0], env), env.newToken(from), env.now);
      DistinctTokensNamePerson(tokens1, item, vs[1..], from + 1, env, i - 1);
      assert from + 1 + (i - 1) == from + i;
    }
  }

  /** The first drawn token is not drawn again, so its record survives. */
  lemma FirstTokenKept(tokens: TokenDB, item: MemoryItem, vs: seq<Invitee>, from: nat, env: Env)
    requires forall a, b :: from <= a < b ==> env.newToken(a) != env.newToken(b)
    requires |vs| > 0 && vs[0].phone != ""
    ensures var db := IssueTokens(tokens, item, vs, from, env);
            && env.newToken(from) in db
            && db[env.newToken(from)].personName == vs[0].person.name
            && db[env.newToken(from)].phone == Some(vs[0].phone)
  {
    var token := env.newToken(from);
    var tokens1 := CreateToken(tokens, RequestFor(item, vs[0], env), token, env.now);
    IssueStep(tokens, item, vs, from, env);
    assert forall j :: from + 1 <= j < from + 1 + |Called(vs[1..])| ==> env.newToken(j) != token;
    IssuedFrame(tokens1, item, vs[1..], from + 1, env, token);
  }

  datatype NotifyResponse =
    | NotifyError(status: int, error: string)
    | NoPhones(reason: string)
    | Sent(links: seq<InviteLink>)

  datatype NotifyOutcome = NotifyOutcome(response: NotifyResponse, tokens: TokenDB)

  /** POST of the invitation endpoint. `memoryId` is the body field (`""`
      when absent); `file` is the memory store as read (`None` when
      unreadable). */
  function NotifyPost(memoryId: string, file: Option<MemoryDB>, tokens: TokenDB, env: Env): (o: NotifyOutcome)
    ensures memoryId == "" <==> o.response == NotifyError(400, "memoryId required")
    ensures o.response.NotifyError? && o.response.status == 404 <==>
              memoryId != "" && FindItem(ReadMemoryDB(file), memoryId).None?
    ensures !o.response.Sent? ==> o.tokens == tokens
    ensures o.response.NoPhones? ==> o.response.reason == "No phone numbers on this memory"
    ensures o.response.NoPhones? || o.response.Sent? ==> FindItem(ReadMemoryDB(file), memoryId).Some?
    ensures o.response.NoPhones? ==> Invitable(FindItem(ReadMemoryDB(file), memoryId).value.people.GetOr([])) == []
    ensures o.response.Sent? ==>
              1 <= |o.response.links| == |Invitable(FindItem(ReadMemoryDB(file), memoryId).value.people.GetOr([]))|
    ensures o.response.Sent? ==>
              forall i :: 0 <= i < |o.response.links| ==> o.response.links[i].token == env.newToken(i)
  {
    if memoryId == "" then NotifyOutcome(NotifyError(400, "memoryId required"), tokens)
    else
      match FindItem(ReadMemoryDB(file), memoryId)
      case None => NotifyOutcome(NotifyError(404, "memory not found"), tokens)
      case Some(item) =>
        var invitable := Invitable(item.people.GetOr([]));
        if |invitable| == 0 then NotifyOutcome(NoPhones("No phone numbers on this memory"), tokens)
        else SendInvites(item, tokens, env)
  }

  /** The loop of a successful answer: one link and one token per invitable
      person of `item`. */
  function SendInvites(item: MemoryItem, tokens: TokenDB, env: Env): (o: NotifyOutcome)
    ensures o.response.Sent?
    ensures |o.response.links| == |Invitable(item.people.GetOr([]))|
    ensures forall i :: 0 <= i < |o.response.links| ==> o.response.links[i].token == env.newToken(i)
  {
    var vs := Invitees(Invitable(item.people.GetOr([])));
    NoneSkipped(item.people.GetOr([]));
    NotifyOutcome(Sent(InviteLinks(item, vs, env)), IssueTokens(tokens, item, vs, 0, env))
  }

  /** The invitees of the memory a successful answer was sent for. */
  function SentInvitees(memoryId: string, file: Option<MemoryDB>): seq<Invitee>
  {
    match FindItem(ReadMemoryDB(file), memoryId)
    case None => []
    case Some(item) => Invitees(Invitable(item.people.GetOr([])))
  }

  /** A successful answer's links and token writes come from the loop over
      the memory's invitees, none of which is skipped. */
  lemma SentFromInvitees(memoryId: string, file: Option<MemoryDB>, tokens: TokenDB, env: Env)
    requires NotifyPost(memoryId, file, tokens, env).response.Sent?
    ensures var o := NotifyPost(memoryId, file, tokens, env);
            var item := FindItem(ReadMemoryDB(file), memoryId).value;
            var vs := SentInvitees(memoryId, file);
            && Called(vs) == vs
            && o.response.links == InviteLinks(item, vs, env)
            && o.tokens == IssueTokens(tokens, item, vs, 0, env)
  {
    var item := FindItem(ReadMemoryDB(file), memoryId).value;
    NoneSkipped(item.people.GetOr([]));
  }

  /** Each sent link's token is stored with the memory's unused record that
      expires seven days after issue. */
  lemma SentTokensStored(memoryId: string, file: Option<MemoryDB>, tokens: TokenDB, env: Env, i: int)
    requires var o := NotifyPost(memoryId, file, tokens, env);
             o.response.Sent? && 0 <= i < |o.response.links|
    ensures var o := NotifyPost(memoryId, file, tokens, env);
            var item := FindItem(ReadMemoryDB(file), memoryId).value;
            && o.response.links[i].expiresAt == env.now + WeekMs
            && o.response.links[i].token in o.tokens
            && IssuedFor(o.tokens[o.response.links[i].token], item, env)
  {
    var item := FindItem(ReadMemoryDB(file), memoryId).value;
    SentFromInvitees(memoryId, file, tokens, env);
    LoopTokensStored(tokens, item, SentInvitees(memoryId, file), env, i);
  }

  /** The loop's `i`-th link expires in a week and its token is stored with
      a record issued for the item. */
  lemma LoopTokensStored(tokens: TokenDB, item: MemoryItem, vs: seq<Invitee>, env: Env, i: int)
    requires Called(vs) == vs && 0 <= i < |vs|
    ensures var l := InviteLinks(item, vs, env)[i];
            var db := IssueTokens(tokens, item, vs, 0, env);
            l.expiresAt == env.now + WeekMs && l.token in db && IssuedFor(db[l.token], item, env)
  {
    IssuedRecordAt(tokens, item, vs, 0, env, i);
    var l := InviteLinks(item, vs, env)[i];
    assert l == LinkFor(item, vs[i], env.newToken(i), env);
    assert l.token == env.newToken(0 + i);
  }

  /** When the fresh tokens are distinct, each sent link's token record
      names the link's person and carries its number. */
  lemma SentTokensNamePerson(memoryId: string, file: Option<MemoryDB>, tokens: TokenDB, env: Env, i: int)
    requires forall a, b :: 0 <= a < b ==> env.newToken(a) != env.newToken(b)
    requires var o := NotifyPost(memoryId, file, tokens, env);
             o.response.Sent? && 0 <= i < |o.response.links|
    ensures var o := NotifyPost(memoryId, file, tokens, env);
            var l := o.response.links[i];
            l.token in o.tokens && o.tokens[l.token].personName == l.name && o.tokens[l.token].phone == Some(l.phone)
  {
    var item := FindItem(ReadMemoryDB(file), memoryId).value;
    SentFromInvitees(memoryId, file, tokens, env);
    LoopTokensNamePerson(tokens, item, SentInvitees(memoryId, file), env, i);
  }

  /** With distinct tokens, the loop's `i`-th link's token record names the
      link's person and carries its number. */
  lemma LoopTokensNamePerson(tokens: TokenDB, item: MemoryItem, vs: seq<Invitee>, env: Env, i: int)
    requires forall a, b :: 0 <= a < b ==> env.newToken(a) != env.newToken(b)
    requires Called(vs) == vs && 0 <= i < |vs|
    ensures var l := InviteLinks(item, vs, env)[i];
            var db := IssueTokens(tokens, item, vs, 0, env);
            l.token in db && db[l.token].personName == l.name && db[l.token].phone == Some(l.phone)
  {
    DistinctTokensNamePerson(tokens, item, vs, 0, env, i);
    var l := InviteLinks(item, vs, env)[i];
    assert l == LinkFor(item, vs[i], env.newToken(i), env);
    assert l.token == env.newToken(0 + i);
  }

  /** Each sent link names the invitable person it was built for, carries
      that person's trimmed number and addresses it. */
  lemma SentLinkContents(memoryId: string, file: Option<MemoryDB>, tokens: TokenDB, env: Env, i: int)
    requires var o := NotifyPost(memoryId, file, tokens, env);
             o.response.Sent? && 0 <= i < |o.response.links|
    ensures var o := NotifyPost(memoryId, file, tokens, env);
            var item := FindItem(ReadMemoryDB(file), memoryId).value;
            var p := Invitable(item.people.GetOr([]))[i];
            && o.response.links[i].name == p.name
            && o.response.links[i].relation == p.relation
            && o.response.links[i].phone == Trim(p.contactNumber.GetOr(""))
            && WaNumber(o.response.links[i].waLink) == Some(NormalizeForWa(o.response.links[i].phone))
            && o.response.links[i].waLink
               == BuildWaLink(o.response.links[i].phone,
                              InviteMessage(p.name, EventPhrase(item.event, item.eventDate),
                                            UploadUrl(env.base, env.newToken(i))), env.encode)
  {
    SentFromInvitees(memoryId, file, tokens, env);
  }

  /** Every issued invitation is valid for exactly seven days from issue
      and is never valid once used. */
  lemma InviteValidForAWeek(memoryId: string, file: Option<MemoryDB>, tokens: TokenDB, env: Env, i: int, t: int)
    requires var o := NotifyPost(memoryId, file, tokens, env);
             o.response.Sent? && 0 <= i < |o.response.links|
    ensures var o := NotifyPost(memoryId, file, tokens, env);
            IsTokenValid(GetToken(o.tokens, o.response.links[i].token), t) <==> t < env.now + WeekMs
  {
    SentTokensStored(memoryId, file, tokens, env, i);
  }

}

=== FILE: item_store.dfy ===
/** The memory-book store (`memory.json`): per-patient lists of items,
    read whole and written whole, with upsert by id. */
module ItemStore {
  import opened Wrappers
  import opened JsRecord
  import opened Seqs
  import opened MemoryTypes
  import opened FsJson

  /** `readMemoryDB`: a missing, empty, unreadable or unparsable file reads
      as `{}`. */
  function ReadMemoryDB(file: Option<MemoryDB>): (db: MemoryDB)
    ensures file.None? ==> db == []
    ensures file.Some? ==> db == file.value
  {
    ReadJson(file, [])
  }

  /** `listByPatient`: the patient's list, or empty for an unknown patient. */
  function ListByPatient(db: MemoryDB, patientId: string): (list: seq<MemoryItem>)
    ensures !HasKey(db, patientId) ==> list == []
    ensures HasKey(db, patientId) ==> list == db[IndexOf(db, patientId)].value
  {
    Get(db, patientId).GetOr([])
  }

  /** `Object.values(db).flat()`: every stored item, patient by patient. */
  function AllItems(db: MemoryDB): (items: seq<MemoryItem>)
    ensures forall x :: x in items <==> exists i :: 0 <= i < |db| && x in db[i].value
  {
    var lists := Values(db);
    assert forall i :: 0 <= i < |db| ==> lists[i] == db[i].value;
    Flatten(lists)
  }

  /** `all.find(m => m.id === id)`: the first stored item with that id. */
  function FindItem(db: MemoryDB, id: string): (found: Option<MemoryItem>)
    ensures found.Some? ==> found.value in AllItems(db) && found.value.id == id
    ensures found.None? <==> forall x :: x in AllItems(db) ==> x.id != id
    ensures found.Some? ==>
              exists i :: 0 <= i < |AllItems(db)| && AllItems(db)[i] == found.value
                          && forall j :: 0 <= j < i ==> AllItems(db)[j].id != id
  {
    var all := AllItems(db);
    var i := FindIndex(all, (m: MemoryItem) => m.id == id);
    if i < 0 then None else Some(all[i])
  }

  /** `upsertMemoryItem`: replace the first item with the same id in the
      owner's list, or append the item to that list. */
  function Upsert(db: MemoryDB, item: MemoryItem): (db': MemoryDB)
    ensures var before := ListByPatient(db, item.patientId);
            var after := ListByPatient(db', item.patientId);
            var idx := FindIndex(before, (x: MemoryItem) => x.id == item.id);
            && (idx >= 0 ==>
                  && |after| == |before| && after[idx] == item
                  && forall j :: 0 <= j < |before| && j != idx ==> after[j] == before[j])
            && (idx < 0 ==> after == before + [item])
    ensures forall p :: p != item.patientId ==> ListByPatient(db', p) == ListByPatient(db, p)
    ensures Ordered(db) ==> Ordered(db')
  {
    var list := ListByPatient(db, item.patientId);
    var idx := FindIndex(list, (x: MemoryItem) => x.id == item.id);
    var list' := if idx >= 0 then list[idx := item] else list + [item];
    GetSet(db, item.patientId, list');
    assert Ordered(db) ==> Ordered(Set(db, item.patientId, list')) by {
      if Ordered(db) {
        SetKeepsOrdered(db, item.patientId, list');
      }
    }
    Set(db, item.patientId, list')
  }

  /** After an upsert the owner's list holds the item. */
  lemma UpsertThenList(db: MemoryDB, item: MemoryItem)
    ensures item in ListByPatient(Upsert(db, item), item.patientId)
  {
    var before := ListByPatient(db, item.patientId);
    var idx := FindIndex(before, (x: MemoryItem) => x.id == item.id);
    var after := ListByPatient(Upsert(db, item), item.patientId);
    if idx < 0 {
      assert after[|before|] == item;
    } else {
      assert after[idx] == item;
    }
  }

  /** Upserting keeps the ids of the owner's list distinct. */
  lemma UpsertKeepsIdsDistinct(db: MemoryDB, item: MemoryItem)
    requires IdsDistinct(ListByPatient(db, item.patientId))
    ensures IdsDistinct(ListByPatient(Upsert(db, item), item.patientId))
  {
    var before := ListByPatient(db, item.patientId);
    var after := ListByPatient(Upsert(db, item), item.patientId);
    var idx := FindIndex(before, (x: MemoryItem) => x.id == item.id);
    forall i, j | 0 <= i < j < |after| ensures after[i].id != after[j].id {
      if idx < 0 {
        if j == |before| {
          assert after[i] == before[i];
          assert before[i].id != item.id;
        } else {
          assert after[i] == before[i] && after[j] == before[j];
        }
      } else {
        if i == idx {
          assert after[j] == before[j];
          assert before[i].id == item.id;
        } else if j == idx {
          assert after[i] == before[i];
          assert before[j].id == item.id;
        } else {
          assert after[i] == before[i] && after[j] == before[j];
        }
      }
    }
  }

  /** Upserting a new id grows the owner's list by one; an existing id keeps its length. */
  lemma UpsertLength(db: MemoryDB, item: MemoryItem)
    ensures var before := ListByPatient(db, item.patientId);
            var after := ListByPatient(Upsert(db, item), item.patientId);
            (exists i :: 0 <= i < |before| && before[i].id == item.id) <==> |after| == |before|
  {
    var before := ListByPatient(db, item.patientId);
    var idx := FindIndex(before, (x: MemoryItem) => x.id == item.id);
    if idx < 0 {
      assert forall i :: 0 <= i < |before| ==> before[i].id != item.id;
    }
  }
}

=== FILE: latest_memory.dfy ===
/** Which memory the stand-alone pop-up page opens with
    (`app/memorypopup/page.tsx`): among the patient's memories (or, when
    none is typed "memory", among all items), the newest by creation time,
    then by event date, then by id. Parsing a date and comparing ids under
    the locale are parameters. */
module LatestMemory {
  import opened Wrappers
  import opened Seqs
  import opened MemoryTypes

  predicate IsMemory(m: MemoryItem)
  {
    m.kind == Some(MemoryKind)
  }

  /** The items typed "memory", or every item when there are none. */
  function Candidates(items: seq<MemoryItem>): (c: seq<MemoryItem>)
    ensures |c| == 0 <==> |items| == 0
    ensures forall x :: x in c ==> x in items
    ensures (exists x :: x in items && IsMemory(x)) ==> forall x :: x in items ==> (x in c <==> IsMemory(x))
    ensures (forall x :: x in items ==> !IsMemory(x)) ==> c == items
  {
    var memories := Filter(items, IsMemory);
    if |memories| > 0 then
      assert memories[0] in memories;
      memories
    else
      assert forall x :: x in items ==> !IsMemory(x);
      items
  }

  /** `a.eventDate ? Date.parse(a.eventDate) : NaN`, with `None` for NaN. */
  function EventTime(m: MemoryItem, parseDate: string -> Option<int>): (t: Option<int>)
    ensures !Truthy(m.eventDate) ==> t.None?
    ensures Truthy(m.eventDate) ==> t == parseDate(m.eventDate.value)
  {
    if Truthy(m.eventDate) then parseDate(m.eventDate.value) else None
  }

  /** The page's comparator: negative when `a` goes first. Creation times
      decide when both are known and differ, then event dates likewise,
      then the ids, compared the other way round. */
  function Compare(a: MemoryItem, b: MemoryItem, parseDate: string -> Option<int>, idCompare: (string, string) -> int): (d: int)
    ensures a.createdAt.Some? && b.createdAt.Some? && a.createdAt != b.createdAt ==>
              (d <= 0 <==> a.createdAt.value > b.createdAt.value)
    ensures !(a.createdAt.Some? && b.createdAt.Some? && a.createdAt != b.createdAt) &&
            EventTime(a, parseDate).Some? && EventTime(b, parseDate).Some? && EventTime(a, parseDate) != EventTime(b, parseDate) ==>
              (d <= 0 <==> EventTime(a, parseDate).value > EventTime(b, parseDate).value)
    ensures !(a.createdAt.Some? && b.createdAt.Some? && a.createdAt != b.createdAt) &&
            !(EventTime(a, parseDate).Some? && EventTime(b, parseDate).Some? && EventTime(a, parseDate) != EventTime(b, parseDate)) ==>
              d == idCompare(b.id, a.id)
  {
    var ae, be := EventTime(a, parseDate), EventTime(b, parseDate);
    if a.createdAt.Some? && b.createdAt.Some? && a.createdAt != b.createdAt then b.createdAt.value - a.createdAt.value
    else if ae.Some? && be.Some? && ae != be then be.value - ae.value
    else idCompare(b.id, a.id)
  }

  /** `a` may stay ahead of `b` in the stable sort. */
  function MayPrecede(parseDate: string -> Option<int>, idCompare: (string, string) -> int): (MemoryItem, MemoryItem) -> bool
  {
    (a, b) => Compare(a, b, parseDate, idCompare) <= 0
  }

  /** `sorted[0] || null`: the head of the sorted candidates, if any. */
  function Latest(items: seq<MemoryItem>, parseDate: string -> Option<int>, idCompare: (string, string) -> int): (r: Option<MemoryItem>)
    ensures r.None? <==> |items| == 0
    ensures r.Some? ==> r.value in Candidates(items)
  {
    var c := Candidates(items);
    if |c| == 0 then None
    else
      var sorted := Sort(c, MayPrecede(parseDate, idCompare));
      assert sorted[0] in multiset(sorted);
      Some(sorted[0])
  }

  /** Whenever a memory-typed item exists, the page opens a memory. */
  lemma OpensAMemoryWhenThereIsOne(items: seq<MemoryItem>, parseDate: string -> Option<int>, idCompare: (string, string) -> int, m: MemoryItem)
    requires m in items && IsMemory(m)
    ensures Latest(items, parseDate, idCompare).Some?
    ensures IsMemory(Latest(items, parseDate, idCompare).value)
  {
  }

  /** When every candidate has a creation time, the page opens one created
      last, whatever the event dates and ids. */
  lemma LatestIsNewest(items: seq<MemoryItem>, parseDate: string -> Option<int>, idCompare: (string, string) -> int)
    requires |items| > 0
    requires forall x :: x in Candidates(items) ==> x.createdAt.Some?
    ensures forall x :: x in Candidates(items) ==>
              x.createdAt.value <= Latest(items, parseDate, idCompare).value.createdAt.value
  {
    var c := Candidates(items);
    var le := MayPrecede(parseDate, idCompare);
    var key := (m: MemoryItem) => m.createdAt.GetOr(0);
    forall a, b | a in c && b in c && key(a) != key(b) ensures le(a, b) <==> key(a) > key(b) {
      assert a.createdAt != b.createdAt;
    }
    SortHeadMaximisesKey(c, le, key);
  }

  /** When no candidate has a creation time and every one has an event date
      that parses, the page opens one with the latest event date. */
  lemma LatestByEventDate(items: seq<MemoryItem>, parseDate: string -> Option<int>, idCompare: (string, string) -> int)
    requires |items| > 0
    requires forall x :: x in Candidates(items) ==> x.createdAt.None? && EventTime(x, parseDate).Some?
    ensures forall x :: x in Candidates(items) ==>
              EventTime(x, parseDate).value <= EventTime(Latest(items, parseDate, idCompare).value, parseDate).value
  {
    var c := Candidates(items);
    var le := MayPrecede(parseDate, idCompare);
    var key := (m: MemoryItem) => EventTime(m, parseDate).GetOr(0);
    forall a, b | a in c && b in c && key(a) != key(b) ensures le(a, b) <==> key(a) > key(b) {
      assert EventTime(a, parseDate) != EventTime(b, parseDate);
    }
    SortHeadMaximisesKey(c, le, key);
  }
}

=== FILE: logs.dfy ===
/** The activity log (`logs.json`): entries appended by the chat layer and
    by POST, read back per patient, optionally medical-only, most severe
    and newest first, capped at 200; and the log panel's text search and
    severity chip. */
module Logs {
  import opened Wrappers
  import opened Strings
  import opened Seqs
  import opened MemoryTypes

  datatype LogType = ChatLog | ToolLog | EmergencyLog | NavLog

  datatype Severity = Low | Moderate | Urgent

  /** One entry. `meta` (free-form tool output) is not modelled. */
  datatype LogEntry = LogEntry(
    ts: string,
    patientId: string,
    kind: LogType,
    text: Option<string>,
    tags: Option<seq<string>>,
    severity: Option<Severity>,
    categories: Option<seq<string>>,
    reasons: Option<string>)

  function TypeName(t: LogType): string
  {
    match t
    case ChatLog => "chat"
    case ToolLog => "tool"
    case EmergencyLog => "emergency"
    case NavLog => "nav"
  }

  function SeverityName(s: Severity): string
  {
    match s
    case Low => "low"
    case Moderate => "moderate"
    case Urgent => "urgent"
  }

  const Cap := 200

  /** `severityRank[severity ?? "low"]`. */
  function SeverityRank(e: LogEntry): nat
  {
    match e.severity.GetOr(Low)
    case Urgent => 0
    case Moderate => 1
    case Low => 2
  }

  /** The GET comparator: more severe first, then the later timestamp. */
  predicate LogBefore(a: LogEntry, b: LogEntry)
  {
    SeverityRank(a) < SeverityRank(b) || (SeverityRank(a) == SeverityRank(b) && LexLe(b.ts, a.ts))
  }

  lemma LogBeforeIsTotalPreorder()
    ensures TotalPreorder(LogBefore)
  {
    forall a: LogEntry, b: LogEntry ensures LogBefore(a, b) || LogBefore(b, a) {
      LexLeTotal(a.ts, b.ts);
    }
    forall a: LogEntry, b: LogEntry, c: LogEntry | LogBefore(a, b) && LogBefore(b, c)
      ensures LogBefore(a, c)
    {
      if SeverityRank(a) == SeverityRank(b) == SeverityRank(c) {
        LexLeTrans(c.ts, b.ts, a.ts);
      }
    }
  }

  /** The entries GET keeps, before sorting. */
  predicate Selected(e: LogEntry, patientId: Option<string>, medicalOnly: bool)
  {
    && (Truthy(patientId) ==> e.patientId == patientId.value)
    && (medicalOnly ==> e.tags.Some? && "medical" in e.tags.value)
  }

  /** The kept entries, in log order. */
  function Kept(logs: seq<LogEntry>, patientId: Option<string>, medicalOnly: bool): (r: seq<LogEntry>)
    ensures forall e :: e in r <==> e in logs && Selected(e, patientId, medicalOnly)
    ensures forall e :: multiset(r)[e] == if Selected(e, patientId, medicalOnly) then multiset(logs)[e] else 0
  {
    Filter(logs, e => Selected(e, patientId, medicalOnly))
  }

  /** Most severe first; within a severity, the later timestamp first. */
  predicate SeverityThenNewest(r: seq<LogEntry>)
  {
    && (forall i, j :: 0 <= i < j < |r| ==> SeverityRank(r[i]) <= SeverityRank(r[j]))
    && (forall i, j :: 0 <= i < j < |r| && SeverityRank(r[i]) == SeverityRank(r[j]) ==> LexLe(r[j].ts, r[i].ts))
  }

  /** The GET sort. */
  function SortLogs(s: seq<LogEntry>): (r: seq<LogEntry>)
    ensures multiset(r) == multiset(s)
    ensures SeverityThenNewest(r)
  {
    LogBeforeIsTotalPreorder();
    SortSorted(s, LogBefore);
    Sort(s, LogBefore)
  }

  /** `s.slice(0, n)`. */
  function Take(s: seq<LogEntry>, n: nat): (r: seq<LogEntry>)
    ensures |r| <= n && |r| <= |s| && r == s[..|r|]
    ensures |s| <= n ==> r == s
    ensures |s| > n ==> |r| == n
    ensures forall e :: e in r ==> e in s
  {
    if |s| <= n then s else s[..n]
  }

  lemma PrefixOrdered(s: seq<LogEntry>, k: nat)
    requires SeverityThenNewest(s) && k <= |s|
    ensures SeverityThenNewest(s[..k])
  {
  }

  /** `GET ?patientId=&medicalOnly=`: the filtered log, sorted, first 200. */
  function GetLogs(logs: seq<LogEntry>, patientId: Option<string>, medicalOnly: Option<string>): (r: seq<LogEntry>)
    ensures |r| <= Cap
    ensures forall e :: e in r ==> e in logs && Selected(e, patientId, medicalOnly == Some("1"))
    ensures SeverityThenNewest(r)
    ensures var sorted := SortLogs(Kept(logs, patientId, medicalOnly == Some("1")));
            && |r| <= |sorted| && r == sorted[..|r|]
            && (|sorted| <= Cap ==> r == sorted)
            && (|sorted| > Cap ==> |r| == Cap)
  {
    var kept := Kept(logs, patientId, medicalOnly == Some("1"));
    var sorted := SortLogs(kept);
    var r := Take(sorted, Cap);
    PrefixOrdered(sorted, |r|);
    assert forall e :: e in sorted ==> e in multiset(kept);
    r
  }

  /** With no more than 200 matches, every matching entry is returned. */
  lemma AllMatchesUnderCap(logs: seq<LogEntry>, patientId: Option<string>, medicalOnly: Option<string>, e: LogEntry)
    requires |Kept(logs, patientId, medicalOnly == Some("1"))| <= Cap
    requires e in logs && Selected(e, patientId, medicalOnly == Some("1"))
    ensures e in GetLogs(logs, patientId, medicalOnly)
  {
    var kept := Kept(logs, patientId, medicalOnly == Some("1"));
    assert e in multiset(kept);
    assert e in multiset(SortLogs(kept));
  }

  /** A POST body: any field may be missing. */
  datatype LogBody = LogBody(
    ts: Option<string>,
    patientId: Option<string>,
    kind: Option<LogType>,
    text: Option<string>,
    tags: Option<seq<string>>,
    severity: Option<Severity>,
    categories: Option<seq<string>>,
    reasons: Option<string>)

  datatype PostResult = Appended | BadRequest(error: string)

  /** `POST`: append the body as an entry, stamped now unless it has a `ts`. */
  function PostLog(logs: seq<LogEntry>, body: Option<LogBody>, nowIso: string): (r: (PostResult, seq<LogEntry>))
    ensures body.None? || !Truthy(body.value.patientId) || body.value.kind.None? ==>
              r == (BadRequest("patientId & type required"), logs)
    ensures r.0.Appended? ==>
              && body.Some? && body.value.patientId.Some? && body.value.kind.Some?
              && |r.1| == |logs| + 1 && r.1[..|logs|] == logs
              && var e := r.1[|logs|];
                 && e.patientId == body.value.patientId.value && e.kind == body.value.kind.value
                 && e.ts == (if body.value.ts.Some? then body.value.ts.value else nowIso)
                 && e.text == body.value.text && e.tags == body.value.tags && e.severity == body.value.severity
                 && e.categories == body.value.categories && e.reasons == body.value.reasons
    ensures body.Some? && Truthy(body.value.patientId) && body.value.kind.Some? ==> r.0.Appended?
    ensures r.0.Appended? || r.0.BadRequest?
  {
    if body.None? || !Truthy(body.value.patientId) || body.value.kind.None? then
      (BadRequest("patientId & type required"), logs)
    else
      var b := body.value;
      var e := LogEntry(b.ts.GetOr(nowIso), b.patientId.value, b.kind.value, b.text, b.tags, b.severity, b.categories, b.reasons);
      (Appended, logs + [e])
  }

  /** A posted entry is listed afterwards for its patient, unless the
      listing is cut at 200 entries more urgent or newer. */
  lemma PostedEntryKept(logs: seq<LogEntry>, body: LogBody, nowIso: string)
    requires Truthy(body.patientId) && body.kind.Some?
    ensures var r := PostLog(logs, Some(body), nowIso);
            r.1[|logs|] in Kept(r.1, body.patientId, false)
  {
  }

  /** What the panel's search looks in: text, categories, reasons, type and
      severity, joined with spaces. */
  function Haystack(e: LogEntry): string
  {
    Join([e.text.GetOr("")] + e.categories.GetOr([]) + [e.reasons.GetOr(""), TypeName(e.kind), if e.severity.Some? then SeverityName(e.severity.value) else ""], " ")
  }

  /** `filtered`: a blank query shows everything; otherwise the entries whose
      lower-cased text holds the lower-cased query, which is not trimmed. */
  function SearchLogs(logs: seq<LogEntry>, q: string): (r: seq<LogEntry>)
    ensures IsBlank(q) ==> r == logs
    ensures !IsBlank(q) ==> forall e :: e in r <==> e in logs && Contains(Lower(Haystack(e)), Lower(q))
    ensures |r| <= |logs| && forall e :: multiset(r)[e] <= multiset(logs)[e]
  {
    if IsBlank(q) then logs
    else Filter(logs, e => Contains(Lower(Haystack(e)), Lower(q)))
  }

  /** Searching is order preserving: the result over two runs of entries is
      the results over each, in order. */
  lemma SearchSplits(a: seq<LogEntry>, b: seq<LogEntry>, q: string)
    ensures SearchLogs(a + b, q) == SearchLogs(a, q) + SearchLogs(b, q)
  {
    if !IsBlank(q) {
      FilterConcat(a, b, e => Contains(Lower(Haystack(e)), Lower(q)));
    }
  }

  const ChipBase := "inline-flex items-center gap-1 px-2 py-0.5 text-[10px] rounded-full border"
  const UrgentChip := ChipBase + " bg-red-50 text-red-700 border-red-200"
  const ModerateChip := ChipBase + " bg-amber-50 text-amber-700 border-amber-200"
  const LowChip := ChipBase + " bg-blue-50 text-blue-700 border-blue-200"

  /** `chipForSeverity`: urgent and moderate have their own styles; low and
      a missing severity share the third. */
  function ChipForSeverity(sev: Option<Severity>): (style: string)
    ensures style == UrgentChip <==> sev == Some(Urgent)
    ensures style == ModerateChip <==> sev == Some(Moderate)
    ensures style == LowChip <==> sev.None? || sev == Some(Low)
  {
    assert UrgentChip[|ChipBase| + 4] == 'r' && ModerateChip[|ChipBase| + 4] == 'a' && LowChip[|ChipBase| + 4] == 'b';
    match sev.GetOr(Low)
    case Urgent => UrgentChip
    case Moderate => ModerateChip
    case Low => LowChip
  }
}

=== FILE: memory_by_date.dfy ===
/** `getMemoriesByDate`: the patient's dated memories for a date phrase,
    exact date first, else the same month and day in any year, newest first,
    as compact summaries. */
module MemoryByDate {
  import opened Wrappers
  import opened Strings
  import opened Seqs
  import opened MemoryTypes
  import opened ItemStore
  import opened DateLookup

  /** A memory photo with a (string) event date: the only items searched. */
  predicate IsDatedMemory(m: MemoryItem)
  {
    m.kind == Some(MemoryKind) && m.eventDate.Some?
  }

  function DateOf(m: MemoryItem): string
  {
    m.eventDate.GetOr("")
  }

  /** The item's date is exactly the key's ISO date. */
  predicate SameDate(key: DateKey, m: MemoryItem)
  {
    Truthy(key.iso) && m.eventDate == key.iso
  }

  /** The item's date has the key's month and day (`eventDate.slice(5) === md`). */
  predicate SameDay(key: DateKey, m: MemoryItem)
  {
    Truthy(key.md) && SliceFrom(DateOf(m), 5) == key.md.value
  }

  /** Some dated memory of the list falls exactly on the key's date. */
  predicate HasExact(items: seq<MemoryItem>, key: DateKey)
  {
    exists m :: m in items && IsDatedMemory(m) && SameDate(key, m)
  }

  /** The matches, before sorting: the exact-date memories when there are
      any, else the same-day memories when the key has a month-day. */
  function Matches(items: seq<MemoryItem>, key: DateKey): (r: seq<MemoryItem>)
    ensures HasExact(items, key) ==>
              forall m :: multiset(r)[m] == if IsDatedMemory(m) && SameDate(key, m) then multiset(items)[m] else 0
    ensures !HasExact(items, key) ==>
              forall m :: multiset(r)[m] == if IsDatedMemory(m) && SameDay(key, m) then multiset(items)[m] else 0
    ensures forall m :: m in r ==> m in items && IsDatedMemory(m)
  {
    var memories := Filter(items, IsDatedMemory);
    var exact := if Truthy(key.iso) then Filter(memories, m => SameDate(key, m)) else [];
    if |exact| == 0 then
      if Truthy(key.md) then Filter(memories, m => SameDay(key, m)) else []
    else
      assert HasExact(items, key) by {
        assert exact[0] in memories;
      }
      exact
  }

  /** `(a, b) => a.eventDate < b.eventDate ? 1 : -1`: a later (or equal) date first. */
  predicate LaterOrSame(a: MemoryItem, b: MemoryItem)
  {
    LexLe(DateOf(b), DateOf(a))
  }

  lemma LaterOrSameIsTotalPreorder()
    ensures TotalPreorder(LaterOrSame)
  {
    forall a: MemoryItem, b: MemoryItem ensures LaterOrSame(a, b) || LaterOrSame(b, a) {
      LexLeTotal(DateOf(a), DateOf(b));
    }
    forall a: MemoryItem, b: MemoryItem, c: MemoryItem | LaterOrSame(a, b) && LaterOrSame(b, c)
      ensures LaterOrSame(a, c)
    {
      LexLeTrans(DateOf(c), DateOf(b), DateOf(a));
    }
  }

  /** The compact record handed to the chat layer. */
  datatype MemorySummary = MemorySummary(
    id: string,
    event: string,
    eventDate: Option<string>,
    place: Option<string>,
    people: seq<PersonTag>,
    caption: Option<string>,
    storagePath: string)

  /** One summary: `event || "Memory"`, `people || []`, the rest copied. */
  function Summarize(m: MemoryItem): (s: MemorySummary)
    ensures s.event != ""
    ensures Truthy(m.event) ==> s.event == m.event.value
    ensures s.id == m.id && s.eventDate == m.eventDate && s.place == m.place
    ensures m.people.None? ==> s.people == []
  {
    MemorySummary(m.id, if Truthy(m.event) then m.event.value else "Memory", m.eventDate, m.place,
                  m.people.GetOr([]), m.caption, m.storagePath)
  }

  function SummarizeAll(ms: seq<MemoryItem>): (r: seq<MemorySummary>)
    ensures |r| == |ms| && forall i :: 0 <= i < |ms| ==> r[i] == Summarize(ms[i])
  {
    seq(|ms|, i requires 0 <= i < |ms| => Summarize(ms[i]))
  }

  /** The matches of a key, newest event date first. */
  function SortedMatches(items: seq<MemoryItem>, key: DateKey): (r: seq<MemoryItem>)
    ensures multiset(r) == multiset(Matches(items, key))
    ensures forall i, j :: 0 <= i < j < |r| ==> LexLe(DateOf(r[j]), DateOf(r[i]))
  {
    LaterOrSameIsTotalPreorder();
    SortSorted(Matches(items, key), LaterOrSame);
    Sort(Matches(items, key), LaterOrSame)
  }

  /** The summaries of a key's matches among the patient's items, newest
      event date first. */
  function SummariesFor(db: MemoryDB, patientId: string, key: DateKey): (r: seq<MemorySummary>)
    ensures var sorted := SortedMatches(ListByPatient(db, patientId), key);
            |r| == |sorted| && forall i :: 0 <= i < |r| ==> r[i] == Summarize(sorted[i])
    ensures forall i :: 0 <= i < |r| ==> r[i].event != "" && r[i].eventDate.Some?
    ensures forall i, j :: 0 <= i < j < |r| ==> LexLe(r[j].eventDate.value, r[i].eventDate.value)
  {
    var sorted := SortedMatches(ListByPatient(db, patientId), key);
    forall i | 0 <= i < |sorted| ensures IsDatedMemory(sorted[i]) {
      assert sorted[i] in multiset(Matches(ListByPatient(db, patientId), key));
    }
    SummarizeAll(sorted)
  }

  /** `getMemoriesByDate(patientId, dateQuery)` over the store `db`, with the
      clock readings `normalizeDate` needs: the key is the one
      `normalizeDate` computes as written. */
  function MemoriesByDate(db: MemoryDB, patientId: string, dateQuery: Option<string>, utcNowIso: string, year: nat): (r: seq<MemorySummary>)
    ensures var sorted := SortedMatches(ListByPatient(db, patientId), NormalizeDateAsWritten(dateQuery, utcNowIso, year));
            |r| == |sorted| && forall i :: 0 <= i < |r| ==> r[i] == Summarize(sorted[i])
    ensures forall i :: 0 <= i < |r| ==> r[i].event != "" && r[i].eventDate.Some?
    ensures forall i, j :: 0 <= i < j < |r| ==> LexLe(r[j].eventDate.value, r[i].eventDate.value)
  {
    SummariesFor(db, patientId, NormalizeDateAsWritten(dateQuery, utcNowIso, year))
  }

  /** The same search over the corrected lookup, which reads past phrases
      like "from 7" to the first one naming a month. */
  function MemoriesByDateCorrected(db: MemoryDB, patientId: string, dateQuery: Option<string>, utcNowIso: string, year: nat): (r: seq<MemorySummary>)
    ensures var sorted := SortedMatches(ListByPatient(db, patientId), NormalizeDate(dateQuery, utcNowIso, year));
            |r| == |sorted| && forall i :: 0 <= i < |r| ==> r[i] == Summarize(sorted[i])
    ensures forall i :: 0 <= i < |r| ==> r[i].event != "" && r[i].eventDate.Some?
    ensures forall i, j :: 0 <= i < j < |r| ==> LexLe(r[j].eventDate.value, r[i].eventDate.value)
  {
    SummariesFor(db, patientId, NormalizeDate(dateQuery, utcNowIso, year))
  }

  /** A stored memory dated on `key`'s ISO date is among its summaries. */
  lemma FindsExact(db: MemoryDB, patientId: string, m: MemoryItem, key: DateKey)
    requires m in ListByPatient(db, patientId) && IsDatedMemory(m) && SameDate(key, m)
    ensures Summarize(m) in SummariesFor(db, patientId, key)
  {
    var items := ListByPatient(db, patientId);
    assert HasExact(items, key);
    assert multiset(Matches(items, key))[m] > 0;
    var sorted := SortedMatches(items, key);
    assert m in multiset(sorted);
    var i :| 0 <= i < |sorted| && sorted[i] == m;
    assert SummariesFor(db, patientId, key)[i] == Summarize(m);
  }

  /** A stored memory dated "YYYY-MM-DD" is among the results for that very
      date written as a query, under both lookups. */
  lemma FindsMemoryOnItsDate(db: MemoryDB, patientId: string, m: MemoryItem, y: string, mo: string, d: string, utcNowIso: string, year: nat)
    requires |y| == 4 && |mo| == 2 && |d| == 2 && AllDigits(y) && AllDigits(mo) && AllDigits(d)
    requires m in ListByPatient(db, patientId) && IsDatedMemory(m) && m.eventDate == Some(y + "-" + mo + "-" + d)
    ensures Summarize(m) in MemoriesByDate(db, patientId, Some(y + "-" + mo + "-" + d), utcNowIso, year)
    ensures Summarize(m) in MemoriesByDateCorrected(db, patientId, Some(y + "-" + mo + "-" + d), utcNowIso, year)
  {
    var q := y + "-" + mo + "-" + d;
    IsoDateRoundTrip(y, mo, d, utcNowIso, year);
    FindsExact(db, patientId, m, NormalizeDateAsWritten(Some(q), utcNowIso, year));
    FindsExact(db, patientId, m, NormalizeDate(Some(q), utcNowIso, year));
  }

  /** "from 7 june" finds nothing as written, whatever is stored; the
      corrected search finds a memory dated the 7th of June of that year. */
  lemma FromSevenJuneMemories(db: MemoryDB, patientId: string, m: MemoryItem, utcNowIso: string, year: nat)
    requires m in ListByPatient(db, patientId) && IsDatedMemory(m)
    requires m.eventDate == CalendarKey(year, 6, 7).iso
    ensures MemoriesByDate(db, patientId, Some("from 7 june"), utcNowIso, year) == []
    ensures Summarize(m) in MemoriesByDateCorrected(db, patientId, Some("from 7 june"), utcNowIso, year)
  {
    FromSevenJune(utcNowIso, year);
    assert Matches(ListByPatient(db, patientId), NoDate) == [];
    FindsExact(db, patientId, m, CalendarKey(year, 6, 7));
  }

  /** When nothing falls on the exact date, a memory from another year on the
      same month and day is found: "what happened on 12 june" finds a
      birthday photo dated "2019-06-12". */
  lemma FindsAnniversary(items: seq<MemoryItem>, key: DateKey, m: MemoryItem)
    requires !HasExact(items, key) && Truthy(key.md)
    requires m in items && IsDatedMemory(m) && SliceFrom(DateOf(m), 5) == key.md.value
    ensures m in SortedMatches(items, key)
  {
    assert multiset(Matches(items, key))[m] > 0;
    assert m in multiset(SortedMatches(items, key));
  }

  /** When some memory falls exactly on the date, every result is on that date. */
  lemma ExactDateOnly(items: seq<MemoryItem>, key: DateKey, m: MemoryItem)
    requires HasExact(items, key) && m in SortedMatches(items, key)
    ensures m.eventDate == key.iso
  {
    assert m in multiset(Matches(items, key));
  }
}

=== FILE: memory_match.dfy ===
/** The match endpoint: which gallery entry a photo (or a text) most looks
    like, and the sentence said to the patient. Similarity, the three-decimal
    rounding and the face, caption and text-embedding services are
    parameters. */
module MemoryMatch {
  import opened Wrappers
  import opened Strings
  import opened Seqs
  import opened MemoryTypes
  import opened ItemStore

  /** The form fields of a request; `hasFile` says whether a photo came. */
  datatype MatchForm = MatchForm(patientId: Option<string>, hasFile: bool, queryText: Option<string>, matchType: Option<string>)

  /** What the outside services answer for this request: the face embedding
      of the photo (`None` when no face is found), the photo's caption, the
      text embedder, the similarity of two vectors, and `Number(x.toFixed(3))`. */
  datatype Services = Services(
    face: Option<seq<real>>,
    caption: string,
    embed: string -> seq<real>,
    sim: (seq<real>, seq<real>) -> real,
    round3: real -> real)

  /** The best entry of a person match, as returned. */
  datatype PersonBest = PersonBest(id: string, name: string, relation: string, storagePath: string)

  /** The best entry of a memory match, as returned. */
  datatype MemoryBest = MemoryBest(id: string, storagePath: string, event: Option<string>, eventDate: Option<string>,
                                   place: Option<string>, people: Option<seq<PersonTag>>)

  datatype MatchResponse =
    | NoMatch(reason: string)
    | Failure(status: int, error: string)
    | PersonAnswer(answer: string, confidence: real, person: PersonBest)
    | MemoryAnswer(answer: string, confidence: real, memory: MemoryBest, usedCaption: Option<string>)
    /** The scored list is empty and reading its head throws; the catch
        answers 500 with the engine's message. */
    | Crashed

  /** An entry and its similarity to the query. */
  datatype Scored = Scored(item: MemoryItem, score: real)

  /** `(a, b) => b.score - a.score`: the higher score first. */
  predicate HigherOrSame(a: Scored, b: Scored)
  {
    a.score >= b.score
  }

  lemma HigherOrSameIsTotalPreorder()
    ensures TotalPreorder(HigherOrSame)
  {
  }

  lemma SortHeadIsSomeFirstBest(s: seq<Scored>)
    requires |s| > 0
    ensures exists i :: IsFirstBest(s, HigherOrSame, i) && Sort(s, HigherOrSame)[0] == s[i]
  {
    HigherOrSameIsTotalPreorder();
    var i := SortHeadIsFirstBest(s, HigherOrSame);
  }

  /** Entry `i` has the highest score and is the first one that has it. */
  predicate TopAt(s: seq<Scored>, i: int)
  {
    && 0 <= i < |s|
    && (forall j :: 0 <= j < |s| ==> s[j].score <= s[i].score)
    && (forall j :: 0 <= j < i ==> s[j].score < s[i].score)
  }

  /** `scored.sort(...)[0]`: the first entry with the highest score, as the
      stable sort leaves it. */
  function Top(s: seq<Scored>): (t: Scored)
    requires |s| > 0
    ensures exists i :: TopAt(s, i) && t == s[i]
  {
    SortHeadIsSomeFirstBest(s);
    Sort(s, HigherOrSame)[0]
  }

  // ---------------------------------------------------------------------
  // Person mode

  /** Entries added as a person, with a face embedding. */
  predicate IsFaceCandidate(m: MemoryItem)
  {
    m.kind == Some(PersonKind) && m.faceEmbedding.Some?
  }

  /** `cosineSim(faceEmbedding, it.faceEmbedding!)` for each candidate. */
  function FaceScores(cs: seq<MemoryItem>, svc: Services, face: seq<real>): (s: seq<Scored>)
    ensures |s| == |cs| && forall i :: 0 <= i < |cs| ==> s[i] == Scored(cs[i], svc.sim(face, cs[i].faceEmbedding.GetOr([])))
  {
    seq(|cs|, i requires 0 <= i < |cs| => Scored(cs[i], svc.sim(face, cs[i].faceEmbedding.GetOr([]))))
  }

  /** The first tagged person, if any. */
  function FirstTag(i: MemoryItem): Option<PersonTag>
  {
    if i.people.Some? && |i.people.value| > 0 then Some(i.people.value[0]) else None
  }

  /** `people?.[0]?.name || name || "Someone"`. */
  function PersonName(i: MemoryItem): (name: string)
    ensures name != ""
    ensures FirstTag(i).Some? && FirstTag(i).value.name != "" ==> name == FirstTag(i).value.name
    ensures (FirstTag(i).None? || FirstTag(i).value.name == "") && Truthy(i.name) ==> name == i.name.value
    ensures (FirstTag(i).None? || FirstTag(i).value.name == "") && !Truthy(i.name) ==> name == "Someone"
  {
    if FirstTag(i).Some? && FirstTag(i).value.name != "" then FirstTag(i).value.name
    else if Truthy(i.name) then i.name.value
    else "Someone"
  }

  /** `people?.[0]?.relation || "relative"`. */
  function PersonRelation(i: MemoryItem): (rel: string)
    ensures rel != ""
    ensures FirstTag(i).Some? && Truthy(FirstTag(i).value.relation) ==> rel == FirstTag(i).value.relation.value
    ensures !(FirstTag(i).Some? && Truthy(FirstTag(i).value.relation)) ==> rel == "relative"
  {
    if FirstTag(i).Some? && Truthy(FirstTag(i).value.relation) then FirstTag(i).value.relation.value
    else "relative"
  }

  const UnknownPerson := "This is an unknown person."

  /** The sentence for a face match, banded on the rounded confidence. */
  function PersonSentence(confidence: real, name: string, relation: string): (answer: string)
    ensures confidence > 0.5 <==> StartsWith(answer, "This is " + name + ", your ")
    ensures 0.4 < confidence <= 0.5 <==> StartsWith(answer, "This might be ")
    ensures confidence <= 0.4 <==> answer == UnknownPerson
    ensures confidence > 0.4 ==> EndsWith(answer, ", your " + relation + ".")
  {
    var tail := ", your " + relation + ".";
    if confidence > 0.5 then
      var a := "This is " + name + tail;
      assert a == ("This is " + name + ", your ") + (relation + ".");
      assert a[..|"This is " + name + ", your "|] == "This is " + name + ", your ";
      assert a[|a| - |tail|..] == tail;
      assert a[..|"This might be "|] != "This might be " by {
        assert a[5] == 'i' && "This might be "[5] == 'm';
      }
      assert a != UnknownPerson by {
        if a == UnknownPerson {
          assert UnknownPerson[..|"This is " + name + ", your "|] == "This is " + name + ", your ";
          UnknownHasNoYour(name);
        }
      }
      a
    else if confidence > 0.4 then
      var a := "This might be " + name + tail;
      assert a[..|"This might be "|] == "This might be ";
      assert a[|a| - |tail|..] == tail;
      assert !StartsWith(a, "This is " + name + ", your ") by {
        assert a[5] == 'm';
      }
      assert a != UnknownPerson by {
        assert UnknownPerson[5] == 'i';
      }
      a
    else
      assert !StartsWith(UnknownPerson, "This is " + name + ", your ") by {
        if StartsWith(UnknownPerson, "This is " + name + ", your ") {
          UnknownHasNoYour(name);
        }
      }
      assert !StartsWith(UnknownPerson, "This might be ") by {
        assert UnknownPerson[5] == 'i' && "This might be "[5] == 'm';
      }
      UnknownPerson
  }

  /** The unknown-person sentence names no one: it never starts like a naming one. */
  lemma UnknownHasNoYour(name: string)
    ensures !StartsWith(UnknownPerson, "This is " + name + ", your ")
  {
    var p := "This is " + name + ", your ";
    var k := |name| + 8;
    assert p[k] == ',';
    if |p| <= |UnknownPerson| {
      assert UnknownPerson[..|p|][k] != p[k] by {
        assert forall j :: 0 <= j < |UnknownPerson| ==> UnknownPerson[j] != ',';
      }
    }
  }

  /** The person branch, once the gallery is known to be non-empty. */
  function PersonMatch(items: seq<MemoryItem>, hasFile: bool, svc: Services): (r: MatchResponse)
    ensures !hasFile ==> r == Failure(400, "Please upload a face photo.")
    ensures hasFile && svc.face.None? ==> r == Failure(400, "No face detected in photo.")
    ensures hasFile && svc.face.Some? ==> (r.NoMatch? <==> forall m :: m in items ==> !IsFaceCandidate(m))
    ensures r.PersonAnswer? || r.NoMatch? || r.Failure?
  {
    if !hasFile then Failure(400, "Please upload a face photo.")
    else if svc.face.None? then Failure(400, "No face detected in photo.")
    else
      var face := svc.face.value;
      var people := Filter(items, IsFaceCandidate);
      if |people| == 0 then NoMatch("No people entries in gallery yet.")
      else
        var top := Top(FaceScores(people, svc, face));
        var confidence := svc.round3(top.score);
        var name := PersonName(top.item);
        var relation := PersonRelation(top.item);
        PersonAnswer(PersonSentence(confidence, name, relation), confidence,
                     PersonBest(top.item.id, name, relation, top.item.storagePath))
  }

  /** A person answer reports the first best-scoring face candidate, its
      rounded score, its name and relation, and the banded sentence. */
  lemma PersonMatchPicksTop(items: seq<MemoryItem>, svc: Services) returns (i: int)
    requires svc.face.Some? && PersonMatch(items, true, svc).PersonAnswer?
    ensures var r := PersonMatch(items, true, svc);
            var s := FaceScores(Filter(items, IsFaceCandidate), svc, svc.face.value);
            && TopAt(s, i)
              && r.confidence == svc.round3(s[i].score)
              && r.person == PersonBest(s[i].item.id, PersonName(s[i].item), PersonRelation(s[i].item), s[i].item.storagePath)
              && r.answer == PersonSentence(r.confidence, r.person.name, r.person.relation)
  {
    var people := Filter(items, IsFaceCandidate);
    var s := FaceScores(people, svc, svc.face.value);
    var top := Top(s);
    i :| TopAt(s, i) && top == s[i];
    var confidence := svc.round3(top.score);
    var name := PersonName(top.item);
    var relation := PersonRelation(top.item);
    assert PersonMatch(items, true, svc) == PersonAnswer(PersonSentence(confidence, name, relation), confidence,
                                                        PersonBest(top.item.id, name, relation, top.item.storagePath));
  }

  // ---------------------------------------------------------------------
  // Memory mode

  /** `p.relation ? "name (relation)" : name`. */
  function TagText(p: PersonTag): (t: string)
    ensures StartsWith(t, p.name)
    ensures Truthy(p.relation) <==> |t| > |p.name|
  {
    if Truthy(p.relation) then
      assert (p.name + " (" + p.relation.value + ")")[..|p.name|] == p.name;
      p.name + " (" + p.relation.value + ")"
    else p.name
  }

  function TagTexts(ps: seq<PersonTag>): (ts: seq<string>)
    ensures |ts| == |ps| && forall i :: 0 <= i < |ps| ==> ts[i] == TagText(ps[i])
  {
    seq(|ps|, i requires 0 <= i < |ps| => TagText(ps[i]))
  }

  /** The parts of the memory sentence: what, where, when and who. */
  function What(i: MemoryItem): string { if Truthy(i.event) then i.event.value else "a special day" }
  function Where(i: MemoryItem): string { if Truthy(i.place) then " at " + i.place.value else "" }
  function When(i: MemoryItem): string { if Truthy(i.eventDate) then " on " + i.eventDate.value else "" }
  function Who(i: MemoryItem): string
  {
    if i.people.Some? && |i.people.value| > 0 then " with " + Join(TagTexts(i.people.value), ", ") else ""
  }

  const Likely := "This looks like "
  const Maybe := "This might be "

  /** The sentence for a memory match: "This looks like" from a rounded
      confidence of 0.50 on, else "This might be"; then the event (or "a
      special day"), and the place, date and people each only when present. */
  function MemorySentence(confidence: real, i: MemoryItem): (answer: string)
    ensures confidence >= 0.5 <==> StartsWith(answer, Likely)
    ensures confidence < 0.5 <==> StartsWith(answer, Maybe)
    ensures EndsWith(answer, What(i) + Where(i) + When(i) + Who(i) + ".")
  {
    var rest := What(i) + Where(i) + When(i) + Who(i) + ".";
    LeadsDiffer(rest);
    if confidence >= 0.5 then Likely + rest else Maybe + rest
  }

  /** The two leads tell the bands apart. */
  lemma LeadsDiffer(rest: string)
    ensures StartsWith(Likely + rest, Likely) && !StartsWith(Likely + rest, Maybe) && EndsWith(Likely + rest, rest)
    ensures StartsWith(Maybe + rest, Maybe) && !StartsWith(Maybe + rest, Likely) && EndsWith(Maybe + rest, rest)
  {
    var a := Likely + rest;
    var b := Maybe + rest;
    assert a[..|Likely|] == Likely && a[|a| - |rest|..] == rest;
    assert b[..|Maybe|] == Maybe && b[|b| - |rest|..] == rest;
    assert a[5] == 'l' && Maybe[5] == 'm';
    assert b[5] == 'm' && Likely[5] == 'l';
  }

  /** The sentence parts appear exactly when the entry has the field. */
  lemma SentenceParts(i: MemoryItem)
    ensures Where(i) == "" <==> !Truthy(i.place)
    ensures When(i) == "" <==> !Truthy(i.eventDate)
    ensures Who(i) == "" <==> i.people.None? || |i.people.value| == 0
    ensures What(i) != ""
  {
  }

  /** Entries with a text embedding: the only ones scored, whatever their type. */
  predicate HasEmbedding(m: MemoryItem)
  {
    m.embedding.Some?
  }

  predicate NotPerson(m: MemoryItem)
  {
    m.kind != Some(PersonKind)
  }

  /** `cosineSim(queryEmbedding, it.embedding!)` for each candidate. */
  function TextScores(cs: seq<MemoryItem>, svc: Services, query: seq<real>): (s: seq<Scored>)
    ensures |s| == |cs| && forall i :: 0 <= i < |cs| ==> s[i] == Scored(cs[i], svc.sim(query, cs[i].embedding.GetOr([])))
  {
    seq(|cs|, i requires 0 <= i < |cs| => Scored(cs[i], svc.sim(query, cs[i].embedding.GetOr([]))))
  }

  /** The query embedding and the caption used: the photo's caption when a
      photo came, else the query text; `None` when there is neither. */
  function QueryOf(form: MatchForm, svc: Services): (q: Option<(seq<real>, string)>)
    ensures q.None? <==> !form.hasFile && !Truthy(form.queryText)
    ensures form.hasFile ==> q == Some((svc.embed(svc.caption), svc.caption))
    ensures !form.hasFile && Truthy(form.queryText) ==> q == Some((svc.embed(form.queryText.value), ""))
  {
    if form.hasFile then Some((svc.embed(svc.caption), svc.caption))
    else if Truthy(form.queryText) then Some((svc.embed(form.queryText.value), ""))
    else None
  }

  /** The memory branch, once the gallery is known to be non-empty. */
  function MemoryMatchOf(items: seq<MemoryItem>, form: MatchForm, svc: Services): (r: MatchResponse)
    ensures !form.hasFile && !Truthy(form.queryText) ==> r == Failure(400, "Provide a file or queryText.")
    ensures QueryOf(form, svc).Some? ==>
              && (r.NoMatch? <==> forall m :: m in items ==> !NotPerson(m))
              && (r.Crashed? <==> (exists m :: m in items && NotPerson(m)) && forall m :: m in items ==> !HasEmbedding(m))
    ensures r.MemoryAnswer? ==> (r.usedCaption.Some? <==> form.hasFile && svc.caption != "")
    ensures !r.PersonAnswer?
  {
    match QueryOf(form, svc)
    case None => Failure(400, "Provide a file or queryText.")
    case Some((query, usedCaption)) =>
      var memories := Filter(items, NotPerson);
      if |memories| == 0 then NoMatch("No memory entries in gallery yet.")
      else
        var cands := Filter(items, HasEmbedding);
        if |cands| == 0 then
          assert memories[0] in items;
          Crashed
        else
          assert cands[0] in items;
          var top := Top(TextScores(cands, svc, query));
          var i := top.item;
          var confidence := svc.round3(top.score);
          MemoryAnswer(MemorySentence(confidence, i), confidence,
                       MemoryBest(i.id, i.storagePath, i.event, i.eventDate, i.place, i.people),
                       if usedCaption != "" then Some(usedCaption) else None)
  }

  /** A memory answer reports the first best-scoring entry with an
      embedding, its rounded score, and the sentence for it. */
  lemma MemoryMatchPicksTop(items: seq<MemoryItem>, form: MatchForm, svc: Services) returns (i: int)
    requires MemoryMatchOf(items, form, svc).MemoryAnswer?
    ensures QueryOf(form, svc).Some?
    ensures var r := MemoryMatchOf(items, form, svc);
            var s := TextScores(Filter(items, HasEmbedding), svc, QueryOf(form, svc).value.0);
            && TopAt(s, i)
              && r.confidence == svc.round3(s[i].score)
              && r.memory.id == s[i].item.id
              && r.answer == MemorySentence(r.confidence, s[i].item)
  {
    var s := TextScores(Filter(items, HasEmbedding), svc, QueryOf(form, svc).value.0);
    var top := Top(s);
    i :| TopAt(s, i) && top == s[i];
    var r := MemoryMatchOf(items, form, svc);
    assert r.memory.id == top.item.id && r.confidence == svc.round3(top.score) && r.answer == MemorySentence(r.confidence, top.item);
  }

  /** POST of the match endpoint over the store `db`. */
  function MatchRoute(form: MatchForm, svc: Services, db: MemoryDB): (r: MatchResponse)
    ensures var pid := if Truthy(form.patientId) then form.patientId.value else "patient123";
            ListByPatient(db, pid) == [] ==> r == NoMatch("No entries in gallery yet.")
    ensures r.PersonAnswer? ==> form.matchType == Some("person")
    ensures r.MemoryAnswer? ==> form.matchType != Some("person")
    ensures r.Failure? ==> r.status == 400
  {
    var pid := if Truthy(form.patientId) then form.patientId.value else "patient123";
    var items := ListByPatient(db, pid);
    if |items| == 0 then NoMatch("No entries in gallery yet.")
    else if form.matchType == Some("person") then PersonMatch(items, form.hasFile, svc)
    else MemoryMatchOf(items, form, svc)
  }

  /** The answer always reports the best-scoring entry, even in the band that
      names no one. */
  lemma UnknownBandStillReportsBest(items: seq<MemoryItem>, svc: Services)
    requires svc.face.Some? && exists m :: m in items && IsFaceCandidate(m)
    ensures var r := PersonMatch(items, true, svc);
            r.PersonAnswer? && (r.confidence <= 0.4 ==> r.answer == UnknownPerson && r.person.id in Ids(items))
  {
    var people := Filter(items, IsFaceCandidate);
    assert |people| > 0 by {
      var m :| m in items && IsFaceCandidate(m);
      assert m in people;
    }
    var i := PersonMatchPicksTop(items, svc);
    assert people[i] in items;
  }

  function Ids(items: seq<MemoryItem>): set<string>
  {
    set m | m in items :: m.id
  }
}

=== FILE: memory_popups.dfy ===
/** The three memory pop-up cards (`app/MemoryPopup.tsx`,
    `src/MemoryPopup.tsx` and `app/memorypopup/MemoryPopup.tsx`): what each
    shows for a memory, when it shows nothing, when it asks for invitation
    links, and the list of invitations it keeps from the answer. */
module MemoryPopups {
  import opened Wrappers
  import opened Strings
  import opened MemoryTypes
  import opened Display
  import Invite

  /** A person as the cards receive them: either field may be missing. */
  datatype PopupPerson = PopupPerson(name: Option<string>, relation: Option<string>)

  /** The `memory` prop as far as the cards read it. `people` is `None` when
      it is missing or not a list. */
  datatype PopupMemory = PopupMemory(
    id: Option<string>,
    storagePath: Option<string>,
    event: Option<string>,
    eventDate: Option<string>,
    place: Option<string>,
    people: Option<seq<PopupPerson>>)

  const Placeholder := "/placeholder.png"

  /** The picture all three cards show: the stored path, or the placeholder
      when there is none. */
  function ImageOf(m: PopupMemory): (path: string)
    ensures path != ""
    ensures Truthy(m.storagePath) ==> path == m.storagePath.value
    ensures !Truthy(m.storagePath) ==> path == Placeholder
  {
    OrElse(m.storagePath, Placeholder)
  }

  /** `${name}`: a missing name prints as "undefined". */
  function NameText(name: Option<string>): string
  {
    name.GetOr("undefined")
  }

  // ---- app/MemoryPopup.tsx ----

  /** A trimmed string that is not empty starts with a non-space character. */
  lemma TrimmedHead(s: string)
    requires !IsBlank(s)
    ensures !IsSpace(Trim(s)[0])
  {
    var t := TrimStart(s);
    assert Trim(s) == t[..|Trim(s)|];
  }

  /** The event part of the title: the trimmed event, or "Memory" when it
      is missing or blank. */
  function EventHead(event: Option<string>): (h: string)
    ensures h != [] && !IsSpace(h[0])
    ensures event.Some? && !IsBlank(event.value) ==> h == Trim(event.value)
    ensures event.None? || IsBlank(event.value) ==> h == "Memory"
  {
    if event.Some? && !IsBlank(event.value) then
      TrimmedHead(event.value);
      Trim(event.value)
    else
      assert "Memory"[0] == 'M';
      "Memory"
  }

  /** The title: the trimmed event, or "Memory" when it is blank, then
      " • <date>" when the date is not blank (the date is shown untrimmed).
      It never starts with white space, so it is never blank. */
  function TrimmedTitle(m: PopupMemory): (t: string)
    ensures t != [] && !IsSpace(t[0])
    ensures StartsWith(t, EventHead(m.event))
    ensures m.eventDate.Some? && !IsBlank(m.eventDate.value) ==> t == EventHead(m.event) + " • " + m.eventDate.value
    ensures m.eventDate.None? || IsBlank(m.eventDate.value) ==> t == EventHead(m.event)
  {
    var head := EventHead(m.event);
    var date := if m.eventDate.Some? && !IsBlank(m.eventDate.value) then " • " + m.eventDate.value else "";
    assert (head + date)[0] == head[0];
    assert (head + date)[..|head|] == head;
    head + date
  }

  /** One person of the people line: `None` for a blank name; otherwise the
      trimmed name, with the trimmed relation in brackets when that is not
      blank. */
  function TrimmedLabel(p: PopupPerson): (r: Option<string>)
    ensures r.None? <==> IsBlank(p.name.GetOr(""))
    ensures r.Some? ==> r.value != "" && StartsWith(r.value, Trim(p.name.value))
    ensures r.Some? && IsBlank(p.relation.GetOr("")) ==> r.value == Trim(p.name.value)
    ensures r.Some? && !IsBlank(p.relation.GetOr("")) ==>
              r.value == Trim(p.name.value) + " (" + Trim(p.relation.value) + ")"
  {
    var name := Trim(p.name.GetOr(""));
    var rel := Trim(p.relation.GetOr(""));
    if name == "" then None
    else
      var shown := if rel != "" then name + " (" + rel + ")" else name;
      assert shown[..|name|] == name;
      Some(shown)
  }

  function TrimmedLabels(ps: seq<PopupPerson>): (r: seq<Option<string>>)
    ensures |r| == |ps| && forall i :: 0 <= i < |ps| ==> r[i] == TrimmedLabel(ps[i])
  {
    seq(|ps|, i requires 0 <= i < |ps| => TrimmedLabel(ps[i]))
  }

  /** The people line of a list: "—" when it is empty; otherwise the labels
      of the entries with a name, joined with ", " (so "" when every name is
      blank). */
  function TrimmedPeopleLine(list: seq<PopupPerson>): (s: string)
    ensures |list| == 0 ==> s == "—"
    ensures |list| > 0 ==> s == Join(Present(TrimmedLabels(list)), ", ")
  {
    if |list| == 0 then "—" else Join(Present(TrimmedLabels(list)), ", ")
  }

  /** The people line of the card; a missing list counts as empty. */
  function TrimmedPeopleText(m: PopupMemory): (s: string)
    ensures m.people.None? ==> s == "—"
    ensures m.people.Some? ==> s == TrimmedPeopleLine(m.people.value)
  {
    TrimmedPeopleLine(m.people.GetOr([]))
  }

  /** A non-empty list whose names are all blank gives an empty line, not "—". */
  lemma AllBlankNamesGiveEmptyText(list: seq<PopupPerson>)
    requires |list| > 0
    requires forall i :: 0 <= i < |list| ==> IsBlank(list[i].name.GetOr(""))
    ensures TrimmedPeopleLine(list) == ""
  {
    PresentNone(TrimmedLabels(list));
  }

  lemma TrimmedLabelsSplit(a: seq<PopupPerson>, b: seq<PopupPerson>)
    ensures TrimmedLabels(a + b) == TrimmedLabels(a) + TrimmedLabels(b)
  {
  }

  /** A blank-named entry labels as nothing. */
  lemma BlankEntryLabels(a: seq<PopupPerson>, p: PopupPerson, b: seq<PopupPerson>)
    requires IsBlank(p.name.GetOr(""))
    ensures TrimmedLabels(a + [p] + b) == TrimmedLabels(a) + [None] + TrimmedLabels(b)
  {
    assert TrimmedLabel(p) == None;
    assert TrimmedLabels([p]) == [None] by {
      assert |TrimmedLabels([p])| == 1 && TrimmedLabels([p])[0] == TrimmedLabel(p);
    }
    TrimmedLabelsSplit(a + [p], b);
    TrimmedLabelsSplit(a, [p]);
  }

  /** The labels that survive the filter are unchanged by an entry with a
      blank name. */
  lemma BlankNameLabels(a: seq<PopupPerson>, p: PopupPerson, b: seq<PopupPerson>)
    requires IsBlank(p.name.GetOr(""))
    ensures Present(TrimmedLabels(a + [p] + b)) == Present(TrimmedLabels(a + b))
  {
    BlankEntryLabels(a, p, b);
    TrimmedLabelsSplit(a, b);
    PresentSkipsNone(TrimmedLabels(a), TrimmedLabels(b));
  }

  /** An entry with a blank name changes nothing on a non-empty list. */
  lemma BlankNameIgnored(a: seq<PopupPerson>, p: PopupPerson, b: seq<PopupPerson>)
    requires IsBlank(p.name.GetOr("")) && |a + b| > 0
    ensures TrimmedPeopleLine(a + [p] + b) == TrimmedPeopleLine(a + b)
  {
    BlankNameLabels(a, p, b);
  }

  // ---- src/MemoryPopup.tsx ----

  /** The title: `(event ?? "Memory")`, then " • <date>" when the date is a
      non-empty string. An empty event stays empty. */
  function LooseTitle(m: PopupMemory): (t: string)
    ensures m.event.Some? ==> StartsWith(t, m.event.value)
    ensures m.event.None? ==> StartsWith(t, "Memory")
    ensures Truthy(m.eventDate) ==> EndsWith(t, " • " + m.eventDate.value)
    ensures Truthy(m.eventDate) ==> t == m.event.GetOr("Memory") + " • " + m.eventDate.value
    ensures !Truthy(m.eventDate) ==> t == m.event.GetOr("Memory")
  {
    var head := m.event.GetOr("Memory");
    var t := head + (if Truthy(m.eventDate) then " • " + m.eventDate.value else "");
    assert t[..|head|] == head;
    t
  }

  /** Unlike the first card's, this title can be empty. */
  lemma EmptyEventGivesEmptyTitle(m: PopupMemory)
    requires m.event == Some("") && !Truthy(m.eventDate)
    ensures LooseTitle(m) == ""
  {
  }

  /** One person: "name (relation)" when the relation is a non-empty string
      (a missing name prints as "undefined"), else the name; `None` when that
      is missing or empty. */
  function LooseLabel(p: PopupPerson): (r: Option<string>)
    ensures Truthy(p.relation) ==> r == Some(NameText(p.name) + " (" + p.relation.value + ")")
    ensures !Truthy(p.relation) ==> r == p.name
  {
    if Truthy(p.relation) then Some(NameText(p.name) + " (" + p.relation.value + ")") else p.name
  }

  function LooseLabels(ps: seq<PopupPerson>): (r: seq<Option<string>>)
    ensures |r| == |ps| && forall i :: 0 <= i < |ps| ==> r[i] == LooseLabel(ps[i])
  {
    seq(|ps|, i requires 0 <= i < |ps| => LooseLabel(ps[i]))
  }

  /** The people line: the labels that are not empty, joined with ", ",
      and "—" whenever that comes out empty. */
  function LoosePeopleText(m: PopupMemory): (s: string)
    ensures s != ""
    ensures Join(Present(LooseLabels(m.people.GetOr([]))), ", ") != "" ==> s == Join(Present(LooseLabels(m.people.GetOr([]))), ", ")
    ensures Join(Present(LooseLabels(m.people.GetOr([]))), ", ") == "" ==> s == "—"
  {
    var joined := Join(Present(LooseLabels(m.people.GetOr([]))), ", ");
    if joined != "" then joined else "—"
  }

  /** Every name blank or missing and no relation: the line is "—". */
  lemma NoNamesGiveDash(m: PopupMemory)
    requires forall i :: 0 <= i < |m.people.GetOr([])| ==>
               !Truthy(m.people.GetOr([])[i].name) && !Truthy(m.people.GetOr([])[i].relation)
    ensures LoosePeopleText(m) == "—"
  {
    PresentNone(LooseLabels(m.people.GetOr([])));
  }

  // ---- app/memorypopup/MemoryPopup.tsx ----

  /** One chip: "name • relation" when the relation is a non-empty string,
      else the name; missing or empty chips are dropped later. */
  function Chip(p: PopupPerson): (r: Option<string>)
    ensures Truthy(p.relation) ==> r == Some(NameText(p.name) + " • " + p.relation.value)
    ensures !Truthy(p.relation) ==> r == p.name
  {
    if Truthy(p.relation) then Some(NameText(p.name) + " • " + p.relation.value) else p.name
  }

  function ChipTexts(ps: seq<PopupPerson>): (r: seq<Option<string>>)
    ensures |r| == |ps| && forall i :: 0 <= i < |ps| ==> r[i] == Chip(ps[i])
  {
    seq(|ps|, i requires 0 <= i < |ps| => Chip(ps[i]))
  }

  /** `peopleChips`: one chip per person who has a relation or a name, in
      order (see `ChipsSplit`), none of them empty, and nothing else. */
  function PeopleChips(m: PopupMemory): (chips: seq<string>)
    ensures |chips| <= |m.people.GetOr([])|
    ensures forall c :: c in chips ==> c != ""
    ensures forall i :: 0 <= i < |m.people.GetOr([])| && Truthy(m.people.GetOr([])[i].relation) ==>
              NameText(m.people.GetOr([])[i].name) + " • " + m.people.GetOr([])[i].relation.value in chips
    ensures forall i :: 0 <= i < |m.people.GetOr([])| && !Truthy(m.people.GetOr([])[i].relation) && Truthy(m.people.GetOr([])[i].name) ==>
              m.people.GetOr([])[i].name.value in chips
    ensures forall c :: c in chips ==> exists i :: 0 <= i < |m.people.GetOr([])| && Chip(m.people.GetOr([])[i]) == Some(c)
  {
    var ps := m.people.GetOr([]);
    var cs := ChipTexts(ps);
    forall i | 0 <= i < |ps| && Truthy(ps[i].relation)
      ensures NameText(ps[i].name) + " • " + ps[i].relation.value in Present(cs)
    {
      assert cs[i] == Some(NameText(ps[i].name) + " • " + ps[i].relation.value);
    }
    forall i | 0 <= i < |ps| && !Truthy(ps[i].relation) && Truthy(ps[i].name)
      ensures ps[i].name.value in Present(cs)
    {
      assert cs[i] == ps[i].name;
    }
    forall c | c in Present(cs)
      ensures exists i :: 0 <= i < |ps| && Chip(ps[i]) == Some(c)
    {
      var i :| 0 <= i < |cs| && cs[i] == Some(c);
      assert Chip(ps[i]) == Some(c);
    }
    Present(cs)
  }

  /** The chip list of two runs of people is the chips of each, in order. */
  lemma ChipsSplit(m: PopupMemory, a: seq<PopupPerson>, b: seq<PopupPerson>)
    ensures PeopleChips(m.(people := Some(a + b))) == PeopleChips(m.(people := Some(a))) + PeopleChips(m.(people := Some(b)))
  {
    assert ChipTexts(a + b) == ChipTexts(a) + ChipTexts(b);
    PresentSplits(ChipTexts(a), ChipTexts(b));
  }

  /** The subtitle: the formatted date (when the date is a non-empty string)
      and the place (when non-empty), whichever are there, joined with " • ".
      The date formatter is a parameter. */
  function Subtitle(m: PopupMemory, formatDate: string -> string): (s: string)
    ensures !Truthy(m.eventDate) && !Truthy(m.place) ==> s == ""
    ensures !Truthy(m.eventDate) && Truthy(m.place) ==> s == m.place.value
    ensures Truthy(m.eventDate) && formatDate(m.eventDate.value) != "" && Truthy(m.place) ==>
              s == formatDate(m.eventDate.value) + " • " + m.place.value
    ensures Truthy(m.eventDate) && !Truthy(m.place) ==> s == formatDate(m.eventDate.value)
    ensures Truthy(m.eventDate) && formatDate(m.eventDate.value) == "" && Truthy(m.place) ==> s == m.place.value
  {
    var date := if Truthy(m.eventDate) then Some(formatDate(m.eventDate.value)) else None;
    var place := if Truthy(m.place) then m.place else None;
    PresentPair(date, place);
    JoinPair(date.GetOr(""), m.place.GetOr(""), " • ");
    JoinPair(m.place.GetOr(""), "", " • ");
    Join(Present([date, place]), " • ")
  }

  // ---- what each card renders ----

  datatype PopupView =
    | NoMemoryBox
    | Card(image: string, title: string, peopleLine: string)
    | ChipCard(image: string, title: string, subtitle: string, chips: seq<string>)

  /** app/MemoryPopup.tsx: a memory without an id shows the "no memory" box. */
  function TrimmedCard(m: Option<PopupMemory>): (v: PopupView)
    ensures v.NoMemoryBox? <==> m.None? || !Truthy(m.value.id)
    ensures v.Card? ==> v == Card(ImageOf(m.value), TrimmedTitle(m.value), TrimmedPeopleText(m.value))
  {
    if m.None? || !Truthy(m.value.id) then NoMemoryBox
    else Card(ImageOf(m.value), TrimmedTitle(m.value), TrimmedPeopleText(m.value))
  }

  /** src/MemoryPopup.tsx: only a missing memory shows the box; a memory
      without an id is still drawn. */
  function LooseCard(m: Option<PopupMemory>): (v: PopupView)
    ensures v.NoMemoryBox? <==> m.None?
    ensures v.Card? ==> v == Card(ImageOf(m.value), LooseTitle(m.value), LoosePeopleText(m.value))
  {
    if m.None? then NoMemoryBox
    else Card(ImageOf(m.value), LooseTitle(m.value), LoosePeopleText(m.value))
  }

  /** app/memorypopup/MemoryPopup.tsx: likewise, with chips and a subtitle. */
  function ChipsCard(m: Option<PopupMemory>, formatDate: string -> string): (v: PopupView)
    ensures v.NoMemoryBox? <==> m.None?
    ensures v.ChipCard? ==>
              v == ChipCard(ImageOf(m.value), OrElse(m.value.event, "Memory"), Subtitle(m.value, formatDate), PeopleChips(m.value))
  {
    if m.None? then NoMemoryBox
    else ChipCard(ImageOf(m.value), OrElse(m.value.event, "Memory"), Subtitle(m.value, formatDate), PeopleChips(m.value))
  }

  /** The memory id `buildWaLinks` posts; all three cards ask nothing
      without one. */
  function InviteRequest(m: Option<PopupMemory>): (id: Option<string>)
    ensures id.Some? <==> m.Some? && Truthy(m.value.id)
    ensures id.Some? ==> id.value == m.value.id.value && id.value != ""
  {
    if m.Some? && Truthy(m.value.id) then m.value.id else None
  }

  /** The `links` field of the answer: missing, a list, or something else. */
  datatype LinksField = NoLinks | LinksList(links: seq<Invite.InviteLink>) | LinksNotList

  /** The invitation endpoint's answer as a card sees it; `json` is whether
      the body parses as JSON. */
  datatype NotifyReply = FetchFailed | Reply(ok: bool, json: bool, links: LinksField)

  /** app/MemoryPopup.tsx: a list only when the answer is a success whose
      `links` is a list; every failure gives the empty list. */
  function CheckedInvites(r: NotifyReply): (shown: seq<Invite.InviteLink>)
    ensures r.Reply? && r.ok && r.json && r.links.LinksList? ==> shown == r.links.links
    ensures !(r.Reply? && r.ok && r.json && r.links.LinksList?) ==> shown == []
  {
    if r.Reply? && r.ok && r.json && r.links.LinksList? then r.links.links else []
  }

  /** The other two cards: `j.links || []` after a successful JSON answer,
      the empty list on any failure. `None` stands for a `links` value that
      is not a list, which these cards store as it is. */
  function LooseInvites(r: NotifyReply): (shown: Option<seq<Invite.InviteLink>>)
    ensures shown.None? <==> r.Reply? && r.ok && r.json && r.links.LinksNotList?
    ensures r.Reply? && r.ok && r.json && r.links.LinksList? ==> shown == Some(r.links.links)
    ensures !(r.Reply? && r.ok && r.json) ==> shown == Some([])
  {
    if !(r.Reply? && r.ok && r.json) then Some([])
    else
      match r.links
      case NoLinks => Some([])
      case LinksList(ls) => Some(ls)
      case LinksNotList => None
  }

  /** How the invitation endpoint's own answers reach a card: errors are
      not ok, "no phones" is ok with an empty list, and a sent batch is ok
      with its links. */
  function ReplyOf(resp: Invite.NotifyResponse): NotifyReply
  {
    match resp
    case NotifyError(_, _) => Reply(false, true, NoLinks)
    case NoPhones(_) => Reply(true, true, LinksList([]))
    case Sent(links) => Reply(true, true, LinksList(links))
  }

  /** On every answer the endpoint really gives, all three cards keep the
      same list: the sent links, or none. */
  lemma CardsAgreeOnEndpointAnswers(resp: Invite.NotifyResponse)
    ensures CheckedInvites(ReplyOf(resp)) == (if resp.Sent? then resp.links else [])
    ensures LooseInvites(ReplyOf(resp)) == Some(CheckedInvites(ReplyOf(resp)))
  {
  }

  /** The label's two parts, filtered and joined: empty exactly when both
      are. */
  function LabelParts(name: string, rel: string): (joined: string)
    ensures name == "" && rel == "" ==> joined == ""
    ensures name != "" && rel == "" ==> joined == name
    ensures name != "" && rel != "" ==> joined == name + " (" + rel + ")"
    ensures name == "" && rel != "" ==> joined == "(" + rel + ")"
  {
    var bracket := if rel != "" then "(" + rel + ")" else "";
    PresentPair(Some(name), Some(bracket));
    JoinPair(name, bracket, " ");
    JoinPair(bracket, "", " ");
    Join(Present([Some(name), Some(bracket)]), " ")
  }

  /** An invitation's label on the first card: the trimmed name and the
      trimmed relation in brackets, each only when not blank, joined with a
      space; "Contact" when both are blank. */
  function InviteLabel(i: Invite.InviteLink): (s: string)
    ensures IsBlank(i.name) && IsBlank(i.relation.GetOr("")) ==> s == "Contact"
    ensures !IsBlank(i.name) && IsBlank(i.relation.GetOr("")) ==> s == Trim(i.name)
    ensures !IsBlank(i.name) && !IsBlank(i.relation.GetOr("")) ==> s == Trim(i.name) + " (" + Trim(i.relation.value) + ")"
    ensures IsBlank(i.name) && !IsBlank(i.relation.GetOr("")) ==> s == "(" + Trim(i.relation.value) + ")"
  {
    var joined := LabelParts(Trim(i.name), Trim(i.relation.GetOr("")));
    if joined != "" then joined else "Contact"
  }
}

=== FILE: memory_types.dfy ===
/** The records of the memory book: a tagged photo of a memory or a person,
    owned by one patient, and the store that groups them per patient. */
module MemoryTypes {
  import opened Wrappers
  import opened JsRecord

  datatype Kind = PersonKind | MemoryKind

  /** A person tagged on a memory; `contactNumber` is what the caregiver form adds. */
  datatype PersonTag = PersonTag(name: string, relation: Option<string>, contactNumber: Option<string>)

  /** One gallery entry. `createdAt` is the creation instant in milliseconds
      (`None` when the stored string is absent or does not parse); `kind` is
      the optional `type` field. */
  datatype MemoryItem = MemoryItem(
    id: string,
    patientId: string,
    storagePath: string,
    event: Option<string>,
    eventDate: Option<string>,
    place: Option<string>,
    people: Option<seq<PersonTag>>,
    caption: Option<string>,
    embedding: Option<seq<real>>,
    createdAt: Option<int>,
    kind: Option<Kind>,
    faceEmbedding: Option<seq<real>>,
    name: Option<string>,
    relation: Option<string>,
    contactNumber: Option<string>)

  /** `MemoryDB = Record<patientId, MemoryItem[]>`. */
  type MemoryDB = Rec<seq<MemoryItem>>

  /** JavaScript truthiness of an optional string: present and non-empty. */
  predicate Truthy(s: Option<string>)
  {
    s.Some? && s.value != ""
  }

  /** `s || undefined`: a present, non-empty string, else nothing. */
  function Blank(field: Option<string>): (r: Option<string>)
    ensures r.Some? <==> Truthy(field)
    ensures r.Some? ==> r == field
  {
    if Truthy(field) then field else None
  }

  predicate IdsDistinct(list: seq<MemoryItem>)
  {
    forall i, j :: 0 <= i < j < |list| ==> list[i].id != list[j].id
  }
}

=== FILE: memory_upload.dfy ===
/** The memory-upload handler (`POST /api/memory/upload`): a photo plus
    optional metadata becomes one `MemoryItem`, upserted into the owner's
    list. The saved image file, the caption model, the text embedding and the
    face embedding are outside the model: their outputs are parameters. */
module MemoryUpload {
  import opened Wrappers
  import opened Strings
  import opened JsRecord
  import opened MemoryTypes
  import opened ItemStore
  import opened Seqs

  /** The `people` form field as `JSON.parse` sees it: absent or empty
      (parsed as `"[]"`), a parsed list, or text that does not parse. */
  datatype PeopleField = NoPeople | PeopleList(tags: seq<PersonTag>) | Malformed

  /** The multipart form. Every text field is `form.get(..)`: absent or a
      string. `fileType` is present exactly when a file was sent, and is the
      file's MIME type. */
  datatype UploadForm = UploadForm(
    patientId: Option<string>,
    fileType: Option<string>,
    event: Option<string>,
    eventDate: Option<string>,
    place: Option<string>,
    people: PeopleField,
    kind: Option<string>,
    personName: Option<string>,
    personRelation: Option<string>)

  /** What the outside world supplies to one upload: the fresh id, the
      caption the vision model writes, the text embedding function, the face
      embedding (`None` when no face is found) and the clock. */
  datatype UploadEnv = UploadEnv(
    id: string,
    caption: string,
    embed: string -> seq<real>,
    face: Option<seq<real>>,
    nowMs: int)

  datatype UploadResponse =
    | Uploaded(item: MemoryItem)
    | Rejected(status: int, error: string)

  const DefaultPatient := "patient123"

  /** The item kind: a person exactly when the field is the string "person". */
  function KindOf(field: Option<string>): (k: Kind)
    ensures k == PersonKind <==> field == Some("person")
  {
    if field == Some("person") then PersonKind else MemoryKind
  }

  /** `file.type.split("/")[1] || "jpg"`: the MIME subtype, or "jpg" when
      there is none. */
  function Ext(mime: string): (ext: string)
    ensures ext != "" && '/' !in ext
  {
    var parts := Split(mime, '/');
    if |parts| >= 2 && parts[1] != "" then parts[1] else "jpg"
  }

  /** The subtype of a "type/subtype" MIME string is the extension. */
  lemma ExtOfMime(top: string, sub: string)
    requires '/' !in top && '/' !in sub && sub != ""
    ensures Ext(top + "/" + sub) == sub
  {
    SplitCons(top, sub, '/');
    SplitNoSep(sub, '/');
  }

  /** A MIME string without a slash has no subtype. */
  lemma ExtWithoutSlash(mime: string)
    requires '/' !in mime
    ensures Ext(mime) == "jpg"
  {
    SplitNoSep(mime, '/');
  }

  /** The parsed people: a non-empty list, else nothing. */
  function PeopleOf(field: PeopleField): (r: Option<seq<PersonTag>>)
    ensures r.Some? <==> field.PeopleList? && |field.tags| > 0
    ensures r.Some? ==> r.value == field.tags
  {
    if field.PeopleList? && |field.tags| > 0 then Some(field.tags) else None
  }

  /** The stored record, built once the file is present and, for a person,
      a face embedding was found. */
  function BuildItem(form: UploadForm, env: UploadEnv, mime: string): (m: MemoryItem)
    ensures m.id == env.id
    ensures Truthy(form.patientId) ==> m.patientId == form.patientId.value
    ensures !Truthy(form.patientId) ==> m.patientId == DefaultPatient
    ensures m.storagePath == "/memory/" + env.id + "." + Ext(mime)
    ensures m.kind == Some(KindOf(form.kind)) && m.createdAt == Some(env.nowMs)
    ensures m.event == Blank(form.event) && m.eventDate == Blank(form.eventDate) && m.place == Blank(form.place)
    ensures m.people == PeopleOf(form.people)
    ensures KindOf(form.kind) == MemoryKind ==>
              && m.caption == Some(env.caption) && m.embedding == Some(env.embed(env.caption))
              && m.faceEmbedding.None? && m.name.None? && m.relation.None?
    ensures KindOf(form.kind) == PersonKind ==>
              && m.caption.None? && m.embedding.None? && m.faceEmbedding == env.face
              && m.name == Some(form.personName.GetOr("")) && m.relation == Some(form.personRelation.GetOr(""))
    ensures m.contactNumber.None?
  {
    var person := KindOf(form.kind) == PersonKind;
    MemoryItem(
      env.id,
      if Truthy(form.patientId) then form.patientId.value else DefaultPatient,
      "/memory/" + env.id + "." + Ext(mime),
      Blank(form.event), Blank(form.eventDate), Blank(form.place),
      PeopleOf(form.people),
      if person then None else Some(env.caption),
      if person then None else Some(env.embed(env.caption)),
      Some(env.nowMs),
      Some(KindOf(form.kind)),
      if person then env.face else None,
      if person then Some(form.personName.GetOr("")) else None,
      if person then Some(form.personRelation.GetOr("")) else None,
      None)
  }

  /** The handler: the response and the store afterwards. */
  function Upload(form: UploadForm, env: UploadEnv, db: MemoryDB): (r: (UploadResponse, MemoryDB))
    ensures form.people.Malformed? ==> r == (Rejected(500, "upload failed"), db)
    ensures !form.people.Malformed? && form.fileType.None? ==> r == (Rejected(400, "file is required"), db)
    ensures form.fileType.Some? && form.kind == Some("person") && env.face.None? && !form.people.Malformed? ==>
              r == (Rejected(400, "No face found!"), db)
    ensures r.0.Rejected? ==> r.1 == db
    ensures r.0.Uploaded? ==>
              && form.fileType.Some? && !form.people.Malformed?
              && r.0.item == BuildItem(form, env, form.fileType.value)
              && r.1 == Upsert(db, r.0.item)
    ensures r.0.Uploaded? ==> r.0.item.kind == Some(PersonKind) ==> r.0.item.faceEmbedding.Some?
  {
    if form.people.Malformed? then (Rejected(500, "upload failed"), db)
    else if form.fileType.None? then (Rejected(400, "file is required"), db)
    else if KindOf(form.kind) == PersonKind && env.face.None? then (Rejected(400, "No face found!"), db)
    else
      var item := BuildItem(form, env, form.fileType.value);
      (Uploaded(item), Upsert(db, item))
  }

  /** A successful upload is listed under its patient afterwards, every
      other patient's list is untouched, and a fresh id grows the owner's
      list by exactly one, at the end. */
  lemma UploadThenList(form: UploadForm, env: UploadEnv, db: MemoryDB)
    requires Upload(form, env, db).0.Uploaded?
    requires forall m :: m in ListByPatient(db, Upload(form, env, db).0.item.patientId) ==> m.id != env.id
    ensures var (resp, db') := Upload(form, env, db);
            && ListByPatient(db', resp.item.patientId) == ListByPatient(db, resp.item.patientId) + [resp.item]
            && forall p :: p != resp.item.patientId ==> ListByPatient(db', p) == ListByPatient(db, p)
  {
  }
}

=== FILE: notify.dfy ===
/** The invitation-token store (`notifyTokens.json`) and the voice-note store
    (`voiceNotes.json`). A token grants one voice-note upload for one memory
    until it is used or its expiry instant passes. Instants are milliseconds
    since the epoch; the clock is a parameter. */
module Notify {
  import opened Wrappers
  import opened JsRecord
  import opened Seqs

  /** What the issuer supplies: a token record without `used` and `createdAt`.
      `expiresAt` is the parsed expiry instant; `None` stands for an empty or
      unparsable ISO string, which the validity check treats alike. */
  datatype TokenRequest = TokenRequest(
    memoryId: string,
    patientId: string,
    personName: string,
    phone: Option<string>,
    expiresAt: Option<int>)

  datatype TokenRecord = TokenRecord(
    memoryId: string,
    patientId: string,
    personName: string,
    phone: Option<string>,
    expiresAt: Option<int>,
    used: bool,
    createdAt: int)

  /** Tokens are only ever looked up by key, so the store is a map. */
  type TokenDB = map<string, TokenRecord>

  datatype VoiceNote = VoiceNote(
    id: string,
    memoryId: string,
    patientId: string,
    personName: string,
    phone: Option<string>,
    audioPath: string,
    transcript: Option<string>,
    createdAt: int)

  /** Voice notes keyed by id, in JavaScript's key order (`Object.values` order). */
  type VoiceDB = Rec<VoiceNote>

  /** `createToken`: store a new unused record under the fresh key `token`
      (the caller's random identifier), stamped with the current instant. */
  function CreateToken(db: TokenDB, rec: TokenRequest, token: string, now: int): (db': TokenDB)
    ensures token in db'
    ensures db'[token].memoryId == rec.memoryId && db'[token].patientId == rec.patientId
    ensures db'[token].personName == rec.personName && db'[token].phone == rec.phone
    ensures db'[token].expiresAt == rec.expiresAt
    ensures !db'[token].used && db'[token].createdAt == now
    ensures forall k :: k != token ==> GetToken(db', k) == GetToken(db, k)
  {
    db[token := TokenRecord(rec.memoryId, rec.patientId, rec.personName, rec.phone, rec.expiresAt, false, now)]
  }

  /** A fresh token grows the store by exactly one record. */
  lemma FreshTokenGrowsStore(db: TokenDB, rec: TokenRequest, token: string, now: int)
    requires token !in db
    ensures |CreateToken(db, rec, token, now)| == |db| + 1
  {
  }

  /** `getToken`. */
  function GetToken(db: TokenDB, token: string): (t: Option<TokenRecord>)
    ensures t.Some? <==> token in db
    ensures t.Some? ==> t.value == db[token]
  {
    if token in db then Some(db[token]) else None
  }

  datatype ConsumeResult = ConsumeResult(found: bool, db: TokenDB)

  /** `consumeToken`: mark a known token used; an unknown token writes nothing. */
  function ConsumeToken(db: TokenDB, token: string): (r: ConsumeResult)
    ensures r.found <==> token in db
    ensures !r.found ==> r.db == db
    ensures r.db.Keys == db.Keys
    ensures r.found ==> r.db[token] == db[token].(used := true)
    ensures forall k :: k in db && k != token ==> r.db[k] == db[k]
  {
    if token !in db then ConsumeResult(false, db)
    else ConsumeResult(true, db[token := db[token].(used := true)])
  }

  /** `isTokenValid`: a record exists, is unused, has an expiry, and the
      expiry lies strictly after `now`. */
  function IsTokenValid(t: Option<TokenRecord>, now: int): (valid: bool)
    ensures valid <==> t.Some? && !t.value.used && t.value.expiresAt.Some? && now < t.value.expiresAt.value
  {
    match t
    case None => false
    case Some(rec) =>
      if rec.used then false
      else
        match rec.expiresAt
        case None => false
        case Some(ms) => ms > now
  }

  /** Consuming twice leaves the store as consuming once. */
  lemma ConsumeIdempotent(db: TokenDB, token: string)
    ensures var once := ConsumeToken(db, token).db;
            ConsumeToken(once, token).db == once
  {
  }

  /** Once used, a token is invalid at every instant. */
  lemma UsedNeverValid(db: TokenDB, token: string, now: int)
    requires token in db && db[token].used
    ensures !IsTokenValid(GetToken(db, token), now)
  {
  }

  /** A freshly created token is valid exactly while its expiry lies ahead. */
  lemma CreatedValidIff(db: TokenDB, rec: TokenRequest, token: string, now: int, later: int)
    ensures IsTokenValid(GetToken(CreateToken(db, rec, token, now), token), later)
            <==> rec.expiresAt.Some? && later < rec.expiresAt.value
  {
  }

  /** Validity only runs out: valid at `t2` implies valid at every earlier `t1`. */
  lemma ValidityMonotone(rec: Option<TokenRecord>, t1: int, t2: int)
    requires t1 <= t2 && IsTokenValid(rec, t2)
    ensures IsTokenValid(rec, t1)
  {
  }

  /** No transition turns a used token back into an unused one. */
  ghost predicate UsedStaysUsed(db: TokenDB, db': TokenDB)
  {
    forall k :: k in db && db[k].used ==> k in db' && db'[k].used
  }

  lemma CreateAndConsumeKeepUsed(db: TokenDB, rec: TokenRequest, token: string, now: int, other: string)
    requires token !in db
    ensures UsedStaysUsed(db, CreateToken(db, rec, token, now))
    ensures UsedStaysUsed(db, ConsumeToken(db, other).db)
  {
  }

  /** `storeVoiceNote`: write the note under its id, in place when the id exists. */
  function StoreVoiceNote(db: VoiceDB, v: VoiceNote): (db': VoiceDB)
    ensures Get(db', v.id) == Some(v)
    ensures forall k :: k != v.id ==> Get(db', k) == Get(db, k)
    ensures KeysDistinct(db) ==> KeysDistinct(db')
    ensures HasKey(db, v.id) ==> |db'| == |db|
    ensures !HasKey(db, v.id) ==> |db'| == |db| + 1
    ensures Ordered(db) ==> Ordered(db')
  {
    GetSet(db, v.id, v);
    assert Ordered(db) ==> Ordered(Set(db, v.id, v)) by {
      if Ordered(db) {
        SetKeepsOrdered(db, v.id, v);
      }
    }
    Set(db, v.id, v)
  }

  /** "Newer or same age" on creation instants: the order of a newest-first sort. */
  predicate NewerOrSame(a: VoiceNote, b: VoiceNote)
  {
    a.createdAt >= b.createdAt
  }

  lemma NewerOrSameIsTotalPreorder()
    ensures TotalPreorder(NewerOrSame)
  {
  }

  /** Newest-first ordering of notes: the same notes, creation instants non-increasing. */
  function NewestFirst(notes: seq<VoiceNote>): (r: seq<VoiceNote>)
    ensures multiset(r) == multiset(notes)
    ensures forall i, j :: 0 <= i < j < |r| ==> r[i].createdAt >= r[j].createdAt
  {
    NewerOrSameIsTotalPreorder();
    SortSorted(notes, NewerOrSame);
    Sort(notes, NewerOrSame)
  }

  predicate OfMemory(memoryId: string, v: VoiceNote) { v.memoryId == memoryId }

  predicate OfPatient(patientId: string, v: VoiceNote) { v.patientId == patientId }

  /** `listVoiceNotesByMemory`: exactly the stored notes of the memory, newest first. */
  function ListVoiceNotesByMemory(db: VoiceDB, memoryId: string): (r: seq<VoiceNote>)
    ensures forall v :: multiset(r)[v] == if v.memoryId == memoryId then multiset(Values(db))[v] else 0
    ensures forall i, j :: 0 <= i < j < |r| ==> r[i].createdAt >= r[j].createdAt
  {
    NewestFirst(Filter(Values(db), v => OfMemory(memoryId, v)))
  }

  /** `listVoiceNotesByPatient`: exactly the stored notes of the patient, newest first. */
  function ListVoiceNotesByPatient(db: VoiceDB, patientId: string): (r: seq<VoiceNote>)
    ensures forall v :: multiset(r)[v] == if v.patientId == patientId then multiset(Values(db))[v] else 0
    ensures forall i, j :: 0 <= i < j < |r| ==> r[i].createdAt >= r[j].createdAt
  {
    NewestFirst(Filter(Values(db), v => OfPatient(patientId, v)))
  }
}

=== FILE: record.dfy ===
/** A JSON object (`Record<string, V>`) as JavaScript keeps it. Its own
    keys are enumerated with the array-index keys ("0", "42", ...) first, in
    ascending numeric order, and then every other key in insertion order;
    `Object.values` follows that order. `o[k] = v` replaces the value of an
    existing key in place and puts a new key where that order places it. */
module JsRecord {
  import opened Wrappers
  import opened Strings

  datatype Entry<V> = Entry(key: string, value: V)

  type Rec<V> = seq<Entry<V>>

  /** A well-formed object has each key once. */
  predicate KeysDistinct<V>(r: Rec<V>)
  {
    forall i, j :: 0 <= i < j < |r| ==> r[i].key != r[j].key
  }

  /** Position of key `k`, or -1. */
  function IndexOf<V>(r: Rec<V>, k: string): (i: int)
    ensures -1 <= i < |r|
    ensures i >= 0 ==> r[i].key == k && forall j :: 0 <= j < i ==> r[j].key != k
    ensures i == -1 <==> forall j :: 0 <= j < |r| ==> r[j].key != k
  {
    if |r| == 0 then -1
    else if r[0].key == k then 0
    else
      var i := IndexOf(r[1..], k);
      if i == -1 then -1 else i + 1
  }

  /** The position of a key depends on the keys alone. */
  lemma IndexOfSameKeys<V>(r: Rec<V>, r': Rec<V>, k: string)
    requires |r| == |r'| && forall j :: 0 <= j < |r| ==> r[j].key == r'[j].key
    ensures IndexOf(r, k) == IndexOf(r', k)
  {
    var i, i' := IndexOf(r, k), IndexOf(r', k);
    if i >= 0 && i' >= 0 {
      assert !(i < i') && !(i' < i);
    }
  }

  predicate HasKey<V>(r: Rec<V>, k: string)
  {
    IndexOf(r, k) >= 0
  }

  /** `o[k]`, with `None` for `undefined`. */
  function Get<V>(r: Rec<V>, k: string): (v: Option<V>)
    ensures v.Some? <==> HasKey(r, k)
  {
    var i := IndexOf(r, k);
    if i >= 0 then Some(r[i].value) else None
  }

  /** In a well-formed object the value of the entry at position `i` is what `Get` returns. */
  lemma GetAt<V>(r: Rec<V>, i: int)
    requires KeysDistinct(r) && 0 <= i < |r|
    ensures Get(r, r[i].key) == Some(r[i].value)
  {
    var j := IndexOf(r, r[i].key);
    assert !(j < i);
  }

  /** `Object.values(o)`. */
  function Values<V>(r: Rec<V>): (vs: seq<V>)
    ensures |vs| == |r|
    ensures forall i :: 0 <= i < |r| ==> vs[i] == r[i].value
  {
    if |r| == 0 then [] else [r[0].value] + Values(r[1..])
  }

  /** An array index: a canonical numeral below 2^32 - 1. */
  predicate IsArrayIndex(k: string)
  {
    IsCanonicalNumeral(k) && ParseDigits(k) < 0xFFFF_FFFF
  }

  /** Key `a` is enumerated before key `b` by the index rule: both are array
      indices and `a` is the smaller number. */
  predicate IndexBefore(a: string, b: string)
  {
    IsArrayIndex(a) && IsArrayIndex(b) && ParseDigits(a) < ParseDigits(b)
  }

  /** The enumeration order JavaScript keeps: an array-index key is preceded
      only by smaller array-index keys. */
  predicate Ordered<V>(r: Rec<V>)
  {
    forall i, j :: 0 <= i < j < |r| && IsArrayIndex(r[j].key) ==> IndexBefore(r[i].key, r[j].key)
  }

  /** Where a new array-index key `k` goes: after the leading smaller indices. */
  function IndexSlot<V>(r: Rec<V>, k: string): (p: nat)
    requires IsArrayIndex(k)
    ensures p <= |r|
    ensures forall j :: 0 <= j < p ==> IndexBefore(r[j].key, k)
    ensures p < |r| ==> !IndexBefore(r[p].key, k)
  {
    if |r| == 0 || !IndexBefore(r[0].key, k) then 0 else IndexSlot(r[1..], k) + 1
  }

  /** What position `j` holds once `e` is put at position `p` of `r`. */
  function Shifted<V>(r: Rec<V>, p: nat, e: Entry<V>, j: int): Entry<V>
    requires p <= |r| && 0 <= j <= |r|
  {
    if j < p then r[j] else if j == p then e else r[j - 1]
  }

  /** Entry `e` put at position `p` of `r`. */
  function Insert<V>(r: Rec<V>, p: nat, e: Entry<V>): (r': Rec<V>)
    requires p <= |r|
    ensures |r'| == |r| + 1
    ensures forall j :: 0 <= j < |r'| ==> r'[j] == Shifted(r, p, e, j)
  {
    r[..p] + [e] + r[p..]
  }

  /** `o[k] = v`. */
  function Set<V>(r: Rec<V>, k: string, v: V): (r': Rec<V>)
    ensures HasKey(r, k) ==> |r'| == |r| && r'[IndexOf(r, k)] == Entry(k, v)
    ensures HasKey(r, k) ==> forall j :: 0 <= j < |r| && j != IndexOf(r, k) ==> r'[j] == r[j]
    ensures !HasKey(r, k) && !IsArrayIndex(k) ==> r' == r + [Entry(k, v)]
    ensures !HasKey(r, k) && IsArrayIndex(k) ==> r' == Insert(r, IndexSlot(r, k), Entry(k, v))
  {
    var i := IndexOf(r, k);
    if i >= 0 then r[i := Entry(k, v)]
    else if IsArrayIndex(k) then Insert(r, IndexSlot(r, k), Entry(k, v))
    else r + [Entry(k, v)]
  }

  /** Looking a key up in an object with `e` in front. */
  lemma GetCons<V>(e: Entry<V>, r: Rec<V>, k: string)
    ensures Get([e] + r, k) == if e.key == k then Some(e.value) else Get(r, k)
  {
    assert ([e] + r)[1..] == r;
  }

  /** Putting entry `e` at position `p` moves no other key's value. */
  lemma {:induction false} GetInsert<V>(r: Rec<V>, p: nat, e: Entry<V>, k: string)
    requires p <= |r| && k != e.key
    ensures Get(Insert(r, p, e), k) == Get(r, k)
    decreases p
  {
    if p == 0 {
      assert Insert(r, p, e) == [e] + r;
      GetCons(e, r, k);
    } else {
      assert Insert(r, p, e) == [r[0]] + Insert(r[1..], p - 1, e);
      assert r == [r[0]] + r[1..];
      GetCons(r[0], Insert(r[1..], p - 1, e), k);
      GetCons(r[0], r[1..], k);
      GetInsert(r[1..], p - 1, e, k);
    }
  }

  /** A key put into an object that lacked it reads as its new value. */
  lemma {:induction false} GetInserted<V>(r: Rec<V>, p: nat, e: Entry<V>)
    requires p <= |r| && !HasKey(r, e.key)
    ensures Get(Insert(r, p, e), e.key) == Some(e.value)
    decreases p
  {
    if p == 0 {
      assert Insert(r, p, e) == [e] + r;
      GetCons(e, r, e.key);
    } else {
      assert Insert(r, p, e) == [r[0]] + Insert(r[1..], p - 1, e);
      assert r[0].key != e.key;
      assert !HasKey(r[1..], e.key) by {
        assert forall j :: 0 <= j < |r| - 1 ==> r[1..][j] == r[j + 1];
      }
      GetCons(r[0], Insert(r[1..], p - 1, e), e.key);
      GetInserted(r[1..], p - 1, e);
    }
  }

  /** Putting a new key into a well-formed object keeps it well-formed. */
  lemma DistinctInsert<V>(r: Rec<V>, p: nat, e: Entry<V>)
    requires p <= |r| && !HasKey(r, e.key) && KeysDistinct(r)
    ensures KeysDistinct(Insert(r, p, e))
  {
    var r' := Insert(r, p, e);
    forall i, j | 0 <= i < j < |r'| ensures r'[i].key != r'[j].key {
      var i0 := if i < p then i else i - 1;
      var j0 := if j < p then j else j - 1;
      if i != p && j != p {
        assert r'[i] == r[i0] && r'[j] == r[j0] && i0 < j0;
      } else if i == p {
        assert r'[j] == r[j0];
      } else {
        assert r'[i] == r[i0];
      }
    }
  }

  /** Reading back: the key just written holds the new value and every other
      key reads as before; a well-formed object stays well-formed. */
  lemma GetSet<V>(r: Rec<V>, k: string, v: V)
    ensures Get(Set(r, k, v), k) == Some(v)
    ensures forall k' :: k' != k ==> Get(Set(r, k, v), k') == Get(r, k')
    ensures KeysDistinct(r) ==> KeysDistinct(Set(r, k, v))
  {
    if HasKey(r, k) {
      GetSetExisting(r, k, v);
    } else {
      var p := if IsArrayIndex(k) then IndexSlot(r, k) else |r|;
      assert Set(r, k, v) == Insert(r, p, Entry(k, v));
      GetInserted(r, p, Entry(k, v));
      forall k' | k' != k ensures Get(Set(r, k, v), k') == Get(r, k') {
        GetInsert(r, p, Entry(k, v), k');
      }
      if KeysDistinct(r) {
        DistinctInsert(r, p, Entry(k, v));
      }
    }
  }

  /** Overwriting a present key keeps every position's key. */
  lemma GetSetExisting<V>(r: Rec<V>, k: string, v: V)
    requires HasKey(r, k)
    ensures Get(Set(r, k, v), k) == Some(v)
    ensures forall k' :: k' != k ==> Get(Set(r, k, v), k') == Get(r, k')
    ensures KeysDistinct(r) ==> KeysDistinct(Set(r, k, v))
  {
    var r' := Set(r, k, v);
    forall k' ensures IndexOf(r', k') == IndexOf(r, k') {
      IndexOfSameKeys(r, r', k');
    }
  }

  /** Writing keeps the enumeration order JavaScript keeps. */
  lemma SetKeepsOrdered<V>(r: Rec<V>, k: string, v: V)
    requires Ordered(r)
    ensures Ordered(Set(r, k, v))
  {
    var r' := Set(r, k, v);
    if HasKey(r, k) {
      assert forall j :: 0 <= j < |r| ==> r'[j].key == r[j].key;
    } else if IsArrayIndex(k) {
      OrderedInsert(r, k, v);
    } else {
      assert forall j :: 0 <= j < |r| ==> r'[j] == r[j];
    }
  }

  /** A new array-index key put at its slot keeps the order. */
  lemma OrderedInsert<V>(r: Rec<V>, k: string, v: V)
    requires Ordered(r) && IsArrayIndex(k) && !HasKey(r, k)
    ensures Ordered(Insert(r, IndexSlot(r, k), Entry(k, v)))
  {
    var p := IndexSlot(r, k);
    var r' := Insert(r, p, Entry(k, v));
    forall i, j | 0 <= i < j < |r'| && IsArrayIndex(r'[j].key)
      ensures IndexBefore(r'[i].key, r'[j].key)
    {
      if j == p {
      } else if i == p {
        SlotBelowLater(r, k, j - 1);
      } else if j < p {
        assert r'[i] == r[i] && r'[j] == r[j];
        OrderedAt(r, i, j);
      } else if i < p {
        assert r'[i] == r[i] && r'[j] == r[j - 1];
        OrderedAt(r, i, j - 1);
      } else {
        assert r'[i] == r[i - 1] && r'[j] == r[j - 1];
        OrderedAt(r, i - 1, j - 1);
      }
    }
  }

  /** `Ordered` at one pair of positions. */
  lemma OrderedAt<V>(r: Rec<V>, a: int, b: int)
    requires Ordered(r) && 0 <= a < b < |r| && IsArrayIndex(r[b].key)
    ensures IndexBefore(r[a].key, r[b].key)
  {
  }

  /** Two different array indices are ordered one way or the other. */
  lemma IndexTotal(a: string, b: string)
    requires IsArrayIndex(a) && IsArrayIndex(b) && a != b
    ensures IndexBefore(a, b) || IndexBefore(b, a)
  {
    if ParseDigits(a) == ParseDigits(b) {
      CanonicalNumeralUnique(a, b);
      assert false;
    }
  }

  /** An array-index key after the slot of a new key `k` is larger than `k`. */
  lemma SlotBelowLater<V>(r: Rec<V>, k: string, j: int)
    requires Ordered(r) && IsArrayIndex(k) && !HasKey(r, k)
    requires IndexSlot(r, k) <= j < |r| && IsArrayIndex(r[j].key)
    ensures IndexBefore(k, r[j].key)
  {
    var p := IndexSlot(r, k);
    var q := r[p].key;
    assert q != k;
    if p < j {
      OrderedAt(r, p, j);
    }
    IndexTotal(q, k);
  }

  /** A numeric patient id written after "patient123" is enumerated first. */
  lemma IndexKeyEnumeratedFirst<V>(a: V, b: V)
    ensures Values(Set([Entry("patient123", a)], "42", b)) == [b, a]
  {
    assert ParseDigits("42") == 42 by {
      assert "42"[..1] == "4";
    }
    assert IsArrayIndex("42");
    assert !IsArrayIndex("patient123");
    assert IndexSlot([Entry("patient123", a)], "42") == 0;
  }

  /** Writing back the value a key already holds changes nothing. */
  lemma SetSame<V>(r: Rec<V>, k: string, v: V)
    requires Get(r, k) == Some(v)
    ensures Set(r, k, v) == r
  {
    var i := IndexOf(r, k);
    assert r[i] == Entry(k, v);
  }
}

=== FILE: schedule_editor.dfy ===
/** The caregiver's schedule editor: form validation, the add button's
    error gate, weekday toggling and the per-day grouping of the list. */
module ScheduleEditor {
  import opened Wrappers
  import opened Strings
  import opened Seqs
  import opened MemoryTypes
  import opened ScheduleTypes
  import opened ScheduleTools

  /** The six checks of `validate`, in the order it runs them. */
  datatype Check = TitleCheck | StartCheck | EndCheck | DaysCheck | LatCheck | LngCheck

  function Rank(c: Check): nat
  {
    match c
    case TitleCheck => 0
    case StartCheck => 1
    case EndCheck => 2
    case DaysCheck => 3
    case LatCheck => 4
    case LngCheck => 5
  }

  function Message(c: Check): string
  {
    match c
    case TitleCheck => "Please add a title."
    case StartCheck => "Start time must be HH:mm."
    case EndCheck => "End time must be HH:mm."
    case DaysCheck => "Pick at least one day."
    case LatCheck => "Latitude must be between -90 and 90."
    case LngCheck => "Longitude must be between -180 and 180."
  }

  /** `/^\d{2}:\d{2}$/`: two ASCII digits, a colon, two ASCII digits, nothing else. */
  predicate IsHhmm(t: string)
  {
    |t| == 5 && IsDigit(t[0]) && IsDigit(t[1]) && t[2] == ':' && IsDigit(t[3]) && IsDigit(t[4])
  }

  /** The coordinates `validate` looks at: those of a location that has a coords object. */
  function CoordsOf(s: ScheduleItem): Option<GeoPoint>
  {
    if s.location.Some? then s.location.value.coords else None
  }

  /** A valid form, stated field by field. */
  predicate Valid(s: ScheduleItem)
  {
    && HasNonSpace(s.title)
    && IsHhmm(s.start)
    && (s.end.None? || s.end.value == "" || IsHhmm(s.end.value))
    && |s.dow| > 0
    && (CoordsOf(s).Some? && CoordsOf(s).value.lat.Some? ==> -90.0 <= CoordsOf(s).value.lat.value <= 90.0)
    && (CoordsOf(s).Some? && CoordsOf(s).value.lng.Some? ==> -180.0 <= CoordsOf(s).value.lng.value <= 180.0)
  }

  /** Whether one check objects to the form. */
  predicate Fails(s: ScheduleItem, c: Check)
  {
    match c
    case TitleCheck => IsBlank(s.title)
    case StartCheck => !IsHhmm(s.start)
    case EndCheck => Truthy(s.end) && !IsHhmm(s.end.value)
    case DaysCheck => |s.dow| == 0
    case LatCheck => CoordsOf(s).Some? && CoordsOf(s).value.lat.Some? && (CoordsOf(s).value.lat.value < -90.0 || CoordsOf(s).value.lat.value > 90.0)
    case LngCheck => CoordsOf(s).Some? && CoordsOf(s).value.lng.Some? && (CoordsOf(s).value.lng.value < -180.0 || CoordsOf(s).value.lng.value > 180.0)
  }

  /** Every check, in the order `validate` runs them. */
  const AllChecks: seq<Check> := [TitleCheck, StartCheck, EndCheck, DaysCheck, LatCheck, LngCheck]

  predicate RankAscending(cs: seq<Check>)
  {
    forall i, j :: 0 <= i < j < |cs| ==> Rank(cs[i]) < Rank(cs[j])
  }

  /** The checks of `cs` that object (`fails`), in the order of `cs`. */
  function FailingAmong(cs: seq<Check>, fails: Check -> bool): (errs: seq<Check>)
    requires RankAscending(cs)
    ensures forall c :: c in errs <==> c in cs && fails(c)
    ensures RankAscending(errs)
  {
    if |cs| == 0 then []
    else
      var rest := FailingAmong(cs[1..], fails);
      TailRanksAbove(cs, rest);
      if fails(cs[0]) then
        ConsRanked(cs[0], rest);
        [cs[0]] + rest
      else rest
  }

  /** Checks drawn from the tail of an ascending list rank above its head. */
  lemma TailRanksAbove(cs: seq<Check>, rest: seq<Check>)
    requires RankAscending(cs) && |cs| > 0
    requires forall c :: c in rest ==> c in cs[1..]
    ensures forall c :: c in rest ==> Rank(cs[0]) < Rank(c)
  {
    forall c | c in rest ensures Rank(cs[0]) < Rank(c) {
      var k :| 0 <= k < |cs[1..]| && cs[1..][k] == c;
      assert cs[k + 1] == c;
    }
  }

  /** A check ranked below every later one keeps the list ascending. */
  lemma ConsRanked(c0: Check, rest: seq<Check>)
    requires RankAscending(rest)
    requires forall c :: c in rest ==> Rank(c0) < Rank(c)
    ensures RankAscending([c0] + rest)
  {
    var r := [c0] + rest;
    forall i, j | 0 <= i < j < |r| ensures Rank(r[i]) < Rank(r[j]) {
      assert r[j] == rest[j - 1] && r[j] in rest;
      if i > 0 {
        assert r[i] == rest[i - 1];
      }
    }
  }

  /** `validate`: the failing checks, each once, in the fixed order. */
  function Validate(s: ScheduleItem): (errs: seq<Check>)
    ensures forall c :: c in errs <==> Fails(s, c)
    ensures RankAscending(errs)
  {
    EveryCheckRuns();
    FailingAmong(AllChecks, c => Fails(s, c))
  }

  lemma EveryCheckRuns()
    ensures RankAscending(AllChecks)
    ensures forall c :: c in AllChecks
  {
    forall c ensures c in AllChecks {
      assert AllChecks[Rank(c)] == c;
    }
  }

  /** `validate` reports nothing exactly for a valid form. */
  lemma ValidateEmptyIffValid(s: ScheduleItem)
    ensures Validate(s) == [] <==> Valid(s)
  {
    ValidIffPasses(s);
    var errs := Validate(s);
    if errs != [] {
      assert errs[0] in errs;
    } else {
      assert TitleCheck !in errs && StartCheck !in errs && EndCheck !in errs;
      assert DaysCheck !in errs && LatCheck !in errs && LngCheck !in errs;
    }
  }

  /** `Valid` is the six checks passing, one by one. */
  lemma ValidIffPasses(s: ScheduleItem)
    ensures Valid(s) <==>
              && !Fails(s, TitleCheck) && !Fails(s, StartCheck) && !Fails(s, EndCheck)
              && !Fails(s, DaysCheck) && !Fails(s, LatCheck) && !Fails(s, LngCheck)
  {
    NonBlankIffHasNonSpace(s.title);
  }

  /** The check is on the shape alone: "99:99" is a start time it accepts. */
  lemma OutOfRangeTimeAccepted(s: ScheduleItem)
    requires s.start == "99:99"
    ensures StartCheck !in Validate(s)
  {
  }

  datatype AddOutcome = ShowError(text: string) | Send(item: ScheduleItem)

  /** `addItem`: with any error, only the first one is shown and nothing is
      sent; otherwise the form is posted. */
  function AddItem(form: ScheduleItem): (r: AddOutcome)
    ensures r.Send? <==> Valid(form)
    ensures r.Send? ==> r.item == form
    ensures r.ShowError? ==>
              exists c :: Fails(form, c) && r.text == Message(c)
                && forall c' :: Rank(c') < Rank(c) ==> !Fails(form, c')
  {
    ValidateEmptyIffValid(form);
    var errs := Validate(form);
    if |errs| > 0 then
      assert forall c' :: Rank(c') < Rank(errs[0]) ==> !Fails(form, c') by {
        forall c' | Rank(c') < Rank(errs[0]) ensures c' !in errs {
          forall k | 0 <= k < |errs| ensures errs[k] != c' {
            if k > 0 {
              assert Rank(errs[0]) < Rank(errs[k]);
            }
          }
        }
      }
      ShowError(Message(errs[0]))
    else Send(form)
  }

  /** `(a, b) => a - b` as an ordering: ascending numbers. */
  predicate IntLe(a: int, b: int)
  {
    a <= b
  }

  predicate Ascending(s: seq<int>)
  {
    forall i, j :: 0 <= i < j < |s| ==> s[i] <= s[j]
  }

  predicate StrictlyAscending(s: seq<int>)
  {
    forall i, j :: 0 <= i < j < |s| ==> s[i] < s[j]
  }

  function SortDays(s: seq<int>): (r: seq<int>)
    ensures multiset(r) == multiset(s)
    ensures Ascending(r)
  {
    assert TotalPreorder(IntLe);
    SortSorted(s, IntLe);
    Sort(s, IntLe)
  }

  /** `dow.filter(x => x !== d)`. */
  function Without(dow: seq<int>, d: int): (r: seq<int>)
    ensures forall x :: x in r <==> x in dow && x != d
    ensures forall x :: multiset(r)[x] == if x != d then multiset(dow)[x] else 0
  {
    Filter(dow, x => x != d)
  }

  /** `toggleDay(d)`: a present day is removed everywhere; an absent one is
      appended and the list sorted. */
  function ToggleDay(dow: seq<int>, d: int): (r: seq<int>)
    ensures d in dow ==> forall x :: x in r <==> x in dow && x != d
    ensures d !in dow ==> multiset(r) == multiset(dow) + multiset{d} && Ascending(r)
  {
    if d in dow then Without(dow, d) else SortDays(dow + [d])
  }

  /** Putting a lower bound of an ascending list in front keeps it ascending. */
  lemma ConsAscending(x: int, t: seq<int>)
    requires Ascending(t) && forall y :: y in t ==> x <= y
    ensures Ascending([x] + t)
  {
    var r := [x] + t;
    forall i, j | 0 <= i < j < |r| ensures r[i] <= r[j] {
      assert r[j] == t[j - 1] && t[j - 1] in t;
      if i > 0 {
        assert r[i] == t[i - 1];
      }
    }
  }

  /** Filtering an ascending list keeps it ascending. */
  lemma {:induction false} FilterAscending(s: seq<int>, p: int -> bool)
    requires Ascending(s)
    ensures Ascending(Filter(s, p))
  {
    if |s| > 0 {
      assert Ascending(s[1..]);
      FilterAscending(s[1..], p);
      var t := Filter(s[1..], p);
      if p(s[0]) {
        forall y | y in t ensures s[0] <= y {
          var m :| 0 <= m < |s[1..]| && s[1..][m] == y;
          assert s[1 + m] == y;
        }
        ConsAscending(s[0], t);
        assert Filter(s, p) == [s[0]] + t;
      } else {
        assert Filter(s, p) == t;
      }
    }
  }

  /** Two ascending lists with the same elements, counted, are the same list. */
  lemma {:induction false} AscendingUnique(a: seq<int>, b: seq<int>)
    requires Ascending(a) && Ascending(b) && multiset(a) == multiset(b)
    ensures a == b
  {
    if |a| > 0 {
      AscendingHeads(a, b);
      AscendingUnique(a[1..], b[1..]);
      assert a == [a[0]] + a[1..] && b == [b[0]] + b[1..];
    } else {
      assert |b| == |multiset(b)| == 0;
    }
  }

  /** Two such lists start with the same element and agree on the rest. */
  lemma AscendingHeads(a: seq<int>, b: seq<int>)
    requires Ascending(a) && Ascending(b) && multiset(a) == multiset(b) && |a| > 0
    ensures |b| > 0 && a[0] == b[0] && multiset(a[1..]) == multiset(b[1..])
    ensures Ascending(a[1..]) && Ascending(b[1..])
  {
    assert a[0] in multiset(b);
    FirstIsLeast(b, a[0]);
    assert b[0] in multiset(a);
    FirstIsLeast(a, b[0]);
    TailMultiset(a);
    TailMultiset(b);
  }

  lemma FirstIsLeast(s: seq<int>, x: int)
    requires Ascending(s) && x in s
    ensures s[0] <= x
  {
    var k :| 0 <= k < |s| && s[k] == x;
  }

  lemma TailMultiset(s: seq<int>)
    requires |s| > 0
    ensures multiset(s[1..]) == multiset(s) - multiset{s[0]}
  {
    assert s == [s[0]] + s[1..];
  }

  /** In a strictly ascending list each element occurs once. */
  lemma {:induction false} StrictlyAscendingOnce(s: seq<int>, x: int)
    requires StrictlyAscending(s) && x in s
    ensures multiset(s)[x] == 1
  {
    assert s == [s[0]] + s[1..];
    if x == s[0] {
      assert x !in s[1..];
    } else {
      StrictlyAscendingOnce(s[1..], x);
    }
  }

  /** Removing a present day and toggling it back restores the list. */
  lemma ToggleTwicePresent(dow: seq<int>, d: int)
    requires StrictlyAscending(dow) && d in dow
    ensures ToggleDay(ToggleDay(dow, d), d) == dow
  {
    var once := Without(dow, d);
    assert d !in once;
    var twice := SortDays(once + [d]);
    StrictlyAscendingOnce(dow, d);
    assert multiset(twice) == multiset(dow) by {
      forall x ensures multiset(twice)[x] == multiset(dow)[x] {
      }
    }
    AscendingUnique(twice, dow);
  }

  /** Dropping a day that was added to a list without it gives back the
      list's elements. */
  lemma DropAddedDay(once: seq<int>, dow: seq<int>, d: int)
    requires d !in dow && multiset(once) == multiset(dow + [d])
    ensures multiset(Without(once, d)) == multiset(dow)
  {
    var twice := Without(once, d);
    forall x ensures multiset(twice)[x] == multiset(dow)[x] {
      assert multiset(dow + [d]) == multiset(dow) + multiset{d};
    }
  }

  /** Adding an absent day and toggling it off restores the list. */
  lemma ToggleTwiceAbsent(dow: seq<int>, d: int)
    requires StrictlyAscending(dow) && d !in dow
    ensures ToggleDay(ToggleDay(dow, d), d) == dow
  {
    var once := SortDays(dow + [d]);
    assert once == ToggleDay(dow, d);
    assert d in multiset(once);
    var twice := Without(once, d);
    FilterAscending(once, x => x != d);
    assert Ascending(twice);
    DropAddedDay(once, dow, d);
    AscendingUnique(twice, dow);
  }

  /** On a sorted list without repeats, toggling the same day twice gives
      the list back. */
  lemma ToggleTwice(dow: seq<int>, d: int)
    requires StrictlyAscending(dow)
    ensures ToggleDay(ToggleDay(dow, d), d) == dow
  {
    if d in dow {
      ToggleTwicePresent(dow, d);
    } else {
      ToggleTwiceAbsent(dow, d);
    }
  }

  /** `n` copies of `x`. */
  function Repeat<T>(x: T, n: nat): (r: seq<T>)
    ensures |r| == n && forall i :: 0 <= i < n ==> r[i] == x
  {
    if n == 0 then [] else [x] + Repeat(x, n - 1)
  }

  /** The pushes onto one day's list, in item order: an item is pushed once
      per occurrence of the day in its `dow`. */
  function DayList(items: seq<ScheduleItem>, d: int): (r: seq<ScheduleItem>)
    ensures forall x :: x in r <==> x in items && d in x.dow
  {
    if |items| == 0 then []
    else
      assert d in items[0].dow <==> multiset(items[0].dow)[d] > 0;
      Repeat(items[0], multiset(items[0].dow)[d]) + DayList(items[1..], d)
  }

  predicate DaysInWeek(items: seq<ScheduleItem>)
  {
    forall i, k :: 0 <= i < |items| && 0 <= k < |items[i].dow| ==> 1 <= items[i].dow[k] <= 7
  }

  /** One day's list of `grouped`: its pushes sorted by start time. */
  function DayGroup(items: seq<ScheduleItem>, d: int): (r: seq<ScheduleItem>)
    ensures forall x :: x in r <==> x in items && d in x.dow
    ensures SortedBy(StartsNoLater, r)
    ensures multiset(r) == multiset(DayList(items, d))
  {
    StartsNoLaterIsTotalPreorder();
    SortSorted(DayList(items, d), StartsNoLater);
    var r := Sort(DayList(items, d), StartsNoLater);
    assert forall x :: x in r <==> x in multiset(DayList(items, d));
    r
  }

  /** `grouped`: seven lists, Monday first, each sorted by start. A day
      outside 1..7 has no list to push onto and the render fails (`None`). */
  function Grouped(items: seq<ScheduleItem>): (r: Option<seq<seq<ScheduleItem>>>)
    ensures r.Some? <==> DaysInWeek(items)
    ensures r.Some? ==> |r.value| == 7
    ensures r.Some? ==> forall d :: 1 <= d <= 7 ==> r.value[d - 1] == DayGroup(items, d)
  {
    if !DaysInWeek(items) then None
    else Some(seq(7, i requires 0 <= i < 7 => DayGroup(items, i + 1)))
  }

  /** An item shows under exactly its own weekdays. */
  lemma ItemUnderItsDays(items: seq<ScheduleItem>, x: ScheduleItem, d: int)
    requires DaysInWeek(items) && x in items && 1 <= d <= 7
    ensures x in Grouped(items).value[d - 1] <==> d in x.dow
  {
    assert Grouped(items).value[d - 1] == DayGroup(items, d);
  }
}

=== FILE: schedule_route.dfy ===
/** The schedule endpoint (`/api/schedule`): per-patient task lists in one
    JSON store, read with an id migration, appended to, merged into by id
    and filtered by id. Random ids are parameters. */
module ScheduleRoute {
  import opened Wrappers
  import opened JsRecord
  import opened Seqs
  import opened MemoryTypes
  import opened ScheduleTypes

  datatype Response =
    | BadRequest(error: string)
    | NotFound(error: string)
    | Listed(items: seq<ScheduleItem>)
    | Saved(item: ScheduleItem)
    | Removed

  /** `!!it.id`: an id that is present and non-empty. */
  predicate HasId(it: ScheduleItem)
  {
    Truthy(it.id)
  }

  predicate AllHaveIds(list: seq<ScheduleItem>)
  {
    forall i :: 0 <= i < |list| ==> HasId(list[i])
  }

  /** Only the one patient's list differs between the two stores. */
  ghost predicate OthersUnchanged(db: ScheduleDB, db': ScheduleDB, patientId: string)
  {
    forall p :: p != patientId ==> ScheduleOf(db', p) == ScheduleOf(db, p)
  }

  /** The migration loop: an item without an id is given the id `uid(i)`,
      the value drawn for its position `i`; every other field stays. */
  function Migrate(list: seq<ScheduleItem>, uid: nat -> string): (r: seq<ScheduleItem>)
    ensures |r| == |list|
    ensures forall i :: 0 <= i < |list| && HasId(list[i]) ==> r[i] == list[i]
    ensures forall i :: 0 <= i < |list| ==> r[i].(id := list[i].id) == list[i]
    ensures forall i :: 0 <= i < |list| && !HasId(list[i]) ==> r[i].id == Some(uid(i))
  {
    seq(|list|, i requires 0 <= i < |list| => if HasId(list[i]) then list[i] else list[i].(id := Some(uid(i))))
  }

  /** With non-empty fresh ids, every item has an id after the migration. */
  lemma MigrateGivesIds(list: seq<ScheduleItem>, uid: nat -> string)
    requires forall n :: uid(n) != ""
    ensures AllHaveIds(Migrate(list, uid))
  {
  }

  /** A list whose items all have ids migrates to itself. */
  lemma MigrateKeepsComplete(list: seq<ScheduleItem>, uid: nat -> string)
    requires AllHaveIds(list)
    ensures Migrate(list, uid) == list
  {
  }

  /** `GET ?patientId=`: the patient's list after the migration, which is
      written back only when some id was missing. */
  function GetSchedule(db: ScheduleDB, patientId: Option<string>, uid: nat -> string): (r: (Response, ScheduleDB))
    ensures !Truthy(patientId) ==> r == (BadRequest("patientId required"), db)
    ensures Truthy(patientId) ==>
              && r.0 == Listed(Migrate(ScheduleOf(db, patientId.value), uid))
              && (AllHaveIds(ScheduleOf(db, patientId.value)) ==> r.1 == db)
              && ScheduleOf(r.1, patientId.value) == r.0.items
              && OthersUnchanged(db, r.1, patientId.value)
  {
    if !Truthy(patientId) then (BadRequest("patientId required"), db)
    else
      var pid := patientId.value;
      var list := ScheduleOf(db, pid);
      var list' := Migrate(list, uid);
      if AllHaveIds(list) then
        MigrateKeepsComplete(list, uid);
        (Listed(list'), db)
      else
        GetSet(db, pid, list');
        (Listed(list'), Set(db, pid, list'))
  }

  /** The store is written exactly when some item lacked an id (given
      non-empty fresh ids). */
  lemma GetWritesOnlyToMigrate(db: ScheduleDB, patientId: string, uid: nat -> string)
    requires patientId != "" && forall n :: uid(n) != ""
    ensures GetSchedule(db, Some(patientId), uid).1 == db <==> AllHaveIds(ScheduleOf(db, patientId))
  {
    var list := ScheduleOf(db, patientId);
    if !AllHaveIds(list) {
      var i :| 0 <= i < |list| && !HasId(list[i]);
      var db' := GetSchedule(db, Some(patientId), uid).1;
      assert ScheduleOf(db', patientId)[i] != list[i];
    }
  }

  /** The JSON body of POST and PUT, either part possibly missing. */
  datatype Body<T> = Body(patientId: Option<string>, item: Option<T>)

  /** `{ ...item, id: item.id ?? uid() }`: a supplied id is kept, even an
      empty one; otherwise the new one is used. */
  function WithId(item: ScheduleItem, newId: string): (r: ScheduleItem)
    ensures r.(id := item.id) == item
    ensures item.id.Some? ==> r == item
    ensures item.id.None? ==> r.id == Some(newId)
  {
    if item.id.Some? then item else item.(id := Some(newId))
  }

  /** `POST {patientId, item}`: append one item at the end of the list. */
  function PostSchedule(db: ScheduleDB, body: Option<Body<ScheduleItem>>, newId: string): (r: (Response, ScheduleDB))
    ensures body.None? || !Truthy(body.value.patientId) || body.value.item.None? ==>
              r == (BadRequest("patientId & item required"), db)
    ensures body.Some? && Truthy(body.value.patientId) && body.value.item.Some? ==>
              var pid := body.value.patientId.value;
              && r.0 == Saved(WithId(body.value.item.value, newId))
              && ScheduleOf(r.1, pid) == ScheduleOf(db, pid) + [r.0.item]
              && OthersUnchanged(db, r.1, pid)
  {
    if body.None? || !Truthy(body.value.patientId) || body.value.item.None? then
      (BadRequest("patientId & item required"), db)
    else
      var pid := body.value.patientId.value;
      var item := WithId(body.value.item.value, newId);
      var list' := ScheduleOf(db, pid) + [item];
      GetSet(db, pid, list');
      (Saved(item), Set(db, pid, list'))
  }

  /** A PUT body's item: any subset of the fields. */
  datatype Patch = Patch(
    id: Option<string>,
    title: Option<string>,
    instructions: Option<string>,
    dow: Option<seq<int>>,
    start: Option<string>,
    end: Option<string>,
    location: Option<Place>)

  /** The patch carries no field but its id. */
  predicate OnlyId(p: Patch)
  {
    p.title.None? && p.instructions.None? && p.dow.None? && p.start.None? && p.end.None? && p.location.None?
  }

  /** `{ ...base, ...patch }`: each field the patch carries overrides the base. */
  function Merge(base: ScheduleItem, p: Patch): (r: ScheduleItem)
    ensures p.title.None? ==> r.title == base.title
    ensures p.dow.None? ==> r.dow == base.dow
    ensures p.start.None? ==> r.start == base.start
    ensures p.id.None? ==> r.id == base.id
    ensures p.instructions.None? ==> r.instructions == base.instructions
    ensures p.end.None? ==> r.end == base.end
    ensures p.location.None? ==> r.location == base.location
  {
    ScheduleItem(
      if p.id.Some? then p.id else base.id,
      p.title.GetOr(base.title),
      if p.instructions.Some? then p.instructions else base.instructions,
      p.dow.GetOr(base.dow),
      p.start.GetOr(base.start),
      if p.end.Some? then p.end else base.end,
      if p.location.Some? then p.location else base.location)
  }

  /** Merging the same patch again changes nothing. */
  lemma MergeIdempotent(base: ScheduleItem, p: Patch)
    ensures Merge(Merge(base, p), p) == Merge(base, p)
  {
  }

  /** A patch with only the item's own id leaves the item as it is. */
  lemma MergeOnlyId(base: ScheduleItem, p: Patch)
    requires OnlyId(p) && p.id == base.id
    ensures Merge(base, p) == base
  {
  }

  /** The patched fields all take the patch's values. */
  lemma MergeTakesPatch(base: ScheduleItem, p: Patch)
    ensures p.title.Some? ==> Merge(base, p).title == p.title.value
    ensures p.instructions.Some? ==> Merge(base, p).instructions == p.instructions
    ensures p.dow.Some? ==> Merge(base, p).dow == p.dow.value
    ensures p.start.Some? ==> Merge(base, p).start == p.start.value
    ensures p.end.Some? ==> Merge(base, p).end == p.end
    ensures p.location.Some? ==> Merge(base, p).location == p.location
  {
  }

  /** `PUT {patientId, item}`: merge the patch into the first item with its id. */
  function PutSchedule(db: ScheduleDB, body: Option<Body<Patch>>): (r: (Response, ScheduleDB))
    ensures body.None? || !Truthy(body.value.patientId) || body.value.item.None? || !Truthy(body.value.item.value.id) ==>
              r == (BadRequest("patientId & item.id required"), db)
    ensures r.0.NotFound? ==>
              && body.Some? && Truthy(body.value.patientId) && body.value.item.Some?
              && r.1 == db
              && forall x :: x in ScheduleOf(db, body.value.patientId.value) ==> x.id != body.value.item.value.id
    ensures r.0.Saved? ==>
              && body.Some? && Truthy(body.value.patientId) && body.value.item.Some?
              && var pid := body.value.patientId.value;
                 var patch := body.value.item.value;
                 var before := ScheduleOf(db, pid);
                 var after := ScheduleOf(r.1, pid);
                 && |after| == |before|
                 && exists idx :: 0 <= idx < |before|
                      && before[idx].id == patch.id
                      && (forall j :: 0 <= j < idx ==> before[j].id != patch.id)
                      && after[idx] == r.0.item == Merge(before[idx], patch)
                      && (forall j :: 0 <= j < |before| && j != idx ==> after[j] == before[j])
    ensures r.0.Saved? ==> OthersUnchanged(db, r.1, body.value.patientId.value)
    ensures r.0.BadRequest? || r.0.NotFound? || r.0.Saved?
  {
    if body.None? || !Truthy(body.value.patientId) || body.value.item.None? || !Truthy(body.value.item.value.id) then
      (BadRequest("patientId & item.id required"), db)
    else
      var pid := body.value.patientId.value;
      var patch := body.value.item.value;
      var list := ScheduleOf(db, pid);
      var idx := FindIndex(list, (x: ScheduleItem) => x.id == patch.id);
      if idx == -1 then (NotFound("item not found"), db)
      else
        var merged := Merge(list[idx], patch);
        var list' := list[idx := merged];
        GetSet(db, pid, list');
        (Saved(merged), Set(db, pid, list'))
  }

  /** `DELETE ?patientId=&id=`: drop every item with that id. The list is
      written back even when nothing matched. */
  function DeleteSchedule(db: ScheduleDB, patientId: Option<string>, id: Option<string>): (r: (Response, ScheduleDB))
    ensures !Truthy(patientId) || !Truthy(id) ==> r == (BadRequest("patientId & id required"), db)
    ensures Truthy(patientId) && Truthy(id) ==>
              var before := ScheduleOf(db, patientId.value);
              var after := ScheduleOf(r.1, patientId.value);
              && r.0 == Removed
              && (forall x :: x in after <==> x in before && x.id != id)
              && (forall x :: multiset(after)[x] == if x.id != id then multiset(before)[x] else 0)
              && OthersUnchanged(db, r.1, patientId.value)
  {
    if !Truthy(patientId) || !Truthy(id) then (BadRequest("patientId & id required"), db)
    else
      var pid := patientId.value;
      var list' := Filter(ScheduleOf(db, pid), (x: ScheduleItem) => x.id != id);
      GetSet(db, pid, list');
      (Removed, Set(db, pid, list'))
  }

  /** Deleting the same id twice leaves the store as the first delete did. */
  lemma DeleteTwice(db: ScheduleDB, patientId: string, id: string)
    requires patientId != "" && id != ""
    ensures var db1 := DeleteSchedule(db, Some(patientId), Some(id)).1;
            DeleteSchedule(db1, Some(patientId), Some(id)).1 == db1
  {
    var keep := (x: ScheduleItem) => x.id != Some(id);
    var db1 := DeleteSchedule(db, Some(patientId), Some(id)).1;
    var list1 := ScheduleOf(db1, patientId);
    GetSet(db, patientId, Filter(ScheduleOf(db, patientId), keep));
    assert list1 == Filter(ScheduleOf(db, patientId), keep);
    FilterAll(list1, keep);
    SetSame(db1, patientId, list1);
  }

  /** Deleting an id no item has keeps the list (the store may gain an
      empty entry for a patient it did not know). */
  lemma DeleteMissingKeepsList(db: ScheduleDB, patientId: string, id: string)
    requires patientId != "" && id != ""
    requires forall x :: x in ScheduleOf(db, patientId) ==> x.id != Some(id)
    ensures ScheduleOf(DeleteSchedule(db, Some(patientId), Some(id)).1, patientId) == ScheduleOf(db, patientId)
  {
    DeletedList(db, patientId, id);
    FilterAll(ScheduleOf(db, patientId), (x: ScheduleItem) => x.id != Some(id));
  }

  /** The patient's list after a delete is the filtered list. */
  lemma DeletedList(db: ScheduleDB, patientId: string, id: string)
    requires patientId != "" && id != ""
    ensures ScheduleOf(DeleteSchedule(db, Some(patientId), Some(id)).1, patientId) ==
            Filter(ScheduleOf(db, patientId), (x: ScheduleItem) => x.id != Some(id))
  {
  }
}

=== FILE: schedule_tools.dfy ===
/** The assistant's schedule tools: what the patient should be doing now or
    next, and where to navigate. The schedule and the patient context are
    parameters; `now` is a local instant (see `Clock`). */
module ScheduleTools {
  import opened Wrappers
  import opened Strings
  import opened Seqs
  import opened Clock
  import opened ScheduleTypes

  /** The result of `getCurrentSchedule`. `InvalidNext` is the thrown
      `RangeError` when the chosen next occurrence is an invalid date. */
  datatype Schedule =
    | Now(item: ScheduleItem)
    | Next(item: ScheduleItem, when: int)
    | NoneScheduled
    | InvalidNext

  /** Scheduled on weekday `dow` and running at "HH:mm" `current`: started,
      and not yet ended when an end is given (string comparison, as the tool
      does; `HhmmOrder` shows it is the order of times of day). */
  predicate IsActive(i: ScheduleItem, dow: int, current: string)
  {
    && dow in i.dow
    && LexLe(i.start, current)
    && (i.end.None? || i.end.value == "" || LexLe(current, i.end.value))
  }

  /** `a.start.localeCompare(b.start) <= 0`. */
  predicate StartsNoLater(a: ScheduleItem, b: ScheduleItem)
  {
    LexLe(a.start, b.start)
  }

  lemma StartsNoLaterIsTotalPreorder()
    ensures TotalPreorder(StartsNoLater)
  {
    forall a: ScheduleItem, b: ScheduleItem ensures StartsNoLater(a, b) || StartsNoLater(b, a) {
      LexLeTotal(a.start, b.start);
    }
    forall a: ScheduleItem, b: ScheduleItem, c: ScheduleItem | StartsNoLater(a, b) && StartsNoLater(b, c)
      ensures StartsNoLater(a, c)
    {
      LexLeTrans(a.start, b.start, c.start);
    }
  }

  /** One candidate of the "next" scan: an item, one of its weekdays, and
      the next occurrence (`None` for an invalid date). */
  datatype Candidate = Candidate(item: ScheduleItem, dow: int, when: Option<int>)

  /** The candidates of one item, one per listed weekday, in `dow` order. */
  function ItemCandidates(item: ScheduleItem, ds: seq<int>, now: int): (cs: seq<Candidate>)
    ensures |cs| == |ds|
    ensures forall k :: 0 <= k < |cs| ==> cs[k] == Candidate(item, ds[k], NextOccurrence(now, ds[k], item.start))
  {
    if |ds| == 0 then []
    else [Candidate(item, ds[0], NextOccurrence(now, ds[0], item.start))] + ItemCandidates(item, ds[1..], now)
  }

  /** The nested loop's visiting order: items in list order, each item's
      weekdays in `dow` order. */
  function Candidates(list: seq<ScheduleItem>, now: int): (cs: seq<Candidate>)
    ensures |cs| == 0 <==> forall i :: 0 <= i < |list| ==> |list[i].dow| == 0
    ensures forall c :: c in cs ==> c.item in list && c.dow in c.item.dow && c.when == NextOccurrence(now, c.dow, c.item.start)
  {
    if |list| == 0 then []
    else
      var rest := Candidates(list[1..], now);
      assert forall c :: c in rest ==> c.item in list;
      ItemCandidates(list[0], list[0].dow, now) + rest
  }

  /** `when < best.when` on dates: false whenever either is invalid. */
  predicate Earlier(a: Option<int>, b: Option<int>)
  {
    a.Some? && b.Some? && a.value < b.value
  }

  /** The running best after visiting `cs` in order: the first candidate
      replaces nothing, later ones replace it only when strictly earlier. */
  function Earliest(cs: seq<Candidate>): (best: Option<Candidate>)
    ensures best.None? <==> |cs| == 0
    ensures best.Some? ==> best.value in cs
  {
    if |cs| == 0 then None
    else
      var prev := Earliest(cs[..|cs| - 1]);
      var c := cs[|cs| - 1];
      if prev.None? || Earlier(c.when, prev.value.when) then Some(c) else prev
  }

  /** When every occurrence is a valid date, the scan keeps the earliest
      occurrence, and among equally early ones the first visited. */
  lemma {:induction false} EarliestIsFirstMinimum(cs: seq<Candidate>) returns (i: int)
    requires |cs| > 0
    requires forall k :: 0 <= k < |cs| ==> cs[k].when.Some?
    ensures 0 <= i < |cs| && Earliest(cs) == Some(cs[i])
    ensures forall k :: 0 <= k < |cs| ==> cs[i].when.value <= cs[k].when.value
    ensures forall k :: 0 <= k < i ==> cs[i].when.value < cs[k].when.value
  {
    if |cs| == 1 {
      i := 0;
    } else {
      var init := cs[..|cs| - 1];
      var j := EarliestIsFirstMinimum(init);
      var c := cs[|cs| - 1];
      if c.when.value < cs[j].when.value {
        i := |cs| - 1;
      } else {
        i := j;
      }
    }
  }

  /** `getCurrentSchedule` over the patient's list at local instant `now`. */
  function CurrentSchedule(list: seq<ScheduleItem>, now: int): (s: Schedule)
    ensures s.Now? ==>
              && s.item in list && IsActive(s.item, IsoWeekday(JsDay(now)), Hhmm(now))
              && forall i :: i in list && IsActive(i, IsoWeekday(JsDay(now)), Hhmm(now)) ==> LexLe(s.item.start, i.start)
    ensures !s.Now? ==> forall i :: i in list ==> !IsActive(i, IsoWeekday(JsDay(now)), Hhmm(now))
    ensures s.NoneScheduled? <==> forall i :: 0 <= i < |list| ==> |list[i].dow| == 0
    ensures s.Next? ==> s.item in list && exists d :: d in s.item.dow && NextOccurrence(now, d, s.item.start) == Some(s.when)
  {
    match ActiveNow(list, now)
    case Some(i) =>
      assert forall i :: 0 <= i < |list| ==> list[i] in list;
      Now(i)
    case None => Upcoming(list, now)
  }

  /** The first branch: the active item that starts first, after sorting the
      active items by start. */
  function ActiveNow(list: seq<ScheduleItem>, now: int): (a: Option<ScheduleItem>)
    ensures a.Some? ==>
              && a.value in list && IsActive(a.value, IsoWeekday(JsDay(now)), Hhmm(now))
              && forall i :: i in list && IsActive(i, IsoWeekday(JsDay(now)), Hhmm(now)) ==> LexLe(a.value.start, i.start)
    ensures a.None? ==> forall i :: i in list ==> !IsActive(i, IsoWeekday(JsDay(now)), Hhmm(now))
  {
    var dow := IsoWeekday(JsDay(now));
    var current := Hhmm(now);
    var f := Filter(list, i => IsActive(i, dow, current));
    var active := Sort(f, StartsNoLater);
    StartsNoLaterIsTotalPreorder();
    SortedHead(f, StartsNoLater);
    if |active| > 0 then
      assert active[0] in active;
      Some(active[0])
    else None
  }

  /** The second branch: the scan's earliest candidate, if any. */
  function Upcoming(list: seq<ScheduleItem>, now: int): (s: Schedule)
    ensures !s.Now?
    ensures s.NoneScheduled? <==> forall i :: 0 <= i < |list| ==> |list[i].dow| == 0
    ensures s.Next? ==> s.item in list && exists d :: d in s.item.dow && NextOccurrence(now, d, s.item.start) == Some(s.when)
    ensures s.Next? || s.InvalidNext? ==>
              var c := Earliest(Candidates(list, now));
              && c.Some? && (s.Next? <==> c.value.when.Some?)
              && (s.Next? ==> s.when == c.value.when.value)
  {
    match Earliest(Candidates(list, now))
    case None => NoneScheduled
    case Some(c) => if c.when.Some? then Next(c.item, c.when.value) else InvalidNext
  }

  /** With well-formed start times and ISO weekdays, "next" is the earliest
      upcoming occurrence of all items and weekdays; the first visited wins a
      tie; and it is never an invalid date. */
  lemma NextIsEarliest(list: seq<ScheduleItem>, now: int)
    requires forall i :: i in list ==> exists h: nat, m: nat :: h < 24 && m < 60 && i.start == TwoDigits(h) + ":" + TwoDigits(m)
    requires forall i, d :: i in list && d in i.dow ==> 1 <= d <= 7
    ensures !CurrentSchedule(list, now).InvalidNext?
    ensures CurrentSchedule(list, now).Next? ==>
              var w := CurrentSchedule(list, now).when;
              && now < w <= now + 7 * DayMs
              && forall i, d :: i in list && d in i.dow ==>
                   NextOccurrence(now, d, i.start).Some? && w <= NextOccurrence(now, d, i.start).value
  {
    OccurrencesInWeek(list, now);
    UpcomingEarliest(list, now);
    var s := CurrentSchedule(list, now);
    if !s.Now? {
      assert s == Upcoming(list, now);
    }
  }

  /** Every weekday of every item next occurs within the coming seven days. */
  predicate AllOccur(list: seq<ScheduleItem>, now: int)
  {
    forall i, d :: i in list && d in i.dow ==>
      NextOccurrence(now, d, i.start).Some? && now < NextOccurrence(now, d, i.start).value <= now + 7 * DayMs
  }

  /** With well-formed start times and ISO weekdays, every weekday of every
      item next occurs within the coming seven days. */
  lemma OccurrencesInWeek(list: seq<ScheduleItem>, now: int)
    requires forall i :: i in list ==> exists h: nat, m: nat :: h < 24 && m < 60 && i.start == TwoDigits(h) + ":" + TwoDigits(m)
    requires forall i, d :: i in list && d in i.dow ==> 1 <= d <= 7
    ensures AllOccur(list, now)
  {
    forall i, d | i in list && d in i.dow
      ensures NextOccurrence(now, d, i.start).Some? && now < NextOccurrence(now, d, i.start).value <= now + 7 * DayMs
    {
      var h: nat, m: nat :| h < 24 && m < 60 && i.start == TwoDigits(h) + ":" + TwoDigits(m);
      NextOccurrenceSpec(now, d, h, m);
    }
  }

  /** When every occurrence is a date in the coming week, the scan's choice
      is one of them and no later than any. */
  lemma UpcomingEarliest(list: seq<ScheduleItem>, now: int)
    requires AllOccur(list, now)
    ensures !Upcoming(list, now).InvalidNext?
    ensures Upcoming(list, now).Next? ==>
              var w := Upcoming(list, now).when;
              && now < w <= now + 7 * DayMs
              && forall i, d :: i in list && d in i.dow ==> w <= NextOccurrence(now, d, i.start).value
  {
    var cs := Candidates(list, now);
    if |cs| > 0 {
      assert forall k :: 0 <= k < |cs| ==> cs[k] in cs;
      var k := EarliestIsFirstMinimum(cs);
      forall i, d | i in list && d in i.dow
        ensures cs[k].when.value <= NextOccurrence(now, d, i.start).value
      {
        var c := CandidateOf(list, now, i, d);
        var j :| 0 <= j < |cs| && cs[j] == c;
      }
    }
  }

  /** Every (item, weekday) pair of the list is visited by the scan. */
  lemma {:induction false} CandidateOf(list: seq<ScheduleItem>, now: int, i: ScheduleItem, d: int) returns (c: Candidate)
    requires i in list && d in i.dow
    ensures c == Candidate(i, d, NextOccurrence(now, d, i.start)) && c in Candidates(list, now)
  {
    c := Candidate(i, d, NextOccurrence(now, d, i.start));
    var rest := Candidates(list[1..], now);
    if list[0] == i {
      var k :| 0 <= k < |i.dow| && i.dow[k] == d;
      var own := ItemCandidates(i, i.dow, now);
      assert own[k] == c;
      assert Candidates(list, now) == own + rest;
    } else {
      var _ := CandidateOf(list[1..], now, i, d);
    }
  }

  /** True exactly when `mapUrlForPlace` yields a link: the place has both
      coordinates. (The URL text itself is not modelled.) */
  predicate HasCoords(p: Option<Place>)
  {
    p.Some? && p.value.coords.Some? && p.value.coords.value.lat.Some? && p.value.coords.value.lng.Some?
  }

  datatype NavTarget = NavTarget(found: bool, text: string)

  /** The item a schedule result carries, if any. */
  function ItemOf(s: Schedule): Option<ScheduleItem>
  {
    match s
    case Now(i) => Some(i)
    case Next(i, _) => Some(i)
    case _ => None
  }

  /** The place navigation aims at: the current item's location, else the
      next item's, else home. */
  function CandidatePlace(s: Schedule, home: Option<Place>): (p: Option<Place>)
    ensures s.Now? && s.item.location.Some? ==> p == s.item.location
    ensures s.Next? && s.item.location.Some? ==> p == s.item.location
    ensures ItemOf(s).None? || ItemOf(s).value.location.None? ==> p == home
  {
    if (s.Now? || s.Next?) && s.item.location.Some? then s.item.location else home
  }

  /** The label a place shows: its label when that is a non-empty string. */
  predicate HasLabel(p: Option<Place>)
  {
    p.Some? && p.value.labelText.Some? && p.value.labelText.value != ""
  }

  /** `getNavigationTarget`; `None` when the schedule lookup threw. The
      label is the place's own, else the item's title, else home's label
      (even an empty one), else "Destination". */
  function NavigationTarget(s: Schedule, home: Option<Place>): (t: Option<NavTarget>)
    ensures t.None? <==> s.InvalidNext?
    ensures t.Some? ==> (t.value.found <==> HasCoords(CandidatePlace(s, home)))
    ensures t.Some? && HasLabel(CandidatePlace(s, home)) ==>
              t.value.text == CandidatePlace(s, home).value.labelText.value
    ensures t.Some? && !HasLabel(CandidatePlace(s, home)) && ItemOf(s).Some? ==>
              t.value.text == ItemOf(s).value.title
    ensures t.Some? && !HasLabel(CandidatePlace(s, home)) && ItemOf(s).None? && home.Some? && home.value.labelText.Some? ==>
              t.value.text == home.value.labelText.value
    ensures t.Some? && !HasLabel(CandidatePlace(s, home)) && ItemOf(s).None? && (home.None? || home.value.labelText.None?) ==>
              t.value.text == "Destination"
  {
    if s.InvalidNext? then None
    else
      var place := CandidatePlace(s, home);
      var fallback :=
        if ItemOf(s).Some? then ItemOf(s).value.title
        else if home.Some? && home.value.labelText.Some? then home.value.labelText.value
        else "Destination";
      var text := if HasLabel(place) then place.value.labelText.value else fallback;
      Some(NavTarget(HasCoords(place), text))
  }

  /** Without a current or next item, navigation aims at home and shows
      home's label, or "Destination" when home has none. */
  lemma NavigatesHomeWithoutItem(s: Schedule, home: Option<Place>)
    requires !s.InvalidNext? && ItemOf(s).None?
    ensures NavigationTarget(s, home).Some?
    ensures NavigationTarget(s, home).value.found <==> HasCoords(home)
    ensures NavigationTarget(s, home).value.text ==
              if home.Some? && home.value.labelText.Some? then home.value.labelText.value else "Destination"
  {
  }

  /** `sendEmergencyAlert`'s answer: whether anyone was notified, and how many. */
  datatype AlertResult = AlertResult(notified: bool, contactsCount: nat)

  function EmergencyAlert<C>(contacts: seq<C>): (r: AlertResult)
    ensures r.notified <==> r.contactsCount > 0
    ensures r.contactsCount == |contacts|
  {
    AlertResult(|contacts| > 0, |contacts|)
  }
}

=== FILE: schedule_types.dfy ===
/** The daily-schedule records shared by the assistant's tools, the
    schedule endpoint and the caregiver's editor. */
module ScheduleTypes {
  import opened Wrappers
  import opened JsRecord

  /** Coordinates; either may be missing in stored data. */
  datatype GeoPoint = GeoPoint(lat: Option<real>, lng: Option<real>)

  /** A named place; `labelText` is the stored `label`, which navigation shows. */
  datatype Place = Place(labelText: Option<string>, coords: Option<GeoPoint>)

  /** One recurring task. `dow` holds ISO weekdays (1 = Monday ... 7 = Sunday);
      `start` and `end` are "HH:mm" strings; `id` is absent in old data. */
  datatype ScheduleItem = ScheduleItem(
    id: Option<string>,
    title: string,
    instructions: Option<string>,
    dow: seq<int>,
    start: string,
    end: Option<string>,
    location: Option<Place>)

  /** `Record<patientId, ScheduleItem[]>`. */
  type ScheduleDB = Rec<seq<ScheduleItem>>

  /** `db[patientId] ?? []`. */
  function ScheduleOf(db: ScheduleDB, patientId: string): (list: seq<ScheduleItem>)
    ensures Get(db, patientId).Some? ==> list == Get(db, patientId).value
    ensures Get(db, patientId).None? ==> list == []
  {
    Get(db, patientId).GetOr([])
  }
}

=== FILE: seqs.dfy ===
/** Sequence operations the JavaScript code gets from `Array.prototype`:
    `filter`, `findIndex`, a stable `sort`, and "unique, first occurrence kept". */
module Seqs {

  /** A comparator `le(a, b)` ("a may come before b") that is total and transitive. */
  ghost predicate TotalPreorder<T(!new)>(le: (T, T) -> bool)
  {
    && (forall a, b :: le(a, b) || le(b, a))
    && (forall a, b, c :: le(a, b) && le(b, c) ==> le(a, c))
  }

  ghost predicate SortedBy<T>(le: (T, T) -> bool, s: seq<T>)
  {
    forall i, j :: 0 <= i < j < |s| ==> le(s[i], s[j])
  }

  predicate NoDuplicates<T(==)>(s: seq<T>)
  {
    forall i, j :: 0 <= i < j < |s| ==> s[i] != s[j]
  }

  /** `s.filter(p)`. */
  function Filter<T(!new)>(s: seq<T>, p: T -> bool): (r: seq<T>)
    ensures |r| <= |s|
    ensures forall i :: 0 <= i < |r| ==> p(r[i])
    ensures forall x :: x in r <==> x in s && p(x)
    ensures forall x :: multiset(r)[x] == if p(x) then multiset(s)[x] else 0
  {
    if |s| == 0 then []
    else
      assert s == [s[0]] + s[1..];
      if p(s[0]) then [s[0]] + Filter(s[1..], p) else Filter(s[1..], p)
  }

  /** Filtering keeps relative order: it distributes over concatenation. */
  lemma {:induction false} FilterConcat<T(!new)>(a: seq<T>, b: seq<T>, p: T -> bool)
    ensures Filter(a + b, p) == Filter(a, p) + Filter(b, p)
  {
    if |a| > 0 {
      assert (a + b)[1..] == a[1..] + b;
      FilterConcat(a[1..], b, p);
    } else {
      assert a + b == b;
    }
  }

  /** The filter of one element keeps it exactly when it passes. */
  lemma FilterOne<T(!new)>(x: T, p: T -> bool)
    ensures Filter([x], p) == if p(x) then [x] else []
  {
    assert [x][1..] == [];
  }

  /** Filtering with a predicate every element meets changes nothing. */
  lemma {:induction false} FilterAll<T(!new)>(s: seq<T>, p: T -> bool)
    requires forall i :: 0 <= i < |s| ==> p(s[i])
    ensures Filter(s, p) == s
  {
    if |s| > 0 {
      FilterAll(s[1..], p);
    }
  }

  /** `s.findIndex(p)`: the first index whose element satisfies `p`, or -1. */
  function FindIndex<T>(s: seq<T>, p: T -> bool): (i: int)
    ensures -1 <= i < |s|
    ensures i >= 0 ==> p(s[i]) && forall j :: 0 <= j < i ==> !p(s[j])
    ensures i == -1 <==> forall j :: 0 <= j < |s| ==> !p(s[j])
  {
    if |s| == 0 then -1
    else if p(s[0]) then 0
    else
      var k := FindIndex(s[1..], p);
      if k == -1 then -1 else k + 1
  }

  /** `ss.flat()`: the lists concatenated in order. */
  function Flatten<T(!new)>(ss: seq<seq<T>>): (r: seq<T>)
    ensures forall x :: x in r <==> exists i :: 0 <= i < |ss| && x in ss[i]
  {
    if |ss| == 0 then []
    else
      var rest := Flatten(ss[1..]);
      assert forall i :: 1 <= i < |ss| ==> ss[i] == ss[1..][i - 1];
      ss[0] + rest
  }

  /** Inserts `x` before the first element it may precede. */
  function Insert<T>(x: T, s: seq<T>, le: (T, T) -> bool): (r: seq<T>)
    ensures multiset(r) == multiset(s) + multiset{x}
    ensures |r| == |s| + 1
  {
    if |s| == 0 then [x]
    else
      assert s == [s[0]] + s[1..];
      if le(x, s[0]) then [x] + s else [s[0]] + Insert(x, s[1..], le)
  }

  lemma {:induction false} InsertSorted<T(!new)>(x: T, s: seq<T>, le: (T, T) -> bool)
    requires TotalPreorder(le) && SortedBy(le, s)
    ensures SortedBy(le, Insert(x, s, le))
  {
    if |s| > 0 {
      if le(x, s[0]) {
        forall k | 0 <= k < |s| ensures le(x, s[k]) {
          if k > 0 {
            assert le(s[0], s[k]);
          }
        }
        ConsSorted(x, s, le);
      } else {
        var rest := s[1..];
        assert SortedBy(le, rest) by {
          forall i, j | 0 <= i < j < |rest| ensures le(rest[i], rest[j]) {
            assert rest[i] == s[i + 1] && rest[j] == s[j + 1];
          }
        }
        InsertSorted(x, rest, le);
        forall k | 0 <= k < |rest| ensures le(s[0], rest[k]) {
          assert rest[k] == s[k + 1];
        }
        InsertAbove(s[0], x, rest, le);
        ConsSorted(s[0], Insert(x, rest, le), le);
      }
    }
  }

  /** A head below every element of a sorted list keeps it sorted. */
  lemma ConsSorted<T>(a: T, t: seq<T>, le: (T, T) -> bool)
    requires SortedBy(le, t) && forall k :: 0 <= k < |t| ==> le(a, t[k])
    ensures SortedBy(le, [a] + t)
  {
    var r := [a] + t;
    forall i, j | 0 <= i < j < |r| ensures le(r[i], r[j]) {
      assert r[j] == t[j - 1];
      if i > 0 {
        assert r[i] == t[i - 1];
      }
    }
  }

  /** A lower bound of `x` and of every element stays one after the insertion. */
  lemma InsertAbove<T>(a: T, x: T, s: seq<T>, le: (T, T) -> bool)
    requires le(a, x) && forall k :: 0 <= k < |s| ==> le(a, s[k])
    ensures forall k :: 0 <= k < |Insert(x, s, le)| ==> le(a, Insert(x, s, le)[k])
  {
    var t := Insert(x, s, le);
    forall k | 0 <= k < |t| ensures le(a, t[k]) {
      assert t[k] in multiset(t);
      if t[k] != x {
        assert t[k] in multiset(s);
        var m :| 0 <= m < |s| && s[m] == t[k];
      }
    }
  }

  /** Stable insertion sort: equal elements keep their input order, as
      `Array.prototype.sort` guarantees. */
  function Sort<T>(s: seq<T>, le: (T, T) -> bool): (r: seq<T>)
    ensures multiset(r) == multiset(s)
    ensures |r| == |s|
  {
    if |s| == 0 then []
    else
      assert s == [s[0]] + s[1..];
      Insert(s[0], Sort(s[1..], le), le)
  }

  /** With a total preorder as comparator, the result is sorted. */
  lemma {:induction false} SortSorted<T(!new)>(s: seq<T>, le: (T, T) -> bool)
    requires TotalPreorder(le)
    ensures SortedBy(le, Sort(s, le))
  {
    if |s| > 0 {
      SortSorted(s[1..], le);
      InsertSorted(s[0], Sort(s[1..], le), le);
    }
  }

  /** Sorting keeps the members, and the head of a sorted non-empty result
      comes no later than any member. */
  lemma SortedHead<T(!new)>(s: seq<T>, le: (T, T) -> bool)
    requires TotalPreorder(le)
    ensures forall x :: x in Sort(s, le) <==> x in s
    ensures |Sort(s, le)| > 0 ==> forall x :: x in s ==> le(Sort(s, le)[0], x)
  {
    var r := Sort(s, le);
    forall x ensures x in r <==> x in s {
      assert x in r <==> x in multiset(r);
      assert x in s <==> x in multiset(s);
    }
    if |r| > 0 {
      SortSorted(s, le);
      forall x | x in s ensures le(r[0], x) {
        assert x in r;
        var k :| 0 <= k < |r| && r[k] == x;
        if k == 0 {
          assert le(x, x) by {
            assert le(x, x) || le(x, x);
          }
        }
      }
    }
  }

  /** What heads the list after an insertion. */
  lemma InsertHead<T>(x: T, s: seq<T>, le: (T, T) -> bool)
    requires |s| > 0
    ensures Insert(x, s, le)[0] == if le(x, s[0]) then x else s[0]
  {
  }

  /** If the comparator orders any two elements with different keys by
      descending key, whatever it does with equal keys and however
      inconsistent it is there, the head of the sort has the greatest key. */
  lemma {:induction false} SortHeadMaximisesKey<T(!new)>(s: seq<T>, le: (T, T) -> bool, key: T -> int)
    requires |s| > 0
    requires forall a, b :: a in s && b in s && key(a) != key(b) ==> (le(a, b) <==> key(a) > key(b))
    ensures Sort(s, le)[0] in s
    ensures forall x :: x in s ==> key(x) <= key(Sort(s, le)[0])
  {
    var r := Sort(s, le);
    assert r[0] in multiset(r);
    if |s| > 1 {
      var rest := s[1..];
      assert forall x :: x in rest ==> x in s;
      assert forall x :: x in s ==> x == s[0] || x in rest by {
        assert s == [s[0]] + rest;
      }
      var t := Sort(rest, le);
      SortHeadMaximisesKey(rest, le, key);
      InsertHead(s[0], t, le);
    }
  }

  /** Index of the first element that may precede every element: what a
      stable sort puts first. */
  ghost predicate IsFirstBest<T>(s: seq<T>, le: (T, T) -> bool, i: int)
  {
    && 0 <= i < |s|
    && (forall j :: 0 <= j < |s| ==> le(s[i], s[j]))
    && (forall j :: 0 <= j < i ==> !le(s[j], s[i]))
  }

  /** The head of the stable sort is the first best element of the input. */
  lemma {:induction false} SortHeadIsFirstBest<T(!new)>(s: seq<T>, le: (T, T) -> bool) returns (i: int)
    requires |s| > 0 && TotalPreorder(le)
    ensures IsFirstBest(s, le, i) && Sort(s, le)[0] == s[i]
  {
    if |s| == 1 {
      i := 0;
    } else {
      var t := Sort(s[1..], le);
      var k := SortHeadIsFirstBest(s[1..], le);
      assert t[0] == s[1 + k];
      if le(s[0], t[0]) {
        i := 0;
        forall j | 0 <= j < |s| ensures le(s[0], s[j]) {
          if j > 0 {
            assert s[j] == s[1..][j - 1];
          }
        }
      } else {
        i := 1 + k;
        assert le(t[0], s[0]);
        forall j | 0 <= j < |s| ensures le(s[i], s[j]) {
          if j > 0 {
            assert s[j] == s[1..][j - 1];
          }
        }
        forall j | 0 <= j < i ensures !le(s[j], s[i]) {
          if j > 0 {
            assert s[j] == s[1..][j - 1];
          }
        }
      }
    }
  }

  /** Unique elements in first-occurrence order, defined the way the loop
      with a `seen` set runs: element by element, left to right. */
  function Dedup<T(==,!new)>(s: seq<T>): (r: seq<T>)
    ensures NoDuplicates(r)
    ensures forall x :: x in r <==> x in s
  {
    if |s| == 0 then []
    else
      var init := s[..|s| - 1];
      var d := Dedup(init);
      assert s == init + [s[|s| - 1]];
      if s[|s| - 1] in init then d else d + [s[|s| - 1]]
  }

  /** First position of `x` in `s`. */
  function FirstIndex<T(==)>(s: seq<T>, x: T): (i: nat)
    requires x in s
    ensures i < |s| && s[i] == x && forall j :: 0 <= j < i ==> s[j] != x
  {
    if s[0] == x then 0 else 1 + FirstIndex(s[1..], x)
  }

  lemma FirstIndexPrefix<T>(s: seq<T>, n: nat, x: T)
    requires n <= |s| && x in s[..n]
    ensures FirstIndex(s[..n], x) == FirstIndex(s, x)
  {
    var i := FirstIndex(s[..n], x);
    var k := FirstIndex(s, x);
    assert s[..n][i] == s[i];
  }

  /** `Dedup` lists elements in the order of their first occurrence. */
  lemma {:induction false} DedupFirstOccurrenceOrder<T(!new)>(s: seq<T>)
    ensures forall i, j :: 0 <= i < j < |Dedup(s)| ==> FirstIndex(s, Dedup(s)[i]) < FirstIndex(s, Dedup(s)[j])
  {
    if |s| > 0 {
      var init := s[..|s| - 1];
      var last := s[|s| - 1];
      DedupFirstOccurrenceOrder(init);
      var d := Dedup(init);
      assert init == s[..|s| - 1];
      forall y | y in d ensures FirstIndex(s, y) == FirstIndex(init, y) && FirstIndex(s, y) < |s| - 1 {
        FirstIndexPrefix(s, |s| - 1, y);
      }
      if last !in init {
        var r := Dedup(s);
        assert r == d + [last];
        assert FirstIndex(s, last) == |s| - 1;
        forall i, j | 0 <= i < j < |r| ensures FirstIndex(s, r[i]) < FirstIndex(s, r[j]) {
          assert r[i] == d[i] && r[i] in d;
          if j < |d| {
            assert r[j] == d[j] && r[j] in d;
          }
        }
      } else {
        forall i, j | 0 <= i < j < |d| ensures FirstIndex(s, d[i]) < FirstIndex(s, d[j]) {
          assert d[i] in d && d[j] in d;
        }
      }
    }
  }

  /** The first element of a list is the first of its unique elements. */
  lemma DedupHead<T(!new)>(s: seq<T>)
    requires |s| > 0
    ensures |Dedup(s)| > 0 && Dedup(s)[0] == s[0]
  {
    var r := Dedup(s);
    DedupFirstOccurrenceOrder(s);
    assert s[0] in r;
    var k :| 0 <= k < |r| && r[k] == s[0];
    assert FirstIndex(s, s[0]) == 0;
  }

  /** The loop of the source: walk the list once, keeping an element the
      first time it is seen. */
  method DedupKeepFirst<T(==,!new)>(s: seq<T>) returns (r: seq<T>)
    ensures r == Dedup(s)
    ensures NoDuplicates(r)
    ensures forall x :: x in r <==> x in s
  {
    var seen: set<T> := {};
    r := [];
    var k := 0;
    while k < |s|
      invariant 0 <= k <= |s|
      invariant r == Dedup(s[..k])
      invariant seen == set x | x in s[..k]
    {
      assert s[..k + 1][..k] == s[..k];
      if s[k] !in seen {
        seen := seen + {s[k]};
        r := r + [s[k]];
      }
      k := k + 1;
    }
    assert s[..|s|] == s;
  }
}

=== FILE: strings.dfy ===
/** Character classes and string helpers with the meaning JavaScript gives
    them: `trim`, `toLowerCase` (ASCII letters), `startsWith`, `endsWith`,
    `includes`, `join`, `split`, `padStart(2, "0")`, `slice` and the
    code-unit comparison `a < b`. */
module Strings {

  predicate IsDigit(c: char) { '0' <= c <= '9' }

  predicate IsLowerLetter(c: char) { 'a' <= c <= 'z' }

  predicate IsUpperLetter(c: char) { 'A' <= c <= 'Z' }

  /** `\w` of a regular expression without the `u` flag. */
  predicate IsWordChar(c: char)
  {
    IsDigit(c) || IsLowerLetter(c) || IsUpperLetter(c) || c == '_'
  }

  /** WhiteSpace and LineTerminator of ECMAScript: what `trim` removes and `\s` matches. */
  predicate IsSpace(c: char)
  {
    || c == ' ' || c == '\t' || c == '\n' || c == '\r'
    || c == '\U{000B}' || c == '\U{000C}' || c == '\U{00A0}' || c == '\U{1680}'
    || ('\U{2000}' <= c <= '\U{200A}')
    || c == '\U{2028}' || c == '\U{2029}' || c == '\U{202F}' || c == '\U{205F}'
    || c == '\U{3000}' || c == '\U{FEFF}'
  }

  predicate AllDigits(s: string)
  {
    forall i :: 0 <= i < |s| ==> IsDigit(s[i])
  }

  function LowerChar(c: char): char
  {
    if IsUpperLetter(c) then (c as int + 32) as char else c
  }

  /** `toLowerCase`, restricted to ASCII letters. */
  function Lower(s: string): (r: string)
    ensures |r| == |s|
    ensures forall i :: 0 <= i < |s| ==> r[i] == LowerChar(s[i])
  {
    if |s| == 0 then "" else [LowerChar(s[0])] + Lower(s[1..])
  }

  /** Lower-casing a prefix is taking the prefix of the lower-cased string. */
  lemma LowerPrefix(s: string, n: nat)
    requires n <= |s|
    ensures Lower(s)[..n] == Lower(s[..n])
  {
  }

  lemma LowerIdempotent(s: string)
    ensures Lower(Lower(s)) == Lower(s)
  {
  }

  function TrimStart(s: string): (r: string)
    ensures |r| <= |s| && r == s[|s| - |r|..]
    ensures r == [] || !IsSpace(r[0])
    ensures forall i :: 0 <= i < |s| - |r| ==> IsSpace(s[i])
  {
    if |s| > 0 && IsSpace(s[0]) then TrimStart(s[1..]) else s
  }

  function TrimEnd(s: string): (r: string)
    ensures |r| <= |s| && r == s[..|r|]
    ensures r == [] || !IsSpace(r[|r| - 1])
    ensures forall i :: |r| <= i < |s| ==> IsSpace(s[i])
  {
    if |s| > 0 && IsSpace(s[|s| - 1]) then TrimEnd(s[..|s| - 1]) else s
  }

  /** `String.prototype.trim`. */
  function Trim(s: string): string
  {
    TrimEnd(TrimStart(s))
  }

  /** JavaScript `!s.trim()`: the string holds nothing but white space. */
  predicate IsBlank(s: string)
  {
    Trim(s) == ""
  }

  lemma BlankIffAllSpace(s: string)
    ensures IsBlank(s) <==> forall i :: 0 <= i < |s| ==> IsSpace(s[i])
  {
  }

  /** Some character of `s` is not white space. */
  predicate HasNonSpace(s: string)
  {
    exists i :: 0 <= i < |s| && !IsSpace(s[i])
  }

  /** `s.trim()` is truthy exactly when `s` has a non-space character. */
  lemma NonBlankIffHasNonSpace(s: string)
    ensures !IsBlank(s) <==> HasNonSpace(s)
  {
    BlankIffAllSpace(s);
  }

  lemma TrimIdempotent(s: string)
    ensures Trim(Trim(s)) == Trim(s)
  {
    var r := Trim(s);
    if r != [] {
      assert !IsSpace(r[0]) by {
        var t := TrimStart(s);
        assert r == t[..|r|];
      }
    }
  }

  /** A string that neither starts nor ends with white space is its own trim. */
  lemma TrimOfTrimmed(s: string)
    requires s == [] || (!IsSpace(s[0]) && !IsSpace(s[|s| - 1]))
    ensures Trim(s) == s
  {
  }

  predicate StartsWith(s: string, p: string)
  {
    |p| <= |s| && s[..|p|] == p
  }

  predicate EndsWith(s: string, p: string)
  {
    |p| <= |s| && s[|s| - |p|..] == p
  }

  /** `s.includes(t)`: `t` occurs in `s` at some position. */
  predicate Contains(s: string, t: string)
    decreases |s|
  {
    StartsWith(s, t) || (|s| > 0 && Contains(s[1..], t))
  }

  /** A witness position makes `Contains` hold. */
  lemma {:induction false} ContainsAt(s: string, t: string, i: nat)
    requires i + |t| <= |s| && s[i..i + |t|] == t
    ensures Contains(s, t)
    decreases i
  {
    if i > 0 {
      assert s[1..][i - 1..i - 1 + |t|] == s[i..i + |t|];
      ContainsAt(s[1..], t, i - 1);
    }
  }

  /** Three pieces laid end to end: the first starts the whole, the second
      occurs in it and the third ends it. */
  lemma Framed(a: string, b: string, c: string)
    ensures StartsWith(a + b + c, a) && Contains(a + b + c, b) && EndsWith(a + b + c, c)
  {
    var s := a + b + c;
    assert s[..|a|] == a;
    assert s[|a|..|a| + |b|] == b;
    ContainsAt(s, b, |a|);
    assert s[|s| - |c|..] == c;
  }

  /** `parts.join(sep)`. */
  function Join(parts: seq<string>, sep: string): string
  {
    if |parts| == 0 then ""
    else if |parts| == 1 then parts[0]
    else parts[0] + sep + Join(parts[1..], sep)
  }

  /** `s.split(sep)` for a one-character separator. */
  function Split(s: string, sep: char): (r: seq<string>)
    ensures |r| >= 1
    ensures forall i :: 0 <= i < |r| ==> sep !in r[i]
  {
    if |s| == 0 then [""]
    else
      var rest := Split(s[1..], sep);
      if s[0] == sep then [""] + rest
      else [[s[0]] + rest[0]] + rest[1..]
  }

  /** Splitting and re-joining with the same separator gives back the input. */
  lemma {:induction false} JoinSplit(s: string, sep: char)
    ensures Join(Split(s, sep), [sep]) == s
  {
    if |s| > 0 {
      var rest := Split(s[1..], sep);
      JoinSplit(s[1..], sep);
      if s[0] == sep {
        assert Split(s, sep) == [""] + rest;
        assert ([""] + rest)[1..] == rest;
      } else {
        var r := Split(s, sep);
        assert r == [[s[0]] + rest[0]] + rest[1..];
        if |rest| == 1 {
          assert s == [s[0]] + s[1..];
        } else {
          assert r[1..] == rest[1..];
          assert Join(rest, [sep]) == rest[0] + [sep] + Join(rest[1..], [sep]);
          assert s == [s[0]] + s[1..];
        }
      }
    }
  }

  /** The first field of a split is everything before the first separator. */
  lemma {:induction false} SplitHead(a: string, b: string, sep: char)
    requires sep !in a
    ensures Split(a + [sep] + b, sep)[0] == a
  {
    if |a| == 0 {
      assert a + [sep] + b == [sep] + b;
    } else {
      assert (a + [sep] + b)[1..] == a[1..] + [sep] + b;
      SplitHead(a[1..], b, sep);
      assert a == [a[0]] + a[1..];
    }
  }

  /** Splitting at a first separator peels off the field before it. */
  lemma {:induction false} SplitCons(a: string, b: string, sep: char)
    requires sep !in a
    ensures Split(a + [sep] + b, sep) == [a] + Split(b, sep)
  {
    if |a| == 0 {
      assert a + [sep] + b == [sep] + b;
      assert ([sep] + b)[1..] == b;
    } else {
      assert (a + [sep] + b)[1..] == a[1..] + [sep] + b;
      SplitCons(a[1..], b, sep);
      assert a == [a[0]] + a[1..];
    }
  }

  /** The last field of a split is everything after the last separator. */
  lemma {:induction false} SplitLast(a: string, b: string, sep: char)
    requires sep !in b
    ensures |Split(a + [sep] + b, sep)| >= 2
    ensures Split(a + [sep] + b, sep)[|Split(a + [sep] + b, sep)| - 1] == b
  {
    if |a| == 0 {
      assert a + [sep] + b == [sep] + b;
      assert ([sep] + b)[1..] == b;
      SplitNoSep(b, sep);
    } else {
      assert (a + [sep] + b)[1..] == a[1..] + [sep] + b;
      SplitLast(a[1..], b, sep);
    }
  }

  /** A string without the separator splits into itself alone. */
  lemma {:induction false} SplitNoSep(s: string, sep: char)
    requires sep !in s
    ensures Split(s, sep) == [s]
  {
    if |s| > 0 {
      SplitNoSep(s[1..], sep);
      assert s == [s[0]] + s[1..];
    }
  }

  function DigitChar(d: nat): (c: char)
    requires d < 10
    ensures IsDigit(c)
  {
    ('0' as int + d) as char
  }

  function DigitValue(c: char): nat
    requires IsDigit(c)
  {
    c as int - '0' as int
  }

  /** `String(n)` for a non-negative integer. */
  function NatToString(n: nat): (r: string)
    ensures |r| >= 1 && AllDigits(r)
    decreases n
  {
    if n < 10 then [DigitChar(n)] else NatToString(n / 10) + [DigitChar(n % 10)]
  }

  /** The decimal value of a digit string (`Number(s)` on such a string, 0 for ""). */
  function ParseDigits(s: string): nat
    requires AllDigits(s)
  {
    if |s| == 0 then 0 else ParseDigits(s[..|s| - 1]) * 10 + DigitValue(s[|s| - 1])
  }

  lemma {:induction false} ParseNatToString(n: nat)
    ensures ParseDigits(NatToString(n)) == n
    decreases n
  {
    var r := NatToString(n);
    if n >= 10 {
      ParseNatToString(n / 10);
      assert r[..|r| - 1] == NatToString(n / 10);
    }
  }

  /** A decimal numeral as `String(n)` writes it: digits, no leading zero
      unless the numeral is "0". */
  predicate IsCanonicalNumeral(s: string)
  {
    |s| > 0 && AllDigits(s) && (|s| == 1 || s[0] != '0')
  }

  function Pow10(n: nat): (p: nat)
    ensures p >= 1
  {
    if n == 0 then 1 else 10 * Pow10(n - 1)
  }

  lemma {:induction false} Pow10Mono(a: nat, b: nat)
    requires a <= b
    ensures Pow10(a) <= Pow10(b)
    decreases b
  {
    if a < b {
      Pow10Mono(a, b - 1);
    }
  }

  /** An `n`-digit numeral is below 10^n, and at least 10^(n-1) without a
      leading zero. */
  lemma {:induction false} ParseDigitsBounds(s: string)
    requires AllDigits(s) && |s| > 0
    ensures ParseDigits(s) < Pow10(|s|)
    ensures s[0] != '0' ==> Pow10(|s| - 1) <= ParseDigits(s)
    decreases |s|
  {
    var t := s[..|s| - 1];
    assert AllDigits(t) by {
      assert forall i :: 0 <= i < |t| ==> t[i] == s[i];
    }
    if |t| > 0 {
      ParseDigitsBounds(t);
      assert t[0] == s[0];
    }
  }

  /** Two canonical numerals with the same value are the same numeral. */
  lemma {:induction false} CanonicalNumeralUnique(a: string, b: string)
    requires IsCanonicalNumeral(a) && IsCanonicalNumeral(b) && ParseDigits(a) == ParseDigits(b)
    ensures a == b
    decreases |a|
  {
    ParseDigitsBounds(a);
    ParseDigitsBounds(b);
    if |a| < |b| {
      Pow10Mono(|a|, |b| - 1);
      assert false;
    } else if |b| < |a| {
      Pow10Mono(|b|, |a| - 1);
      assert false;
    } else if |a| == 1 {
      assert a == [a[0]] && b == [b[0]];
    } else {
      var a', b' := a[..|a| - 1], b[..|b| - 1];
      assert a'[0] == a[0] && b'[0] == b[0];
      assert AllDigits(a') && AllDigits(b') by {
        assert forall i :: 0 <= i < |a'| ==> a'[i] == a[i] && b'[i] == b[i];
      }
      var x, y := ParseDigits(a'), ParseDigits(b');
      var d, e := DigitValue(a[|a| - 1]), DigitValue(b[|b| - 1]);
      assert x * 10 + d == y * 10 + e;
      assert x == (x * 10 + d) / 10 && y == (y * 10 + e) / 10;
      CanonicalNumeralUnique(a', b');
      assert a == a' + [a[|a| - 1]] && b == b' + [b[|b| - 1]];
    }
  }

  /** `s.padStart(2, "0")`. */
  function PadStart2(s: string): (r: string)
    ensures |r| == if |s| < 2 then 2 else |s|
    ensures EndsWith(r, s)
  {
    if |s| == 0 then "00" else if |s| == 1 then "0" + s else s
  }

  /** Two-digit rendering of a number below 100. */
  function TwoDigits(n: nat): (r: string)
    requires n < 100
    ensures |r| == 2 && AllDigits(r)
    ensures ParseDigits(r) == n
  {
    var r := [DigitChar(n / 10), DigitChar(n % 10)];
    assert DigitValue(r[0]) == n / 10 && DigitValue(r[1]) == n % 10;
    assert r[..1][..0] == [];
    assert ParseDigits(r[..1]) == n / 10;
    r
  }

  /** `TwoDigits` is what `String(n).padStart(2, "0")` produces. */
  lemma TwoDigitsIsPadded(n: nat)
    requires n < 100
    ensures PadStart2(NatToString(n)) == TwoDigits(n)
  {
  }

  /** `s.slice(k)` for a non-negative start. */
  function SliceFrom(s: string, k: nat): string
  {
    if k <= |s| then s[k..] else ""
  }

  /** `s.slice(0, k)` for a non-negative end. */
  function SliceTo(s: string, k: nat): string
  {
    if k <= |s| then s[..k] else s
  }

  /** `a <= b` on JavaScript strings: code-unit lexicographic order. */
  predicate LexLe(a: string, b: string)
    decreases |a|
  {
    |a| == 0 || (|b| > 0 && (a[0] < b[0] || (a[0] == b[0] && LexLe(a[1..], b[1..]))))
  }

  /** `a < b` on JavaScript strings. */
  predicate LexLt(a: string, b: string)
  {
    LexLe(a, b) && a != b
  }

  lemma {:induction false} LexLeTotal(a: string, b: string)
    ensures LexLe(a, b) || LexLe(b, a)
    decreases |a|
  {
    if |a| > 0 && |b| > 0 && a[0] == b[0] {
      LexLeTotal(a[1..], b[1..]);
    }
  }

  lemma {:induction false} LexLeTrans(a: string, b: string, c: string)
    requires LexLe(a, b) && LexLe(b, c)
    ensures LexLe(a, c)
    decreases |a|
  {
    if |a| > 0 && a[0] == b[0] && b[0] == c[0] {
      LexLeTrans(a[1..], b[1..], c[1..]);
    }
  }

  lemma {:induction false} LexLeAntisym(a: string, b: string)
    requires LexLe(a, b) && LexLe(b, a)
    ensures a == b
    decreases |a|
  {
    if |a| > 0 {
      LexLeAntisym(a[1..], b[1..]);
      assert a == [a[0]] + a[1..] && b == [b[0]] + b[1..];
    }
  }

  lemma {:induction false} LexLeRefl(a: string)
    ensures LexLe(a, a)
    decreases |a|
  {
    if |a| > 0 {
      LexLeRefl(a[1..]);
    }
  }

  /** Strictly-less is the complement of the reverse order. */
  lemma LexLtIffNotGe(a: string, b: string)
    ensures LexLt(a, b) <==> !LexLe(b, a)
  {
    LexLeTotal(a, b);
    if LexLe(b, a) && LexLe(a, b) {
      LexLeAntisym(a, b);
    }
    if a == b {
      LexLeRefl(a);
    }
  }
}

=== FILE: triage.dfy ===
/** Medical triage of a patient's message: a keyword pass over a fixed
    table of seven categories, and, only when no keyword occurs, the
    language model's verdict, normalised. The model call is outside the
    model: its parsed reply is a parameter. */
module Triage {
  import opened Wrappers
  import opened Strings

  /** The keys of the keyword table, in table order. */
  datatype Category = Pain | Fall | Breathing | Bleeding | Mental | Fever | Medication

  function Rank(c: Category): nat
  {
    match c
    case Pain => 0
    case Fall => 1
    case Breathing => 2
    case Bleeding => 3
    case Mental => 4
    case Fever => 5
    case Medication => 6
  }

  function Name(c: Category): string
  {
    match c
    case Pain => "pain"
    case Fall => "fall"
    case Breathing => "breathing"
    case Bleeding => "bleeding"
    case Mental => "mental"
    case Fever => "fever"
    case Medication => "medication"
  }

  /** `KEYWORDS[c]`. */
  function Words(c: Category): seq<string>
  {
    match c
    case Pain => ["pain", "ache", "hurts", "cramp", "headache", "stomachache", "toothache"]
    case Fall => ["fell", "fall", "slipped", "dizzy", "faint", "blackout"]
    case Breathing => ["breath", "breathing", "short of breath", "wheez", "asthma"]
    case Bleeding => ["bleed", "bleeding", "blood", "cut"]
    case Mental => ["confused", "panic", "anxious", "depressed", "hallucination"]
    case Fever => ["fever", "temperature", "chills"]
    case Medication => ["missed pill", "meds", "dose", "overdose", "side effect", "nausea after pill"]
  }

  const Table: seq<Category> := [Pain, Fall, Breathing, Bleeding, Mental, Fever, Medication]

  /** `words.some(w => t.includes(w))`. */
  predicate AnyOccurs(t: string, words: seq<string>)
    decreases |words|
  {
    |words| > 0 && (Contains(t, words[0]) || AnyOccurs(t, words[1..]))
  }

  /** Some keyword of the category occurs in the (lower-cased) text. */
  predicate Hit(t: string, c: Category)
  {
    AnyOccurs(t, Words(c))
  }

  predicate RankAscending(cs: seq<Category>)
  {
    forall i, j :: 0 <= i < j < |cs| ==> Rank(cs[i]) < Rank(cs[j])
  }

  /** What is drawn from the tail of a rank-ascending list ranks above its head. */
  lemma LaterRanks(cs: seq<Category>, rest: seq<Category>)
    requires |cs| > 0 && RankAscending(cs) && forall c :: c in rest ==> c in cs[1..]
    ensures forall c :: c in rest ==> Rank(cs[0]) < Rank(c)
  {
    forall c | c in rest ensures Rank(cs[0]) < Rank(c) {
      var k :| 0 <= k < |cs[1..]| && cs[1..][k] == c;
      assert cs[k + 1] == c;
    }
  }

  lemma ConsRankAscending(x: Category, rest: seq<Category>)
    requires RankAscending(rest) && forall c :: c in rest ==> Rank(x) < Rank(c)
    ensures RankAscending([x] + rest)
  {
    var r := [x] + rest;
    forall i, j | 0 <= i < j < |r| ensures Rank(r[i]) < Rank(r[j]) {
      assert r[j] == rest[j - 1] && r[j] in rest;
      if i > 0 {
        assert r[i] == rest[i - 1];
      }
    }
  }

  /** The categories of `cs` with a hit, in the order of `cs`. */
  function HitsAmong(cs: seq<Category>, hit: Category -> bool): (r: seq<Category>)
    requires RankAscending(cs)
    ensures forall c :: c in r <==> c in cs && hit(c)
    ensures RankAscending(r)
  {
    if |cs| == 0 then []
    else
      var rest := HitsAmong(cs[1..], hit);
      LaterRanks(cs, rest);
      if hit(cs[0]) then
        ConsRankAscending(cs[0], rest);
        [cs[0]] + rest
      else rest
  }

  /** The categories whose keywords occur in the lower-cased text `t`,
      each once, in table order. */
  function KeywordCategories(t: string): (cs: seq<Category>)
    ensures forall c :: c in cs <==> Hit(t, c)
    ensures RankAscending(cs)
  {
    forall c ensures c in Table {
      assert Table[Rank(c)] == c;
    }
    HitsAmong(Table, c => Hit(t, c))
  }

  /** A triage verdict; `severity` is a string because the model's reply is
      passed through unchecked. */
  datatype TriageResult = TriageResult(isMedical: bool, severity: string, categories: seq<string>, reasons: Option<string>)

  function Names(cs: seq<Category>): (r: seq<string>)
    ensures |r| == |cs| && forall i :: 0 <= i < |cs| ==> r[i] == Name(cs[i])
  {
    seq(|cs|, i requires 0 <= i < |cs| => Name(cs[i]))
  }

  predicate IsUrgentCategory(c: Category)
  {
    c == Bleeding || c == Fall || c == Breathing
  }

  /** No category is listed exactly when no keyword occurs. */
  lemma NoCategoryIffNoHit(t: string)
    ensures |KeywordCategories(t)| == 0 <==> forall c :: !Hit(t, c)
  {
    var cats := KeywordCategories(t);
    if |cats| > 0 {
      assert cats[0] in cats;
    }
  }

  /** Over any list holding exactly the hit categories, the urgent test on
      the list is the urgent test on the hits. */
  lemma UrgentIffUrgentHit(cats: seq<Category>, hit: Category -> bool)
    requires forall c :: c in cats <==> hit(c)
    ensures (Bleeding in cats || Fall in cats || Breathing in cats) <==> exists c :: hit(c) && IsUrgentCategory(c)
  {
    if exists c :: hit(c) && IsUrgentCategory(c) {
      var c :| hit(c) && IsUrgentCategory(c);
      assert c in cats;
    }
    if Bleeding in cats {
      assert hit(Bleeding) && IsUrgentCategory(Bleeding);
    } else if Fall in cats {
      assert hit(Fall) && IsUrgentCategory(Fall);
    } else if Breathing in cats {
      assert hit(Breathing) && IsUrgentCategory(Breathing);
    }
  }

  /** The keyword verdict on the lower-cased text `t`: nothing when no
      keyword occurs; otherwise a medical verdict naming the hit categories,
      urgent when one of them is bleeding, a fall or breathing, moderate
      otherwise. */
  function KeywordVerdict(t: string): (r: Option<TriageResult>)
    ensures r.None? <==> forall c :: !Hit(t, c)
    ensures r.Some? ==>
              && r.value.isMedical
              && r.value.reasons == Some("Matched medical keywords")
              && r.value.categories == Names(KeywordCategories(t))
              && (r.value.severity == "urgent" <==> exists c :: Hit(t, c) && IsUrgentCategory(c))
              && (r.value.severity == "urgent" || r.value.severity == "moderate")
  {
    var cats := KeywordCategories(t);
    NoCategoryIffNoHit(t);
    UrgentIffUrgentHit(cats, c => Hit(t, c));
    if |cats| == 0 then None
    else
      var urgent := Bleeding in cats || Fall in cats || Breathing in cats;
      Some(TriageResult(true, if urgent then "urgent" else "moderate", Names(cats), Some("Matched medical keywords")))
  }

  /** `keywordTriage(text)`: the verdict on the lower-cased text. */
  function KeywordTriage(text: string): (r: Option<TriageResult>)
  {
    KeywordVerdict(Lower(text))
  }

  /** The keyword pass sees case-folded text: folding first changes nothing. */
  lemma KeywordTriageIgnoresCase(text: string)
    ensures KeywordTriage(Lower(text)) == KeywordTriage(text)
  {
    LowerIdempotent(text);
  }

  /** The model's reply after `JSON.parse`: text that does not parse, or an
      object whose fields are what the normalisation reads (`isMedical` by
      truthiness, `categories` only when it is an array). */
  datatype LlmReply =
    | Unparsable
    | Parsed(isMedicalTruthy: bool, severity: Option<string>, categories: Option<seq<string>>, reasons: Option<string>)

  /** `llmTriage`'s normalisation of the reply. */
  function LlmTriage(reply: LlmReply): (r: TriageResult)
    ensures reply.Unparsable? ==> r == TriageResult(false, "low", [], Some("parse_error"))
    ensures reply.Parsed? ==>
              && r.isMedical == reply.isMedicalTruthy
              && (reply.severity.None? ==> r.severity == "low")
              && (reply.severity.Some? ==> r.severity == reply.severity.value)
              && (reply.categories.None? ==> r.categories == [])
              && (reply.categories.Some? ==> r.categories == reply.categories.value)
              && (reply.reasons.None? ==> r.reasons == Some("LLM assessment"))
              && (reply.reasons.Some? ==> r.reasons == reply.reasons)
  {
    match reply
    case Unparsable => TriageResult(false, "low", [], Some("parse_error"))
    case Parsed(m, sev, cats, why) =>
      TriageResult(m, sev.GetOr("low"), cats.GetOr([]), Some(why.GetOr("LLM assessment")))
  }

  /** The verdict and whether the model was asked. */
  datatype Triaged = Triaged(result: TriageResult, askedModel: bool)

  /** `triageMedical`: the keyword verdict when there is one, else the model's. */
  function TriageMedical(userText: string, reply: LlmReply): (r: Triaged)
    ensures r.askedModel <==> KeywordTriage(userText).None?
    ensures !r.askedModel ==> r.result == KeywordTriage(userText).value
    ensures r.askedModel ==> r.result == LlmTriage(reply)
  {
    var kw := KeywordTriage(userText);
    if kw.Some? then Triaged(kw.value, false) else Triaged(LlmTriage(reply), true)
  }

  /** A keyword hit makes the message medical whatever the model would say,
      and its severity is never "low". */
  lemma KeywordHitIsMedical(userText: string, reply: LlmReply, c: Category)
    requires Hit(Lower(userText), c)
    ensures TriageMedical(userText, reply).result.isMedical
    ensures TriageMedical(userText, reply).result.severity != "low"
    ensures !TriageMedical(userText, reply).askedModel
  {
  }
}

=== FILE: upload_forms.dfy ===
/** The two photo-upload forms, `components/caregiver/page.tsx` and
    `app/memorybook/add/page.tsx`: the rows of people a memory is tagged
    with, and how each form turns its state into the multipart form the
    upload handler reads. */
module UploadForms {
  import opened Wrappers
  import opened Strings
  import opened Seqs
  import opened MemoryTypes
  import MemoryUpload
  import MemoryMatch

  datatype Mode = PersonMode | MemoryMode

  /** One row of people fields. `contactNumber` is `None` on the add page,
      whose rows have no such field. */
  datatype Row = Row(name: string, relation: string, contactNumber: Option<string>)

  datatype Field = NameField | RelationField | ContactField

  /** The client state both forms keep. */
  datatype FormState = FormState(
    mode: Mode,
    personName: string,
    personRelation: string,
    event: string,
    eventDate: string,
    place: string,
    numPeople: nat,
    rows: seq<Row>)

  /** The blank row each form adds. */
  const CaregiverBlank := Row("", "", Some(""))
  const AddPageBlank := Row("", "", None)

  /** `Array.from({ length: n }, (_, i) => prev[i] || blank)`: the rows below
      `n` are kept, new slots are blank. */
  function Resize(prev: seq<Row>, n: nat, blank: Row): (r: seq<Row>)
    ensures |r| == n
    ensures forall i :: 0 <= i < n && i < |prev| ==> r[i] == prev[i]
    ensures forall i :: |prev| <= i < n ==> r[i] == blank
  {
    seq(n, i requires 0 <= i < n => if i < |prev| then prev[i] else blank)
  }

  /** Asking for the current count changes nothing. */
  lemma ResizeSameLength(prev: seq<Row>, blank: Row)
    ensures Resize(prev, |prev|, blank) == prev
  {
  }

  /** Shrinking after any resize is shrinking straight away: rows dropped
      by a smaller count are lost only when the count goes below them. */
  lemma ResizeTwice(prev: seq<Row>, n: nat, m: nat, blank: Row)
    requires m <= n
    ensures Resize(Resize(prev, n, blank), m, blank) == Resize(prev, m, blank)
  {
  }

  /** The caregiver form's count: `Math.max(0, Math.floor(val))`. */
  function CaregiverCount(val: real): (n: nat)
    ensures val >= 0.0 ==> n as real <= val < n as real + 1.0
    ensures val < 1.0 ==> n == 0
  {
    if val.Floor < 0 then 0 else val.Floor
  }

  /** The add page's count: `Math.max(0, parseInt(v, 10) || 0)`; `parsed`
      is `None` when the text does not start with a number. */
  function AddPageCount(parsed: Option<int>): (n: nat)
    ensures parsed.Some? && parsed.value > 0 ==> n == parsed.value
    ensures parsed.None? || parsed.value <= 0 ==> n == 0
  {
    if parsed.Some? && parsed.value > 0 then parsed.value else 0
  }

  /** `handleNumPeopleChange` on either form, given its count. */
  function SetCount(s: FormState, n: nat, blank: Row): (t: FormState)
    ensures t.numPeople == n && |t.rows| == n
    ensures t == s.(numPeople := n, rows := Resize(s.rows, n, blank))
  {
    s.(numPeople := n, rows := Resize(s.rows, n, blank))
  }

  /** `{ ...p, [field]: value }`. */
  function SetField(p: Row, field: Field, value: string): (q: Row)
    ensures field == NameField ==> q == p.(name := value)
    ensures field == RelationField ==> q == p.(relation := value)
    ensures field == ContactField ==> q == p.(contactNumber := Some(value))
  {
    match field
    case NameField => p.(name := value)
    case RelationField => p.(relation := value)
    case ContactField => p.(contactNumber := Some(value))
  }

  /** `handlePersonChange`: one field of the row at `idx`, no other row.
      An index out of range changes nothing. */
  function SetRowField(rows: seq<Row>, idx: int, field: Field, value: string): (r: seq<Row>)
    ensures |r| == |rows|
    ensures forall i :: 0 <= i < |rows| && i != idx ==> r[i] == rows[i]
    ensures 0 <= idx < |rows| ==> r[idx] == SetField(rows[idx], field, value)
  {
    seq(|rows|, i requires 0 <= i < |rows| => if i == idx then SetField(rows[i], field, value) else rows[i])
  }

  /** The last edit of a field wins. */
  lemma LastEditWins(rows: seq<Row>, idx: int, field: Field, v: string, w: string)
    ensures SetRowField(SetRowField(rows, idx, field, v), idx, field, w) == SetRowField(rows, idx, field, w)
  {
  }

  /** Edits of different rows do not interfere. */
  lemma EditsOfDifferentRowsCommute(rows: seq<Row>, i: int, j: int, f: Field, g: Field, v: string, w: string)
    requires i != j
    ensures SetRowField(SetRowField(rows, i, f, v), j, g, w) == SetRowField(SetRowField(rows, j, g, w), i, f, v)
  {
  }

  predicate HasName(p: Row)
  {
    !IsBlank(p.name)
  }

  /** `peopleFields.filter(p => p.name.trim() !== "")`, as the JSON the
      handler parses: a row is a tag with its relation (and contact number,
      when the form has one). */
  function NamedTags(rows: seq<Row>): (tags: seq<PersonTag>)
    ensures |tags| <= |rows|
    ensures forall t :: t in tags <==> exists p :: p in rows && HasName(p) && t == TagOf(p)
  {
    var named := Filter(rows, HasName);
    forall t ensures t in Tags(named) <==> exists p :: p in rows && HasName(p) && t == TagOf(p) {
      if t in Tags(named) {
        var k :| 0 <= k < |named| && Tags(named)[k] == t;
        assert named[k] in named;
      }
      if exists p :: p in rows && HasName(p) && t == TagOf(p) {
        var p :| p in rows && HasName(p) && t == TagOf(p);
        var k :| 0 <= k < |named| && named[k] == p;
        assert Tags(named)[k] == t;
      }
    }
    Tags(named)
  }

  /** The tags keep the rows' order: over two runs of rows they are the
      tags of each, in order. */
  lemma NamedTagsKeepOrder(a: seq<Row>, b: seq<Row>)
    ensures NamedTags(a + b) == NamedTags(a) + NamedTags(b)
  {
    FilterConcat(a, b, HasName);
    TagsSplit(Filter(a, HasName), Filter(b, HasName));
  }

  /** One row gives its tag exactly when it has a name. */
  lemma NamedTagsOne(r: Row)
    ensures NamedTags([r]) == if HasName(r) then [TagOf(r)] else []
  {
    FilterOne(r, HasName);
  }

  lemma TagsSplit(a: seq<Row>, b: seq<Row>)
    ensures Tags(a + b) == Tags(a) + Tags(b)
  {
  }

  function TagOf(p: Row): PersonTag
  {
    PersonTag(p.name, Some(p.relation), p.contactNumber)
  }

  function Tags(rows: seq<Row>): (tags: seq<PersonTag>)
    ensures |tags| == |rows| && forall i :: 0 <= i < |rows| ==> tags[i] == TagOf(rows[i])
  {
    seq(|rows|, i requires 0 <= i < |rows| => TagOf(rows[i]))
  }

  /** What both forms send for the person they describe in person mode. */
  function PersonTagOf(s: FormState): PersonTag
  {
    PersonTag(s.personName, Some(s.personRelation), None)
  }

  /** The caregiver form's submission: in memory mode the named rows, and no
      people field when none has a name. The person inputs carry no `name`
      attribute, so the form never holds `personName`/`personRelation`. */
  function CaregiverSubmission(s: FormState, fileType: Option<string>): (f: MemoryUpload.UploadForm)
    ensures f.patientId == Some("patient123") && f.fileType == fileType
    ensures f.personName.None? && f.personRelation.None?
    ensures s.mode == PersonMode ==>
              && f.kind == Some("person")
              && f.people == MemoryUpload.PeopleList([PersonTagOf(s)])
              && f.event.None? && f.eventDate.None? && f.place.None?
    ensures s.mode == MemoryMode ==>
              && f.kind == Some("memory")
              && f.event == Some(s.event) && f.eventDate == Some(s.eventDate) && f.place == Some(s.place)
              && (f.people.PeopleList? <==> exists p :: p in s.rows && HasName(p))
              && (f.people.PeopleList? ==> f.people.tags == NamedTags(s.rows))
              && !f.people.Malformed?
  {
    if s.mode == PersonMode then
      MemoryUpload.UploadForm(Some("patient123"), fileType, None, None, None,
        MemoryUpload.PeopleList([PersonTagOf(s)]), Some("person"), None, None)
    else
      var tags := NamedTags(s.rows);
      assert |tags| > 0 <==> exists p :: p in s.rows && HasName(p) by {
        if |tags| > 0 {
          assert tags[0] in tags;
        }
      }
      var people := if |s.rows| > 0 && |tags| > 0 then MemoryUpload.PeopleList(tags) else MemoryUpload.NoPeople;
      MemoryUpload.UploadForm(Some("patient123"), fileType, Some(s.event), Some(s.eventDate), Some(s.place),
        people, Some("memory"), None, None)
  }

  /** The add page's submission: in memory mode with any rows, the named
      rows even when none has a name (an empty list); with no rows, no
      people field. */
  function AddPageSubmission(s: FormState, fileType: Option<string>): (f: MemoryUpload.UploadForm)
    ensures f.patientId == Some("patient123") && f.fileType == fileType
    ensures f.personName.None? && f.personRelation.None?
    ensures s.mode == PersonMode ==>
              && f.kind == Some("person")
              && f.people == MemoryUpload.PeopleList([PersonTagOf(s)])
              && f.event.None? && f.eventDate.None? && f.place.None?
    ensures s.mode == MemoryMode ==>
              && f.kind == Some("memory")
              && f.event == Some(s.event) && f.eventDate == Some(s.eventDate) && f.place == Some(s.place)
              && (f.people.PeopleList? <==> |s.rows| > 0)
              && (f.people.PeopleList? ==> f.people.tags == NamedTags(s.rows))
  {
    if s.mode == PersonMode then
      MemoryUpload.UploadForm(Some("patient123"), fileType, None, None, None,
        MemoryUpload.PeopleList([PersonTagOf(s)]), Some("person"), None, None)
    else
      var people := if |s.rows| > 0 then MemoryUpload.PeopleList(NamedTags(s.rows)) else MemoryUpload.NoPeople;
      MemoryUpload.UploadForm(Some("patient123"), fileType, Some(s.event), Some(s.eventDate), Some(s.place),
        people, Some("memory"), None, None)
  }

  /** The forms differ on rows without a name, but the handler reads an
      empty list as no people: both store the same tags. */
  lemma FormsStoreSamePeople(s: FormState, fileType: Option<string>)
    ensures MemoryUpload.PeopleOf(CaregiverSubmission(s, fileType).people) == MemoryUpload.PeopleOf(AddPageSubmission(s, fileType).people)
  {
    if s.mode == MemoryMode {
      var c, a := CaregiverSubmission(s, fileType).people, AddPageSubmission(s, fileType).people;
      var tags := NamedTags(s.rows);
      if exists p :: p in s.rows && HasName(p) {
        assert c == a == MemoryUpload.PeopleList(tags);
      } else if |s.rows| > 0 {
        assert |tags| == 0;
        assert c.NoPeople? && a == MemoryUpload.PeopleList([]);
      }
    }
  }

  /** A person uploaded from either form is stored with an empty `name` and
      `relation` (the form never sends them), but its first tag carries the
      name, and that is the name the photo matcher announces. */
  lemma PersonNamedThroughTag(s: FormState, mime: string, env: MemoryUpload.UploadEnv, db: MemoryDB)
    requires s.mode == PersonMode && s.personName != ""
    requires MemoryUpload.Upload(CaregiverSubmission(s, Some(mime)), env, db).0.Uploaded?
    ensures var item := MemoryUpload.Upload(CaregiverSubmission(s, Some(mime)), env, db).0.item;
            && item.kind == Some(PersonKind)
            && item.name == Some("") && item.relation == Some("")
            && MemoryMatch.PersonName(item) == s.personName
  {
  }

  /** What a submission leaves behind: on success every field is cleared
      and the mode is kept; on failure nothing changes. */
  function AfterUpload(s: FormState, ok: bool): (t: FormState)
    ensures !ok ==> t == s
    ensures ok ==> t.mode == s.mode && t.numPeople == 0 && t.rows == []
    ensures ok ==> t.personName == "" && t.personRelation == "" && t.event == "" && t.eventDate == "" && t.place == ""
  {
    if ok then FormState(s.mode, "", "", "", "", "", 0, []) else s
  }

  /** After a successful upload a memory-mode form sends no people. */
  lemma ClearedFormSendsNoPeople(s: FormState, fileType: Option<string>)
    requires s.mode == MemoryMode
    ensures CaregiverSubmission(AfterUpload(s, true), fileType).people.NoPeople?
    ensures AddPageSubmission(AfterUpload(s, true), fileType).people.NoPeople?
  {
  }
}

=== FILE: voice_list.dfy ===
/** The voice-note list endpoint and the memory card widget that shows the
    newest voice note of a memory. */
module VoiceList {
  import opened Wrappers
  import opened Strings
  import opened Seqs
  import opened JsRecord
  import opened Notify
  import opened FsJson

  datatype ListResponse = ListError(status: int, error: string) | Notes(notes: seq<VoiceNote>)

  /** GET of the list endpoint. `memoryId` is the query parameter, `""` when
      it is absent (both are falsy and answered alike). */
  function ListRoute(memoryId: string, file: Option<VoiceDB>): (r: ListResponse)
    ensures r.ListError? <==> memoryId == ""
    ensures r.ListError? ==> r.status == 400
    ensures r.Notes? ==>
              && (forall v :: multiset(r.notes)[v] ==
                    if v.memoryId == memoryId then multiset(Values(ReadJson(file, [])))[v] else 0)
              && (forall i, j :: 0 <= i < j < |r.notes| ==> r.notes[i].createdAt >= r.notes[j].createdAt)
  {
    if memoryId == "" then ListError(400, "memoryId required")
    else Notes(ListVoiceNotesByMemory(ReadJson(file, []), memoryId))
  }

  /** What the widget's request yields: a thrown fetch, or a JSON body whose
      `notes` field is an array or is missing. */
  datatype Fetched = FetchThrew | Body(notes: Option<seq<VoiceNote>>)

  /** The JSON body of a list response as the widget reads it. */
  function BodyOf(r: ListResponse): (f: Fetched)
    ensures f.Body?
    ensures f.notes.Some? <==> r.Notes?
  {
    match r
    case ListError(_, _) => Body(None)
    case Notes(ns) => Body(Some(ns))
  }

  /** The widget's choice: among the fetched notes of this memory, one with
      the latest creation instant; nothing when there is none or the
      request failed. */
  function LatestFor(f: Fetched, memoryId: string): (n: Option<VoiceNote>)
    ensures n.Some? <==> f.Body? && f.notes.Some? && exists v :: v in f.notes.value && v.memoryId == memoryId
    ensures n.Some? ==> n.value in f.notes.value && n.value.memoryId == memoryId
    ensures n.Some? ==> forall v :: v in f.notes.value && v.memoryId == memoryId ==> v.createdAt <= n.value.createdAt
  {
    match f
    case FetchThrew => None
    case Body(notes) =>
      var all := notes.GetOr([]);
      var mine := Filter(all, v => OfMemory(memoryId, v));
      var sorted := NewestFirst(mine);
      if |sorted| == 0 then
        assert forall v :: v in all && v.memoryId == memoryId ==> v in mine;
        None
      else
        assert sorted[0] in multiset(mine);
        assert forall v :: v in mine ==> v in multiset(sorted);
        Some(sorted[0])
  }

  /** The widget's request carries no `memoryId`, so the endpoint answers
      400 and the widget never shows a note, whatever is stored. */
  lemma WidgetAsWiredShowsNothing(file: Option<VoiceDB>, memoryId: string)
    ensures LatestFor(BodyOf(ListRoute("", file)), memoryId) == None
  {
  }

  /** Had the widget passed its memory id, it would show the newest stored
      note of that memory whenever one exists. */
  lemma WidgetWithIdShowsNewest(file: Option<VoiceDB>, memoryId: string, v: VoiceNote)
    requires memoryId != ""
    requires v in Values(ReadJson(file, [])) && v.memoryId == memoryId
    ensures var n := LatestFor(BodyOf(ListRoute(memoryId, file)), memoryId);
            n.Some? && n.value in Values(ReadJson(file, [])) && v.createdAt <= n.value.createdAt
  {
    var ns := ListRoute(memoryId, file).notes;
    assert multiset(ns)[v] > 0;
    var n := LatestFor(BodyOf(ListRoute(memoryId, file)), memoryId).value;
    assert multiset(ns)[n] > 0;
  }

  /** The caption above the player: "from <name>" only when a name is known. */
  function VoiceLabel(personName: string): (caption: string)
    ensures StartsWith(caption, "Voice note ") && EndsWith(caption, ":")
    ensures personName == "" ==> caption == "Voice note :"
    ensures personName != "" ==> |caption| == |personName| + 17 && caption[16..|caption| - 1] == personName
  {
    var text := "Voice note " + (if personName == "" then "" else "from " + personName) + ":";
    assert text[..|"Voice note "|] == "Voice note ";
    assert personName != "" ==> text[16..|text| - 1] == personName;
    text
  }
}

=== FILE: voice_upload.dfy ===
/** The two voice-note upload handlers. Both validate the form, check the
    token, save the audio, optionally transcribe it, store the note and only
    then mark the token used. Storage can fail at each write; the failure
    point is a parameter so that the effect of every ordering can be stated. */
module VoiceUpload {
  import opened Wrappers
  import opened Strings
  import opened JsRecord
  import opened Notify

  /** The `audio` form field when it is a file: its MIME type (`""` when the
      browser gave none) and its file name (`""` when absent). */
  datatype AudioFile = AudioFile(mime: string, name: string)

  /** Where the handler's writes can throw. */
  datatype Fault = NoFault | SaveAudioFails | StoreNoteFails | ConsumeFails

  /** The speech-to-text step: whether it is attempted at all (the API key is
      configured), and what the service answered (`None` when the call threw). */
  datatype Transcriber = Transcriber(configured: bool, reply: Option<string>)

  /** The two stores a handler reads and writes. */
  datatype Stores = Stores(tokens: TokenDB, voice: VoiceDB)

  datatype UploadResponse = UploadResponse(
    status: int,
    error: Option<string>,
    audioPath: Option<string>,
    transcript: Option<string>)

  datatype Outcome = Outcome(response: UploadResponse, stores: Stores)

  const BadRequestMessage := "token and audio required"
  const ForbiddenMessage := "invalid or expired link"

  predicate EndsWithAny(s: string)
  {
    EndsWith(s, ".m4a") || EndsWith(s, ".mp4") || EndsWith(s, ".ogg") || EndsWith(s, ".webm")
  }

  /** The four recognised extensions end in different characters, so a
      name ends with at most one of them. */
  lemma SuffixesExclusive(n: string)
    ensures EndsWith(n, ".webm") ==> !EndsWith(n, ".m4a") && !EndsWith(n, ".mp4") && !EndsWith(n, ".ogg")
    ensures EndsWith(n, ".ogg") ==> !EndsWith(n, ".m4a") && !EndsWith(n, ".mp4")
    ensures EndsWith(n, ".mp4") ==> !EndsWith(n, ".m4a")
  {
    if |n| > 0 {
      var last := n[|n| - 1];
      assert EndsWith(n, ".webm") ==> last == n[|n| - 4..][3] == 'm';
      assert EndsWith(n, ".ogg") ==> last == n[|n| - 4..][3] == 'g';
      assert EndsWith(n, ".mp4") ==> last == n[|n| - 4..][3] == '4';
      assert EndsWith(n, ".m4a") ==> last == n[|n| - 4..][3] == 'a';
    }
  }

  /** `pickExt` of the main handler: the file name's extension wins, then
      the MIME type, then "webm". Both are compared lower-cased. */
  function PickExt(mime: string, name: string): (ext: string)
    ensures ext in ["m4a", "mp4", "ogg", "webm", "mp3"]
    ensures EndsWith(Lower(name), ".m4a") ==> ext == "m4a"
    ensures EndsWith(Lower(name), ".mp4") ==> ext == "mp4"
    ensures EndsWith(Lower(name), ".ogg") ==> ext == "ogg"
    ensures EndsWith(Lower(name), ".webm") ==> ext == "webm"
    ensures ext == "mp3" <==> !EndsWithAny(Lower(name)) && !Contains(Lower(mime), "audio/mp4") && Contains(Lower(mime), "audio/mpeg")
  {
    var n := Lower(name);
    SuffixesExclusive(n);
    if EndsWith(n, ".m4a") then "m4a"
    else if EndsWith(n, ".mp4") then "mp4"
    else if EndsWith(n, ".ogg") then "ogg"
    else if EndsWith(n, ".webm") then "webm"
    else
      var m := Lower(mime);
      if Contains(m, "audio/mp4") then "m4a"
      else if Contains(m, "audio/mpeg") then "mp3"
      else if Contains(m, "audio/ogg") then "ogg"
      else "webm"
  }

  /** A recognised file-name extension decides alone: the MIME type is ignored. */
  lemma NameBeatsMime(mime1: string, mime2: string, name: string)
    requires EndsWithAny(Lower(name))
    ensures PickExt(mime1, name) == PickExt(mime2, name)
  {
  }

  /** The legacy handler's choice: "mp4" iff the MIME type mentions mp4,
      case-sensitively; the file name plays no part. */
  function LegacyExt(mime: string): (ext: string)
    ensures ext == "mp4" || ext == "webm"
    ensures ext == "mp4" <==> Contains(mime, "mp4")
  {
    if Contains(mime, "mp4") then "mp4" else "webm"
  }

  /** `saveUploadedAudio`'s returned public path. */
  function AudioPathFor(fileName: string): (p: string)
    ensures StartsWith(p, "/voice-notes/") && EndsWith(p, fileName)
  {
    assert ("/voice-notes/" + fileName)[..|"/voice-notes/"|] == "/voice-notes/";
    assert ("/voice-notes/" + fileName)[|"/voice-notes/"|..] == fileName;
    "/voice-notes/" + fileName
  }

  /** `text || undefined`: an empty answer or a failed call stores no transcript. */
  function TranscriptOf(reply: Option<string>): (t: Option<string>)
    ensures t.Some? <==> reply.Some? && reply.value != ""
    ensures t.Some? ==> t == reply
  {
    match reply
    case None => None
    case Some(text) => if text == "" then None else Some(text)
  }

  function Reject(status: int, message: string, st: Stores): Outcome
  {
    Outcome(UploadResponse(status, Some(message), None, None), st)
  }

  /** The shared tail of both handlers once the token has been accepted:
      save the audio, store the note, then consume the token. A write that
      throws leaves the later steps undone and answers 500 (the thrown
      message is not modelled). */
  function Capture(st: Stores, token: string, rec: TokenRecord, id: string, ext: string,
                   transcript: Option<string>, now: int, fault: Fault): (o: Outcome)
    requires token in st.tokens && st.tokens[token] == rec && !rec.used
    ensures o.response.status == 200 || o.response.status == 500
    ensures o.response.status == 200 <==> fault == NoFault
    // The note is written before the token is spent: a used token always has its note.
    ensures token in o.stores.tokens
    ensures o.stores.tokens[token].used ==> o.stores.voice == StoreVoiceNote(st.voice, NoteFor(rec, id, ext, transcript, now))
    ensures fault in {SaveAudioFails, StoreNoteFails} ==> o.stores == st
    ensures fault == ConsumeFails ==> o.stores.tokens == st.tokens && Get(o.stores.voice, id).Some?
    ensures fault == NoFault ==>
              && o.stores.tokens == ConsumeToken(st.tokens, token).db
              && Get(o.stores.voice, id) == Some(NoteFor(rec, id, ext, transcript, now))
              && o.response.audioPath == Some(AudioPathFor(id + "." + ext))
              && o.response.transcript == transcript
  {
    var note := NoteFor(rec, id, ext, transcript, now);
    match fault
    case SaveAudioFails => Reject(500, "upload failed", st)
    case StoreNoteFails => Reject(500, "upload failed", st)
    case ConsumeFails => Reject(500, "upload failed", Stores(st.tokens, StoreVoiceNote(st.voice, note)))
    case NoFault =>
      var voice' := StoreVoiceNote(st.voice, note);
      var tokens' := ConsumeToken(st.tokens, token).db;
      Outcome(UploadResponse(200, None, Some(note.audioPath), transcript), Stores(tokens', voice'))
  }

  /** The note a capture stores: identity and contact copied from the token. */
  function NoteFor(rec: TokenRecord, id: string, ext: string, transcript: Option<string>, now: int): (v: VoiceNote)
    ensures v.id == id && v.memoryId == rec.memoryId && v.patientId == rec.patientId
    ensures v.personName == rec.personName && v.phone == rec.phone
    ensures v.transcript == transcript && v.createdAt == now
    ensures StartsWith(v.audioPath, "/voice-notes/" + id)
  {
    var p := AudioPathFor(id + "." + ext);
    assert p[..|"/voice-notes/" + id|] == "/voice-notes/" + id;
    VoiceNote(id, rec.memoryId, rec.patientId, rec.personName, rec.phone, p, transcript, now)
  }

  /** The main upload handler. `uuid` is the random identifier with its
      dashes removed; `now` is the clock, used both for the expiry check and
      as the note's creation instant. */
  function Upload(st: Stores, token: string, audio: Option<AudioFile>, uuid: string, now: int,
                  stt: Transcriber, fault: Fault): (o: Outcome)
    ensures o.response.status in {200, 400, 403, 500}
    ensures o.response.status == 400 <==> token == "" || audio.None?
    ensures o.response.status == 403 <==>
              token != "" && audio.Some? && !IsTokenValid(GetToken(st.tokens, token), now)
    ensures o.response.status == 403 ==> o.response.error == Some(ForbiddenMessage)
    ensures o.response.status in {400, 403} ==> o.stores == st
    ensures o.response.status == 200 ==>
              && token in st.tokens
              && o.stores.tokens == ConsumeToken(st.tokens, token).db
              && Get(o.stores.voice, "vnote_" + uuid).Some?
              && var v := Get(o.stores.voice, "vnote_" + uuid).value;
                 && v.memoryId == st.tokens[token].memoryId
                 && v.createdAt == now
                 && v.transcript == (if stt.configured then TranscriptOf(stt.reply) else None)
    ensures forall k :: k != "vnote_" + uuid ==> Get(o.stores.voice, k) == Get(st.voice, k)
  {
    if token == "" || audio.None? then Reject(400, BadRequestMessage, st)
    else if !IsTokenValid(GetToken(st.tokens, token), now) then Reject(403, ForbiddenMessage, st)
    else
      var rec := st.tokens[token];
      var id := "vnote_" + uuid;
      var ext := PickExt(audio.value.mime, audio.value.name);
      var transcript := if stt.configured then TranscriptOf(stt.reply) else None;
      Capture(st, token, rec, id, ext, transcript, now, fault)
  }

  /** The legacy upload handler: the same flow, a cruder extension choice,
      and transcription always attempted. */
  function LegacyUpload(st: Stores, token: string, audio: Option<AudioFile>, uuid: string, now: int,
                        reply: Option<string>, fault: Fault): (o: Outcome)
    ensures o.response.status in {200, 400, 403, 500}
    ensures o.response.status == 400 <==> token == "" || audio.None?
    ensures o.response.status == 403 <==>
              token != "" && audio.Some? && !IsTokenValid(GetToken(st.tokens, token), now)
    ensures o.response.status in {400, 403} ==> o.stores == st
    ensures o.response.status == 200 ==>
              && token in st.tokens
              && o.stores.tokens == ConsumeToken(st.tokens, token).db
              && Get(o.stores.voice, "vnote_" + uuid).Some?
              && Get(o.stores.voice, "vnote_" + uuid).value.transcript == TranscriptOf(reply)
    ensures forall k :: k != "vnote_" + uuid ==> Get(o.stores.voice, k) == Get(st.voice, k)
  {
    if token == "" || audio.None? then Reject(400, BadRequestMessage, st)
    else if !IsTokenValid(GetToken(st.tokens, token), now) then Reject(403, ForbiddenMessage, st)
    else
      var rec := st.tokens[token];
      var id := "vnote_" + uuid;
      Capture(st, token, rec, id, LegacyExt(audio.value.mime), TranscriptOf(reply), now, fault)
  }

  /** A token buys one note: after a successful upload, every further upload
      with the same token, at any instant and with any file, is refused. */
  lemma SecondUploadForbidden(st: Stores, token: string, audio: Option<AudioFile>, uuid: string, now: int,
                              stt: Transcriber, audio2: AudioFile, uuid2: string, now2: int,
                              stt2: Transcriber, fault2: Fault)
    requires Upload(st, token, audio, uuid, now, stt, NoFault).response.status == 200
    ensures var st' := Upload(st, token, audio, uuid, now, stt, NoFault).stores;
            var o2 := Upload(st', token, Some(audio2), uuid2, now2, stt2, fault2);
            o2.response.status == 403 && o2.stores == st'
  {
    var st' := Upload(st, token, audio, uuid, now, stt, NoFault).stores;
    assert st'.tokens[token].used;
    UsedNeverValid(st'.tokens, token, now2);
  }

  /** A failed capture never burns the token: unless the handler answered
      200 or the final consume write failed, the token store is untouched. */
  lemma FailureKeepsToken(st: Stores, token: string, audio: Option<AudioFile>, uuid: string, now: int,
                          stt: Transcriber, fault: Fault)
    ensures var o := Upload(st, token, audio, uuid, now, stt, fault);
            o.response.status != 200 ==> o.stores.tokens == st.tokens
  {
  }

  /** Every upload keeps used tokens used. */
  lemma UploadKeepsUsed(st: Stores, token: string, audio: Option<AudioFile>, uuid: string, now: int,
                        stt: Transcriber, fault: Fault)
    ensures UsedStaysUsed(st.tokens, Upload(st, token, audio, uuid, now, stt, fault).stores.tokens)
  {
  }
}

=== FILE: wrappers.dfy ===
/** The optional-value datatype shared by every module: `None` stands for a
    JavaScript `undefined` / `null` / absent field. */
module Wrappers {

  datatype Option<+T> = None | Some(value: T) {

    /** The wrapped value, or `default` when absent (JavaScript `x ?? default`). */
    function GetOr(default: T): T
    {
      match this
      case Some(v) => v
      case None => default
    }
  }
}
